=== FILE: README.md ===
# ContentCurator backend, modelled in Dafny

This project models the Python backend of ContentCurator, a service that
gathers articles from the web, RSS feeds and YouTube, has a language model
summarise and categorise them, links similar articles, and reports progress
on background jobs to websocket subscribers. What is modelled is the
bookkeeping around the external calls:

- the job record and its store, the job tracker, and the research run with
  its progress checkpoints;
- the websocket connection registry and the live-update endpoints;
- the ingestion loops (topic search, RSS, one YouTube video, YouTube search,
  two-branch research) with their counters and URL deduplication;
- the text handling around the language model (key points, categories,
  prompt excerpts, defaults);
- embeddings and similarity links;
- the relational endpoints: categories, saved articles, accounts and
  followed topics, digests, article listing and search;
- trend analysis, and the request constraints of the schemas.

Every external service is a parameter. This covers the language model, web
search, page fetches, feeds, transcripts, the YouTube Data API, the mail
service, password hashing and tokens, numpy's cosine similarity and the
clock. A raised exception or an HTTP error is a `Result` value. Tables are
sequences of immutable rows, and association tables are sets of id pairs.
Timestamps are integers (seconds), and arithmetic on scores is exact `real`.

Each module sits in its own file, named after the source component it
models. `wrappers.dfy`, `text.dfy`, `sorting.dfy`, `pagination.dfy` and
`records.dfy` hold the shared pieces.

The code behaves as follows, and the model follows it:

- Nothing guards the job status order. Any status may be written after
  any other (`Jobs.AnyStatusMayFollowAny`). The pending, running, then
  completed or failed order holds only for the trace of a research run
  (`ResearchJob.RunFollowsStatusOrder`).
- A failed personal send removes the socket from the global set only. Its
  job subscriptions stay behind.
- A disconnect without a job id leaves emptied job entries in the map.
- One socket can be subscribed to two jobs, which the registry's
  bookkeeping does not expect.
- The two research branches run one after the other here, web first. Each
  branch's failure is independent, as in the code.
- Sending a digest raises for a user who wants e-mail, has an address
  and has an empty full name (see "## Findings"). Its callers are
  modelled with that raise: generate-and-send has already stored the
  digest when it raises, the batch counts the raise as an error and keeps
  the digest, and the resend endpoint answers an unhandled 500. The
  corrected send, `Digests.SendDigest`, is kept beside them.

## Model

| member | source | states |
|---|---|---|
| Records.NextKey | backend/app/models.py:41 | a fresh autoincrement id is larger than every id already in the table, so it collides with none |
| Records.DeleteArticle | backend/app/models.py:9-57 | after deleting an article no summary, embedding, connection (either end), category link or saved-by row mentions it; every row not about it survives; categories, users, digests and followed topics are untouched |
| Records.DeleteArticleKeepsUnique | backend/app/models.py:41-79 | deleting an article keeps every declared key and unique column (article id and url, category id and name, one summary and one embedding per article, user id and e-mail, digest id) distinct |
| Records.NewUser | backend/app/models.py:118-130 | a new user has the given id, e-mail, password hash and name, is active, not a superuser, with weekly digests and e-mail notifications on |
| Records.FindArticleUnique | backend/app/models.py:41 | with distinct article ids, looking an id up finds exactly the row that carries it |
| Records.DistinctKeysCount | backend/app/models.py:41 | a table whose key is distinct has as many distinct keys as rows |
| Records.WhereKeepsDistinct | backend/app/models.py:41 | selecting rows from a table keeps its key distinct |
| Records.Where | backend/app/models.py:9-150 | a filtered query returns exactly the rows that satisfy the condition, each a stored row |
| Records.WhereSubMultiset | backend/app/models.py:9-150 | a filtered query never returns a row more often than the table holds it |
| Records.WhereCount | backend/app/models.py:9-150 | a filtered query returns every accepted row exactly as often as the table holds it, and no other row |
| Records.WhereAppend | backend/app/models.py:9-150 | filtering goes row by row: the filter of two row lists one after the other is the filter of the first followed by that of the second |
| Records.WhereCons | backend/app/models.py:9-150 | the filter of a non-empty list is its first row, when accepted, followed by the filter of the rest |
| Records.WhereSnoc | backend/app/models.py:9-150 | the filter of a non-empty list is the filter of all rows but the last, followed by the last row when accepted |
| Records.FindArticle | backend/app/routers/articles.py:180 | the lookup returns a stored article with the id, and finds none exactly when no article has it |
| Records.FindCategory | backend/app/routers/categories.py:201 | the lookup returns a stored category with the id, and finds none exactly when no category has it |
| Records.FindUser | backend/app/models.py:118-135 | the lookup returns a stored user with the id, and finds none exactly when no user has it |
| Sorting.SortDesc | backend/app/routers/digests.py:44 | `ORDER BY … DESC`: the result is in non-increasing key order and is a permutation of the input |
| Sorting.TopN | backend/app/routers/embeddings.py:223 | `ORDER BY … DESC LIMIT n`: exactly min(n, number of rows) rows, in non-increasing key order, each an input row and none taken more often than the input holds it |
| Sorting.SortedPrefix | backend/app/routers/embeddings.py:223 | a prefix of a descending permutation of the rows is descending, takes only input rows and none more often than the input holds it |
| Sorting.TopNMeaning | backend/app/routers/embeddings.py:223 | the rows kept are the top of the input: every row left out ranks no higher than any row kept, and nothing is left out when there are at most n rows |
| Sorting.PrefixIsTop | backend/app/routers/jobs.py:66 | in a descending list, every element outside the first n ranks no higher than every element inside them |
| Pagination.TotalPages | backend/app/routers/digests.py:51 | the page count is the least n with n pages covering all rows: n·size ≥ total and (n−1)·size < total; zero pages exactly when there are no rows |
| Pagination.Page | backend/app/routers/digests.py:38-44 | `OFFSET (page−1)·size LIMIT size`: at most `size` rows, the consecutive rows starting at the offset, a full page unless it is the last, empty past the end |
| Pagination.RowOnItsPage | backend/app/routers/articles.py:59-63 | every row appears on exactly the page its index predicts, and that page is within the page count |
| Pagination.PastLastPageEmpty | backend/app/routers/articles.py:59-63 | a page number beyond the page count yields no rows |
| Pagination.PageOfSorted | backend/app/routers/articles.py:53-60 | a page of a newest-first listing is itself newest-first and holds only listed rows |
| Text.Strip | backend/app/services/ollama_service.py:148 | `str.strip()`: the result starts and ends with a non-space character and is no longer than the input |
| Text.StripMeaning | backend/app/services/ollama_service.py:148 | the strip is the slice of the input between its leading and its trailing whitespace, and it is empty exactly when the input is all whitespace |
| Text.SplitJoin | backend/app/services/ollama_service.py:184 | `','.join(s.split(','))` gives back `s`: splitting loses nothing |
| Text.JoinSplit | backend/app/services/ollama_service.py:184 | splitting the join of separator-free pieces gives exactly those pieces back |
| Text.StripUnchanged | backend/app/services/ollama_service.py:148 | a text with no whitespace at either end is its own strip |
| Text.StripIsSlice | backend/app/services/ollama_service.py:184 | stripping adds no character that the text lacked |
| Text.RemoveAllAbsent | backend/app/services/topic_ingestion_service.py:152 | `replace(pat, '')` leaves a text unchanged when the pattern's first character does not occur in it |
| Text.Split | backend/app/services/ollama_service.py:184 | `str.split(sep)` yields at least one piece and no piece holds the separator |
| Text.JoinWith | backend/app/routers/articles.py:120 | `sep.join(parts)` is empty for no parts, starts with the first part, and for a one-character separator agrees with the join that splitting undoes |
| Text.Take | backend/app/services/trend_analysis_service.py:386-388 | `s[:n]` is the prefix of length n, or the whole sequence when it is shorter |
| Text.Or | backend/app/services/digest_service.py:303 | `a or b` is `a` when it is a non-empty string and `b` otherwise |
| Text.LStrip | backend/app/services/ollama_service.py:148 | `str.lstrip()` removes exactly the leading whitespace: a suffix whose first character, if any, is not whitespace |
| Text.RStrip | backend/app/services/ollama_service.py:148 | `str.rstrip()` removes exactly the trailing whitespace: a prefix whose last character, if any, is not whitespace |
| Text.Join | backend/app/routers/articles.py:120 | `sep.join(parts)` for one part or more: the parts with the separator between each two |
| Text.IntToString | backend/app/routers/articles.py:185 | `str(i)`: a non-empty text starting with '-' exactly for a negative number, which is "-" followed by the digits of its magnitude, and the digits of the number otherwise |
| Text.NatToString | backend/app/services/rss_service.py:141 | `str(n)` for a count: non-empty, decimal digits only, with a leading '0' exactly for zero |
| Text.NatToStringValue | backend/app/services/rss_service.py:141 | the digits written for a count denote that count |
| Text.IntToStringValue | backend/app/routers/articles.py:185 | the text written for an integer denotes it: its digits for a non-negative one, the digits after '-' for the magnitude of a negative one |
| Text.DigitChar | backend/app/services/rss_service.py:141 | the character written for a digit is a decimal digit that denotes it |
| Llm.ChatMessages | backend/app/services/ollama_service.py:42-45 | the chat request holds the system message first only when a non-empty system prompt is given, and always ends with the user prompt |
| Llm.Excerpt | backend/app/services/ollama_service.py:99-172 | each prompt embeds a prefix of the content of at most its own limit (4000, 6000, 6000, 3000 characters), the whole content when it is shorter |
| Llm.ParseKeyPoints | backend/app/services/ollama_service.py:145-159 | the key points read from a reply number at most seven and each is non-empty with no surrounding whitespace |
| Llm.KeyPointsRoundTrip | backend/app/services/ollama_service.py:145-159 | points written one per line as `- point` are read back exactly, the first seven of them |
| Llm.ParseLines | backend/app/services/ollama_service.py:147-153 | a reply is read line by line: the key points of a reply are those of its lines, in order, at most seven |
| Llm.LineWithoutMarker | backend/app/services/ollama_service.py:149 | a line not starting with a bullet marker contributes no key point |
| Llm.LineWithPoint | backend/app/services/ollama_service.py:149-153 | a marked line contributes its stripped remainder as a key point |
| Llm.ParseKeyPointsAsWritten | backend/app/services/ollama_service.py:145-159 | the parser with the marker list as written, whose middle marker is the three characters `â€¢` |
| Llm.WrittenMarkerMissesBullets | backend/app/services/ollama_service.py:149 | as written, a reply `• point` yields no key point at all |
| Llm.WrittenMarkerLeavesDebris | backend/app/services/ollama_service.py:149-151 | as written, a line starting with the three-character marker keeps two of its characters in the key point |
| Llm.BulletMarkerReadsBullets | backend/app/services/ollama_service.py:149 | with the bullet marker `•` a reply `• point` yields exactly `[point]` |
| Llm.ParseCategories | backend/app/services/ollama_service.py:183-187 | at most three categories, each non-empty, shorter than 50 characters, comma-free and stripped |
| Llm.CategoriesRoundTrip | backend/app/services/ollama_service.py:183-187 | a comma-separated reply of valid names is read back as the first three stripped names |
| Llm.NamesKeepsValid | backend/app/services/ollama_service.py:185 | the length filter drops no name when every stripped piece is a valid name |
| Llm.ProcessArticleContent | backend/app/services/ollama_service.py:211-230 | each of the four results is the call's value when it returned and its fixed default when it raised, independently of the others |
| Llm.ProcessedListsBounded | backend/app/services/ollama_service.py:184-230 | the processed article has at most seven non-empty key points (exactly one when extraction failed) and at most three non-empty categories |
| Llm.OrDefault | backend/app/services/ollama_service.py:212-223 | an outcome that raised is replaced by its default, one that returned is kept |
| Llm.ParseKeyPointsWith | backend/app/services/ollama_service.py:145-159 | for a given list of bullet markers, the key points are the first seven marked lines of the stripped reply, each non-empty with no whitespace at either end |
| Llm.PointOf | backend/app/services/ollama_service.py:148-152 | a line yields a point only when its strip starts with a marker, and the point is non-empty with no whitespace at either end |
| Jobs.ApplyUpdate | backend/app/services/job_tracker.py:42-66 | exactly the fields whose argument is given are overwritten; id, type, total items, parameters and timestamps never change; an update with no field is the identity |
| Jobs.UpdateIdempotent | backend/app/services/job_tracker.py:44-66 | applying the same update twice gives the same job as applying it once |
| Jobs.AnyStatusMayFollowAny | backend/app/services/job_tracker.py:44-46 | any status can be written over any other: there is no transition check |
| Jobs.Find | backend/app/routers/jobs.py:23 | the lookup returns a stored job with the id, and nothing exactly when no job has it |
| Jobs.GetJob | backend/app/routers/jobs.py:17-26 | an unknown id fails with 404, otherwise the stored job with that id |
| Jobs.GetJobStatus | backend/app/routers/jobs.py:29-48 | fails with 404 exactly when `get_job` does; otherwise the projection of id, status, progress, counts, error message and result of a stored job with the id |
| Jobs.ListJobs | backend/app/routers/jobs.py:51-67 | at most `limit` stored jobs, each matching every given filter, none listed more often than stored, newest first; all matches when fewer than `limit`, and no match left out is newer than one returned |
| Jobs.DeleteJob | backend/app/routers/jobs.py:70-85 | 404 for an unknown id, 400 for a running job, otherwise success: the store loses exactly the job with the id |
| Jobs.DeletedJobIsGone | backend/app/routers/jobs.py:83-85 | after a successful delete the job can no longer be fetched |
| Tracker.UpdateJob | backend/app/services/job_tracker.py:17-86 | the job gets the overwrite update; it commits and notifies exactly when some field was given; the notification carries the new status and the progress and counts with nulls read as 0, and a message only when one was given |
| Tracker.MessageAloneIsNotAnUpdate | backend/app/services/job_tracker.py:26-68 | an update carrying only a message neither commits nor notifies |
| Tracker.NotificationFailureIsSwallowed | backend/app/services/job_tracker.py:73-86 | whichever connections fail to receive the notification, the stored job and the commit are the same |
| Tracker.UpdateJobSync | backend/app/services/job_tracker.py:89-124 | the synchronous update always commits, applies the given fields and leaves total items and creation time alone |
| Tracker.SyncStoresSameJob | backend/app/services/job_tracker.py:105-124 | the synchronous update stores the same job as the asynchronous one |
| Jobs.MatchesFilters | backend/app/routers/jobs.py:61-64 | a job passes the filters when it has the requested type and status, each filter taking part only when its text is non-empty |
| Registry.Connect | backend/app/services/websocket_manager.py:21-38 | the socket joins the global set and, for a job id, that job's set (created when absent); every other job's set is unchanged |
| Registry.Disconnect | backend/app/services/websocket_manager.py:40-59 | the socket leaves the global set; with a registered job id it leaves that job's set, whose entry is deleted exactly when it becomes empty; otherwise it leaves every job set and no entry is deleted |
| Registry.SendPersonal | backend/app/services/websocket_manager.py:61-67 | a failed personal send removes the socket from the global set only; job sets are untouched; a successful one changes nothing |
| Registry.SendJobUpdate | backend/app/services/websocket_manager.py:69-97 | for a job without an entry nothing is sent or changed; otherwise exactly the non-failing subscribers receive it, the failing ones leave the job's set and the global set, and the entry disappears when no subscriber is left |
| Registry.Broadcast | backend/app/services/websocket_manager.py:99-118 | exactly the non-failing open sockets receive the message; every failing one leaves the global set and all job sets; no job entry is deleted |
| Registry.JobUpdateCleanupMatches | backend/app/services/websocket_manager.py:95-97 | disconnecting the failing subscribers one by one, in any order, yields the registry `SendJobUpdate` describes |
| Registry.CleanupWithJob | backend/app/services/websocket_manager.py:48-54 | a run of job disconnects removes those sockets from the job's set and the global set, deleting the entry when the set becomes empty |
| Registry.BroadcastCleanupMatches | backend/app/services/websocket_manager.py:116-118 | disconnecting the failing sockets one by one, in any order, yields the registry `Broadcast` describes |
| Registry.CleanupWithoutJob | backend/app/services/websocket_manager.py:55-58 | a run of job-less disconnects removes those sockets from every set and keeps every key |
| Registry.ConsistencyPreserved | backend/app/services/websocket_manager.py:21-118 | connecting, disconnecting without a job and broadcasting keep every subscriber in the global set |
| Registry.ConsistencyPreservedOnJobDisconnect | backend/app/services/websocket_manager.py:40-54 | a job disconnect keeps every subscriber in the global set when the socket is subscribed to no other job |
| Registry.ConsistencyPreservedOnJobUpdate | backend/app/services/websocket_manager.py:69-97 | a job update keeps every subscriber in the global set when no socket is subscribed to two jobs |
| Registry.DoubleSubscriptionBreaksConsistency | backend/app/services/websocket_manager.py:48-54 | a socket subscribed to two jobs and disconnected from one stays subscribed to the other while leaving the global set |
| Registry.PersonalFailureLeavesStaleSubscription | backend/app/services/websocket_manager.py:61-67 | after a failed personal send the socket is still a job subscriber but no longer in the global set |
| Registry.DisconnectWithoutJobKeepsEmptyEntry | backend/app/services/websocket_manager.py:55-58 | a job-less disconnect leaves an emptied job entry in the map, with a count of 0 |
| Registry.ConnectionCount | backend/app/services/websocket_manager.py:163-165 | the count is zero exactly when no socket is open |
| Registry.JobConnectionCount | backend/app/services/websocket_manager.py:167-169 | a job's count is the size of its set, 0 for a job without an entry |
| Registry.ProgressPayload | backend/app/services/websocket_manager.py:146-159 | the payload always holds status, progress and the three counts; message, error and result appear exactly when truthy, and then with the given value |
| LiveUpdates.SnapshotOf | backend/app/routers/websocket.py:50-58 | the snapshot is the job's status, progress, counts, error message and result |
| LiveUpdates.HandleEvent | backend/app/routers/websocket.py:62-97 | "ping" is answered with "pong", a timeout with a heartbeat, "refresh" on the per-job endpoint with a fresh snapshot; other texts, and "refresh" on the all-jobs endpoint, send nothing; the loop ends exactly on "close", a disconnect, an error or a failed send of its own |
| LiveUpdates.Serve | backend/app/routers/websocket.py:62-97 | the loop ends exactly when some event stops it; only the per-job endpoint sends snapshots, all for its own job; job subscriptions are never changed inside the loop |
| LiveUpdates.JobSession | backend/app/routers/websocket.py:18-101 | an unknown job closes the socket with 1008 before registering it; otherwise the first message is the job's snapshot, and the socket is unregistered exactly on every exit path and stays subscribed while the loop runs |
| LiveUpdates.AllJobsSession | backend/app/routers/websocket.py:104-146 | the all-jobs endpoint never sends a snapshot, ends exactly when an event stops it and then leaves every set |
| LiveUpdates.PingIsAnswered | backend/app/routers/websocket.py:71-72 | a delivered "ping" puts a "pong" first in what the loop sends from there on |
| LiveUpdates.ConnectionStats | backend/app/routers/websocket.py:149-162 | the statistics report the global count and, for every key of the job map, that job's count |
| Ingestion.Urls | backend/app/services/topic_ingestion_service.py:54 | the set of URLs of a batch holds exactly the URLs of its articles |
| Ingestion.AppendFresh | backend/app/services/topic_ingestion_service.py:54-95 | adding an article whose URL is not yet stored keeps the created batch free of duplicate and already-stored URLs, and the store grows by exactly its URL |
| Ingestion.StepFresh | backend/app/services/topic_ingestion_service.py:54-95 | one more item whose created URL is not stored yet keeps the created articles free of duplicate and already-stored URLs, and the store is still the URLs stored before plus theirs |
| Ingestion.FatesBalance | backend/app/services/rss_service.py:62-138 | every processed item ends in exactly one way, so created + updated + errors is the number of items |
| Ingestion.RunAt | backend/app/services/topic_ingestion_service.py:45-99 | the k-th item of a loop ends as its own fate against the URLs stored before the loop and by the items created ahead of it |
| Ingestion.RunStore | backend/app/services/topic_ingestion_service.py:54-95 | a loop stores nothing but the URLs stored before it and the URLs of its items |
| Ingestion.RunFirstKey | backend/app/services/topic_ingestion_service.py:54-57 | an item whose URL is neither stored before the loop nor the URL of an earlier item finds it unstored, whatever the other items did |
| Ingestion.RunFresh | backend/app/services/topic_ingestion_service.py:54-95 | when an item only ever creates the article of its own URL and never one already stored, the loop creates articles with distinct new URLs and the store grows by exactly those |
| Ingestion.RunCreates | backend/app/services/rss_service.py:100-108 | every article a loop creates is one that a single item's fate creates |
| Ingestion.RunLoop | backend/app/services/rss_service.py:62-138 | the per-item loop: the new articles, the error messages and the updated count are, in order, those of the items' fates, and the URLs stored afterwards are the ones the fates leave |
| Ingestion.IngestItems | backend/app/services/topic_ingestion_service.py:45-101 | the loop with its counters: the tallies are the fates', created + updated + errors is the number of items, the new articles are fresh and the store grows by exactly their URLs |
| TopicIngestion.HitUrl | backend/app/services/topic_ingestion_service.py:47 | a hit's URL is its non-empty `url`, otherwise its `link` |
| TopicIngestion.HitTitle | backend/app/services/topic_ingestion_service.py:48 | a hit's title is its non-empty `title`, otherwise the query |
| TopicIngestion.FetchFate | backend/app/services/topic_ingestion_service.py:59-99 | a hit with a new URL ends as "<url>: <error>" when the fetch or the store raises, as "Content too short for <url>; skipped" under 200 characters, and otherwise creates a "web_search" article with the hit's title, URL and content under the given source name or the URL's domain |
| TopicIngestion.HitFate | backend/app/services/topic_ingestion_service.py:47-99 | a hit without a URL ends as "Result missing URL; skipped"; it counts as updated exactly when its URL is stored; otherwise it ends as its fetch and store say; a created article carries the hit's URL, which was not stored |
| TopicIngestion.TopicStep | backend/app/services/topic_ingestion_service.py:54-95 | a hit only ever creates the web article of its own URL, and never one already stored |
| TopicIngestion.TopicHitOutcome | backend/app/services/topic_ingestion_service.py:45-99 | hit by hit, whatever the other hits did: no URL is the missing-URL error, a URL stored before the search counts as updated, and a URL neither stored nor seen in an earlier hit ends exactly as its fetch and store say |
| TopicIngestion.ProcessHits | backend/app/services/topic_ingestion_service.py:45-110 | every hit is processed; the errors, the new articles and the updated count are, in search order, those of the hits' fates; processed = created + updated + errors; success iff something was created or updated; the new articles are fresh web articles and the store grows by exactly their URLs |
| TopicIngestion.IngestTopic | backend/app/services/topic_ingestion_service.py:24-120 | without an API key it fails with "TAVILY_API_KEY is not configured"; a failing search and an empty result list give the fixed failure responses; otherwise the response is the one the hits' loop builds: errors, new articles and updated count exactly those of the hits' fates, balanced counters, success iff something was created or updated, fresh web articles |
| TopicIngestion.Netloc | backend/app/services/topic_ingestion_service.py:151-152 | `urlparse(url).netloc` of the cleaned URL holds no '/', '?', '#', tab or line break; it fails (the parse's `ValueError`) on unbalanced square brackets, and a netloc with brackets has only a port after them and a valid IPv6 or IPvFuture address inside |
| TopicIngestion.ExtractDomain | backend/app/services/topic_ingestion_service.py:149-154 | the domain is never empty: the network location with every "www." removed, or "web" when that is empty or parsing raises |
| TopicIngestion.DomainOfWwwUrl | backend/app/services/topic_ingestion_service.py:149-154 | the domain of `https://www.<host>` is the host itself, for a host with no delimiter, bracket, 'w', tab or line break |
| TopicIngestion.CollapseSpace | backend/app/services/topic_ingestion_service.py:146 | every whitespace run becomes one space: no two spaces in a row, no other whitespace, and the non-space text is unchanged |
| TopicIngestion.StripHtmlTail | backend/app/services/topic_ingestion_service.py:146-147 | the cleaned text is at most 15000 characters, has single spaces only and no leading space, and its non-space text is a prefix of the input's |
| TopicIngestion.StripKeepsText | backend/app/services/topic_ingestion_service.py:147 | stripping removes only whitespace and keeps a collapsed text collapsed |
| TopicIngestion.TakeKeepsPrefix | backend/app/services/topic_ingestion_service.py:147 | truncating keeps a prefix of the non-space text and keeps a collapsed text collapsed |
| TopicIngestion.AfterScheme | backend/app/services/topic_ingestion_service.py:151 | `urlparse` removes a leading scheme and its ':', leaving a suffix of the URL, or leaves the URL as it is |
| TopicIngestion.LStripC0 | backend/app/services/topic_ingestion_service.py:151 | `urlsplit` drops the leading C0 controls and spaces, and only those |
| TopicIngestion.DeleteUnsafe | backend/app/services/topic_ingestion_service.py:151 | `urlsplit` deletes every tab, carriage return and line feed |
| TopicIngestion.Cleaned | backend/app/services/topic_ingestion_service.py:151 | the URL `urlsplit` parses has no tab or line break and does not start with a control character or a space |
| TopicIngestion.CleanedUnchanged | backend/app/services/topic_ingestion_service.py:151 | a URL that needs no clean-up is parsed as it is, and cleaning twice is cleaning once |
| TopicIngestion.DeleteUnsafeAbsent | backend/app/services/topic_ingestion_service.py:151 | deleting tabs and line breaks from a text that has none changes nothing |
| TopicIngestion.LeadingControlIgnored | backend/app/services/topic_ingestion_service.py:149-154 | a leading control character or space does not change the domain |
| TopicIngestion.NetlocOfClean | backend/app/services/topic_ingestion_service.py:151 | the network location of a cleaned URL is the text after the scheme and "//" up to the first '/', '?' or '#', and is refused on unbalanced brackets or a bad bracketed host |
| TopicIngestion.AfterLast | backend/app/services/topic_ingestion_service.py:151 | `s.rpartition(c)[2]`: the suffix after the last `c`, free of `c`, or all of `s` when it has none |
| TopicIngestion.HexRun | backend/app/services/topic_ingestion_service.py:151 | the length of the longest prefix of hexadecimal digits |
| TopicIngestion.EmptyFrom | backend/app/services/topic_ingestion_service.py:151 | the first empty inner part of an IPv6 address at or after a position, which is where "::" stands |
| TopicIngestion.BracketedDomain | backend/app/services/topic_ingestion_service.py:149-154 | the domain of `https://[<h>]` is `[<h>]` when `<h>` is a valid IPv6 or IPvFuture address and not an IPv4 one, and "web" otherwise |
| TopicIngestion.BracketedHostOnly | backend/app/services/topic_ingestion_service.py:151 | a netloc that is one bracketed host passes the bracket check exactly when the text inside is a valid host |
| TopicIngestion.PlainNetloc | backend/app/services/topic_ingestion_service.py:151 | after "//", a host without delimiters or brackets is the whole network location |
| TopicIngestion.WwwRemoved | backend/app/services/topic_ingestion_service.py:152 | removing every "www." from "www." followed by a host without 'w' leaves the host |
| RssIngestion.ExtractContent | backend/app/services/rss_service.py:163-172 | the content is the first content block, else the summary, else the description, else "" |
| RssIngestion.SourceName | backend/app/services/rss_service.py:55-57 | the given source name when non-empty, else the feed's title when it has one |
| RssIngestion.EntryFate | backend/app/services/rss_service.py:67-138 | an entry without a link ends as "Entry '<title>' has no URL, skipping" and one with under 100 characters as "Article '<title>' has insufficient content, skipping"; otherwise it counts as updated exactly when its link is stored, it is created exactly when the link is new and storing succeeds, as an "rss" article with the entry's title, link and content under the feed's source name, and a raised store ends as "Error processing entry '<title or unknown>': <error>" |
| RssIngestion.RssStep | backend/app/services/rss_service.py:88-131 | an entry only ever creates the article of its own link, never one already stored, and always an "rss" article of the feed's source name with at least 100 characters |
| RssIngestion.RssEntryOutcome | backend/app/services/rss_service.py:62-138 | entry by entry, whatever the other entries did: no link or short content is its error, a link stored before the run counts as updated, and a link neither stored nor carried by an earlier entry is created or, when storing raises, its error |
| RssIngestion.IngestRss | backend/app/services/rss_service.py:32-161 | a feed that fails to parse and a feed without entries give the fixed failure responses; otherwise exactly the first `max_articles` entries are processed in feed order; the errors, the new articles and the updated count are exactly those of the entries' fates; processed = created + updated + errors; success iff something was created or updated; the new articles are distinct, not stored before, "rss" articles with at least 100 characters under the feed's source name |
| YouTube.IdRun | backend/app/services/youtube_service.py:22-24 | the captured group `[^&\n?]+` is the longest prefix free of '&', newline and '?' |
| YouTube.ExtractVideoId | backend/app/services/youtube_service.py:18-32 | a found id is a non-empty run free of '&', newline and '?'; a watch or short-link match wins over the others, and nothing is found only when no pattern matches anywhere |
| YouTube.WatchUrlRoundTrip | backend/app/services/youtube_service.py:18-32 | the id extracted from the canonical watch URL of an id is that id |
| YouTube.SkipToMatch | backend/app/services/youtube_service.py:28 | `re.search` finds the leftmost position where the pattern matches |
| YouTube.IngestVideo | backend/app/services/youtube_service.py:34-166 | every response counts one processed video and succeeds exactly when one video was created or found, a failure carrying exactly one error; an unusable URL gives "Invalid YouTube URL" / "Could not extract video ID from URL"; otherwise the outcome is that of the extracted id; an already stored canonical URL is "updated"; a new article is stored under the canonical URL, with at least 100 characters of transcript and the first 500 characters of the summary as title |
| YouTube.IngestVideoId | backend/app/services/youtube_service.py:65-166 | a stored canonical URL gives "Video already exists in database" with updated 1; a raised transcript fetch gives "Transcript not available" / "Could not retrieve transcript: <error>"; a transcript under 100 characters gives "Transcript too short or empty" / "Transcript has insufficient content"; a raised store gives "Failed to ingest YouTube video" / "Error ingesting YouTube video: <error>"; otherwise "Successfully ingested YouTube video <id>" with created 1 and the new "youtube" article under the canonical URL |
| YouTube.IngestVideoTwice | backend/app/services/youtube_service.py:65-78 | ingesting a video again after a successful ingestion reports "Video already exists in database" and changes nothing |
| YouTube.VideoHits | backend/app/services/youtube_search_service.py:58-71 | items without a video id are skipped; every hit carries its id and the canonical watch URL, and nothing is dropped when every item has an id |
| YouTube.HitsKeepIds | backend/app/services/youtube_search_service.py:59-71 | when every item has an id the hits are the items' ids, in order |
| YouTube.SearchVideos | backend/app/services/youtube_search_service.py:17-81 | without an API key nothing is requested or returned; otherwise at most 50 results are requested, a failed call yields no hits, and a successful one yields the mapped items |
| YouTube.SearchFrom | backend/app/services/youtube_service.py:24-31 | `re.search` for a URL prefix followed by id characters returns a non-empty run free of '&', newline and '?' |
| Research.Aggregate | backend/app/services/research_service.py:54-103 | the total is the sum of the two branches' counts, success holds iff it is positive, and the errors are the web branch's followed by the YouTube branch's, a raised branch contributing its "… search failed: …" message while the other still counts |
| Research.SearchWeb | backend/app/services/research_service.py:105-120 | an invalid request or a missing API key makes the branch raise and store nothing; otherwise the branch reports the ingestion's created count and its new, distinct articles |
| Research.SearchYouTube | backend/app/services/research_service.py:122-167 | the branch never raises; with no videos it reports 0 and no errors; otherwise the created count, the errors and the skipped count are exactly those of the videos' fates in search order, they add up to the number of videos, and the store only grows |
| Research.VideoStep | backend/app/services/research_service.py:137-161 | a video whose URL is stored is skipped, and only then; a raised request ends as "Failed to ingest video <url>: <error>"; otherwise it counts as created exactly when its ingestion succeeds, keeping what that stored, and a failed ingestion contributes its one error |
| Research.VideoFatesBalance | backend/app/services/research_service.py:136-161 | every found video ends in exactly one way: created + skipped + errors is the number of videos |
| Research.VideoRunGrows | backend/app/services/research_service.py:136-161 | the branch never forgets a stored URL |
| Research.VideoRunAt | backend/app/services/research_service.py:136-161 | the k-th video ends as its own step against the URLs the earlier videos left, so a video whose URL was stored before the branch is skipped whatever the others did |
| Research.ProcessVideos | backend/app/services/research_service.py:136-163 | the loop's created count, skipped count, errors and the URLs stored afterwards are, in order, those of the videos' fates |
| Research.ResearchTopic | backend/app/services/research_service.py:31-103 | both branches run and are combined by `Aggregate`; the YouTube branch never fails; an invalid request puts "Web search failed: …" first in the errors; success holds iff something was created |
| ResearchJob.CreateResearchJob | backend/app/routers/research.py:46-57 | a new job is a pending "topic_research" job whose total items is the sum of the two limits, with the request as its parameters and no progress, result, error or timestamps yet |
| ResearchJob.PostWrites | backend/app/routers/research.py:121-154 | post-processing writes progress 85 then 95 when it succeeds, only 85 when the connection step raises, nothing when the embedding step raises |
| ResearchJob.FinalResult | backend/app/routers/research.py:118-171 | the stored result copies the research summary, counts the embeddings generated (0 when that step raised), estimates connections as twice that only when post-processing finished, and appends the post-processing error |
| ResearchJob.RunResearchJob | backend/app/routers/research.py:80-186 | an unknown job gets no writes; otherwise at least two, the first marking the job running from the start time at progress 0, every one but the last leaving it running, and the last recording the completion time |
| ResearchJob.Returned | backend/app/routers/research.py:113-172 | once the research returns, the writes are progress 70, then 85 and 95 as far as post-processing gets when articles were created, then the completed job at 100 with processed = created = total created and the final result |
| ResearchJob.RunRaisedWrites | backend/app/routers/research.py:177-186 | when the research raises, the run writes "running" then "failed", both at progress 0, with the error message and the result left as it was |
| ResearchJob.RunReturnedWrites | backend/app/routers/research.py:94-172 | when the research returns, the run ends "completed" with the counts and the result, and its progress values are 0, 70, then 85 and 95 as far as post-processing got, then 100 |
| ResearchJob.RunFollowsStatusOrder | backend/app/routers/research.py:94-186 | the statuses written by a run never go back in the order pending, running, terminal, and the last is terminal |
| ResearchJob.RunProgressNeverDecreases | backend/app/routers/research.py:96-159 | the progress values written by a run never decrease |
| Research.AggregateMeaning | backend/app/services/research_service.py:66-96 | the research succeeds exactly when a branch that finished created something; a raised web branch counts nothing and puts "Web search failed: …" first among the errors; a raised YouTube branch counts nothing and puts "YouTube search failed: …" last; two clean branches report no errors |
| Schemas.ColourRoundTrip | backend/app/schemas.py:44 | every 24-bit colour written as `#rrggbb` satisfies the colour pattern and reads back as the same value |
| Schemas.ParseFrequency | backend/app/schemas.py:252 | a digest frequency is accepted exactly when it is "daily", "weekly" or "none", and names what was written |
| Schemas.FrequencyRoundTrip | backend/app/schemas.py:252 | every frequency's name is accepted as that frequency |
| Schemas.ParseDigestKind | backend/app/schemas.py:262 | a digest type is accepted exactly when it is "daily", "weekly" or "custom", and names what was written |
| Schemas.DigestKindRoundTrip | backend/app/schemas.py:262 | every digest type's name is accepted as that type |
| Schemas.DefaultsValid | backend/app/schemas.py:120-157 | the declared defaults (10 RSS articles, 5 topic results, page 1 of 10) satisfy their own bounds, and one past either end of each bound is rejected |
| Embeddings.GenerateEmbedding | backend/app/routers/embeddings.py:20-55 | an unknown article is 404; an existing embedding is reported and nothing changes; otherwise the title, a blank line and the content are embedded and stored, a model error becoming 500 with its message; the table only grows and keeps one embedding per article |
| Embeddings.GenerateEmbeddingIdempotent | backend/app/routers/embeddings.py:31-34 | asking again for an article just embedded reports "Embedding already exists" and changes nothing |
| Embeddings.AppendKeepsDistinct | backend/app/models.py:93 | adding an embedding for an article without one keeps one embedding per article |
| Embeddings.GenerateEmbeddingsTask | backend/app/routers/embeddings.py:84-121 | every listed id is generated, skipped or failed; only existing articles from the list gain embeddings, each existing one ends embedded unless its model call failed, and the table keeps one embedding per article |
| Embeddings.Unembedded | backend/app/routers/embeddings.py:65-67 | the outer join keeps exactly the articles that have no embedding |
| Embeddings.GenerateEmbeddingsScript | backend/generate_embeddings.py:12-66 | nothing happens when every article is embedded; otherwise every article without an embedding is tried once, success + failed equals their number, and the stored vectors are those of the calls that succeeded, in order |
| Embeddings.EmbedEach | backend/generate_embeddings.py:33-55 | the per-article loop stores one embedding for each article whose model call succeeds, in article order, and counts every article exactly once, as a success or as a failure |
| Embeddings.ParsedPoints | backend/app/routers/embeddings.py:160-171 | the parsed points come from embedding rows, and every row whose vector parses contributes its point |
| Embeddings.PairsBeforeClosed | backend/compute_connections.py:48 | the pairs visited before row i number i·(2n−i−1)/2 |
| Embeddings.AllPairs | backend/compute_connections.py:48 | the pair loop visits n·(n−1)/2 pairs, the reported comparison count |
| Embeddings.ComputeConnections | backend/app/routers/embeddings.py:145-209 | fewer than two embeddings does nothing; a similarity that raises rolls everything back; otherwise each unordered pair is compared once (n·(n−1)/2 comparisons), every pair at or above the threshold ends up linked in some direction, created + skipped counts the qualifying pairs, and each new link is a "semantic" link, earlier point as source, carrying its similarity and repeating no existing link |
| Embeddings.LinkPairs | backend/compute_connections.py:46-86 | the pair loop links every qualifying unlinked pair, counts the already linked ones as skipped, and commits only when every similarity was computed |
| Embeddings.ScanPairs | backend/compute_connections.py:53-84 | the outer loop either stops because some pair has no similarity, or finishes with every pair compared once, every qualifying unlinked pair linked and every qualifying linked pair counted as skipped |
| Embeddings.ScanRow | backend/compute_connections.py:54-84 | one row of the pair loop compares point i with every later point and stops at the first similarity that raises |
| Embeddings.CommittedKeepsOneLinkPerPair | backend/compute_connections.py:61-78 | when every new link was checked against the links before it, no pair of articles ends up joined twice in either direction |
| Embeddings.ComputeConnectionsEndpoint | backend/app/routers/embeddings.py:124-142 | fewer than two embeddings is reported with their count and nothing changes; otherwise the computation is started and the connection table only grows |
| Embeddings.ScoreOf | backend/app/routers/embeddings.py:229-234 | the score reported for a related article is that of the last listed connection leading to it |
| Embeddings.OtherEnds | backend/app/routers/embeddings.py:231-233 | the related ids are exactly the far ends of the listed connections |
| Embeddings.TopConnections | backend/app/routers/embeddings.py:220-223 | at most `limit` connections, all touching the article, none more often than stored, in descending score order |
| Embeddings.RelatedArticles | backend/app/routers/embeddings.py:212-254 | the related articles are sorted by descending score, each is reached through a connection of the article and is a stored article, every stored article at the far end of a top connection appears, and with distinct article ids there are at most `limit` |
| Embeddings.RowsBounded | backend/app/routers/embeddings.py:237 | with distinct article ids the `IN` query returns at most one row per related id |
| Embeddings.EmbeddingStats | backend/app/routers/embeddings.py:257-270 | the counts are the table sizes, with + without embeddings = total, and the average is twice the connections over the embedded articles (over 1 when none) |
| Embeddings.WithoutCountsUnembedded | backend/app/routers/embeddings.py:260-267 | with unique keys and every embedding belonging to an article, the "without" count is exactly the number of articles lacking an embedding |
| Embeddings.UnembeddedKeys | backend/generate_embeddings.py:19-21 | the articles the outer join finds without an embedding are exactly the articles whose id no embedding carries |
| Embeddings.RowsFor | backend/app/routers/embeddings.py:237 | the `IN` query returns exactly the articles whose id is among the related ids |
| Embeddings.Describe | backend/app/routers/embeddings.py:240-249 | one entry per fetched article, with its id, title, url, source name, publication time and the score of its connection |
| Schemas.HexColour | backend/app/schemas.py:44 | the colour pattern `^#[0-9A-Fa-f]{6}$`: '#' then six hexadecimal digits |
| Schemas.ValidCategory | backend/app/schemas.py:41-44 | a category name has at most 100 characters, and a colour, when given, matches the colour pattern |
| Schemas.ValidArticle | backend/app/schemas.py:77-83 | an article's title has at most 500 characters, its url 2000, its source type 50, and its source name and author, when given, 200 |
| Schemas.ValidRssIngest | backend/app/schemas.py:123 | an RSS request asks for 1 to 100 articles |
| Schemas.ValidTopicIngest | backend/app/schemas.py:132-133 | a topic request has a query of 2 to 200 characters and asks for 1 to 15 results |
| Schemas.ValidPassword | backend/app/schemas.py:222 | a password has at least 8 characters |
| Schemas.ValidSearchParams | backend/app/schemas.py:156-157 | the page is at least 1 and the page size is 1 to 100 |
| Categories.CreateCategory | backend/app/routers/categories.py:120-137 | a name over 100 characters or a colour other than `#` and six hex digits is refused with 422 before the handler runs; otherwise creating fails 400 "Category '<name>' already exists" exactly when some category has that name, and else exactly one category is appended, with the given name, description and colour and an id no other category has |
| Categories.CreateKeepsUnique | backend/app/routers/categories.py:120-134 | a successful create keeps category ids and names distinct, and creating the same name again is refused |
| Categories.IndexOf | backend/app/routers/categories.py:152 | the lookup finds the first category with the id, or reports none exactly when no category has it |
| Categories.UpdateCategory | backend/app/routers/categories.py:152-186 | update fails 404 for an unknown id, 400 when the new name belongs to a different category, and succeeds otherwise; on success only the target row changes, and only in the fields the update supplies |
| Categories.UpdateKeepsUnique | backend/app/routers/categories.py:161-174 | a successful update keeps category ids and names distinct |
| Categories.UpdateIdempotent | backend/app/routers/categories.py:152-186 | applying the same update twice gives the result of applying it once; an update with no fields leaves an existing category unchanged |
| Categories.DropCategories | backend/app/models.py:9-34 | deleting categories removes exactly their article links and followed-topic rows, keeps every other category, and leaves every other table alone |
| Categories.DropKeepsUnique | backend/app/models.py:9-79 | dropping categories keeps every declared key and unique column distinct |
| Categories.DeleteCategory | backend/app/routers/categories.py:201-214 | delete fails 404 exactly when the id is unknown; otherwise the category, its article links and its followers are gone, every other category survives, articles and users are untouched, and the message names the deleted category |
| Categories.KeyedIn | backend/app/routers/categories.py:233 | the `IN` query returns exactly the rows whose key is among the requested ids |
| Categories.KeyedInDistinct | backend/app/routers/categories.py:233 | rows found by the `IN` query have distinct keys when the table's keys are distinct |
| Categories.FoundCountExact | backend/app/routers/categories.py:233-246 | on a table with distinct keys, the `IN` query finds as many rows as ids were requested exactly when the requested ids are distinct and all exist |
| Categories.Pairs | backend/app/routers/categories.py:250-261 | the pairs are exactly the article/category combinations of the two id sets |
| Categories.BulkAssign | backend/app/routers/categories.py:233-285 | bulk assign fails 404 "Some articles not found" or "Some categories not found" on a count mismatch and succeeds otherwise; the updated count is the number of articles for a known mode and 0 otherwise; in replace mode each listed article's categories become exactly the listed ones and every other article keeps its links |
| Categories.Reassign | backend/app/routers/categories.py:250-269 | replace sets each listed article's categories to the listed ones, add takes the union, remove drops exactly the listed category ids from listed articles, and an unknown mode changes nothing |
| Categories.ReassignRepeats | backend/app/routers/categories.py:250-269 | adding twice is adding once, removing after an add is removing from the original links, and replacing twice is replacing once |
| Categories.BulkAssignSucceedsExactly | backend/app/routers/categories.py:233-246 | with unique keys, bulk assign succeeds exactly when the article ids are distinct and all exist and the category ids are distinct and all exist, so a duplicated id fails |
| Categories.BulkAssignRepeats | backend/app/routers/categories.py:248-285 | repeating a successful add or replace on its own result gives the same response; a remove after an add gives the same response as a remove on the original database |
| Categories.Holders | backend/app/routers/categories.py:330-332 | the joined query returns exactly the articles linked to the category |
| Categories.HoldersKeys | backend/app/routers/categories.py:330-332 | an article is among the holders exactly when it is linked to the category |
| Categories.MoveLinks | backend/app/routers/categories.py:335-340 | moving links gives every moved article the target and takes away its source link, leaving every other link as it was |
| Categories.Merge | backend/app/routers/categories.py:308-363 | merge fails 404 for a missing source, then 404 for a missing target, then 400 when source equals target, and succeeds otherwise; afterwards every article that had the source has the target and not the source, an article gains a target link only if it had the source, links to other categories are unchanged, the affected count is the number of such articles and the names are reported; the source row and its follows are deleted exactly when asked, every other category row stays and no row is added; articles, users and every other table are unchanged |
| Categories.MergeState | backend/app/routers/categories.py:329-348 | the committed state: the source's holders moved to the target with no other link gained or lost, the source row and its follows dropped exactly when asked, every other category kept, nothing else changed |
| Categories.MoveHolders | backend/app/routers/categories.py:329-340 | the loop over the source's holders: each gets the target and loses the source, a target link is new only for a holder, and other links stay |
| Categories.MergeMovesAll | backend/app/routers/categories.py:330-348 | with unique keys, the affected count is the number of distinct articles holding the source, the merge keeps every key unique, and when every link names a stored article no link to the source remains |
| Categories.LinkedCategories | backend/app/routers/categories.py:377-382 | a category id is linked exactly when some article link names it |
| Categories.ByUse | backend/app/routers/categories.py:377-382 | the selection is exactly the categories whose use matches the flag, in table order |
| Categories.Names | backend/app/routers/categories.py:385 | the name list has one entry per category, in order |
| Categories.Cleanup | backend/app/routers/categories.py:377-400 | cleanup keeps exactly the categories with at least one article, reports as many names as it deleted, each the name of an unused category, leaves articles and links untouched, and drops the follow rows of deleted categories |
| Categories.ByUseSplits | backend/app/routers/categories.py:377-385 | every category is either used or unused, so the two selections together count the whole table |
| Categories.CleanupIdempotent | backend/app/routers/categories.py:377-400 | the deleted count plus the kept count is the table size, and a second cleanup deletes nothing and changes nothing |
| SavedArticles.SaveArticle | backend/app/routers/saved_articles.py:20-45 | saving fails 404 for an unknown article and 400 "Article already saved" when it is saved already, and succeeds otherwise; on success exactly the one user/article pair is added and nothing else in the database changes |
| SavedArticles.UnsaveArticle | backend/app/routers/saved_articles.py:48-73 | unsaving fails 404 for an unknown article and 400 "Article not in saved list" when it is not saved, and succeeds otherwise; on success exactly the one pair is removed and nothing else changes |
| SavedArticles.CheckSaved | backend/app/routers/saved_articles.py:76-90 | the check fails 404 exactly for an unknown article and otherwise answers whether the user has saved it |
| SavedArticles.SaveUnsaveRoundTrip | backend/app/routers/saved_articles.py:20-90 | after a save the check says saved, a second save is refused and an unsave restores the original database; after an unsave the check says not saved and a save restores the original database |
| Accounts.FindByEmail | backend/app/routers/auth.py:24 | the lookup returns a user with that e-mail, and finds none exactly when no user has it |
| Accounts.Register | backend/app/routers/auth.py:21-45 | a password under 8 characters is refused with 422 before the handler runs; otherwise registration fails 400 "Email already registered" exactly when the e-mail is taken, and else one user is appended with the hashed password, the given name, active, not a superuser, weekly digests and notifications on, and an id no other user has |
| Accounts.RegisterKeepsUnique | backend/app/routers/auth.py:21-45 | a successful registration keeps user ids and e-mails distinct, and registering the same e-mail again is refused |
| Accounts.Login | backend/app/routers/auth.py:49-69 | login fails 401 for an unknown e-mail or a wrong password, fails 400 only for the right password of an inactive user, and otherwise returns the token issued for the e-mail |
| Accounts.RegisterThenLogin | backend/app/routers/auth.py:21-69 | a freshly registered user can log in with the password they registered, when the password check accepts its own hash |
| Accounts.FindByEmailAppend | backend/app/routers/auth.py:24-42 | appending a user with an unused e-mail makes the lookup of that e-mail find exactly that user |
| Accounts.UpdatePreferences | backend/app/routers/auth.py:97-117 | updating preferences changes the digest frequency and the notification flag exactly when they are supplied and leaves every other field of the user alone |
| Accounts.UpdatePreferencesIdempotent | backend/app/routers/auth.py:104-108 | updating twice with the same preferences is updating once, and an empty update changes nothing |
| Accounts.FollowTopic | backend/app/routers/auth.py:120-144 | following fails 404 exactly for an unknown category; an existing follow answers "Already following this topic" and changes nothing; otherwise exactly the one follow row is added and the reply names the category |
| Accounts.UnfollowTopic | backend/app/routers/auth.py:147-171 | unfollowing fails 404 exactly for an unknown category; a missing follow answers "Not following this topic" and changes nothing; otherwise exactly the one follow row is removed and the reply names the category |
| Accounts.FollowUnfollowRoundTrip | backend/app/routers/auth.py:120-171 | following twice is following once, unfollowing a fresh follow restores the original database, and after an unfollow the user does not follow the category |
| Accounts.BadCredentials | backend/app/routers/auth.py:53-58 | the 401 "Incorrect email or password" answer |
| Digests.PeriodDays | backend/app/services/digest_service.py:48-56 | a period exists exactly for "daily" (one day), "weekly" (seven days) and "custom" with a non-zero day count (that count); any other type has none |
| Digests.Followed | backend/app/services/digest_service.py:65-66 | the followed ids are exactly the ids of existing categories the user follows |
| Digests.CategoriesOf | backend/app/services/digest_service.py:84-85 | an article's categories are exactly the categories linked to it |
| Digests.FollowedOf | backend/app/services/digest_service.py:67-69 | the joined categories of an article are exactly its linked categories that the user follows |
| Digests.JoinRows | backend/app/services/digest_service.py:59-69 | the query rows are exactly the articles created inside the period that, when the user follows topics, carry one of them |
| Digests.FirstByKeys | backend/app/services/digest_service.py:72 | keeping the first row per id gives distinct ids, and exactly the ids of the rows not already seen |
| Digests.FirstByKeepsOrder | backend/app/services/digest_service.py:72 | keeping the first row per id preserves a newest-first order |
| Digests.SelectArticles | backend/app/services/digest_service.py:72 | a digest covers at most 50 articles |
| Digests.SelectionMeaning | backend/app/services/digest_service.py:59-76 | the selection holds distinct eligible articles, newest first; it is empty exactly when no article is eligible; and every eligible article left out is no newer than every one chosen |
| Digests.SelectNewest | backend/app/services/digest_service.py:72 | an eligible article the limit leaves out is no newer than any chosen one |
| Digests.LeftOutIsOlder | backend/app/services/digest_service.py:72 | a row that the limit and de-duplication leave out is no newer than any chosen row |
| Digests.SelectNonEmpty | backend/app/services/digest_service.py:72-76 | the selection is empty exactly when no article is eligible |
| Digests.Memberships | backend/app/services/digest_service.py:126-127 | an entry pairs a category name with an article exactly when the article is selected and carries that category |
| Digests.GroupNames | backend/app/services/digest_service.py:125-130 | the group names are distinct and are exactly the category names that occur, in order of first appearance |
| Digests.Members | backend/app/services/digest_service.py:128-130 | a group's members are exactly the articles entered under its name, and a name never entered has none |
| Digests.Grouped | backend/app/services/digest_service.py:125-137 | one group per name in first-appearance order, each holding the first ten of its articles |
| Digests.GroupedShape | backend/app/services/digest_service.py:125-137 | groups hold at most ten articles and have distinct names; every entry's category has a group; a group with room holds every article entered under it |
| Digests.GroupByCategory | backend/app/services/digest_service.py:124-137 | the grouping loop builds exactly the grouping the definition describes |
| Digests.Collect | backend/app/services/digest_service.py:124-129 | the dictionary pass leaves one key per category name, in order of first appearance, each holding the articles filed under that name in their order |
| Digests.FillStep | backend/app/services/digest_service.py:126-129 | handling one more (name, article) pair, opening a list for a new name and appending the article, keeps the dictionary equal to the grouping of the pairs seen so far |
| Digests.Topics | backend/app/services/digest_service.py:81-85 | no topic name appears twice |
| Digests.TopicsMeaning | backend/app/services/digest_service.py:81-85 | a name is among the topics exactly when some selected article is filed under a category of that name |
| Digests.TitleShape | backend/app/services/digest_service.py:254-273 | the title starts "Your " exactly when there are no topics; otherwise it starts with the type label, " Digest: " and the first topic |
| Digests.TitleSeesFirstThree | backend/app/services/digest_service.py:266-271 | the title depends only on the first three topics and on how many topics there are |
| Digests.FindSummary | backend/app/models.py:60-69 | the lookup returns a summary of the article, and finds none exactly when the article has none |
| Digests.BlurbOf | backend/app/services/digest_service.py:141-153 | a blurb keeps the article's title, url and publication time, and its text is the article's non-empty executive summary or else its title |
| Digests.Sections | backend/app/services/digest_service.py:135-189 | one section per category group, named after it, with one blurb per article in the group |
| Digests.GenerateDigest | backend/app/services/digest_service.py:22-107 | a digest is made exactly when the user has not turned digests off, the type has a period and some article is eligible; it has a fresh id, the user, type and period, the selection's size (1 to 50) as article count, the selection's topics and the title built from them, and is not yet sent |
| Digests.NewDigest | backend/app/services/digest_service.py:92-104 | the new record has a fresh id, the user, type, period, creation time, article count, topics and title it was built from, and no sending time |
| Digests.RecipientName | backend/app/services/digest_service.py:303 | the recipient name is the full name when it is set and non-empty, and the e-mail otherwise |
| Digests.SendDigest | backend/app/services/digest_service.py:275-318 | sending succeeds exactly when the user wants e-mail, has an address and the mail service accepts; only success stamps the sending time |
| Digests.SendDigestAsWritten | backend/app/services/digest_service.py:292-318 | the code as written raises "'User' object has no attribute 'username'" exactly when it would mail a user with an empty full name; otherwise it succeeds exactly when the user wants e-mail, has an address and the mail service accepts, and only success stamps the sending time |
| Digests.SendDigestFinding | backend/app/services/digest_service.py:303 | for users with a full name, or who get no mail, the code as written behaves like the corrected send; a user who wants mail and has no full name makes it fail, where the corrected send mails them under their e-mail |
| Digests.GenerateAndSend | backend/app/services/digest_service.py:320-346 | when no digest can be made nothing is stored and nothing is returned; otherwise the generated digest is stored first, and then either the send raises, leaving the stored digest unsent and passing the error on, or the stored digest is returned with a sending time exactly when the mail went out |
| Digests.GenerateKeepsUnique | backend/app/services/digest_service.py:320-346 | storing a generated digest keeps every key and unique column distinct |
| Digests.Subscribers | backend/app/services/digest_service.py:364-367 | the batch visits exactly the users with this frequency who want e-mail |
| Digests.CountFate | backend/app/services/digest_service.py:376-391 | the users that meet any one outcome of the loop are at most all of them |
| Digests.SendDigestsForFrequency | backend/app/services/digest_service.py:348-394 | the batch counts every subscriber; the errors are the users whose processing fails before anything is stored plus those whose send raises after their digest was stored; created counts the returned digests and sent never exceeds it; the digest table keeps its rows and grows by the created digests and the ones stored before a raise, and nothing else changes |
| Digests.Visit | backend/app/services/digest_service.py:376-391 | one user adds an error when generating fails or the send raises (a digest stored before the raise stays stored), one created digest, and one sent when it carries a sending time, when a digest is returned, and nothing when none is made |
| Digests.FatesPartition | backend/app/services/digest_service.py:376-391 | every visited user meets exactly one outcome: a failure before anything is stored, no digest, a raise after the digest was stored, or a returned digest; the four counts add up to the number of users |
| Digests.TypeLabel | backend/app/services/digest_service.py:260-264 | the label of a digest type: "Daily", "Weekly", "Custom", or "Content" for any other type |
| Digests.DigestTitle | backend/app/services/digest_service.py:254-273 | the title built from the type label and at most the first three topics, with " +n more" for the rest, or "Your <label> Content Digest" without topics |
| Digests.PeriodStart | backend/app/services/digest_service.py:47-53 | the period starts the period's day count before its end |
| Digests.InPeriod | backend/app/services/digest_service.py:59-62 | an article is in the period when it was created at or after the start and at or before the end |
| Digests.Eligible | backend/app/services/digest_service.py:59-69 | an article qualifies when it is in the period and, if the user follows any topic, is filed under one of them |
| DigestRoutes.Owned | backend/app/routers/digests.py:41 | the user's digests are exactly the stored digests that belong to them |
| DigestRoutes.Newest | backend/app/routers/digests.py:41-44 | the user's digests, all of them and only them, newest first |
| DigestRoutes.ListDigests | backend/app/routers/digests.py:25-52 | listing fails 500 exactly for a page below 1 or a page size below 1; otherwise it reports the user's total, the page, the page size and the ceiling of total over page size, with at most a page of the user's digests, newest first |
| DigestRoutes.OffsetFromFirstPage | backend/app/routers/digests.py:38 | for a positive page size the offset is negative exactly when the page is below 1 |
| DigestRoutes.NewestPage | backend/app/routers/digests.py:41-44 | a page of the user's digests, newest first, holds only the user's stored digests and stays newest first |
| DigestRoutes.ListDigestsCoversAll | backend/app/routers/digests.py:38-51 | every digest of the user appears on the page its rank falls on, and that page is within the page count |
| DigestRoutes.ListDigestsPastEnd | backend/app/routers/digests.py:38-51 | a page past the last one is empty but still reports the total and the page count |
| DigestRoutes.FindOwned | backend/app/routers/digests.py:62-65 | the lookup finds the first digest with the id that belongs to the user, and none exactly when there is no such digest |
| DigestRoutes.GetDigest | backend/app/routers/digests.py:55-73 | fetching fails 404 exactly when the user owns no digest with the id, and otherwise returns the user's digest with that id |
| DigestRoutes.DeleteDigest | backend/app/routers/digests.py:157-178 | deleting fails 404 exactly when fetching would, and otherwise removes exactly that digest |
| DigestRoutes.DeleteThenGet | backend/app/routers/digests.py:157-178 | after a delete the digest can no longer be fetched, and every other id fetches what it fetched before |
| DigestRoutes.FindOwnedSkip | backend/app/routers/digests.py:164-176 | removing a digest with a different id does not change what a lookup of another id finds |
| DigestRoutes.ResendDigest | backend/app/routers/digests.py:124-154 | resending fails 404 "Digest not found" for a digest the user does not own; it fails with the unhandled 500 "Internal Server Error" exactly when the send raises for a user with an empty full name; it fails 500 "Failed to send digest email" when the send returns false; otherwise only that digest's sending time is stamped |
| DigestRoutes.GenerateDigestEndpoint | backend/app/routers/digests.py:76-121 | generating fails 400 exactly when no digest can be made; otherwise it returns and stores the generated digest and schedules a send exactly when the user wants e-mail |
| DigestRoutes.GenerateDigestEndpointAsWritten | backend/app/routers/digests.py:90-121 | the code as written reports 500 exactly when no digest can be made |
| DigestRoutes.GenerateEndpointFinding | backend/app/routers/digests.py:99-121 | when a digest can be made the code as written and the corrected endpoint agree; otherwise the code as written answers 500 where the corrected one answers 400 |
| DigestRoutes.StartBatch | backend/app/routers/digests.py:182-212 | the batch starts exactly for "daily" and "weekly", with a message naming the frequency, and fails 400 otherwise |
| DigestRoutes.ResendThenGet | backend/app/routers/digests.py:134-154 | after a successful resend, fetching the digest gives the same digest with the sending time set, and every other id fetches what it fetched before |
| DigestRoutes.FindOwnedStamped | backend/app/routers/digests.py:134-137 | stamping a digest's sending time does not change what a lookup by owner and id finds |
| DigestRoutes.StartBatchMeaning | backend/app/routers/digests.py:196-207 | a batch starts exactly for the frequencies whose digest type has a period of its own, which are exactly the accepted user frequencies other than "none" |
| DigestRoutes.DigestNotFound | backend/app/routers/digests.py:139-143 | the 404 "Digest not found" answer |
| DigestRoutes.InternalError | backend/app/routers/digests.py:146 | what an exception no handler catches becomes: 500 "Internal Server Error" |
| ArticleRoutes.ParseList | backend/app/routers/articles.py:120 | the parsed list has one entry per comma-separated piece, each free of commas and with no whitespace at either end |
| ArticleRoutes.PiecesStripToSlices | backend/app/routers/articles.py:120 | stripping pieces that hold no separator leaves pieces that hold none |
| ArticleRoutes.ParseListRoundTrip | backend/app/routers/articles.py:120-127 | joining comma-free names that have no whitespace at either end with "," and parsing the result gives the names back |
| ArticleRoutes.ParseListPieces | backend/app/routers/articles.py:120 | each parsed entry is the strip of the matching piece of the split |
| ArticleRoutes.JoinedListSplits | backend/app/routers/articles.py:120 | splitting a ","-join of comma-free names on "," gives the names back |
| ArticleRoutes.BareNamesStrip | backend/app/routers/articles.py:120 | names with no whitespace at either end are their own strip |
| ArticleRoutes.ListFilters | backend/app/routers/articles.py:46-50 | the listing filters by category name and by source type exactly when those parameters are non-empty, and by nothing else |
| ArticleRoutes.SearchFilters | backend/app/routers/articles.py:107-135 | the search filters by text, categories and source types exactly when those parameters are non-empty, using the parsed comma-separated lists, and by the given date bounds |
| ArticleRoutes.Named | backend/app/routers/articles.py:121-123 | the joined categories of an article are exactly its linked categories whose name is requested |
| ArticleRoutes.Copies | backend/app/routers/articles.py:104-135 | the joined query yields at least one row for an article exactly when it matches every filter |
| ArticleRoutes.Expand | backend/app/routers/articles.py:121-145 | the joined rows hold exactly the articles with at least one copy |
| ArticleRoutes.Rows | backend/app/routers/articles.py:104-135 | the joined rows are exactly the stored articles that match every filter |
| ArticleRoutes.Matching | backend/app/routers/articles.py:43-50 | the matching articles, each once, are exactly the stored articles that pass every filter |
| ArticleRoutes.Newest | backend/app/routers/articles.py:53 | all matching articles and only them, newest first |
| ArticleRoutes.Listing | backend/app/routers/articles.py:53-71 | a listing is refused 422 exactly when the page is below 1 or the page size is outside 1 to 100; otherwise it reports the number of matching articles, the page, the page size and the page count, with at most a page of matching articles, newest first |
| ArticleRoutes.ListingCoversAll | backend/app/routers/articles.py:53-63 | every matching article appears on the page its rank falls on, and that page is within the page count |
| ArticleRoutes.ListArticles | backend/app/routers/articles.py:23-71 | listing is refused exactly for bad paging; every listed article is stored, has the requested source type and is filed under the requested category |
| ArticleRoutes.ListedInCategory | backend/app/routers/articles.py:46-47 | articles that match a category filter are filed under one of the requested category names |
| ArticleRoutes.SearchArticles | backend/app/routers/articles.py:80-156 | searching is refused exactly for bad paging; every found article is stored, contains the text in its title, content or summaries, has one of the requested source types and categories, and was published within the given dates |
| ArticleRoutes.SearchAsWritten | backend/app/routers/articles.py:138-156 | the code as written counts joined rows rather than articles, and pages over those rows |
| ArticleRoutes.SearchCountFinding | backend/app/routers/articles.py:141-148 | one article filed under two requested categories is counted twice by the code as written and shows up on both pages of size one, while the corrected listing counts it once and shows it on page one only |
| ArticleRoutes.NamedBoth | backend/app/routers/articles.py:121-123 | an article filed under both requested categories joins with both |
| ArticleRoutes.RowsTwice | backend/app/routers/articles.py:121-123 | an article that joins with two categories appears as two rows |
| ArticleRoutes.NewestOnce | backend/app/routers/articles.py:138-145 | the corrected listing shows a lone matching article once, on page one |
| ArticleRoutes.GetArticle | backend/app/routers/articles.py:165-194 | fetching fails 404 "Article with id N not found" exactly when no article has the id; otherwise it returns that article with its summary when it has one, exactly its linked categories, and a related count of 0 |
| ArticleRoutes.GetArticleFindsRow | backend/app/routers/articles.py:180 | with distinct ids, fetching a stored article's id returns that article |
| ArticleRoutes.FetchedMatch | backend/app/routers/articles.py:141-145 | the distinct articles of a fetched page of the joined rows are at most a page and each matches every filter |
| ArticleRoutes.TwoRowsTwoPages | backend/app/routers/articles.py:138-156 | two joined rows of one article give a total of 2 and two pages, and each page of size one shows the article |
| ArticleRoutes.SortTwice | backend/app/routers/articles.py:138 | ordering two copies of one row leaves them as they are |
| ArticleRoutes.PagesOfTwo | backend/app/routers/articles.py:144-145 | pages 1 and 2 of size one over two rows each hold one of them |
| ArticleRoutes.OnlyOnce | backend/app/routers/articles.py:145 | the rows of a page, each article once, of a single row are that row's article |
| ArticleRoutes.ArticleNotFound | backend/app/routers/articles.py:182-186 | the 404 "Article with id N not found" answer, with the id written in decimal |
| Trends.Count | backend/app/services/trend_analysis_service.py:43-75 | a category's article count in a time window is at most the number of articles |
| Trends.CountSplits | backend/app/services/trend_analysis_service.py:35-75 | the counts of two adjacent windows add up to the count of their union, so the recent and older halves together count the whole period |
| Trends.Velocity | backend/app/services/trend_analysis_service.py:88-91 | velocity is positive exactly when the recent count is larger and zero exactly when the counts are equal; it is the percentage change over the older count, 100 when only the recent half has articles, and never below -100 |
| Trends.DirectionOf | backend/app/services/trend_analysis_service.py:97-102 | a trend is rising above 20, falling below -20 and stable in between |
| Trends.DirectionByCounts | backend/app/services/trend_analysis_service.py:88-102 | a topic is rising exactly when five times its recent count exceeds six times its older count, and falling exactly when five times its recent count is below four times its older count |
| Trends.Confidence | backend/app/services/trend_analysis_service.py:94 | confidence lies between 0 and 1, is 1 exactly from 20 articles on, and grows by a twentieth per article below that |
| Trends.TrendOf | backend/app/services/trend_analysis_service.py:79-113 | a trend reports the category, its recent and older counts, their total, the velocity, the direction and the confidence derived from them |
| Trends.Candidates | backend/app/services/trend_analysis_service.py:79-113 | one trend per qualifying category, in table order, and nothing else: the candidates are, position by position, the trends of the categories with recent articles and at least the minimum total |
| Trends.CandidatesInOrder | backend/app/services/trend_analysis_service.py:79-113 | the loop over categories appends a category's trend exactly when it qualifies, so the candidates follow the qualifying categories in table order |
| Trends.AnalyzeTopicTrends | backend/app/services/trend_analysis_service.py:18-118 | the analysis reports a permutation of the candidates, one trend per qualifying category, ordered by the size of their velocity, largest first |
| Trends.TrendFacts | backend/app/services/trend_analysis_service.py:35-118 | every reported trend has recent articles, at least the minimum total, a confidence in [0, 1], a direction that matches its counts, and a total equal to the category's article count since the period start |
| Trends.RisingFast | backend/app/services/trend_analysis_service.py:238-241 | the emerging trends are exactly the rising trends whose velocity reaches the minimum, each kept exactly as often as it is listed |
| Trends.RisingFastInOrder | backend/app/services/trend_analysis_service.py:238-241 | the comprehension keeps the listed order: a single trend stays exactly when emerging, and two lists one after the other are filtered one after the other |
| Trends.Latest | backend/app/services/trend_analysis_service.py:246-252 | the latest articles of a category are five of its articles, or all of them when it has fewer, none listed more often than filed, newest first, and none of its articles left out is newer than one listed |
| Trends.WithLatest | backend/app/services/trend_analysis_service.py:244-262 | every emerging trend is kept in order, with its category's latest articles and their number as the recent-article count |
| Trends.DetectEmergingTopics | backend/app/services/trend_analysis_service.py:218-264 | the reported topics' trends are, in order, the emerging trends of the analysis with a minimum of two articles, each exactly as often as the analysis lists it, with at most five latest articles |
| Trends.EmergingFrom | backend/app/services/trend_analysis_service.py:238-262 | the reported topics' trends are, in order, the emerging trends of the given list, each exactly as often as it is listed, with at most five latest articles |
| Trends.EmergingFacts | backend/app/services/trend_analysis_service.py:238-262 | topics whose trends are the emerging trends of a list are emerging trends of it, and every emerging trend of it is among them |
| Trends.EmergingRisesByAFifth | backend/app/services/trend_analysis_service.py:235-241 | an emerging topic's velocity reaches the minimum and exceeds 20, its recent count is more than six fifths of its older count, and it has at least two articles |
| Trends.Days | backend/app/services/trend_analysis_service.py:168 | the day indexes are 0, 1, 2 and so on, one per day |
| Trends.Volumes | backend/app/services/trend_analysis_service.py:169 | the daily volumes are the daily counts, in order |
| Trends.SlopeDirectionOf | backend/app/services/trend_analysis_service.py:200-205 | the forecast is increasing above a slope of 0.5, decreasing below -0.5 and stable otherwise |
| Trends.PredictionAt | backend/app/services/trend_analysis_service.py:188-197 | a predicted volume is never negative, and its confidence lies in [0.3, 1] and stays above one half |
| Trends.ForecastCategoryVolume | backend/app/services/trend_analysis_service.py:120-216 | with fewer than seven days of history the forecast reports "Insufficient historical data (need at least 7 days)"; otherwise it reports the history length, the least-squares slope and its direction, the mean volume, one prediction per forecast day, none of them negative, with confidences in [0.3, 1] that never increase |
| Trends.LinearSeriesForecast | backend/app/services/trend_analysis_service.py:167-190 | when the daily counts lie on a line, the fit recovers its slope and intercept and each prediction continues the line, clipped at zero |
| Trends.LinearSlope | backend/app/services/trend_analysis_service.py:171-183 | when the daily counts lie on a line, the least-squares slope and intercept are that line's |
| Trends.LinearFit | backend/app/services/trend_analysis_service.py:171-176 | for counts on a line, the mean volume lies on the line at the mean day, and the cross deviation is the slope times the squared deviation |
| Trends.FitOnLine | backend/app/services/trend_analysis_service.py:170-176 | for any points on a line, the mean of the y values is on the line at the mean x, and the numerator of the slope is the line's slope times its denominator |
| Trends.MomentumScore | backend/app/services/trend_analysis_service.py:317-328 | the momentum score lies between 0 and 100, and is 100 exactly when the latest window has at least ten articles, the latest velocity reaches 100 and the acceleration reaches 50 |
| Trends.MomentumMonotone | backend/app/services/trend_analysis_service.py:317-328 | more articles in the latest window never lower the momentum score |
| Trends.CalculateTopicMomentum | backend/app/services/trend_analysis_service.py:266-342 | the oldest, middle and recent counts are the category's articles in the three consecutive windows ending now, and the score in [0, 100], the volume, velocity and acceleration are derived from them |
| Trends.MomentumWindowsPartition | backend/app/services/trend_analysis_service.py:291-314 | the three windows together count exactly the category's articles of the last three window lengths |
| Trends.HotAmong | backend/app/services/trend_analysis_service.py:366-373 | the hot topics are, in listed order, exactly the given trends whose momentum score exceeds 30, each as often as it is listed and with that score |
| Trends.HotBy | backend/app/services/trend_analysis_service.py:366-373 | the hot loop for a given score appends, in listed order, exactly the trends scoring above 30, each with its score |
| Trends.HotMembers | backend/app/services/trend_analysis_service.py:366-373 | a hot list built that way holds only listed trends above 30, every listed trend above 30, each as often as listed |
| Trends.TrendingSummary | backend/app/services/trend_analysis_service.py:344-389 | the summary reports the period; the number of trends, which is the number of qualifying categories, and the first ten of them; the number of emerging topics and the first five of them; the number of hot topics, which is the number of the first ten trends above 30; and the hot topics ranked by momentum and cut to five |
| Trends.Ranked | backend/app/services/trend_analysis_service.py:376-388 | the ranked hot topics are five of them, or all when fewer, drawn from the list and none more often than it holds, highest score first, and none left out scores above one kept |
| Trends.SummaryHotIsTop | backend/app/services/trend_analysis_service.py:366-388 | the summary shows five hot topics, or all when fewer; each is one of the first ten trends with its momentum score, which is above 30; and a top-ten trend above 30 that is not shown scores no higher than any shown one |
| Trends.HotIsTop | backend/app/services/trend_analysis_service.py:366-388 | ranking the hot topics of any trend list shows only listed trends with their momentum above 30, and leaves out none that scores above a shown one |
| Trends.RankedBelow | backend/app/services/trend_analysis_service.py:376-388 | a hot topic that ranking leaves out scores no higher than any shown one |
| Trends.FiledUnder | backend/app/services/trend_analysis_service.py:246-249 | the articles joined with a category are exactly the stored articles linked to it |
| Trends.Since | backend/app/services/trend_analysis_service.py:35 | the window starts `days` days before now |
| Trends.Midpoint | backend/app/services/trend_analysis_service.py:36 | the midpoint lies `days // 2` days before now |
| Trends.Recent | backend/app/services/trend_analysis_service.py:42-57 | the recent count is the category's articles created at or after the midpoint |
| Trends.Older | backend/app/services/trend_analysis_service.py:59-75 | the older count is the category's articles created from the window start up to, not including, the midpoint |
| Trends.Mean | backend/app/services/trend_analysis_service.py:171-172 | `statistics.mean`: the sum over the length |
| Trends.Slope | backend/app/services/trend_analysis_service.py:174-181 | the least-squares slope of the daily counts against the day numbers, 0 when the day numbers do not vary |
| Trends.Intercept | backend/app/services/trend_analysis_service.py:183 | the fitted line passes through the mean day and the mean count |
| Trends.PeriodVelocity | backend/app/services/trend_analysis_service.py:317-318 | the percentage change from one window to the next, over the earlier count or 1 when that is 0 |
| Trends.HotScore | backend/app/services/trend_analysis_service.py:376 | hot topics are ordered by their momentum score |
| Trends.IsEmerging | backend/app/services/trend_analysis_service.py:238-241 | a trend is emerging when its velocity reaches the minimum and its direction is rising |

## Left out

- Network and library calls are parameters or outcome values, never code. This covers the Ollama HTTP API, Tavily, the YouTube Data and transcript APIs, feedparser, page fetching, SMTP, numpy, password hashing and token signing.
- `backend/app/services/email_service.py` is not part of this model. Sending mail is a boolean oracle.
- Accounts.Register: the e-mail is not validated or normalised as pydantic's `EmailStr` does (backend/app/schemas.py:217), so an address FastAPI refuses with 422 is accepted here; only the 8-character password minimum is modelled as a 422.
- Accounts.Login: the e-mail is not validated as pydantic's `EmailStr` does (backend/app/schemas.py:33), so a malformed address answers 401 here where FastAPI answers 422.
- YouTube.IngestVideo: the URL is the text the handler receives. pydantic's `HttpUrl` check of `YouTubeIngest.url` (backend/app/schemas.py:125) is not modelled. A text without an http(s) scheme and host, which FastAPI refuses with 422, is ingested here when it holds a video id. The host lower-casing and other normalisation seen by `str(video_data.url)` (backend/app/services/youtube_service.py:53) are not applied either, so `https://YOUTU.BE/abc` gives "Invalid YouTube URL" here where the service finds the id `abc`.
- The HTML templates of the digest body and the e-mail are left out. The body renderer is a parameter, and only the grouping, the blurbs and the counts are modelled.
- The tag-stripping regexes at the start of `_strip_html` are left out. Only its whitespace collapse, strip and truncation tail is modelled.
- Retry decorators and rate limits are configured in libraries that are not shown. The same goes for FastAPI dependency injection and the authentication dependency, so the current user is an argument.
- Concurrency is modelled sequentially. `asyncio.gather` runs web then YouTube, background tasks are separate calls, and a websocket receive timeout is an input event.
- The catch-all 500 handlers around database errors are not modelled, because the database never fails in the model. The 500 handlers that the code reaches through its own logic are modelled: the digest listing's bad paging, the digest generate endpoint, and the resend endpoint's unhandled attribute error.
- `round(...)` of reported figures is left out: trend velocity and confidence, forecast slope, predictions and average, momentum figures, and the embedding statistics' average. Arithmetic is exact `real`.
- `math.ceil` on a float page count is the integer ceiling, which equals it for every count a table can hold.
- Clocks are parameters and timestamps are integer seconds. `strftime`/`isoformat` formatting and `parsedate_to_datetime` are left out.
- The forecast's daily counts come from a date-grouped SQL query, which is left out. `Trends.ForecastCategoryVolume` takes the list of per-day counts as its input.
- SQL orderings with ties, the order of Python sets and dict iteration over query rows are fixed by the model: stable, table order, first appearance.
- `Trends.TrendingSummary`: the hot-topic test compares the exact momentum score with 30, where the code compares the score rounded to one decimal. A score above 30 but below 30.05 rounds to 30.0, so it is hot in the model and not hot in the code.
- `Trends.DetectEmergingTopics`: the emerging test compares the exact velocity with the minimum, where the code stores the velocity rounded to two decimals (backend/app/services/trend_analysis_service.py:109) and then sorts by it and filters on it (lines 116 and 240). A velocity just below the minimum that rounds up to it is emerging in the code and not in the model, and trends whose velocities round to the same value may be ordered differently.
- `TopicIngestion.ExtractDomain`: the URL parsing follows `urllib.parse.urlsplit` and `ipaddress` of Python 3.12. The NFKC check `_checknetloc` applies to non-ASCII network locations and is left out. Other Python releases differ in details, such as the 45-character limit on an IPv6 address.
- `Jobs.ListJobs`: the limit is a natural number. A negative limit, which PostgreSQL rejects, is not modelled.
- `ArticleRoutes.ListArticles` uses the deduplicated listing. This is the same as the code's joined query because category names are unique.
- FastAPI's 422 responses carry a generated detail body. The model keeps only the status code.
- `generate_all_embeddings` (backend/app/routers/embeddings.py:58-81) only schedules `generate_embeddings_task` in the background. The task itself is modelled.
- `list_categories` and `get_category` (backend/app/routers/categories.py:26-105) are plain read queries and are not modelled.
- `get_saved_articles`, `get_current_user_info`, `logout` and `get_user_preferences` return stored rows unchanged and are not modelled.
- Several schema classes are imported by the routers but are not defined in backend/app/schemas.py: `ResearchRequest` (research router), `DigestCreate` (digest router), `UserPreferencesUpdate` and `UserPreferencesResponse` (backend/app/routers/auth.py:6), and `CategoryUpdate`, `CategoryWithStatsResponse`, `BulkCategoryAssignment` and `BulkCategoryResponse` (backend/app/routers/categories.py:10-17). Their field bounds are not modelled, and the endpoints take the fields directly. `DigestGenerate` is modelled.
- The categories, digests and websocket routers are not mounted in backend/app/main.py:34-41. They are modelled as written, without that wiring.
- The background send scheduled by the digest generate endpoint is not modelled; only the flag recording that it was scheduled is kept. The batch endpoint's background run is modelled separately as `Digests.SendDigestsForFrequency`.
- `Digests.SendDigestsForFrequency`: which users' processing fails before their digest is stored is a parameter, standing for a database error. The attribute error raised after the digest is stored is modelled, through `Digests.RaisesOnSend`.
- `backend/app/routers/trends.py`, `backend/app/routers/ingestion.py`, `backend/app/main.py`, `backend/app/config.py`, `backend/add_sample_data.py`, `backend/scripts/send_digests.py` and the Alembic migration are wiring, seed data or duplicates of the ORM constraints. They are not part of this model.

## Findings

| source | as written | input that shows it | evidently intended | confidence | as-written member | corrected member |
|---|---|---|---|---|---|---|
| backend/app/services/ollama_service.py:149 | the middle bullet marker is the three characters `â€¢`, a mis-decoded `•` | a reply whose line is `• point` yields no key point | lines starting with `•` are key points | high, not executed | Llm.ParseKeyPointsAsWritten, Llm.WrittenMarkerMissesBullets | Llm.ParseKeyPoints, Llm.BulletMarkerReadsBullets |
| backend/app/services/digest_service.py:303 | `user.full_name or user.username` reads `username`, which `User` does not define, so it raises whenever the full name is empty | a user who wants e-mail, has an address and no full name | mail the digest under another name, here the e-mail address | high, not executed | Digests.SendDigestAsWritten, Digests.SendDigestFinding | Digests.SendDigest |
| backend/app/routers/digests.py:99-121 | the 400 raised inside the `try` is caught by `except Exception` and re-raised as a 500 | a user with digests turned off, or a period with no articles | answer 400 "No articles found for the specified period or user has digests disabled" | high, not executed | DigestRoutes.GenerateDigestEndpointAsWritten, DigestRoutes.GenerateEndpointFinding | DigestRoutes.GenerateDigestEndpoint |
| backend/app/routers/articles.py:119-148 | `count()` and `offset`/`limit` work on joined rows, one per requested category an article is filed under, while `.all()` returns each article once | one article filed under both of two requested categories, page size 1 | total 1, one page, the article on page 1 only | medium, not executed | ArticleRoutes.SearchAsWritten, ArticleRoutes.SearchCountFinding | ArticleRoutes.Listing, ArticleRoutes.SearchArticles |

=== FILE: accounts.dfy ===
/** Registration, login, preferences and followed topics
    (backend/app/routers/auth.py).  Password hashing, password checking
    and token signing live in a module this model does not include; they
    are parameters here.  The current user of the preference and topic
    endpoints is the authenticated one, given by id. */
module Accounts {
  import opened Wrappers
  import opened Records
  import Schemas

  /** The first user with this e-mail (the row `.first()` returns). */
  function FindByEmail(users: seq<User>, email: string): (r: Option<User>)
    ensures r.Some? ==> r.value in users && r.value.email == email
    ensures r.None? <==> forall k :: 0 <= k < |users| ==> users[k].email != email
  {
    if users == [] then None
    else if users[0].email == email then Some(users[0])
    else FindByEmail(users[1..], email)
  }

  /** `POST /auth/register`: a password shorter than 8 characters is
      refused with 422 before the handler runs; an e-mail already
      registered then fails with 400; otherwise the table grows by one
      active, non-superuser account with the hashed password and the
      model's defaults for everything else. */
  function Register(users: seq<User>, email: string, password: string, fullName: Option<string>,
                    hash: string -> string): (r: Result<seq<User>, HttpError>)
    ensures !Schemas.ValidPassword(password) ==> r == Err(Rejected())
    ensures r.Err? <==> !Schemas.ValidPassword(password) || FindByEmail(users, email).Some?
    ensures Schemas.ValidPassword(password) && r.Err? ==> r.error == HttpError(BadRequest, "Email already registered")
    ensures r.Ok? ==> |r.value| == |users| + 1 && r.value[..|users|] == users
    ensures r.Ok? ==> var u := r.value[|users|];
              && u.email == email && u.hashedPassword == hash(password) && u.fullName == fullName
              && u.isActive && !u.isSuperuser && u.digestFrequency == "weekly" && u.emailNotifications
              && forall k :: 0 <= k < |users| ==> users[k].id != u.id
  {
    if !Schemas.ValidPassword(password) then Err(Rejected())
    else if FindByEmail(users, email).Some? then Err(HttpError(BadRequest, "Email already registered"))
    else Ok(users + [NewUser(NextKey(users, UserId), email, hash(password), fullName)])
  }

  /** Registering keeps user ids and e-mails unique, and registering the
      same e-mail again fails. */
  lemma {:induction false} RegisterKeepsUnique(users: seq<User>, email: string, password: string, fullName: Option<string>,
                            hash: string -> string)
    requires DistinctBy(users, UserId) && DistinctBy(users, UserEmail)
    ensures var r := Register(users, email, password, fullName, hash);
            r.Ok? ==> && DistinctBy(r.value, UserId) && DistinctBy(r.value, UserEmail)
                      && Register(r.value, email, password, fullName, hash).Err?
  {
    var r := Register(users, email, password, fullName, hash);
    if r.Ok? {
      var u := r.value[|users|];
      assert r.value == users + [u];
      AppendDistinct(users, u, UserId);
      AppendDistinct(users, u, UserEmail);
      assert r.value[|users|].email == email;
    }
  }

  function BadCredentials(): HttpError {
    HttpError(Unauthorized, "Incorrect email or password")
  }

  /** `POST /auth/login`: an unknown e-mail or a password the hash check
      rejects fails with 401, and only then is an inactive account refused
      with 400; otherwise the token is issued for the e-mail. */
  function Login(users: seq<User>, email: string, password: string,
                 verify: (string, string) -> bool, issue: string -> string): (r: Result<string, HttpError>)
    ensures FindByEmail(users, email).None? ==> r == Err(BadCredentials())
    ensures FindByEmail(users, email).Some? && !verify(password, FindByEmail(users, email).value.hashedPassword) ==>
              r == Err(BadCredentials())
    ensures r.Err? && r.error.status == BadRequest ==>
              && FindByEmail(users, email).Some?
              && verify(password, FindByEmail(users, email).value.hashedPassword)
              && !FindByEmail(users, email).value.isActive
    ensures r.Ok? <==> && FindByEmail(users, email).Some?
                       && verify(password, FindByEmail(users, email).value.hashedPassword)
                       && FindByEmail(users, email).value.isActive
    ensures r.Ok? ==> r.value == issue(email)
  {
    match FindByEmail(users, email)
    case None => Err(BadCredentials())
    case Some(u) =>
      if !verify(password, u.hashedPassword) then Err(BadCredentials())
      else if !u.isActive then Err(HttpError(BadRequest, "Inactive user"))
      else Ok(issue(u.email))
  }

  /** A freshly registered user can log in with the password they chose,
      provided the password check accepts a password against its own hash. */
  lemma {:induction false} RegisterThenLogin(users: seq<User>, email: string, password: string, fullName: Option<string>,
                          hash: string -> string, verify: (string, string) -> bool, issue: string -> string)
    requires verify(password, hash(password))
    ensures var r := Register(users, email, password, fullName, hash);
            r.Ok? ==> Login(r.value, email, password, verify, issue) == Ok(issue(email))
  {
    var r := Register(users, email, password, fullName, hash);
    if r.Ok? {
      FindByEmailAppend(users, r.value[|users|]);
    }
  }

  lemma {:induction false} FindByEmailAppend(users: seq<User>, u: User)
    requires FindByEmail(users, u.email).None?
    ensures FindByEmail(users + [u], u.email) == Some(u)
  {
    if users != [] {
      assert (users + [u])[1..] == users[1..] + [u];
      FindByEmailAppend(users[1..], u);
    }
  }

  /** The fields of `PATCH /auth/preferences`; `None` means "not given". */
  datatype PreferencesUpdate = PreferencesUpdate(digestFrequency: Option<string>, emailNotifications: Option<bool>)

  /** `PATCH /auth/preferences`: each given field is overwritten, every
      other field of the user stays as it was. */
  function UpdatePreferences(u: User, p: PreferencesUpdate): (r: User)
    ensures r.digestFrequency == (if p.digestFrequency.Some? then p.digestFrequency.value else u.digestFrequency)
    ensures r.emailNotifications == (if p.emailNotifications.Some? then p.emailNotifications.value else u.emailNotifications)
    ensures r.(digestFrequency := u.digestFrequency, emailNotifications := u.emailNotifications) == u
  {
    u.(digestFrequency := p.digestFrequency.GetOr(u.digestFrequency),
       emailNotifications := p.emailNotifications.GetOr(u.emailNotifications))
  }

  /** Applying an update twice is applying it once; an empty update
      changes nothing. */
  lemma {:induction false} UpdatePreferencesIdempotent(u: User, p: PreferencesUpdate)
    ensures UpdatePreferences(UpdatePreferences(u, p), p) == UpdatePreferences(u, p)
    ensures UpdatePreferences(u, PreferencesUpdate(None, None)) == u
  {
  }

  /** The reply of a follow or unfollow, with the new state. */
  datatype TopicReply = TopicReply(db: Db, message: string)

  function CategoryNotFound(): HttpError {
    HttpError(NotFound, "Category not found")
  }

  /** `POST /auth/preferences/topics/{id}`: an unknown category fails with
      404; a category already followed changes nothing; otherwise exactly
      that category is added to the user's followed topics. */
  function FollowTopic(db: Db, user: int, category: int): (r: Result<TopicReply, HttpError>)
    ensures r.Err? <==> FindCategory(db.categories, category).None?
    ensures r.Err? ==> r.error == CategoryNotFound()
    ensures r.Ok? && (user, category) in db.followedTopics ==>
              r.value == TopicReply(db, "Already following this topic")
    ensures r.Ok? && (user, category) !in db.followedTopics ==>
              && r.value.message == "Successfully followed " + FindCategory(db.categories, category).value.name
              && (forall p :: p in r.value.db.followedTopics <==> p in db.followedTopics || p == (user, category))
              && r.value.db.(followedTopics := db.followedTopics) == db
  {
    match FindCategory(db.categories, category)
    case None => Err(CategoryNotFound())
    case Some(c) =>
      if (user, category) in db.followedTopics then Ok(TopicReply(db, "Already following this topic"))
      else Ok(TopicReply(db.(followedTopics := db.followedTopics + {(user, category)}),
                         "Successfully followed " + c.name))
  }

  /** `DELETE /auth/preferences/topics/{id}`: an unknown category fails
      with 404; a category not followed changes nothing; otherwise exactly
      that category leaves the user's followed topics. */
  function UnfollowTopic(db: Db, user: int, category: int): (r: Result<TopicReply, HttpError>)
    ensures r.Err? <==> FindCategory(db.categories, category).None?
    ensures r.Err? ==> r.error == CategoryNotFound()
    ensures r.Ok? && (user, category) !in db.followedTopics ==>
              r.value == TopicReply(db, "Not following this topic")
    ensures r.Ok? && (user, category) in db.followedTopics ==>
              && r.value.message == "Successfully unfollowed " + FindCategory(db.categories, category).value.name
              && (forall p :: p in r.value.db.followedTopics <==> p in db.followedTopics && p != (user, category))
              && r.value.db.(followedTopics := db.followedTopics) == db
  {
    match FindCategory(db.categories, category)
    case None => Err(CategoryNotFound())
    case Some(c) =>
      if (user, category) !in db.followedTopics then Ok(TopicReply(db, "Not following this topic"))
      else Ok(TopicReply(db.(followedTopics := db.followedTopics - {(user, category)}),
                         "Successfully unfollowed " + c.name))
  }

  /** Following is idempotent, and following a topic not yet followed then
      unfollowing it restores the database. */
  lemma {:induction false} FollowUnfollowRoundTrip(db: Db, user: int, category: int)
    ensures var f := FollowTopic(db, user, category);
            f.Ok? ==> && FollowTopic(f.value.db, user, category).value.db == f.value.db
                      && (user, category) in f.value.db.followedTopics
    ensures var f := FollowTopic(db, user, category);
            f.Ok? && (user, category) !in db.followedTopics ==> UnfollowTopic(f.value.db, user, category).value.db == db
    ensures var u := UnfollowTopic(db, user, category);
            u.Ok? ==> (user, category) !in u.value.db.followedTopics
  {
    var f := FollowTopic(db, user, category);
    if f.Ok? && (user, category) !in db.followedTopics {
      assert db.followedTopics + {(user, category)} - {(user, category)} == db.followedTopics;
    }
  }
}

=== FILE: article_routes.dfy ===
/** The article endpoints (backend/app/routers/articles.py): the newest-first
    listing with its category and source-type filters, the search with its
    text, category, source-type and date filters, and reading one article.
    PostgreSQL's `ILIKE` is a parameter: whether a text matches a pattern,
    where `%` stands for any run of characters and letters match without
    regard to case. */
module ArticleRoutes {
  import opened Wrappers
  import opened Text
  import opened Records
  import Sorting
  import Pagination
  import Digests

  const MaxPageSize: int := 100

  /** `page >= 1` and `1 <= page_size <= 100`, as both endpoints declare. */
  predicate ValidPaging(page: int, pageSize: int) {
    page >= 1 && 1 <= pageSize <= MaxPageSize
  }

  // ---------------------------------------------------------------------
  // Filters
  // ---------------------------------------------------------------------

  /** A comma-separated list parameter: split on commas, each piece
      stripped (empty pieces stay). */
  function ParseList(s: string): (r: seq<string>)
    ensures |r| == |Split(s, ',')| && |r| >= 1
    ensures forall k :: 0 <= k < |r| ==> ',' !in r[k]
    ensures forall k :: 0 <= k < |r| ==> |r[k]| > 0 ==> !IsSpace(r[k][0]) && !IsSpace(r[k][|r[k]| - 1])
  {
    var parts := Split(s, ',');
    PiecesStripToSlices(parts, ',');
    seq(|parts|, k requires 0 <= k < |parts| => Strip(parts[k]))
  }

  /** Stripping the pieces of a split keeps the separator out of them. */
  lemma {:induction false} PiecesStripToSlices(parts: seq<string>, sep: char)
    requires forall k :: 0 <= k < |parts| ==> sep !in parts[k]
    ensures forall k :: 0 <= k < |parts| ==> sep !in Strip(parts[k])
  {
    forall k | 0 <= k < |parts| {
      StripIsSlice(parts[k]);
    }
  }

  /** A list entry that survives `strip` unchanged: empty, or trimmed. */
  predicate Bare(name: string) {
    name == "" || Trimmed(name)
  }

  /** Names free of commas and of surrounding whitespace, written as a
      comma-separated list, are read back exactly. */
  lemma {:induction false} ParseListRoundTrip(names: seq<string>)
    requires |names| >= 1
    requires forall k :: 0 <= k < |names| ==> ',' !in names[k] && Bare(names[k])
    ensures ParseList(JoinWith(names, ",")) == names
  {
    var joined := JoinWith(names, ",");
    JoinedListSplits(names);
    BareNamesStrip(names);
    ParseListPieces(joined);
  }

  /** Each entry of the parsed list is the strip of the matching piece. */
  lemma {:induction false} ParseListPieces(s: string)
    ensures forall k :: 0 <= k < |Split(s, ',')| ==> ParseList(s)[k] == Strip(Split(s, ',')[k])
  {
  }

  lemma {:induction false} JoinedListSplits(names: seq<string>)
    requires |names| >= 1
    requires forall k :: 0 <= k < |names| ==> ',' !in names[k]
    ensures Split(JoinWith(names, ","), ',') == names
  {
    assert JoinWith(names, ",") == Join(names, ',');
    JoinSplit(names, ',');
  }

  lemma {:induction false} BareNamesStrip(names: seq<string>)
    requires forall k :: 0 <= k < |names| ==> Bare(names[k])
    ensures forall k :: 0 <= k < |names| ==> Strip(names[k]) == names[k]
  {
    forall k | 0 <= k < |names| ensures Strip(names[k]) == names[k] {
      if names[k] != "" {
        StripUnchanged(names[k]);
      }
    }
  }

  /** The filters of one request; `None` means "not given". */
  datatype Filters = Filters(
    text: Option<string>,
    categories: Option<seq<string>>,
    sourceTypes: Option<seq<string>>,
    start: Option<int>,
    end: Option<int>)

  /** The listing's filters: a non-empty category name or source type is a
      one-element filter. */
  function ListFilters(category: Option<string>, sourceType: Option<string>): (f: Filters)
    ensures f.text.None? && f.start.None? && f.end.None?
    ensures f.categories.Some? <==> Truthy(category)
    ensures f.categories.Some? ==> f.categories.value == [category.value]
    ensures f.sourceTypes.Some? <==> Truthy(sourceType)
    ensures f.sourceTypes.Some? ==> f.sourceTypes.value == [sourceType.value]
  {
    Filters(None,
            if Truthy(category) then Some([category.value]) else None,
            if Truthy(sourceType) then Some([sourceType.value]) else None,
            None, None)
  }

  /** The search's filters: empty texts are not filters, list parameters
      are parsed, and dates always apply. */
  function SearchFilters(text: Option<string>, categories: Option<string>, sourceTypes: Option<string>,
                         start: Option<int>, end: Option<int>): (f: Filters)
    ensures f.text.Some? <==> Truthy(text)
    ensures f.text.Some? ==> f.text == text
    ensures f.categories.Some? <==> Truthy(categories)
    ensures f.categories.Some? ==> f.categories.value == ParseList(categories.value)
    ensures f.sourceTypes.Some? <==> Truthy(sourceTypes)
    ensures f.sourceTypes.Some? ==> f.sourceTypes.value == ParseList(sourceTypes.value)
    ensures f.start == start && f.end == end
  {
    Filters(if Truthy(text) then text else None,
            if Truthy(categories) then Some(ParseList(categories.value)) else None,
            if Truthy(sourceTypes) then Some(ParseList(sourceTypes.value)) else None,
            start, end)
  }

  /** The text search: the pattern `%text%` against the title, the content
      and, through the outer join, the two summary texts.  A missing
      content or summary is NULL and matches nothing. */
  predicate TextMatches(db: Db, text: string, a: Article, like: (string, string) -> bool) {
    var pattern := "%" + text + "%";
    || like(a.title, pattern)
    || (a.content.Some? && like(a.content.value, pattern))
    || (match Digests.FindSummary(db.summaries, a.id)
        case Some(s) => like(s.executiveSummary, pattern) || like(s.fullSummary, pattern)
        case None => false)
  }

  /** A date bound compares with the publication date, both ends included;
      an article without one is excluded by either bound. */
  predicate InDates(a: Article, start: Option<int>, end: Option<int>) {
    && (start.None? || (a.publishedAt.Some? && a.publishedAt.value >= start.value))
    && (end.None? || (a.publishedAt.Some? && a.publishedAt.value <= end.value))
  }

  /** Every filter except the category join. */
  predicate Passes(db: Db, f: Filters, a: Article, like: (string, string) -> bool) {
    && (f.text.None? || TextMatches(db, f.text.value, a, like))
    && (f.sourceTypes.None? || a.sourceType in f.sourceTypes.value)
    && InDates(a, f.start, f.end)
  }

  /** The categories of the article whose names are listed: the join on
      categories yields the article once for each. */
  function Named(db: Db, a: Article, names: seq<string>): (r: seq<Category>)
    ensures forall k :: 0 <= k < |r| ==> r[k] in db.categories && (a.id, r[k].id) in db.articleCategories && r[k].name in names
    ensures forall k :: (0 <= k < |db.categories| && (a.id, db.categories[k].id) in db.articleCategories
                         && db.categories[k].name in names) ==> db.categories[k] in r
  {
    Where(db.categories, (c: Category) => (a.id, c.id) in db.articleCategories && c.name in names)
  }

  /** An article the request asks for. */
  predicate Matches(db: Db, f: Filters, a: Article, like: (string, string) -> bool) {
    Passes(db, f, a, like) && (f.categories.None? || |Named(db, a, f.categories.value)| > 0)
  }

  /** How many rows the query yields for the article. */
  function Copies(db: Db, f: Filters, a: Article, like: (string, string) -> bool): (n: nat)
    ensures n > 0 <==> Matches(db, f, a, like)
  {
    if !Passes(db, f, a, like) then 0
    else if f.categories.None? then 1
    else |Named(db, a, f.categories.value)|
  }

  // ---------------------------------------------------------------------
  // The listing
  // ---------------------------------------------------------------------

  /** Each row of `s` repeated as often as `copies` says, in order. */
  function Expand<T>(s: seq<T>, copies: T -> nat): (r: seq<T>)
    ensures forall k :: 0 <= k < |r| ==> r[k] in s && copies(r[k]) > 0
    ensures forall k :: 0 <= k < |s| && copies(s[k]) > 0 ==> s[k] in r
  {
    if s == [] then []
    else
      var rest := Expand(s[1..], copies);
      assert forall k :: 1 <= k < |s| ==> s[k] == s[1..][k - 1];
      var here := seq(copies(s[0]), _ => s[0]);
      assert copies(s[0]) > 0 ==> here[0] == s[0];
      here + rest
  }

  /** The rows of the article query before ordering. */
  function Rows(db: Db, f: Filters, like: (string, string) -> bool): (r: seq<Article>)
    ensures forall k :: 0 <= k < |r| ==> r[k] in db.articles && Matches(db, f, r[k], like)
    ensures forall k :: 0 <= k < |db.articles| && Matches(db, f, db.articles[k], like) ==> db.articles[k] in r
  {
    Expand(db.articles, (a: Article) => Copies(db, f, a, like))
  }

  /** The articles the request asks for, each once, in table order. */
  function Matching(db: Db, f: Filters, like: (string, string) -> bool): (r: seq<Article>)
    ensures |r| <= |db.articles|
    ensures forall k :: 0 <= k < |r| ==> r[k] in db.articles && Matches(db, f, r[k], like)
    ensures forall k :: 0 <= k < |db.articles| && Matches(db, f, db.articles[k], like) ==> db.articles[k] in r
  {
    Where(db.articles, (a: Article) => Matches(db, f, a, like))
  }

  /** The matching articles, newest first. */
  function Newest(db: Db, f: Filters, like: (string, string) -> bool): (r: seq<Article>)
    ensures Sorting.SortedDesc(r, Digests.ArticleCreated)
    ensures |r| == |Matching(db, f, like)|
    ensures forall k :: 0 <= k < |r| ==> r[k] in db.articles && Matches(db, f, r[k], like)
    ensures forall k :: 0 <= k < |db.articles| && Matches(db, f, db.articles[k], like) ==> db.articles[k] in r
  {
    var m := Matching(db, f, like);
    var r := Sorting.SortDesc(m, Digests.ArticleCreated);
    Sorting.InSameMultiset(r, m);
    Sorting.InSameMultiset(m, r);
    r
  }

  datatype ArticlePage = ArticlePage(items: seq<Article>, total: nat, page: int, pageSize: int, totalPages: nat)

  /** One page of the articles a request asks for: paging parameters out
      of range are refused; otherwise the page of the matching articles,
      newest first, each counted and listed once, with the total and the
      page count. */
  function Listing(db: Db, f: Filters, like: (string, string) -> bool, page: int, pageSize: int): (r: Result<ArticlePage, HttpError>)
    ensures r.Err? <==> !ValidPaging(page, pageSize)
    ensures r.Err? ==> r.error == Rejected()
    ensures r.Ok? ==>
              && r.value.total == |Matching(db, f, like)|
              && r.value.page == page && r.value.pageSize == pageSize
              && r.value.totalPages == Pagination.TotalPages(r.value.total, pageSize)
              && |r.value.items| <= pageSize
              && Sorting.SortedDesc(r.value.items, Digests.ArticleCreated)
              && (forall k :: 0 <= k < |r.value.items| ==>
                    r.value.items[k] in db.articles && Matches(db, f, r.value.items[k], like))
  {
    if !ValidPaging(page, pageSize) then Err(Rejected())
    else
      var newest := Newest(db, f, like);
      var items := Pagination.Page(newest, page, pageSize);
      Pagination.PageOfSorted(newest, page, pageSize, Digests.ArticleCreated);
      Ok(ArticlePage(items, |newest|, page, pageSize, Pagination.TotalPages(|newest|, pageSize)))
  }

  /** Every matching article is on the page its rank gives, and that page
      is within the page count. */
  lemma {:induction false} ListingCoversAll(db: Db, f: Filters, like: (string, string) -> bool, pageSize: int, k: nat)
    requires 1 <= pageSize <= MaxPageSize && k < |Newest(db, f, like)|
    ensures var p := k / pageSize + 1;
            var r := Listing(db, f, like, p, pageSize);
            && r.Ok? && p <= r.value.totalPages
            && Newest(db, f, like)[k] in r.value.items
  {
    var newest := Newest(db, f, like);
    Pagination.RowOnItsPage(newest, pageSize, k);
    var p := k / pageSize + 1;
    assert Pagination.Page(newest, p, pageSize)[k % pageSize] == newest[k];
  }

  /** `GET /articles`. */
  function ListArticles(db: Db, page: int, pageSize: int, category: Option<string>, sourceType: Option<string>): (r: Result<ArticlePage, HttpError>)
    ensures r.Err? <==> !ValidPaging(page, pageSize)
    ensures r.Ok? ==> forall k :: 0 <= k < |r.value.items| ==>
              var a := r.value.items[k];
              && a in db.articles
              && (Truthy(sourceType) ==> a.sourceType == sourceType.value)
              && (Truthy(category) ==> FiledUnder(db, a, [category.value]))
  {
    var f := ListFilters(category, sourceType);
    var r := Listing(db, f, (t: string, p: string) => false, page, pageSize);
    if r.Ok? then ListedInCategory(db, f, r.value.items, (t: string, p: string) => false); r else r
  }

  /** The article is filed under a category with one of the names. */
  predicate FiledUnder(db: Db, a: Article, names: seq<string>) {
    exists c :: c in db.categories && (a.id, c.id) in db.articleCategories && c.name in names
  }

  lemma {:induction false} ListedInCategory(db: Db, f: Filters, items: seq<Article>, like: (string, string) -> bool)
    requires forall k :: 0 <= k < |items| ==> Matches(db, f, items[k], like)
    ensures f.categories.Some? ==> forall k :: 0 <= k < |items| ==> FiledUnder(db, items[k], f.categories.value)
  {
    if f.categories.Some? {
      forall k | 0 <= k < |items| ensures FiledUnder(db, items[k], f.categories.value) {
        assert Matches(db, f, items[k], like);
        var named := Named(db, items[k], f.categories.value);
        var c := named[0];
        assert c in db.categories && (items[k].id, c.id) in db.articleCategories && c.name in f.categories.value;
      }
    }
  }

  /** `GET /articles/search`, each matching article counted once. */
  function SearchArticles(db: Db, text: Option<string>, categories: Option<string>, sourceTypes: Option<string>,
                          start: Option<int>, end: Option<int>, page: int, pageSize: int,
                          like: (string, string) -> bool): (r: Result<ArticlePage, HttpError>)
    ensures r.Err? <==> !ValidPaging(page, pageSize)
    ensures r.Ok? ==> forall k :: 0 <= k < |r.value.items| ==>
              var a := r.value.items[k];
              && a in db.articles
              && (Truthy(text) ==> TextMatches(db, text.value, a, like))
              && (Truthy(sourceTypes) ==> a.sourceType in ParseList(sourceTypes.value))
              && (Truthy(categories) ==> FiledUnder(db, a, ParseList(categories.value)))
              && InDates(a, start, end)
  {
    var f := SearchFilters(text, categories, sourceTypes, start, end);
    var r := Listing(db, f, like, page, pageSize);
    if r.Ok? then ListedInCategory(db, f, r.value.items, like); r else r
  }

  /** The search as written: the query counts its joined rows, one per
      matching article and requested category it is filed under, while
      each fetched page returns every article once. */
  function SearchAsWritten(db: Db, f: Filters, like: (string, string) -> bool, page: int, pageSize: int): (r: Result<ArticlePage, HttpError>)
    ensures r.Err? <==> !ValidPaging(page, pageSize)
    ensures r.Ok? ==> && r.value.total == |Rows(db, f, like)|
                      && |r.value.items| <= pageSize
                      && (forall k :: 0 <= k < |r.value.items| ==> Matches(db, f, r.value.items[k], like))
  {
    if !ValidPaging(page, pageSize) then Err(Rejected())
    else
      var rows := Sorting.SortDesc(Rows(db, f, like), Digests.ArticleCreated);
      var items := Digests.FirstBy(Pagination.Page(rows, page, pageSize), ArticleId, {});
      FetchedMatch(db, f, like, rows, page, pageSize);
      Ok(ArticlePage(items, |rows|, page, pageSize, Pagination.TotalPages(|rows|, pageSize)))
  }

  /** The distinct articles of a page of the joined rows are at most a
      page and each matches the request. */
  lemma {:induction false} FetchedMatch(db: Db, f: Filters, like: (string, string) -> bool, rows: seq<Article>, page: int, pageSize: int)
    requires page >= 1 && pageSize >= 1
    requires multiset(rows) == multiset(Rows(db, f, like))
    ensures var items := Digests.FirstBy(Pagination.Page(rows, page, pageSize), ArticleId, {});
            && |items| <= pageSize
            && forall k :: 0 <= k < |items| ==> Matches(db, f, items[k], like)
  {
    var fetched := Pagination.Page(rows, page, pageSize);
    var items := Digests.FirstBy(fetched, ArticleId, {});
    Sorting.InSameMultiset(rows, Rows(db, f, like));
    forall k | 0 <= k < |items| ensures Matches(db, f, items[k], like) {
      var m :| 0 <= m < |fetched| && fetched[m] == items[k];
      assert fetched[m] in rows;
    }
  }

  /** An article filed under two requested categories, alone in its table,
      is counted twice and shown on both pages of size one; counted once,
      it fills one page and the second is empty. */
  lemma {:induction false} SearchCountFinding(db: Db, f: Filters, like: (string, string) -> bool, a: Article, c1: Category, c2: Category)
    requires db.articles == [a] && db.categories == [c1, c2] && c1.id != c2.id
    requires (a.id, c1.id) in db.articleCategories && (a.id, c2.id) in db.articleCategories
    requires f.categories.Some? && c1.name in f.categories.value && c2.name in f.categories.value
    requires Passes(db, f, a, like)
    ensures var p1 := SearchAsWritten(db, f, like, 1, 1);
            var p2 := SearchAsWritten(db, f, like, 2, 1);
            && p1.Ok? && p2.Ok?
            && p1.value.total == 2 && p1.value.totalPages == 2
            && p1.value.items == [a] && p2.value.items == [a]
    ensures var q1 := Listing(db, f, like, 1, 1);
            var q2 := Listing(db, f, like, 2, 1);
            && q1.Ok? && q2.Ok?
            && q1.value.total == 1 && q1.value.totalPages == 1
            && q1.value.items == [a] && q2.value.items == []
  {
    NamedBoth(db, a, f.categories.value, c1, c2);
    RowsTwice(db, f, like, a);
    TwoRowsTwoPages(db, f, like, a);
    NewestOnce(db, f, like, a);
  }

  /** Two joined rows of one article fill two pages of size one, each
      showing the article. */
  lemma {:induction false} TwoRowsTwoPages(db: Db, f: Filters, like: (string, string) -> bool, a: Article)
    requires Rows(db, f, like) == [a, a]
    ensures var p1 := SearchAsWritten(db, f, like, 1, 1);
            var p2 := SearchAsWritten(db, f, like, 2, 1);
            && p1.Ok? && p2.Ok?
            && p1.value.total == 2 && p1.value.totalPages == 2
            && p1.value.items == [a] && p2.value.items == [a]
  {
    SortTwice(a, Digests.ArticleCreated);
    PagesOfTwo(a);
    OnlyOnce(a);
  }

  lemma {:induction false} SortTwice<T>(a: T, key: T -> real)
    ensures Sorting.SortDesc([a, a], key) == [a, a]
  {
    assert [a, a][1..] == [a];
    assert [a][1..] == [];
    assert Sorting.SortDesc([a], key) == [a];
  }

  lemma {:induction false} PagesOfTwo<T>(a: T)
    ensures Pagination.Page([a, a], 1, 1) == [a] && Pagination.Page([a, a], 2, 1) == [a]
  {
    assert Pagination.Offset(1, 1) == 0 && Pagination.Offset(2, 1) == 1;
  }

  lemma {:induction false} OnlyOnce(a: Article)
    ensures Digests.FirstBy([a], ArticleId, {}) == [a]
  {
    assert [a][1..] == [];
  }

  lemma {:induction false} NamedBoth(db: Db, a: Article, names: seq<string>, c1: Category, c2: Category)
    requires db.categories == [c1, c2]
    requires (a.id, c1.id) in db.articleCategories && (a.id, c2.id) in db.articleCategories
    requires c1.name in names && c2.name in names
    ensures Named(db, a, names) == [c1, c2]
  {
    var keep := (c: Category) => (a.id, c.id) in db.articleCategories && c.name in names;
    assert [c1, c2][1..] == [c2];
    assert Where([c2], keep) == [c2];
    assert Where([c1, c2], keep) == [c1] + Where([c2], keep);
  }

  lemma {:induction false} RowsTwice(db: Db, f: Filters, like: (string, string) -> bool, a: Article)
    requires db.articles == [a] && Copies(db, f, a, like) == 2
    ensures Rows(db, f, like) == [a, a]
  {
    var copies := (x: Article) => Copies(db, f, x, like);
    assert [a][1..] == [];
    assert Expand([a], copies) == seq(2, _ => a) + Expand([], copies);
  }

  lemma {:induction false} NewestOnce(db: Db, f: Filters, like: (string, string) -> bool, a: Article)
    requires db.articles == [a] && Matches(db, f, a, like)
    ensures Matching(db, f, like) == [a] && Newest(db, f, like) == [a]
    ensures Listing(db, f, like, 1, 1).value.items == [a]
    ensures Listing(db, f, like, 2, 1).value.items == []
  {
    var keep := (x: Article) => Matches(db, f, x, like);
    assert [a][1..] == [];
    assert Where([a], keep) == [a] + Where([], keep);
    var newest := Newest(db, f, like);
    assert newest[0] in db.articles;
    Pagination.PastLastPageEmpty(newest, 2, 1);
  }

  // ---------------------------------------------------------------------
  // One article
  // ---------------------------------------------------------------------

  /** An article with its summary and categories; related articles are
      always reported as none. */
  datatype ArticleDetail = ArticleDetail(article: Article, summary: Option<Summary>, categories: seq<Category>, relatedCount: nat)

  function ArticleNotFound(id: int): HttpError {
    HttpError(NotFound, "Article with id " + IntToString(id) + " not found")
  }

  /** `GET /articles/{id}`: 404 naming the id when no article has it (the
      handler passes its own 404 through rather than turning it into a
      500); otherwise the article with its summary and exactly its
      categories. */
  function GetArticle(db: Db, id: int): (r: Result<ArticleDetail, HttpError>)
    ensures r.Err? <==> forall k :: 0 <= k < |db.articles| ==> db.articles[k].id != id
    ensures r.Err? ==> r.error == ArticleNotFound(id)
    ensures r.Ok? ==>
              && r.value.article in db.articles && r.value.article.id == id
              && r.value.relatedCount == 0
              && (r.value.summary.Some? ==> r.value.summary.value in db.summaries && r.value.summary.value.articleId == id)
              && (r.value.summary.None? ==> forall k :: 0 <= k < |db.summaries| ==> db.summaries[k].articleId != id)
              && (forall k :: 0 <= k < |r.value.categories| ==>
                    r.value.categories[k] in db.categories && (id, r.value.categories[k].id) in db.articleCategories)
              && (forall k :: 0 <= k < |db.categories| && (id, db.categories[k].id) in db.articleCategories ==>
                    db.categories[k] in r.value.categories)
  {
    match FindArticle(db.articles, id)
    case None => Err(ArticleNotFound(id))
    case Some(a) =>
      Ok(ArticleDetail(a, Digests.FindSummary(db.summaries, id), Digests.CategoriesOf(db.categories, db.articleCategories, id), 0))
  }

  /** With distinct ids, reading an article by the id of a row gives that
      row, and the listing it appears in lists the same row. */
  lemma {:induction false} GetArticleFindsRow(db: Db, k: nat)
    requires DistinctBy(db.articles, ArticleId) && k < |db.articles|
    ensures GetArticle(db, db.articles[k].id).Ok?
    ensures GetArticle(db, db.articles[k].id).value.article == db.articles[k]
  {
    FindArticleUnique(db.articles, db.articles[k].id, k);
  }
}

=== FILE: categories.dfy ===
/** Category management (backend/app/routers/categories.py): creating,
    updating and deleting one category, assigning categories to many
    articles at once, merging one category into another and removing the
    categories no article uses.  A new row gets an id larger than every id
    in use, standing in for the database's autoincrement. */
module Categories {
  import opened Wrappers
  import opened Text
  import opened Records
  import Schemas

  predicate NameInUse(cats: seq<Category>, name: string) {
    exists k :: 0 <= k < |cats| && cats[k].name == name
  }

  function NameTaken(name: string): HttpError {
    HttpError(BadRequest, "Category '" + name + "' already exists")
  }

  // ---------------------------------------------------------------------
  // Create, update, delete

  /** `POST /categories`: a name over 100 characters or a colour that is
      not `#` and six hex digits is refused with 422 before the handler
      runs; a name already in use then fails with 400 and adds nothing;
      otherwise the table grows by exactly the new category, under an id no
      other row has. */
  function CreateCategory(cats: seq<Category>, name: string, description: Option<string>, color: Option<string>)
    : (r: Result<seq<Category>, HttpError>)
    ensures !Schemas.ValidCategory(name, color) ==> r == Err(Rejected())
    ensures r.Err? <==> !Schemas.ValidCategory(name, color) || NameInUse(cats, name)
    ensures Schemas.ValidCategory(name, color) && r.Err? ==> r.error == NameTaken(name)
    ensures r.Ok? ==> |r.value| == |cats| + 1 && r.value[..|cats|] == cats
    ensures r.Ok? ==> var c := r.value[|cats|];
              && c.name == name && c.description == description && c.color == color
              && forall k :: 0 <= k < |cats| ==> cats[k].id != c.id
  {
    if !Schemas.ValidCategory(name, color) then Err(Rejected())
    else if NameInUse(cats, name) then Err(NameTaken(name))
    else Ok(cats + [Category(NextKey(cats, CategoryId), name, description, color)])
  }

  /** Creating keeps category ids and names unique, and creating the same
      name a second time fails. */
  lemma {:induction false} CreateKeepsUnique(cats: seq<Category>, name: string, description: Option<string>, color: Option<string>)
    requires DistinctBy(cats, CategoryId) && DistinctBy(cats, CategoryName)
    ensures var r := CreateCategory(cats, name, description, color);
            r.Ok? ==> && DistinctBy(r.value, CategoryId) && DistinctBy(r.value, CategoryName)
                      && CreateCategory(r.value, name, description, color) == Err(NameTaken(name))
  {
    var r := CreateCategory(cats, name, description, color);
    if r.Ok? {
      var c := r.value[|cats|];
      assert r.value == cats + [c];
      AppendDistinct(cats, c, CategoryId);
      AppendDistinct(cats, c, CategoryName);
      assert r.value[|cats|].name == name;
    }
  }

  /** The fields of `PATCH /categories/{id}`; `None` means "not given". */
  datatype CategoryUpdate = CategoryUpdate(name: Option<string>, description: Option<string>, color: Option<string>)

  /** The category with every given field overwritten. */
  function Apply(c: Category, u: CategoryUpdate): Category {
    c.(name := u.name.GetOr(c.name),
       description := if u.description.Some? then u.description else c.description,
       color := if u.color.Some? then u.color else c.color)
  }

  /** The position of the first row with id `id` (the row `.first()` returns). */
  function IndexOf(cats: seq<Category>, id: int): (r: Option<nat>)
    ensures r.Some? ==> r.value < |cats| && cats[r.value].id == id
                        && forall k :: 0 <= k < r.value ==> cats[k].id != id
    ensures r.None? <==> forall k :: 0 <= k < |cats| ==> cats[k].id != id
  {
    if cats == [] then None
    else if cats[0].id == id then Some(0)
    else
      var rest := IndexOf(cats[1..], id);
      assert forall k :: 1 <= k < |cats| ==> cats[k] == cats[1..][k - 1];
      if rest.Some? then Some(rest.value + 1) else None
  }

  /** Some row other than category `id` has this name. */
  predicate NameTakenByOther(cats: seq<Category>, name: string, id: int) {
    exists k :: 0 <= k < |cats| && cats[k].name == name && cats[k].id != id
  }

  /** The update is refused with 400 because its new name belongs to
      another category. */
  predicate Clashes(cats: seq<Category>, id: int, u: CategoryUpdate) {
    u.name.Some? && NameTakenByOther(cats, u.name.value, id)
  }

  /** `PATCH /categories/{id}`: an unknown id fails with 404, a new name
      held by a different category fails with 400; otherwise the found row
      takes every given field and keeps the others, and no other row
      changes.  Giving a category its own name again is not a clash. */
  function UpdateCategory(cats: seq<Category>, id: int, u: CategoryUpdate): (r: Result<seq<Category>, HttpError>)
    ensures IndexOf(cats, id).None? ==> r == Err(HttpError(NotFound, "Category not found"))
    ensures IndexOf(cats, id).Some? && Clashes(cats, id, u) ==> r == Err(NameTaken(u.name.value))
    ensures r.Ok? <==> IndexOf(cats, id).Some? && !Clashes(cats, id, u)
    ensures r.Ok? ==>
              var k := IndexOf(cats, id).value;
              && |r.value| == |cats|
              && (forall m :: 0 <= m < |cats| && m != k ==> r.value[m] == cats[m])
              && r.value[k].id == id
              && r.value[k].name == (if u.name.Some? then u.name.value else cats[k].name)
              && r.value[k].description == (if u.description.Some? then u.description else cats[k].description)
              && r.value[k].color == (if u.color.Some? then u.color else cats[k].color)
  {
    match IndexOf(cats, id)
    case None => Err(HttpError(NotFound, "Category not found"))
    case Some(k) =>
      if Clashes(cats, id, u) then Err(NameTaken(u.name.value))
      else Ok(cats[k := Apply(cats[k], u)])
  }

  /** Updating keeps ids and names unique. */
  lemma {:induction false} UpdateKeepsUnique(cats: seq<Category>, id: int, u: CategoryUpdate)
    requires DistinctBy(cats, CategoryId) && DistinctBy(cats, CategoryName)
    ensures var r := UpdateCategory(cats, id, u);
            r.Ok? ==> DistinctBy(r.value, CategoryId) && DistinctBy(r.value, CategoryName)
  {
    var r := UpdateCategory(cats, id, u);
    if r.Ok? {
      var k := IndexOf(cats, id).value;
      var after := r.value;
      forall i, j | 0 <= i < j < |after| ensures CategoryName(after[i]) != CategoryName(after[j]) {
        if i == k && u.name.Some? {
          assert cats[j].id != id;
        } else if j == k && u.name.Some? {
          assert cats[i].id != id;
        } else {
          assert CategoryName(cats[i]) != CategoryName(cats[j]);
        }
      }
      assert forall m :: 0 <= m < |after| ==> CategoryId(after[m]) == CategoryId(cats[m]);
    }
  }

  /** Fields are overwritten, not accumulated: a second identical update
      changes nothing, and an update giving no field changes nothing at all. */
  lemma {:induction false} UpdateIdempotent(cats: seq<Category>, id: int, u: CategoryUpdate)
    ensures var r := UpdateCategory(cats, id, u);
            r.Ok? ==> UpdateCategory(r.value, id, u) == r
    ensures IndexOf(cats, id).Some? && u == CategoryUpdate(None, None, None) ==> UpdateCategory(cats, id, u) == Ok(cats)
  {
    var r := UpdateCategory(cats, id, u);
    if r.Ok? {
      var k := IndexOf(cats, id).value;
      var after := r.value;
      assert forall m :: 0 <= m < |cats| ==> after[m].id == cats[m].id;
      assert IndexOf(after, id) == Some(k);
      assert forall m :: 0 <= m < |after| && after[m].id != id ==> after[m] == cats[m];
      assert Apply(after[k], u) == after[k];
      assert after[k := Apply(after[k], u)] == after;
    }
    if IndexOf(cats, id).Some? && u == CategoryUpdate(None, None, None) {
      var k := IndexOf(cats, id).value;
      assert Apply(cats[k], u) == cats[k];
      assert cats[k := cats[k]] == cats;
    }
  }

  /** Removing the categories whose ids are in `gone`: the rows go, and so
      do their rows in both association tables that point at a category. */
  function DropCategories(db: Db, gone: set<int>): (r: Db)
    ensures forall k :: 0 <= k < |r.categories| ==> r.categories[k] in db.categories && r.categories[k].id !in gone
    ensures forall k :: 0 <= k < |db.categories| && db.categories[k].id !in gone ==> db.categories[k] in r.categories
    ensures forall p :: p in r.articleCategories <==> p in db.articleCategories && p.1 !in gone
    ensures forall p :: p in r.followedTopics <==> p in db.followedTopics && p.1 !in gone
    ensures r.articles == db.articles && r.summaries == db.summaries && r.embeddings == db.embeddings
    ensures r.connections == db.connections && r.users == db.users && r.digests == db.digests
    ensures r.savedArticles == db.savedArticles
    ensures multiset(r.categories) <= multiset(db.categories)
  {
    WhereSubMultiset(db.categories, (c: Category) => c.id !in gone);
    db.(categories := Where(db.categories, (c: Category) => c.id !in gone),
        articleCategories := (set p | p in db.articleCategories && p.1 !in gone),
        followedTopics := (set p | p in db.followedTopics && p.1 !in gone))
  }

  lemma {:induction false} DropKeepsUnique(db: Db, gone: set<int>)
    requires Unique(db)
    ensures Unique(DropCategories(db, gone))
  {
    WhereKeepsDistinct(db.categories, (c: Category) => c.id !in gone, CategoryId);
    WhereKeepsDistinct(db.categories, (c: Category) => c.id !in gone, CategoryName);
  }

  /** The reply of a successful delete: the new state and its message. */
  datatype Deleted = Deleted(db: Db, message: string)

  /** `DELETE /categories/{id}`: an unknown id fails with 404; otherwise the
      category is gone together with its article and follower links, and
      nothing about articles or users changes. */
  function DeleteCategory(db: Db, id: int): (r: Result<Deleted, HttpError>)
    ensures r.Err? <==> FindCategory(db.categories, id).None?
    ensures r.Err? ==> r.error == HttpError(NotFound, "Category not found")
    ensures r.Ok? ==>
              && r.value.message == "Category '" + FindCategory(db.categories, id).value.name + "' deleted successfully"
              && (forall k :: 0 <= k < |r.value.db.categories| ==> r.value.db.categories[k].id != id)
              && (forall k :: 0 <= k < |db.categories| && db.categories[k].id != id ==> db.categories[k] in r.value.db.categories)
              && (forall p :: p in r.value.db.articleCategories <==> p in db.articleCategories && p.1 != id)
              && (forall p :: p in r.value.db.followedTopics <==> p in db.followedTopics && p.1 != id)
              && r.value.db.articles == db.articles && r.value.db.users == db.users
  {
    match FindCategory(db.categories, id)
    case None => Err(HttpError(NotFound, "Category not found"))
    case Some(c) => Ok(Deleted(DropCategories(db, {id}), "Category '" + c.name + "' deleted successfully"))
  }

  // ---------------------------------------------------------------------
  // Bulk assignment

  /** The rows whose key is among `ids` (a query with `.in_(ids)`). */
  function KeyedIn<T>(s: seq<T>, key: T -> int, ids: seq<int>): (r: seq<T>)
    ensures |r| <= |s|
    ensures forall k :: 0 <= k < |r| ==> r[k] in s && key(r[k]) in ids
    ensures forall k :: 0 <= k < |s| && key(s[k]) in ids ==> s[k] in r
  {
    Where(s, (x: T) => key(x) in ids)
  }

  lemma {:induction false} KeyedInDistinct<T>(s: seq<T>, key: T -> int, ids: seq<int>)
    requires DistinctBy(s, key)
    ensures DistinctBy(KeyedIn(s, key, ids), key)
  {
    WhereKeepsDistinct(s, (x: T) => key(x) in ids, key);
  }

  /** In a table with distinct keys, a query by a list of ids returns as
      many rows as the list has entries exactly when the list repeats no
      id and names only existing rows: the count comparison of the bulk
      endpoint is a test for "all found, no duplicates". */
  lemma {:induction false} FoundCountExact<T>(s: seq<T>, key: T -> int, ids: seq<int>)
    requires DistinctBy(s, key)
    ensures |KeyedIn(s, key, ids)| == |ids| <==> NoDuplicates(ids) && forall x :: x in ids ==> x in Keys(s, key)
  {
    var r := KeyedIn(s, key, ids);
    KeyedInDistinct(s, key, ids);
    DistinctKeysCount(r, key);
    var found := Keys(r, key);
    var wanted := Elements(ids);
    ElementsCard(ids);
    assert found <= wanted by {
      forall x | x in found ensures x in wanted {
        var k :| 0 <= k < |r| && key(r[k]) == x;
      }
    }
    SubsetCard(found, wanted);
    if |r| == |ids| {
      forall x | x in ids ensures x in Keys(s, key) {
        assert x in found;
        var k :| 0 <= k < |r| && key(r[k]) == x;
        var m :| 0 <= m < |s| && s[m] == r[k];
      }
    }
    if NoDuplicates(ids) && forall x :: x in ids ==> x in Keys(s, key) {
      assert wanted <= found by {
        forall x | x in wanted ensures x in found {
          var m :| 0 <= m < |s| && key(s[m]) == x;
          var k :| 0 <= k < |r| && r[k] == s[m];
        }
      }
      assert found == wanted;
    }
  }

  /** The article–category pairs of every listed article with every listed
      category. */
  function Pairs(arts: set<int>, cats: set<int>): (r: set<(int, int)>)
    ensures forall p :: p in r <==> p.0 in arts && p.1 in cats
  {
    var r := set a, c | a in arts && c in cats :: (a, c);
    assert forall p: (int, int) :: p.0 in arts && p.1 in cats ==> p in r by {
      forall a, c | a in arts && c in cats ensures (a, c) in r {
      }
    }
    r
  }

  /** The reply of a bulk assignment: the new article–category table and
      `updated_count`. */
  datatype Assigned = Assigned(links: set<(int, int)>, updatedCount: nat)

  predicate KnownMode(mode: string) {
    mode == "replace" || mode == "add" || mode == "remove"
  }

  /** `POST /categories/bulk/assign`: 404 unless the queries find as many
      articles and categories as ids were sent.  Then every found article's
      categories become exactly the found categories ("replace"), gain them
      ("add") or lose every listed id ("remove"); articles not found keep
      theirs.  Any other mode changes nothing and reports 0 updated. */
  function BulkAssign(db: Db, articleIds: seq<int>, categoryIds: seq<int>, mode: string): (r: Result<Assigned, HttpError>)
    ensures |KeyedIn(db.articles, ArticleId, articleIds)| != |articleIds| ==>
              r == Err(HttpError(NotFound, "Some articles not found"))
    ensures |KeyedIn(db.articles, ArticleId, articleIds)| == |articleIds|
            && |KeyedIn(db.categories, CategoryId, categoryIds)| != |categoryIds| ==>
              r == Err(HttpError(NotFound, "Some categories not found"))
    ensures r.Ok? <==> |KeyedIn(db.articles, ArticleId, articleIds)| == |articleIds|
                       && |KeyedIn(db.categories, CategoryId, categoryIds)| == |categoryIds|
    ensures r.Ok? ==> r.value.updatedCount == if KnownMode(mode) then |articleIds| else 0
    ensures r.Ok? && mode == "replace" ==>
              forall p :: p in r.value.links <==>
                if p.0 in articleIds && p.0 in Keys(db.articles, ArticleId)
                then p.1 in categoryIds && p.1 in Keys(db.categories, CategoryId)
                else p in db.articleCategories
    ensures r.Ok? && mode == "add" ==>
              forall p :: p in r.value.links <==>
                || p in db.articleCategories
                || (p.0 in articleIds && p.0 in Keys(db.articles, ArticleId)
                    && p.1 in categoryIds && p.1 in Keys(db.categories, CategoryId))
    ensures r.Ok? && mode == "remove" ==>
              forall p :: p in r.value.links <==>
                p in db.articleCategories && !(p.0 in articleIds && p.0 in Keys(db.articles, ArticleId) && p.1 in categoryIds)
    ensures r.Ok? && !KnownMode(mode) ==> r.value.links == db.articleCategories
  {
    var arts := KeyedIn(db.articles, ArticleId, articleIds);
    var cats := KeyedIn(db.categories, CategoryId, categoryIds);
    if |arts| != |articleIds| then Err(HttpError(NotFound, "Some articles not found"))
    else if |cats| != |categoryIds| then Err(HttpError(NotFound, "Some categories not found"))
    else
      var a := Keys(arts, ArticleId);
      var c := Keys(cats, CategoryId);
      FoundKeys(db.articles, ArticleId, articleIds);
      FoundKeys(db.categories, CategoryId, categoryIds);
      Ok(Assigned(Reassign(db.articleCategories, a, c, Elements(categoryIds), mode),
                  if KnownMode(mode) then |arts| else 0))
  }

  /** The loop of the bulk endpoint on the link table: `arts` are the found
      articles, `cats` the found categories and `listed` the requested
      category ids. */
  function Reassign(links: set<(int, int)>, arts: set<int>, cats: set<int>, listed: set<int>, mode: string)
    : (r: set<(int, int)>)
    ensures mode == "replace" ==> forall p :: p in r <==> if p.0 in arts then p.1 in cats else p in links
    ensures mode == "add" ==> forall p :: p in r <==> p in links || (p.0 in arts && p.1 in cats)
    ensures mode == "remove" ==> forall p :: p in r <==> p in links && !(p.0 in arts && p.1 in listed)
    ensures !KnownMode(mode) ==> r == links
  {
    if mode == "replace" then (set p | p in links && p.0 !in arts) + Pairs(arts, cats)
    else if mode == "add" then links + Pairs(arts, cats)
    else if mode == "remove" then links - Pairs(arts, listed)
    else links
  }

  /** Adding twice is adding once, replacing twice is replacing once, and
      removing after adding the same ids is removing alone (when the
      removed ids include the added ones). */
  lemma {:induction false} ReassignRepeats(links: set<(int, int)>, arts: set<int>, cats: set<int>, listed: set<int>)
    requires cats <= listed
    ensures var added := Reassign(links, arts, cats, listed, "add");
            && Reassign(added, arts, cats, listed, "add") == added
            && Reassign(added, arts, cats, listed, "remove") == Reassign(links, arts, cats, listed, "remove")
    ensures var replaced := Reassign(links, arts, cats, listed, "replace");
            Reassign(replaced, arts, cats, listed, "replace") == replaced
  {
    var added := Reassign(links, arts, cats, listed, "add");
    assert Reassign(added, arts, cats, listed, "add") == added;
    assert Reassign(added, arts, cats, listed, "remove") == Reassign(links, arts, cats, listed, "remove");
    var replaced := Reassign(links, arts, cats, listed, "replace");
    assert Reassign(replaced, arts, cats, listed, "replace") == replaced;
  }

  /** The keys of the rows a query by ids finds are the listed ids that
      some row has. */
  lemma {:induction false} FoundKeys<T>(s: seq<T>, key: T -> int, ids: seq<int>)
    ensures forall x :: x in Keys(KeyedIn(s, key, ids), key) <==> x in ids && x in Keys(s, key)
  {
    var r := KeyedIn(s, key, ids);
    forall x | x in ids && x in Keys(s, key) ensures x in Keys(r, key) {
      var m :| 0 <= m < |s| && key(s[m]) == x;
      var k :| 0 <= k < |r| && r[k] == s[m];
    }
    forall x | x in Keys(r, key) ensures x in ids && x in Keys(s, key) {
      var k :| 0 <= k < |r| && key(r[k]) == x;
      var m :| 0 <= m < |s| && s[m] == r[k];
    }
  }

  /** On a database with unique ids, a bulk assignment goes ahead exactly
      when both id lists are free of repeats and name existing rows. */
  lemma {:induction false} BulkAssignSucceedsExactly(db: Db, articleIds: seq<int>, categoryIds: seq<int>, mode: string)
    requires Unique(db)
    ensures BulkAssign(db, articleIds, categoryIds, mode).Ok? <==>
              && NoDuplicates(articleIds) && (forall x :: x in articleIds ==> x in Keys(db.articles, ArticleId))
              && NoDuplicates(categoryIds) && (forall x :: x in categoryIds ==> x in Keys(db.categories, CategoryId))
  {
    FoundCountExact(db.articles, ArticleId, articleIds);
    FoundCountExact(db.categories, CategoryId, categoryIds);
  }

  /** Through the endpoint: "add" and "replace" are idempotent, and
      "remove" after "add" with the same ids is "remove" alone. */
  lemma {:induction false} BulkAssignRepeats(db: Db, articleIds: seq<int>, categoryIds: seq<int>)
    ensures var r := BulkAssign(db, articleIds, categoryIds, "add");
            r.Ok? ==> && BulkAssign(db.(articleCategories := r.value.links), articleIds, categoryIds, "add") == r
                      && BulkAssign(db.(articleCategories := r.value.links), articleIds, categoryIds, "remove")
                         == BulkAssign(db, articleIds, categoryIds, "remove")
    ensures var r := BulkAssign(db, articleIds, categoryIds, "replace");
            r.Ok? ==> BulkAssign(db.(articleCategories := r.value.links), articleIds, categoryIds, "replace") == r
  {
    var arts := KeyedIn(db.articles, ArticleId, articleIds);
    var cats := KeyedIn(db.categories, CategoryId, categoryIds);
    if |arts| == |articleIds| && |cats| == |categoryIds| {
      FoundKeys(db.categories, CategoryId, categoryIds);
      ReassignRepeats(db.articleCategories, Keys(arts, ArticleId), Keys(cats, CategoryId), Elements(categoryIds));
    }
  }

  // ---------------------------------------------------------------------
  // Merge

  /** The articles that carry category `cid`. */
  function Holders(articles: seq<Article>, links: set<(int, int)>, cid: int): (r: seq<Article>)
    ensures forall k :: 0 <= k < |r| ==> r[k] in articles && (r[k].id, cid) in links
    ensures forall k :: 0 <= k < |articles| && (articles[k].id, cid) in links ==> articles[k] in r
  {
    Where(articles, (a: Article) => (a.id, cid) in links)
  }

  /** An article is among the holders exactly when it carries the category. */
  lemma {:induction false} HoldersKeys(articles: seq<Article>, links: set<(int, int)>, cid: int)
    ensures forall k :: 0 <= k < |articles| ==>
              ((articles[k].id, cid) in links <==> articles[k].id in Keys(Holders(articles, links, cid), ArticleId))
  {
    var r := Holders(articles, links, cid);
    forall k | 0 <= k < |articles| && (articles[k].id, cid) in links
      ensures articles[k].id in Keys(r, ArticleId)
    {
      var j :| 0 <= j < |r| && r[j] == articles[k];
      assert ArticleId(r[j]) == articles[k].id;
    }
  }

  /** The links of the articles in `moved` switched from `source` to
      `target`; all other links as they were. */
  function MoveLinks(links: set<(int, int)>, moved: set<int>, source: int, target: int): (r: set<(int, int)>)
    ensures forall p :: p in r <==> || (p in links && !(p.0 in moved && p.1 == source))
                                    || (p.0 in moved && p.1 == target)
  {
    (set p | p in links && !(p.0 in moved && p.1 == source)) + Pairs(moved, {target})
  }

  /** The reply of a merge, with the new state. */
  datatype Merged = Merged(db: Db, sourceName: string, targetName: string, affected: nat, sourceDeleted: bool)

  /** The links after the holders of `source` are moved to `target`. */
  function MoveHolders(db: Db, source: int, target: int): (r: Db)
    requires source != target
    ensures var moved := Keys(Holders(db.articles, db.articleCategories, source), ArticleId);
            && (forall k :: 0 <= k < |db.articles| && (db.articles[k].id, source) in db.articleCategories ==>
                  (db.articles[k].id, target) in r.articleCategories && (db.articles[k].id, source) !in r.articleCategories)
            && (forall p: (int, int) :: p.1 != source && p.1 != target ==> (p in r.articleCategories <==> p in db.articleCategories))
            && (forall p: (int, int) :: p.1 == target ==> (p in r.articleCategories <==> p in db.articleCategories || p.0 in moved))
    ensures r == db.(articleCategories := r.articleCategories)
  {
    var holders := Holders(db.articles, db.articleCategories, source);
    HoldersKeys(db.articles, db.articleCategories, source);
    db.(articleCategories := MoveLinks(db.articleCategories, Keys(holders, ArticleId), source, target))
  }

  /** The state a merge commits: the holders of `source` moved to
      `target`, and the source row (with its links and follows) dropped
      when asked; nothing else changes. */
  function MergeState(db: Db, source: int, target: int, deleteSource: bool): (r: Db)
    requires source != target
    ensures var moved := Keys(Holders(db.articles, db.articleCategories, source), ArticleId);
            && (forall k :: 0 <= k < |db.articles| && (db.articles[k].id, source) in db.articleCategories ==>
                  (db.articles[k].id, target) in r.articleCategories && (db.articles[k].id, source) !in r.articleCategories)
            && (forall p: (int, int) :: p.1 != source && p.1 != target ==> (p in r.articleCategories <==> p in db.articleCategories))
            && (forall p: (int, int) :: p.1 == target ==> (p in r.articleCategories <==> p in db.articleCategories || p.0 in moved))
    ensures deleteSource ==>
              && (forall k :: 0 <= k < |r.categories| ==> r.categories[k] in db.categories && r.categories[k].id != source)
              && (forall k :: 0 <= k < |db.categories| && db.categories[k].id != source ==> db.categories[k] in r.categories)
              && multiset(r.categories) <= multiset(db.categories)
    ensures !deleteSource ==> r.categories == db.categories
    ensures forall p :: p in r.followedTopics <==> p in db.followedTopics && !(deleteSource && p.1 == source)
    ensures r.(categories := db.categories, articleCategories := db.articleCategories, followedTopics := db.followedTopics) == db
  {
    var merged := MoveHolders(db, source, target);
    if deleteSource then DropCategories(merged, {source}) else merged
  }

  /** `POST /categories/bulk/merge`: a missing source fails with 404 before
      a missing target does, and merging a category into itself fails with
      400.  Otherwise every article carrying the source carries the target
      and not the source; a target link is new only for such an article;
      links to other categories are untouched; the source row, with its
      follows, is deleted exactly when asked and every other row stays;
      `affected` counts the articles found carrying the source. */
  function Merge(db: Db, source: int, target: int, deleteSource: bool): (r: Result<Merged, HttpError>)
    ensures FindCategory(db.categories, source).None? ==>
              r == Err(HttpError(NotFound, "Source category " + IntToString(source) + " not found"))
    ensures FindCategory(db.categories, source).Some? && FindCategory(db.categories, target).None? ==>
              r == Err(HttpError(NotFound, "Target category " + IntToString(target) + " not found"))
    ensures FindCategory(db.categories, source).Some? && FindCategory(db.categories, target).Some? && source == target ==>
              r == Err(HttpError(BadRequest, "Cannot merge a category with itself"))
    ensures r.Ok? <==> FindCategory(db.categories, source).Some? && FindCategory(db.categories, target).Some? && source != target
    ensures r.Ok? ==>
              var after := r.value.db.articleCategories;
              && r.value.sourceName == FindCategory(db.categories, source).value.name
              && r.value.targetName == FindCategory(db.categories, target).value.name
              && r.value.affected == |Holders(db.articles, db.articleCategories, source)|
              && (forall k :: 0 <= k < |db.articles| && (db.articles[k].id, source) in db.articleCategories ==>
                    (db.articles[k].id, target) in after && (db.articles[k].id, source) !in after)
              && (forall p: (int, int) :: p.1 != source && p.1 != target ==> (p in after <==> p in db.articleCategories))
              && (forall p: (int, int) :: p.1 == target ==>
                    (p in after <==> p in db.articleCategories || p.0 in Keys(Holders(db.articles, db.articleCategories, source), ArticleId)))
              && r.value.sourceDeleted == deleteSource
              && r.value.db.articles == db.articles
    ensures r.Ok? && deleteSource ==>
              && (forall k :: 0 <= k < |r.value.db.categories| ==>
                    r.value.db.categories[k] in db.categories && r.value.db.categories[k].id != source)
              && (forall k :: 0 <= k < |db.categories| && db.categories[k].id != source ==>
                    db.categories[k] in r.value.db.categories)
              && multiset(r.value.db.categories) <= multiset(db.categories)
    ensures r.Ok? && !deleteSource ==> r.value.db.categories == db.categories
    ensures r.Ok? ==>
              && (forall p :: p in r.value.db.followedTopics <==> p in db.followedTopics && !(deleteSource && p.1 == source))
              && r.value.db.(categories := db.categories, articleCategories := db.articleCategories,
                             followedTopics := db.followedTopics) == db
  {
    match FindCategory(db.categories, source)
    case None => Err(HttpError(NotFound, "Source category " + IntToString(source) + " not found"))
    case Some(s) =>
      match FindCategory(db.categories, target)
      case None => Err(HttpError(NotFound, "Target category " + IntToString(target) + " not found"))
      case Some(t) =>
        if source == target then Err(HttpError(BadRequest, "Cannot merge a category with itself"))
        else
          var holders := Holders(db.articles, db.articleCategories, source);
          Ok(Merged(MergeState(db, source, target, deleteSource), s.name, t.name, |holders|, deleteSource))
  }

  /** With distinct article ids, `affected` is the number of distinct
      articles carrying the source; when every link names an existing
      article, no link to the source survives a merge, deleted or not. */
  lemma {:induction false} MergeMovesAll(db: Db, source: int, target: int, deleteSource: bool)
    requires Unique(db)
    ensures var r := Merge(db, source, target, deleteSource);
            r.Ok? ==> && r.value.affected == |Keys(Holders(db.articles, db.articleCategories, source), ArticleId)|
                      && Unique(r.value.db)
    ensures var r := Merge(db, source, target, deleteSource);
            r.Ok? && (forall p :: p in db.articleCategories ==> p.0 in Keys(db.articles, ArticleId)) ==>
              forall p :: p in r.value.db.articleCategories ==> p.1 != source
  {
    var r := Merge(db, source, target, deleteSource);
    if r.Ok? {
      var holders := Holders(db.articles, db.articleCategories, source);
      WhereKeepsDistinct(db.articles, (a: Article) => (a.id, source) in db.articleCategories, ArticleId);
      DistinctKeysCount(holders, ArticleId);
      var merged := db.(articleCategories := MoveLinks(db.articleCategories, Keys(holders, ArticleId), source, target));
      DropKeepsUnique(merged, {source});
      if forall p :: p in db.articleCategories ==> p.0 in Keys(db.articles, ArticleId) {
        HoldersKeys(db.articles, db.articleCategories, source);
        forall p | p in db.articleCategories && p.1 == source ensures p.0 in Keys(holders, ArticleId) {
          var m :| 0 <= m < |db.articles| && ArticleId(db.articles[m]) == p.0;
        }
      }
    }
  }

  // ---------------------------------------------------------------------
  // Cleanup

  /** The ids of the categories that at least one link names. */
  function LinkedCategories(links: set<(int, int)>): (r: set<int>)
    ensures forall c :: c in r <==> exists p :: p in links && p.1 == c
  {
    set p | p in links :: p.1
  }

  /** The categories that are (`used`) or are not (`!used`) named by a
      link, in table order. */
  function ByUse(cats: seq<Category>, links: set<(int, int)>, used: bool): (r: seq<Category>)
    ensures forall k :: 0 <= k < |r| ==> r[k] in cats && (r[k].id in LinkedCategories(links) <==> used)
    ensures forall k :: 0 <= k < |cats| && (cats[k].id in LinkedCategories(links) <==> used) ==> cats[k] in r
  {
    Where(cats, (c: Category) => (c.id in LinkedCategories(links)) == used)
  }

  function Names(cats: seq<Category>): (r: seq<string>)
    ensures |r| == |cats|
    ensures forall k :: 0 <= k < |cats| ==> r[k] == cats[k].name
  {
    if cats == [] then [] else [cats[0].name] + Names(cats[1..])
  }

  /** The reply of a cleanup, with the new state. */
  datatype CleanedUp = CleanedUp(db: Db, deletedCount: nat, deletedNames: seq<string>)

  /** `DELETE /categories/bulk/cleanup`: every category no article link
      names is deleted, with its follower links; every other category stays.
      The reply lists the deleted names in table order. */
  function Cleanup(db: Db): (r: CleanedUp)
    ensures forall k :: 0 <= k < |r.db.categories| ==> r.db.categories[k] in db.categories
    ensures forall k :: 0 <= k < |r.db.categories| ==> r.db.categories[k].id in LinkedCategories(db.articleCategories)
    ensures forall k :: 0 <= k < |db.categories| && db.categories[k].id in LinkedCategories(db.articleCategories) ==>
              db.categories[k] in r.db.categories
    ensures r.deletedCount == |r.deletedNames|
    ensures forall k :: 0 <= k < |r.deletedNames| ==>
              exists m :: 0 <= m < |db.categories| && db.categories[m].name == r.deletedNames[k]
                          && db.categories[m].id !in LinkedCategories(db.articleCategories)
    ensures r.db.articleCategories == db.articleCategories && r.db.articles == db.articles
    ensures forall p :: p in r.db.followedTopics <==>
              p in db.followedTopics && p.1 !in Keys(ByUse(db.categories, db.articleCategories, false), CategoryId)
  {
    var kept := ByUse(db.categories, db.articleCategories, true);
    var gone := ByUse(db.categories, db.articleCategories, false);
    CleanedUp(db.(categories := kept,
                  followedTopics := (set p | p in db.followedTopics && p.1 !in Keys(gone, CategoryId))),
              |gone|, Names(gone))
  }

  /** Every category is either kept or deleted. */
  lemma {:induction false} ByUseSplits(cats: seq<Category>, links: set<(int, int)>)
    ensures |ByUse(cats, links, true)| + |ByUse(cats, links, false)| == |cats|
  {
    if cats != [] {
      ByUseSplits(cats[1..], links);
    }
  }

  /** The counts add up, and a second cleanup deletes nothing. */
  lemma {:induction false} CleanupIdempotent(db: Db)
    ensures Cleanup(db).deletedCount + |Cleanup(db).db.categories| == |db.categories|
    ensures Cleanup(Cleanup(db).db).deletedCount == 0
    ensures Cleanup(Cleanup(db).db).db == Cleanup(db).db
  {
    var once := Cleanup(db).db;
    var kept := once.categories;
    assert Cleanup(db).deletedCount + |kept| == |db.categories| by {
      ByUseSplits(db.categories, db.articleCategories);
    }
    assert ByUse(kept, once.articleCategories, true) == kept by {
      WhereAll(kept, (c: Category) => (c.id in LinkedCategories(once.articleCategories)) == true);
    }
    assert ByUse(kept, once.articleCategories, false) == [] by {
      ByUseSplits(kept, once.articleCategories);
    }
    assert Keys(ByUse(kept, once.articleCategories, false), CategoryId) == {};
  }
}

=== FILE: digest_routes.dfy ===
/** The digest endpoints (backend/app/routers/digests.py): listing a
    user's digests page by page, reading, resending and deleting one of
    them, generating a new one and starting the batch run.  The current
    user is the authenticated one; the clock, the mail service and the body
    renderer are parameters as in the digest service. */
module DigestRoutes {
  import opened Wrappers
  import opened Records
  import Sorting
  import Pagination
  import Digests
  import Schemas

  /** What an unhandled exception becomes. */
  function InternalError(): HttpError {
    HttpError(ServerError, "Internal Server Error")
  }

  function DigestNotFound(): HttpError {
    HttpError(NotFound, "Digest not found")
  }

  function DigestCreated(d: Digest): real {
    d.createdAt as real
  }

  /** The user's digests, in table order. */
  function Owned(digests: seq<Digest>, user: int): (r: seq<Digest>)
    ensures |r| <= |digests|
    ensures forall k :: 0 <= k < |r| ==> r[k] in digests && r[k].userId == user
    ensures forall k :: 0 <= k < |digests| && digests[k].userId == user ==> digests[k] in r
  {
    Where(digests, (d: Digest) => d.userId == user)
  }

  /** The user's digests, newest first. */
  function Newest(digests: seq<Digest>, user: int): (r: seq<Digest>)
    ensures Sorting.SortedDesc(r, DigestCreated)
    ensures |r| == |Owned(digests, user)|
    ensures forall k :: 0 <= k < |r| ==> r[k] in digests && r[k].userId == user
    ensures forall k :: 0 <= k < |digests| && digests[k].userId == user ==> digests[k] in r
  {
    var owned := Owned(digests, user);
    var r := Sorting.SortDesc(owned, DigestCreated);
    Sorting.InSameMultiset(r, owned);
    Sorting.InSameMultiset(owned, r);
    r
  }

  datatype DigestPage = DigestPage(items: seq<Digest>, total: nat, page: int, pageSize: int, totalPages: nat)

  /** `GET /api/digests`: the page and page size are not checked.  A page
      size of zero divides by zero when the page count is computed, and a
      negative offset or limit is refused by the database; both end as an
      internal error.  Otherwise the page of the user's digests, newest
      first, with the total and the page count. */
  function ListDigests(digests: seq<Digest>, user: int, page: int, pageSize: int): (r: Result<DigestPage, HttpError>)
    ensures r.Err? <==> pageSize < 1 || page < 1
    ensures r.Err? ==> r.error == InternalError()
    ensures r.Ok? ==>
              && r.value.total == |Owned(digests, user)|
              && r.value.page == page && r.value.pageSize == pageSize
              && r.value.totalPages == Pagination.TotalPages(r.value.total, pageSize)
              && |r.value.items| <= pageSize
              && Sorting.SortedDesc(r.value.items, DigestCreated)
              && (forall k :: 0 <= k < |r.value.items| ==> r.value.items[k] in digests && r.value.items[k].userId == user)
  {
    if pageSize == 0 then Err(InternalError())
    else if pageSize < 0 || Pagination.Offset(page, pageSize) < 0 then Err(InternalError())
    else
      OffsetFromFirstPage(page, pageSize);
      var newest := Newest(digests, user);
      var items := Pagination.Page(newest, page, pageSize);
      NewestPage(digests, user, page, pageSize);
      Ok(DigestPage(items, |newest|, page, pageSize, Pagination.TotalPages(|newest|, pageSize)))
  }

  /** The offset is negative exactly for a page below 1. */
  lemma {:induction false} OffsetFromFirstPage(page: int, pageSize: int)
    requires pageSize >= 1
    ensures Pagination.Offset(page, pageSize) >= 0 <==> page >= 1
  {
    if page < 1 {
      Pagination.MulMono(page - 1, -1, pageSize);
    } else {
      Pagination.MulMono(0, page - 1, pageSize);
    }
  }

  /** A page of the user's digests, newest first, holds only their digests,
      still newest first. */
  lemma {:induction false} NewestPage(digests: seq<Digest>, user: int, page: int, pageSize: int)
    requires page >= 1 && pageSize >= 1
    ensures var items := Pagination.Page(Newest(digests, user), page, pageSize);
            && Sorting.SortedDesc(items, DigestCreated)
            && forall k :: 0 <= k < |items| ==> items[k] in digests && items[k].userId == user
  {
    Pagination.PageOfSorted(Newest(digests, user), page, pageSize, DigestCreated);
  }

  /** Every digest of the user is on the page its rank gives, and that page
      is within the page count. */
  lemma {:induction false} ListDigestsCoversAll(digests: seq<Digest>, user: int, pageSize: int, k: nat)
    requires pageSize >= 1 && k < |Newest(digests, user)|
    ensures var p := k / pageSize + 1;
            var r := ListDigests(digests, user, p, pageSize);
            && r.Ok? && p <= r.value.totalPages
            && Newest(digests, user)[k] in r.value.items
  {
    var newest := Newest(digests, user);
    Pagination.RowOnItsPage(newest, pageSize, k);
    var p := k / pageSize + 1;
    assert Pagination.Page(newest, p, pageSize)[k % pageSize] == newest[k];
  }

  /** Pages past the page count are empty. */
  lemma {:induction false} ListDigestsPastEnd(digests: seq<Digest>, user: int, page: int, pageSize: int)
    requires pageSize >= 1 && page > Pagination.TotalPages(|Owned(digests, user)|, pageSize)
    ensures ListDigests(digests, user, page, pageSize) ==
            Ok(DigestPage([], |Owned(digests, user)|, page, pageSize, Pagination.TotalPages(|Owned(digests, user)|, pageSize)))
  {
    Pagination.PastLastPageEmpty(Newest(digests, user), page, pageSize);
  }

  /** The first digest with this id that belongs to the user. */
  function FindOwned(digests: seq<Digest>, user: int, id: int): (r: Option<nat>)
    ensures r.Some? ==> r.value < |digests| && digests[r.value].id == id && digests[r.value].userId == user
    ensures r.Some? ==> forall k :: 0 <= k < r.value ==> !(digests[k].id == id && digests[k].userId == user)
    ensures r.None? ==> forall k :: 0 <= k < |digests| ==> !(digests[k].id == id && digests[k].userId == user)
  {
    if digests == [] then None
    else if digests[0].id == id && digests[0].userId == user then Some(0)
    else match FindOwned(digests[1..], user, id)
      case None => None
      case Some(k) => Some(k + 1)
  }

  /** `GET /api/digests/{id}`: the digest when it is the user's, otherwise
      404 (someone else's digest is indistinguishable from a missing one). */
  function GetDigest(digests: seq<Digest>, user: int, id: int): (r: Result<Digest, HttpError>)
    ensures r.Err? <==> forall k :: 0 <= k < |digests| ==> !(digests[k].id == id && digests[k].userId == user)
    ensures r.Err? ==> r.error == DigestNotFound()
    ensures r.Ok? ==> r.value in digests && r.value.id == id && r.value.userId == user
  {
    match FindOwned(digests, user, id)
    case None => Err(DigestNotFound())
    case Some(k) => Ok(digests[k])
  }

  datatype Reply = Reply(db: Db, message: string)

  /** `DELETE /api/digests/{id}`: 404 unless the digest is the user's;
      otherwise that row goes and every other row stays, in order. */
  function DeleteDigest(db: Db, user: int, id: int): (r: Result<Reply, HttpError>)
    ensures r.Err? <==> GetDigest(db.digests, user, id).Err?
    ensures r.Err? ==> r.error == DigestNotFound()
    ensures r.Ok? ==>
              var k := FindOwned(db.digests, user, id).value;
              && r.value.message == "Digest deleted successfully"
              && r.value.db == db.(digests := db.digests[..k] + db.digests[k + 1..])
  {
    match FindOwned(db.digests, user, id)
    case None => Err(DigestNotFound())
    case Some(k) => Ok(Reply(db.(digests := db.digests[..k] + db.digests[k + 1..]), "Digest deleted successfully"))
  }

  /** With unique digest ids, a deleted digest can no longer be read, and
      every other digest still can. */
  lemma {:induction false} DeleteThenGet(db: Db, user: int, id: int, other: int)
    requires DistinctBy(db.digests, DigestId)
    ensures var r := DeleteDigest(db, user, id);
            r.Ok? ==> && GetDigest(r.value.db.digests, user, id).Err?
                      && (other != id ==> GetDigest(r.value.db.digests, user, other) == GetDigest(db.digests, user, other))
  {
    var r := DeleteDigest(db, user, id);
    if r.Ok? {
      var k := FindOwned(db.digests, user, id).value;
      var ds := db.digests;
      var after := ds[..k] + ds[k + 1..];
      forall m | 0 <= m < |after| ensures after[m].id != id {
        if m < k { assert after[m] == ds[m]; } else { assert after[m] == ds[m + 1]; }
      }
      if other != id {
        FindOwnedSkip(ds, k, user, other);
      }
    }
  }

  /** Removing a row with another id does not change which row is found. */
  lemma {:induction false} FindOwnedSkip(ds: seq<Digest>, k: nat, user: int, other: int)
    requires k < |ds| && ds[k].id != other
    ensures var f := FindOwned(ds[..k] + ds[k + 1..], user, other);
            var g := FindOwned(ds, user, other);
            && (f.None? <==> g.None?)
            && (f.Some? ==> (ds[..k] + ds[k + 1..])[f.value] == ds[g.value])
  {
    if k > 0 {
      var rest := ds[1..];
      assert (ds[..k] + ds[k + 1..])[1..] == rest[..k - 1] + rest[k..];
      FindOwnedSkip(rest, k - 1, user, other);
    } else {
      assert ds[..k] + ds[k + 1..] == ds[1..];
    }
  }

  /** The reply of a resend. */
  datatype Resent = Resent(db: Db, message: string, sentAt: Option<int>)

  /** `POST /api/digests/{id}/send`: 404 unless the digest is the user's.
      The route calls `send_digest` as written and catches nothing, so a
      user it raises on (one who wants mail and has no full name) gets the
      unhandled-exception 500; a send that returns false is the route's own
      500; a delivered digest records its sent time. */
  function ResendDigest(db: Db, user: User, id: int, now: int,
                        mail: (string, string, Digest) -> bool): (r: Result<Resent, HttpError>)
    ensures GetDigest(db.digests, user.id, id).Err? ==> r == Err(DigestNotFound())
    ensures GetDigest(db.digests, user.id, id).Ok? ==>
              var d := GetDigest(db.digests, user.id, id).value;
              && (r == Err(InternalError()) <==> Digests.RaisesOnSend(user))
              && (r.Ok? <==> !Digests.RaisesOnSend(user) && Digests.SendDigest(d, user, now, mail).success)
              && (r.Err? && !Digests.RaisesOnSend(user) ==> r.error == HttpError(ServerError, "Failed to send digest email"))
    ensures r.Ok? ==>
              var k := FindOwned(db.digests, user.id, id).value;
              && r.value.message == "Digest sent successfully" && r.value.sentAt == Some(now)
              && r.value.db == db.(digests := db.digests[k := db.digests[k].(sentAt := Some(now))])
  {
    match FindOwned(db.digests, user.id, id)
    case None => Err(DigestNotFound())
    case Some(k) =>
      match Digests.SendDigestAsWritten(db.digests[k], user, now, mail)
      case Err(_) => Err(InternalError())
      case Ok(s) =>
        if !s.success then Err(HttpError(ServerError, "Failed to send digest email"))
        else Ok(Resent(db.(digests := db.digests[k := s.digest]), "Digest sent successfully", s.digest.sentAt))
  }

  /** After a successful resend, reading the digest back shows the same
      digest with the new sent time, and every other digest reads as
      before. */
  lemma {:induction false} ResendThenGet(db: Db, user: User, id: int, now: int,
                                         mail: (string, string, Digest) -> bool, other: int)
    requires ResendDigest(db, user, id, now, mail).Ok?
    ensures var after := ResendDigest(db, user, id, now, mail).value.db.digests;
            && GetDigest(after, user.id, id) == Ok(GetDigest(db.digests, user.id, id).value.(sentAt := Some(now)))
            && (other != id ==> GetDigest(after, user.id, other) == GetDigest(db.digests, user.id, other))
  {
    var k := FindOwned(db.digests, user.id, id).value;
    var ds := db.digests;
    var after := ds[k := ds[k].(sentAt := Some(now))];
    FindOwnedStamped(ds, k, user.id, id, now);
    if other != id {
      FindOwnedStamped(ds, k, user.id, other, now);
    }
  }

  /** Stamping one row's sent time changes no row's id or owner, so every
      lookup finds the same position. */
  lemma {:induction false} FindOwnedStamped(ds: seq<Digest>, k: nat, user: int, id: int, now: int)
    requires k < |ds|
    ensures FindOwned(ds[k := ds[k].(sentAt := Some(now))], user, id) == FindOwned(ds, user, id)
  {
    var after := ds[k := ds[k].(sentAt := Some(now))];
    if k > 0 {
      assert after[1..] == ds[1..][k - 1 := ds[k].(sentAt := Some(now))];
      FindOwnedStamped(ds[1..], k - 1, user, id, now);
    } else {
      assert after[1..] == ds[1..];
    }
  }

  /** The reply of a generation: the stored digest and whether a
      background send was scheduled. */
  datatype Generated = Generated(db: Db, digest: Digest, sendScheduled: bool)

  function NoDigest(): string {
    "No articles found for the specified period or user has digests disabled"
  }

  /** `POST /api/digests/generate` with the "nothing to send" answer kept as
      the 400 it is raised as: the digest is stored, and a background send
      is scheduled exactly when the user has notifications on. */
  function GenerateDigestEndpoint(db: Db, user: User, digestType: string, customDays: Option<int>, now: int,
                                  render: (seq<Digests.Section>, nat) -> string): (r: Result<Generated, HttpError>)
    ensures r.Err? <==> !Digests.HasDigest(db, user, digestType, customDays, now)
    ensures r.Err? ==> r.error == HttpError(BadRequest, NoDigest())
    ensures r.Ok? ==> && Some(r.value.digest) == Digests.GenerateDigest(db, user, digestType, customDays, now, render)
                      && r.value.db == db.(digests := db.digests + [r.value.digest])
                      && (r.value.sendScheduled <==> user.emailNotifications)
  {
    match Digests.GenerateDigest(db, user, digestType, customDays, now, render)
    case None => Err(HttpError(BadRequest, NoDigest()))
    case Some(d) => Ok(Generated(db.(digests := db.digests + [d]), d, user.emailNotifications))
  }

  /** The same endpoint as written: its own 400 is raised inside the
      `try` whose catch-all turns every exception into a 500 carrying the
      exception's text (status, colon, detail). */
  function GenerateDigestEndpointAsWritten(db: Db, user: User, digestType: string, customDays: Option<int>, now: int,
                                           render: (seq<Digests.Section>, nat) -> string): (r: Result<Generated, HttpError>)
    ensures r.Err? <==> !Digests.HasDigest(db, user, digestType, customDays, now)
    ensures r.Err? ==> r.error.status == ServerError
  {
    match Digests.GenerateDigest(db, user, digestType, customDays, now, render)
    case None => Err(HttpError(ServerError, "Failed to generate digest: 400: " + NoDigest()))
    case Some(d) => Ok(Generated(db.(digests := db.digests + [d]), d, user.emailNotifications))
  }

  /** The two differ only when there is nothing to send: the client is
      told 500 where the endpoint meant 400. */
  lemma {:induction false} GenerateEndpointFinding(db: Db, user: User, digestType: string, customDays: Option<int>, now: int,
                                render: (seq<Digests.Section>, nat) -> string)
    ensures Digests.HasDigest(db, user, digestType, customDays, now) ==>
              GenerateDigestEndpointAsWritten(db, user, digestType, customDays, now, render)
              == GenerateDigestEndpoint(db, user, digestType, customDays, now, render)
    ensures !Digests.HasDigest(db, user, digestType, customDays, now) ==>
              && GenerateDigestEndpointAsWritten(db, user, digestType, customDays, now, render).error.status == ServerError
              && GenerateDigestEndpoint(db, user, digestType, customDays, now, render).error.status == BadRequest
  {
  }

  /** `POST /api/digests/admin/send-batch`: only "daily" and "weekly" start
      a run (the run itself is `Digests.SendDigestsForFrequency`). */
  function StartBatch(frequency: string): (r: Result<string, HttpError>)
    ensures r.Ok? <==> frequency == "daily" || frequency == "weekly"
    ensures r.Err? ==> r.error == HttpError(BadRequest, "Frequency must be 'daily' or 'weekly'")
    ensures r.Ok? ==> r.value == "Batch digest generation started for " + frequency + " digests"
  {
    if frequency != "daily" && frequency != "weekly" then Err(HttpError(BadRequest, "Frequency must be 'daily' or 'weekly'"))
    else Ok("Batch digest generation started for " + frequency + " digests")
  }

  /** The endpoint starts a run exactly for the frequencies whose digests
      have a period without custom days, which are the user frequencies
      other than "none". */
  lemma {:induction false} StartBatchMeaning(frequency: string)
    ensures StartBatch(frequency).Ok? <==> Digests.PeriodDays(frequency, None).Some?
    ensures StartBatch(frequency).Ok? <==>
              Schemas.ParseFrequency(frequency).Some? && Schemas.ParseFrequency(frequency) != Some(Schemas.NoDigest)
  {
  }
}

=== FILE: digests.dfy ===
/** Personal digests (backend/app/services/digest_service.py): which
    articles a digest covers, the topics it names, its title, how its body
    groups the articles by category, sending it by e-mail and the batch run
    over every subscriber.  The clock, the e-mail service and the HTML
    rendering of the body (which asks the language model for an overview of
    each category) are parameters; timestamps are seconds. */
module Digests {
  import opened Wrappers
  import opened Text
  import opened Records
  import Sorting
  import Categories

  const SecondsPerDay: int := 86400
  const MaxDigestArticles: nat := 50
  const MaxPerCategory: nat := 10
  const TitleTopics: nat := 3

  // ---------------------------------------------------------------------
  // Choosing the articles
  // ---------------------------------------------------------------------

  /** The period length in days: one for a daily digest, seven for a weekly
      one, the requested days for a custom one when they are given and
      non-zero; any other request has no period. */
  function PeriodDays(digestType: string, customDays: Option<int>): (r: Option<int>)
    ensures r.Some? <==> digestType == "daily" || digestType == "weekly"
                         || (digestType == "custom" && customDays.Some? && customDays.value != 0)
    ensures digestType == "daily" ==> r == Some(1)
    ensures digestType == "weekly" ==> r == Some(7)
    ensures r.Some? && digestType != "daily" && digestType != "weekly" ==> r == customDays
  {
    if digestType == "daily" then Some(1)
    else if digestType == "weekly" then Some(7)
    else if digestType == "custom" && customDays.Some? && customDays.value != 0 then customDays
    else None
  }

  /** The ids of the existing categories the user follows. */
  function Followed(categories: seq<Category>, follows: set<(int, int)>, user: int): (r: set<int>)
    ensures forall c :: c in r <==> c in Keys(categories, CategoryId) && (user, c) in follows
  {
    set c | c in Keys(categories, CategoryId) && (user, c) in follows
  }

  /** The category rows an article is filed under, in table order. */
  function CategoriesOf(categories: seq<Category>, links: set<(int, int)>, article: int): (r: seq<Category>)
    ensures forall k :: 0 <= k < |r| ==> r[k] in categories && (article, r[k].id) in links
    ensures forall k :: 0 <= k < |categories| && (article, categories[k].id) in links ==> categories[k] in r
  {
    Where(categories, (c: Category) => (article, c.id) in links)
  }

  /** The followed category rows an article is filed under: the query that
      joins on followed topics yields the article once for each. */
  function FollowedOf(categories: seq<Category>, links: set<(int, int)>, article: int, followed: set<int>): (r: seq<Category>)
    ensures forall k :: 0 <= k < |r| ==> r[k] in categories && (article, r[k].id) in links && r[k].id in followed
    ensures forall k :: 0 <= k < |categories| && (article, categories[k].id) in links && categories[k].id in followed
                        ==> categories[k] in r
  {
    Where(categories, (c: Category) => (article, c.id) in links && c.id in followed)
  }

  predicate InPeriod(a: Article, start: int, end: int) {
    start <= a.createdAt <= end
  }

  /** An article qualifies for a digest: created within the period, both
      ends included, and, when the user follows any topic, filed under one
      of them. */
  predicate Eligible(categories: seq<Category>, links: set<(int, int)>, followed: set<int>,
                     a: Article, start: int, end: int) {
    InPeriod(a, start, end) && (followed == {} || |FollowedOf(categories, links, a.id, followed)| > 0)
  }

  /** The rows of the article query before ordering: each qualifying
      article once, or once per followed category it is filed under when
      the query joins on followed topics. */
  function JoinRows(articles: seq<Article>, categories: seq<Category>, links: set<(int, int)>,
                    followed: set<int>, start: int, end: int): (r: seq<Article>)
    ensures forall k :: 0 <= k < |r| ==> r[k] in articles && Eligible(categories, links, followed, r[k], start, end)
    ensures forall k :: 0 <= k < |articles| && Eligible(categories, links, followed, articles[k], start, end)
                        ==> articles[k] in r
  {
    if articles == [] then []
    else
      var a := articles[0];
      var copies := if !InPeriod(a, start, end) then 0
                    else if followed == {} then 1
                    else |FollowedOf(categories, links, a.id, followed)|;
      var rest := JoinRows(articles[1..], categories, links, followed, start, end);
      var here := seq(copies, _ => a);
      assert forall k :: 1 <= k < |articles| ==> articles[k] == articles[1..][k - 1];
      assert Eligible(categories, links, followed, a, start, end) ==> here[0] == a;
      here + rest
  }

  function ArticleCreated(a: Article): real {
    a.createdAt as real
  }

  /** The first row for each key, in order, skipping keys in `seen` (how
      the ORM returns each entity once from a joined query, and how
      `dict` keys and first appearances are ordered). */
  function FirstBy<T, K(==)>(s: seq<T>, key: T -> K, seen: set<K>): (r: seq<T>)
    ensures |r| <= |s|
    ensures forall k :: 0 <= k < |r| ==> r[k] in s
    decreases |s|
  {
    if s == [] then []
    else if key(s[0]) in seen then FirstBy(s[1..], key, seen)
    else [s[0]] + FirstBy(s[1..], key, seen + {key(s[0])})
  }

  /** The first occurrences have distinct keys, and exactly the keys of
      the input not already seen. */
  lemma {:induction false} FirstByKeys<T, K>(s: seq<T>, key: T -> K, seen: set<K>)
    ensures DistinctBy(FirstBy(s, key, seen), key)
    ensures Keys(FirstBy(s, key, seen), key) == Keys(s, key) - seen
    ensures forall k :: 0 <= k < |FirstBy(s, key, seen)| ==> key(FirstBy(s, key, seen)[k]) !in seen
    decreases |s|
  {
    FirstByDistinctKeys(s, key, seen);
    var r := FirstBy(s, key, seen);
    assert forall k :: 0 <= k < |r| ==> key(r[k]) in Keys(r, key);
  }

  lemma {:induction false} FirstByDistinctKeys<T, K>(s: seq<T>, key: T -> K, seen: set<K>)
    ensures DistinctBy(FirstBy(s, key, seen), key)
    ensures Keys(FirstBy(s, key, seen), key) == Keys(s, key) - seen
    decreases |s|
  {
    if s != [] {
      var tail := s[1..];
      assert s == [s[0]] + tail;
      KeysCons(s[0], tail, key);
      if key(s[0]) in seen {
        FirstByDistinctKeys(tail, key, seen);
      } else {
        var rest := FirstBy(tail, key, seen + {key(s[0])});
        FirstByDistinctKeys(tail, key, seen + {key(s[0])});
        KeysCons(s[0], rest, key);
        PrependDistinct(s[0], rest, key);
      }
    }
  }

  /** Keeping first occurrences preserves an order. */
  lemma {:induction false} FirstByKeepsOrder<T, K>(s: seq<T>, key: T -> K, seen: set<K>, rank: T -> real)
    requires Sorting.SortedDesc(s, rank)
    ensures Sorting.SortedDesc(FirstBy(s, key, seen), rank)
    decreases |s|
  {
    if s != [] {
      var tail := s[1..];
      assert Sorting.SortedDesc(tail, rank);
      if key(s[0]) in seen {
        FirstByKeepsOrder(tail, key, seen, rank);
      } else {
        FirstByKeepsOrder(tail, key, seen + {key(s[0])}, rank);
        var rest := FirstBy(tail, key, seen + {key(s[0])});
        forall k | 0 <= k < |rest| ensures rank(s[0]) >= rank(rest[k]) {
          var m :| 0 <= m < |tail| && tail[m] == rest[k];
          assert s[m + 1] == rest[k];
        }
      }
    }
  }

  /** The articles of a digest: the qualifying rows newest first, cut at
      fifty rows, each article kept once. */
  function SelectArticles(articles: seq<Article>, categories: seq<Category>, links: set<(int, int)>,
                          followed: set<int>, start: int, end: int): (r: seq<Article>)
    ensures |r| <= MaxDigestArticles
  {
    var rows := JoinRows(articles, categories, links, followed, start, end);
    FirstBy(Sorting.TopN(rows, ArticleCreated, MaxDigestArticles), ArticleId, {})
  }

  /** The digest's articles are eligible, distinct and newest first; there
      are none only when no article is eligible; and an eligible article
      left out is no newer than any article kept. */
  lemma {:induction false} SelectionMeaning(articles: seq<Article>, categories: seq<Category>, links: set<(int, int)>,
                         followed: set<int>, start: int, end: int)
    ensures var r := SelectArticles(articles, categories, links, followed, start, end);
            && DistinctBy(r, ArticleId)
            && Sorting.SortedDesc(r, ArticleCreated)
            && (forall k :: 0 <= k < |r| ==> r[k] in articles && Eligible(categories, links, followed, r[k], start, end))
            && (r == [] <==> forall k :: 0 <= k < |articles| ==> !Eligible(categories, links, followed, articles[k], start, end))
            && (forall k, m :: && 0 <= k < |articles| && Eligible(categories, links, followed, articles[k], start, end)
                               && articles[k].id !in Keys(r, ArticleId) && 0 <= m < |r|
                               ==> articles[k].createdAt <= r[m].createdAt)
  {
    var rows := JoinRows(articles, categories, links, followed, start, end);
    var top := Sorting.TopN(rows, ArticleCreated, MaxDigestArticles);
    FirstByKeys(top, ArticleId, {});
    FirstByKeepsOrder(top, ArticleId, {}, ArticleCreated);
    SelectNewest(rows, top, articles, categories, links, followed, start, end);
    SelectNonEmpty(rows, top, articles, categories, links, followed, start, end);
  }

  /** An eligible article left out of the digest is no newer than any
      article in it. */
  lemma {:induction false} SelectNewest(rows: seq<Article>, top: seq<Article>, articles: seq<Article>, categories: seq<Category>,
                     links: set<(int, int)>, followed: set<int>, start: int, end: int)
    requires rows == JoinRows(articles, categories, links, followed, start, end)
    requires top == Sorting.TopN(rows, ArticleCreated, MaxDigestArticles)
    ensures var r := FirstBy(top, ArticleId, {});
            forall k, m :: && 0 <= k < |articles| && Eligible(categories, links, followed, articles[k], start, end)
                           && articles[k].id !in Keys(r, ArticleId) && 0 <= m < |r|
                           ==> articles[k].createdAt <= r[m].createdAt
  {
    var r := FirstBy(top, ArticleId, {});
    forall k | && 0 <= k < |articles| && Eligible(categories, links, followed, articles[k], start, end)
               && articles[k].id !in Keys(r, ArticleId)
      ensures forall m :: 0 <= m < |r| ==> articles[k].createdAt <= r[m].createdAt
    {
      LeftOutIsOlder(rows, articles[k]);
    }
  }

  /** A row whose article the first fifty rows do not keep is no newer
      than any article they keep. */
  lemma {:induction false} LeftOutIsOlder(rows: seq<Article>, x: Article)
    requires x in rows
    ensures var r := FirstBy(Sorting.TopN(rows, ArticleCreated, MaxDigestArticles), ArticleId, {});
            x.id !in Keys(r, ArticleId) ==> forall m :: 0 <= m < |r| ==> x.createdAt <= r[m].createdAt
  {
    var top := Sorting.TopN(rows, ArticleCreated, MaxDigestArticles);
    var r := FirstBy(top, ArticleId, {});
    FirstByKeys(top, ArticleId, {});
    if x in top {
      var j :| 0 <= j < |top| && top[j] == x;
      assert ArticleId(top[j]) in Keys(top, ArticleId);
    }
    if x.id !in Keys(r, ArticleId) {
      OlderThanKept(rows, top, r, x);
    }
  }

  /** A row left out of the first fifty is no newer than any row drawn
      from them. */
  lemma {:induction false} OlderThanKept(rows: seq<Article>, top: seq<Article>, r: seq<Article>, x: Article)
    requires top == Sorting.TopN(rows, ArticleCreated, MaxDigestArticles)
    requires x in rows && x !in top
    requires forall m :: 0 <= m < |r| ==> r[m] in top
    ensures forall m :: 0 <= m < |r| ==> x.createdAt <= r[m].createdAt
  {
    Sorting.TopNMeaning(rows, ArticleCreated, MaxDigestArticles);
    var i :| 0 <= i < |rows| && rows[i] == x;
    forall m | 0 <= m < |r| ensures x.createdAt <= r[m].createdAt {
      var j :| 0 <= j < |top| && top[j] == r[m];
      assert ArticleCreated(rows[i]) <= ArticleCreated(top[j]);
    }
  }

  /** The digest has an article as soon as one article is eligible. */
  lemma {:induction false} SelectNonEmpty(rows: seq<Article>, top: seq<Article>, articles: seq<Article>, categories: seq<Category>,
                       links: set<(int, int)>, followed: set<int>, start: int, end: int)
    requires rows == JoinRows(articles, categories, links, followed, start, end)
    requires top == Sorting.TopN(rows, ArticleCreated, MaxDigestArticles)
    ensures FirstBy(top, ArticleId, {}) == [] <==>
            forall k :: 0 <= k < |articles| ==> !Eligible(categories, links, followed, articles[k], start, end)
  {
    var r := FirstBy(top, ArticleId, {});
    FirstByKeys(top, ArticleId, {});
    if exists k :: 0 <= k < |articles| && Eligible(categories, links, followed, articles[k], start, end) {
      var k :| 0 <= k < |articles| && Eligible(categories, links, followed, articles[k], start, end);
      assert articles[k] in rows;
      assert ArticleId(top[0]) in Keys(top, ArticleId);
    }
  }

  // ---------------------------------------------------------------------
  // Topics and grouping
  // ---------------------------------------------------------------------

  /** One (category name, article) pair per category of each article, in
      article order: the iteration both the topic list and the body's
      grouping walk through. */
  function Memberships(categories: seq<Category>, links: set<(int, int)>, articles: seq<Article>): (r: seq<(string, Article)>)
    ensures forall e :: e in r <==> Filed(categories, links, articles, e)
  {
    if articles == [] then []
    else
      var rest := Memberships(categories, links, articles[1..]);
      MembershipsStep(categories, links, articles, rest);
      PairsWith(Categories.Names(CategoriesOf(categories, links, articles[0].id)), articles[0]) + rest
  }

  /** `e` pairs one of the articles with the name of a category it is
      filed under. */
  predicate Filed(categories: seq<Category>, links: set<(int, int)>, articles: seq<Article>, e: (string, Article)) {
    exists k :: 0 <= k < |articles| && e.1 == articles[k]
                && e.0 in Categories.Names(CategoriesOf(categories, links, articles[k].id))
  }

  /** The pairs of each name with one article. */
  function PairsWith(names: seq<string>, a: Article): (r: seq<(string, Article)>)
    ensures forall e :: e in r <==> e.1 == a && e.0 in names
  {
    var r := seq(|names|, i requires 0 <= i < |names| => (names[i], a));
    assert forall e: (string, Article) :: e in r <==> e.1 == a && e.0 in names by {
      forall e: (string, Article) | e.1 == a && e.0 in names ensures e in r {
        var i :| 0 <= i < |names| && names[i] == e.0;
        assert r[i] == e;
      }
    }
    r
  }

  /** The pairs of the first article followed by those of the rest are the
      pairs of all the articles. */
  lemma {:induction false} MembershipsStep(categories: seq<Category>, links: set<(int, int)>, articles: seq<Article>,
                                           rest: seq<(string, Article)>)
    requires articles != []
    requires forall e :: e in rest <==> Filed(categories, links, articles[1..], e)
    ensures forall e :: e in PairsWith(Categories.Names(CategoriesOf(categories, links, articles[0].id)), articles[0]) + rest
                        <==> Filed(categories, links, articles, e)
  {
    var here := PairsWith(Categories.Names(CategoriesOf(categories, links, articles[0].id)), articles[0]);
    forall e ensures e in here + rest <==> Filed(categories, links, articles, e) {
      if e in rest {
        var k :| 0 <= k < |articles[1..]| && e.1 == articles[1..][k]
                 && e.0 in Categories.Names(CategoriesOf(categories, links, articles[1..][k].id));
        assert articles[k + 1] == articles[1..][k];
      }
      if Filed(categories, links, articles, e) && e !in here {
        var k :| 0 <= k < |articles| && e.1 == articles[k]
                 && e.0 in Categories.Names(CategoriesOf(categories, links, articles[k].id));
        assert articles[1..][k - 1] == articles[k];
      }
    }
  }

  function EntryName(e: (string, Article)): string {
    e.0
  }

  function Itself(n: string): string {
    n
  }

  /** The category name of every entry, in order. */
  function EntryNames(entries: seq<(string, Article)>): (r: seq<string>)
    ensures |r| == |entries|
    ensures forall k :: 0 <= k < |r| ==> r[k] == entries[k].0
  {
    seq(|entries|, i requires 0 <= i < |entries| => entries[i].0)
  }

  /** A name occurs among the entry names exactly when some entry has it. */
  lemma {:induction false} EntryNamesMeaning(entries: seq<(string, Article)>)
    ensures forall n :: n in EntryNames(entries) <==> exists k :: 0 <= k < |entries| && entries[k].0 == n
  {
    var names := EntryNames(entries);
    forall n | n in names ensures exists k :: 0 <= k < |entries| && entries[k].0 == n {
      var k :| 0 <= k < |names| && names[k] == n;
      assert entries[k].0 == n;
    }
    forall n | exists k :: 0 <= k < |entries| && entries[k].0 == n ensures n in names {
      var k :| 0 <= k < |entries| && entries[k].0 == n;
      assert names[k] == n;
    }
  }

  /** Keeping the first occurrence of each name keeps every name once. */
  lemma {:induction false} FirstNames(names: seq<string>)
    ensures NoDuplicates(FirstBy(names, Itself, {}))
    ensures forall n :: n in FirstBy(names, Itself, {}) <==> n in names
  {
    var r := FirstBy(names, Itself, {});
    FirstByKeys(names, Itself, {});
    forall n | n in names ensures n in r {
      assert Itself(n) in Keys(names, Itself);
      assert Itself(n) in Keys(r, Itself);
      var m :| 0 <= m < |r| && Itself(r[m]) == Itself(n);
    }
  }

  /** The category names in order of first appearance: the keys of the
      grouping dictionary, and the digest's topics. */
  function GroupNames(entries: seq<(string, Article)>): (r: seq<string>)
    ensures NoDuplicates(r)
    ensures forall n :: n in r <==> exists k :: 0 <= k < |entries| && entries[k].0 == n
  {
    FirstNames(EntryNames(entries));
    EntryNamesMeaning(entries);
    FirstBy(EntryNames(entries), Itself, {})
  }

  /** The articles filed under `name`, in order. */
  function Members(entries: seq<(string, Article)>, name: string): (r: seq<Article>)
    ensures |r| <= |entries|
    ensures forall a :: a in r <==> (name, a) in entries
    ensures (forall k :: 0 <= k < |entries| ==> entries[k].0 != name) ==> r == []
  {
    if entries == [] then []
    else
      var init := entries[..|entries| - 1];
      var last := entries[|entries| - 1];
      assert entries == init + [last];
      Members(init, name) + (if last.0 == name then [last.1] else [])
  }

  /** The body's sections: each category name in first-appearance order
      with the first ten articles filed under it. */
  function Grouped(entries: seq<(string, Article)>): (r: seq<(string, seq<Article>)>)
    ensures |r| == |GroupNames(entries)|
    ensures forall k :: 0 <= k < |r| ==> r[k].0 == GroupNames(entries)[k]
    ensures forall k :: 0 <= k < |r| ==> r[k].1 == Take(Members(entries, r[k].0), MaxPerCategory)
  {
    var names := GroupNames(entries);
    seq(|names|, i requires 0 <= i < |names| => (names[i], Take(Members(entries, names[i]), MaxPerCategory)))
  }

  /** Sections hold at most ten articles, name distinct categories, and
      leave no article out of a section with room to spare. */
  lemma {:induction false} GroupedShape(entries: seq<(string, Article)>)
    ensures var g := Grouped(entries);
            && (forall k :: 0 <= k < |g| ==> |g[k].1| <= MaxPerCategory)
            && (forall i, j :: 0 <= i < j < |g| ==> g[i].0 != g[j].0)
            && (forall e :: e in entries ==> exists k :: 0 <= k < |g| && g[k].0 == e.0)
            && (forall k, a :: 0 <= k < |g| && (g[k].0, a) in entries && |g[k].1| < MaxPerCategory ==> a in g[k].1)
  {
    var g := Grouped(entries);
    var names := GroupNames(entries);
    forall e | e in entries ensures exists k :: 0 <= k < |g| && g[k].0 == e.0 {
      var m :| 0 <= m < |entries| && entries[m] == e;
      assert entries[m].0 == e.0;
      assert e.0 in names;
      var k :| 0 <= k < |names| && names[k] == e.0;
      assert g[k].0 == e.0;
    }
  }

  /** Appending an element to the input appends it to the first
      occurrences exactly when its key is new. */
  lemma {:induction false} FirstBySnoc<T, K>(s: seq<T>, x: T, key: T -> K, seen: set<K>)
    ensures FirstBy(s + [x], key, seen) ==
            FirstBy(s, key, seen) + (if key(x) in seen || key(x) in Keys(s, key) then [] else [x])
    decreases |s|
  {
    if s == [] {
      assert [x][1..] == [];
    } else {
      var tail := s[1..];
      assert (s + [x])[1..] == tail + [x];
      assert forall v :: v in Keys(s, key) <==> v == key(s[0]) || v in Keys(tail, key) by {
        forall v ensures v in Keys(s, key) <==> v == key(s[0]) || v in Keys(tail, key) {
          if v in Keys(s, key) && v != key(s[0]) {
            var m :| 0 <= m < |s| && key(s[m]) == v;
            assert key(tail[m - 1]) == v;
          }
          if v in Keys(tail, key) {
            var m :| 0 <= m < |tail| && key(tail[m]) == v;
            assert key(s[m + 1]) == v;
          }
        }
      }
      if key(s[0]) in seen {
        FirstBySnoc(tail, x, key, seen);
      } else {
        FirstBySnoc(tail, x, key, seen + {key(s[0])});
      }
    }
  }

  lemma {:induction false} MembersSnoc(entries: seq<(string, Article)>, e: (string, Article), name: string)
    ensures Members(entries + [e], name) == Members(entries, name) + (if e.0 == name then [e.1] else [])
  {
    assert (entries + [e])[..|entries|] == entries;
  }

  lemma {:induction false} GroupNamesSnoc(entries: seq<(string, Article)>, e: (string, Article))
    ensures GroupNames(entries + [e]) == GroupNames(entries) + (if e.0 in GroupNames(entries) then [] else [e.0])
  {
    var s := entries + [e];
    var names := EntryNames(entries);
    assert EntryNames(s) == names + [e.0];
    FirstBySnoc(names, e.0, Itself, {});
    assert e.0 in Keys(names, Itself) <==> e.0 in GroupNames(entries) by {
      if e.0 in Keys(names, Itself) {
        var m :| 0 <= m < |names| && Itself(names[m]) == e.0;
        assert entries[m].0 == e.0;
      }
      if e.0 in GroupNames(entries) {
        var m :| 0 <= m < |entries| && entries[m].0 == e.0;
        assert Itself(names[m]) == e.0;
      }
    }
  }

  /** After the entries `seen`, the dictionary's keys are their group names
      in order of first appearance, each holding its articles so far. */
  ghost predicate Filling(seen: seq<(string, Article)>, order: seq<string>, lists: map<string, seq<Article>>)
  {
    && order == GroupNames(seen)
    && (forall n :: n in lists <==> n in order)
    && (forall n :: n in lists ==> lists[n] == Members(seen, n))
  }

  /** Appending entry `e` to its name's list, opening the list first when
      the name is new, keeps the dictionary in step. */
  lemma {:induction false} FillStep(seen: seq<(string, Article)>, e: (string, Article), order: seq<string>,
                                    lists: map<string, seq<Article>>)
    requires Filling(seen, order, lists)
    ensures Filling(seen + [e], if e.0 in lists then order else order + [e.0],
                    lists[e.0 := (if e.0 in lists then lists[e.0] else []) + [e.1]])
  {
    GroupNamesSnoc(seen, e);
    if e.0 !in lists {
      assert Members(seen, e.0) == [];
    }
    FillLists(seen, e, lists);
  }

  /** `FillStep` for entry `i` of the whole list. */
  lemma {:induction false} FillNext(entries: seq<(string, Article)>, i: nat, order: seq<string>,
                                    lists: map<string, seq<Article>>)
    requires i < |entries| && Filling(entries[..i], order, lists)
    ensures var e := entries[i];
            Filling(entries[..i + 1], if e.0 in lists then order else order + [e.0],
                    lists[e.0 := (if e.0 in lists then lists[e.0] else []) + [e.1]])
  {
    assert entries[..i + 1] == entries[..i] + [entries[i]];
    FillStep(entries[..i], entries[i], order, lists);
  }

  /** Appending `e.1` to the list of `e.0` keeps each list equal to the
      articles filed under its name. */
  lemma {:induction false} FillLists(entries: seq<(string, Article)>, e: (string, Article), lists: map<string, seq<Article>>)
    requires forall n :: n in lists ==> lists[n] == Members(entries, n)
    requires e.0 !in lists ==> Members(entries, e.0) == []
    ensures var lists' := lists[e.0 := (if e.0 in lists then lists[e.0] else []) + [e.1]];
            forall n :: n in lists' ==> lists'[n] == Members(entries + [e], n)
  {
    var lists' := lists[e.0 := (if e.0 in lists then lists[e.0] else []) + [e.1]];
    forall n | n in lists' ensures lists'[n] == Members(entries + [e], n) {
      MembersSnoc(entries, e, n);
    }
  }

  /** The body's grouping as the service computes it: one pass filling a
      dictionary keyed by category name in insertion order, then the first
      ten articles of each list. */
  method GroupByCategory(entries: seq<(string, Article)>) returns (groups: seq<(string, seq<Article>)>)
    ensures groups == Grouped(entries)
  {
    var order, lists := Collect(entries);
    groups := [];
    for j := 0 to |order|
      invariant |groups| == j
      invariant forall k :: 0 <= k < j ==> groups[k] == (order[k], Take(Members(entries, order[k]), MaxPerCategory))
    {
      groups := groups + [(order[j], Take(lists[order[j]], MaxPerCategory))];
    }
  }

  /** The dictionary pass: each entry's article appended to the list of its
      name, the names kept in order of first appearance. */
  method Collect(entries: seq<(string, Article)>) returns (order: seq<string>, lists: map<string, seq<Article>>)
    ensures Filling(entries, order, lists)
  {
    order, lists := [], map[];
    for i := 0 to |entries|
      invariant Filling(entries[..i], order, lists)
    {
      var e := entries[i];
      FillNext(entries, i, order, lists);
      var current := if e.0 in lists then lists[e.0] else [];
      if e.0 !in lists {
        order := order + [e.0];
      }
      lists := lists[e.0 := current + [e.1]];
    }
    assert entries[..|entries|] == entries;
  }

  /** The digest's topics: the category names of its articles, each once,
      in order of first appearance (the order the body's sections take). */
  function Topics(categories: seq<Category>, links: set<(int, int)>, articles: seq<Article>): (r: seq<string>)
    ensures NoDuplicates(r)
  {
    GroupNames(Memberships(categories, links, articles))
  }

  /** The topics are exactly the category names of the digest's articles. */
  lemma {:induction false} TopicsMeaning(categories: seq<Category>, links: set<(int, int)>, articles: seq<Article>)
    ensures forall n :: n in Topics(categories, links, articles) <==>
                        exists k :: 0 <= k < |articles|
                                    && n in Categories.Names(CategoriesOf(categories, links, articles[k].id))
  {
    var entries := Memberships(categories, links, articles);
    var r := GroupNames(entries);
    assert r == Topics(categories, links, articles);
    assert forall n :: n in r <==> exists e :: e in entries && e.0 == n by {
      forall n ensures n in r <==> exists e :: e in entries && e.0 == n {
        if n in r {
          var k :| 0 <= k < |entries| && entries[k].0 == n;
          assert entries[k] in entries;
        }
      }
    }
    forall n | exists k :: 0 <= k < |articles| && n in Categories.Names(CategoriesOf(categories, links, articles[k].id))
      ensures n in r
    {
      var k :| 0 <= k < |articles| && n in Categories.Names(CategoriesOf(categories, links, articles[k].id));
      assert (n, articles[k]) in entries;
    }
  }

  // ---------------------------------------------------------------------
  // Title, body and the stored digest
  // ---------------------------------------------------------------------

  function TypeLabel(digestType: string): string {
    if digestType == "daily" then "Daily"
    else if digestType == "weekly" then "Weekly"
    else if digestType == "custom" then "Custom"
    else "Content"
  }

  /** "<Label> Digest: <first three topics>[ +<n> more]", or "Your <Label>
      Content Digest" when there are no topics. */
  function DigestTitle(digestType: string, topics: seq<string>): (t: string) {
    var name := TypeLabel(digestType);
    if topics == [] then "Your " + name + " Content Digest"
    else
      name + " Digest: " + JoinWith(Take(topics, TitleTopics), ", ")
      + (if |topics| > TitleTopics then " +" + NatToString(|topics| - TitleTopics) + " more" else "")
  }

  /** The fallback title is used exactly when there are no topics;
      otherwise the title names the type and starts with the first topic. */
  lemma {:induction false} TitleShape(digestType: string, topics: seq<string>)
    ensures topics == [] <==> StartsWith(DigestTitle(digestType, topics), "Your ")
    ensures topics != [] ==> StartsWith(DigestTitle(digestType, topics), TypeLabel(digestType) + " Digest: " + topics[0])
  {
    var t := DigestTitle(digestType, topics);
    var name := TypeLabel(digestType);
    if topics != [] {
      var joined := JoinWith(Take(topics, TitleTopics), ", ");
      assert Take(topics, TitleTopics)[0] == topics[0];
      var head := name + " Digest: ";
      assert t[..|head| + |joined|] == head + joined;
      assert t[..|head| + |topics[0]|] == (head + joined)[..|head| + |topics[0]|];
      assert t[0] == name[0] != 'Y';
    }
  }

  /** The title depends on the topics only through the first three and
      their number. */
  lemma {:induction false} TitleSeesFirstThree(digestType: string, a: seq<string>, b: seq<string>)
    requires Take(a, TitleTopics) == Take(b, TitleTopics) && |a| == |b|
    ensures DigestTitle(digestType, a) == DigestTitle(digestType, b)
  {
  }

  /** What the body shows of one article: its executive summary when it
      has a non-empty one, else its title. */
  datatype Blurb = Blurb(title: string, url: string, summary: string, publishedAt: Option<int>)

  function FindSummary(summaries: seq<Summary>, article: int): (r: Option<Summary>)
    ensures r.Some? ==> r.value in summaries && r.value.articleId == article
    ensures r.None? ==> forall k :: 0 <= k < |summaries| ==> summaries[k].articleId != article
  {
    if summaries == [] then None
    else if summaries[0].articleId == article then Some(summaries[0])
    else FindSummary(summaries[1..], article)
  }

  function BlurbOf(summaries: seq<Summary>, a: Article): (b: Blurb)
    ensures b.title == a.title && b.url == a.url && b.publishedAt == a.publishedAt
    ensures b.summary == a.title || exists k :: 0 <= k < |summaries| && summaries[k].articleId == a.id
                                                && b.summary == summaries[k].executiveSummary != ""
  {
    var text := (match FindSummary(summaries, a.id)
                 case Some(s) => if s.executiveSummary != "" then s.executiveSummary else a.title
                 case None => a.title);
    Blurb(a.title, a.url, text, a.publishedAt)
  }

  type Section = (string, seq<Blurb>)

  function Sections(summaries: seq<Summary>, groups: seq<(string, seq<Article>)>): (r: seq<Section>)
    ensures |r| == |groups|
    ensures forall k :: 0 <= k < |r| ==> r[k].0 == groups[k].0 && |r[k].1| == |groups[k].1|
  {
    seq(|groups|, i requires 0 <= i < |groups| =>
      (groups[i].0, seq(|groups[i].1|, j requires 0 <= j < |groups[i].1| => BlurbOf(summaries, groups[i].1[j]))))
  }

  /** The start of the period a digest of this type ending at `now` covers. */
  function PeriodStart(digestType: string, customDays: Option<int>, now: int): int
    requires PeriodDays(digestType, customDays).Some?
  {
    now - PeriodDays(digestType, customDays).value * SecondsPerDay
  }

  /** The articles a user's digest over `[start, end]` would cover. */
  function Chosen(db: Db, user: int, start: int, end: int): seq<Article> {
    SelectArticles(db.articles, db.categories, db.articleCategories,
                   Followed(db.categories, db.followedTopics, user), start, end)
  }

  /** A digest comes out: the user has not turned digests off, the type
      has a period and some article qualifies in it. */
  predicate HasDigest(db: Db, user: User, digestType: string, customDays: Option<int>, now: int) {
    && user.digestFrequency != "none"
    && PeriodDays(digestType, customDays).Some?
    && Chosen(db, user.id, PeriodStart(digestType, customDays, now), now) != []
  }

  /** `generate_digest`: nothing when the user turned digests off, the type
      has no period or no article qualifies; otherwise a new digest with the
      next id, the period ending now, the chosen articles' count and topics,
      the title those topics give, and not yet sent. */
  function GenerateDigest(db: Db, user: User, digestType: string, customDays: Option<int>, now: int,
                          render: (seq<Section>, nat) -> string): (r: Option<Digest>)
    ensures r.Some? <==> HasDigest(db, user, digestType, customDays, now)
    ensures r.Some? ==>
              var start := PeriodStart(digestType, customDays, now);
              var chosen := Chosen(db, user.id, start, now);
              && 1 <= |chosen| <= MaxDigestArticles
              && DigestOf(db, user.id, digestType, start, now, chosen, r.value)
  {
    if user.digestFrequency == "none" || PeriodDays(digestType, customDays).None? then None
    else
      var start := PeriodStart(digestType, customDays, now);
      var chosen := Chosen(db, user.id, start, now);
      if chosen == [] then None
      else Some(NewDigest(db, user.id, digestType, start, now, chosen, render))
  }

  /** `d` is a new digest row for `user` over `[start, now]` covering
      `chosen`: a fresh id, the count and topics of the articles, the title
      those topics give, created now and not yet sent. */
  predicate DigestOf(db: Db, user: int, digestType: string, start: int, now: int, chosen: seq<Article>, d: Digest) {
    && (forall k :: 0 <= k < |db.digests| ==> db.digests[k].id != d.id)
    && d.userId == user && d.digestType == digestType
    && d.periodStart == start && d.periodEnd == now && d.createdAt == now
    && d.articleCount == |chosen|
    && d.topicsCovered == Topics(db.categories, db.articleCategories, chosen)
    && d.title == DigestTitle(digestType, d.topicsCovered)
    && d.sentAt.None?
  }

  /** The digest row for a chosen list of articles: the next id, the count
      and topics of the articles, the title the topics give, the rendered
      body, created now and not yet sent. */
  function NewDigest(db: Db, user: int, digestType: string, start: int, now: int, chosen: seq<Article>,
                     render: (seq<Section>, nat) -> string): (d: Digest)
    ensures DigestOf(db, user, digestType, start, now, chosen, d)
  {
    var topics := Topics(db.categories, db.articleCategories, chosen);
    var groups := Grouped(Memberships(db.categories, db.articleCategories, chosen));
    Digest(NextKey(db.digests, DigestId), user, DigestTitle(digestType, topics),
           render(Sections(db.summaries, groups), |chosen|), digestType, start, now,
           |chosen|, topics, now, None)
  }

  // ---------------------------------------------------------------------
  // Sending
  // ---------------------------------------------------------------------

  /** The outcome of a send and the digest as it is afterwards. */
  datatype Sent = Sent(success: bool, digest: Digest)

  /** The name the e-mail greets: the full name when there is one,
      otherwise the e-mail address. */
  function RecipientName(u: User): (n: string)
    ensures Truthy(u.fullName) ==> n == u.fullName.value
    ensures !Truthy(u.fullName) ==> n == u.email
  {
    if Truthy(u.fullName) then u.fullName.value else u.email
  }

  /** `send_digest` with the greeting falling back to the e-mail address:
      nothing is sent to a user with notifications off or without an
      address; otherwise the mail service decides, and only a delivered
      digest gets its sent time. */
  function SendDigest(d: Digest, u: User, now: int, mail: (string, string, Digest) -> bool): (r: Sent)
    ensures r.success <==> u.emailNotifications && u.email != "" && mail(u.email, RecipientName(u), d)
    ensures r.success ==> r.digest == d.(sentAt := Some(now))
    ensures !r.success ==> r.digest == d
  {
    if !u.emailNotifications || u.email == "" then Sent(false, d)
    else if mail(u.email, RecipientName(u), d) then Sent(true, d.(sentAt := Some(now)))
    else Sent(false, d)
  }

  /** The users `send_digest` as written fails on: it would mail them
      (notifications on, an address) but they have no full name. */
  predicate RaisesOnSend(u: User) {
    u.emailNotifications && u.email != "" && !Truthy(u.fullName)
  }

  /** What the missing attribute raises. */
  const NoUsername: string := "'User' object has no attribute 'username'"

  /** `send_digest` as written: the greeting falls back to an attribute
      the user record does not have, so a user with notifications on, an
      address and no full name makes it raise. */
  function SendDigestAsWritten(d: Digest, u: User, now: int, mail: (string, string, Digest) -> bool): (r: Result<Sent, string>)
    ensures r.Err? <==> RaisesOnSend(u)
    ensures r.Err? ==> r.error == NoUsername
    ensures r.Ok? ==> (r.value.success <==> u.emailNotifications && u.email != "" && mail(u.email, RecipientName(u), d))
    ensures r.Ok? ==> r.value.digest == if r.value.success then d.(sentAt := Some(now)) else d
  {
    if !u.emailNotifications || u.email == "" then Ok(Sent(false, d))
    else if !Truthy(u.fullName) then Err(NoUsername)
    else if mail(u.email, u.fullName.value, d) then Ok(Sent(true, d.(sentAt := Some(now))))
    else Ok(Sent(false, d))
  }

  /** The two agree except on a subscriber without a full name, where the
      written code raises and the corrected one greets by address. */
  lemma {:induction false} SendDigestFinding(d: Digest, u: User, now: int, mail: (string, string, Digest) -> bool)
    ensures !RaisesOnSend(u) ==> SendDigestAsWritten(d, u, now, mail) == Ok(SendDigest(d, u, now, mail))
    ensures u.emailNotifications && u.email != "" && u.fullName.None? ==>
              && SendDigestAsWritten(d, u, now, mail).Err?
              && SendDigest(d, u, now, mail).success == mail(u.email, u.email, d)
  {
  }

  /** The database after `generate_and_send_digest`, and what the call
      returned (the digest, or nothing) or raised. */
  datatype Outcome = Outcome(db: Db, returned: Result<Option<Digest>, string>)

  /** `generate_and_send_digest` as written: when a digest is generated it
      is committed first and then sent with the written `send_digest`.  A
      user the send raises on keeps the committed, unsent digest while the
      call raises; otherwise the call returns the stored digest, which
      carries the sent time exactly when the mail went out. */
  function GenerateAndSend(db: Db, user: User, digestType: string, now: int,
                           render: (seq<Section>, nat) -> string,
                           mail: (string, string, Digest) -> bool): (r: Outcome)
    ensures !HasDigest(db, user, digestType, None, now) ==> r == Outcome(db, Ok(None))
    ensures HasDigest(db, user, digestType, None, now) ==>
              var d := GenerateDigest(db, user, digestType, None, now, render).value;
              && |r.db.digests| == |db.digests| + 1
              && r.db == db.(digests := db.digests + [r.db.digests[|db.digests|]])
              && r.db.digests[|db.digests|].(sentAt := None) == d
              && (r.returned.Err? <==> RaisesOnSend(user))
              && (r.returned.Err? ==> r.returned.error == NoUsername && r.db.digests[|db.digests|] == d)
              && (r.returned.Ok? ==>
                    && r.returned.value == Some(r.db.digests[|db.digests|])
                    && (r.db.digests[|db.digests|].sentAt.Some? <==>
                          user.emailNotifications && user.email != "" && mail(user.email, RecipientName(user), d)))
  {
    match GenerateDigest(db, user, digestType, None, now, render)
    case None => Outcome(db, Ok(None))
    case Some(d) =>
      match SendDigestAsWritten(d, user, now, mail)
      case Err(e) => Outcome(db.(digests := db.digests + [d]), Err(e))
      case Ok(s) => Outcome(db.(digests := db.digests + [s.digest]), Ok(Some(s.digest)))
  }

  /** A stored digest keeps digest ids unique. */
  lemma {:induction false} GenerateKeepsUnique(db: Db, user: User, digestType: string, now: int,
                            render: (seq<Section>, nat) -> string, mail: (string, string, Digest) -> bool)
    requires Unique(db)
    ensures Unique(GenerateAndSend(db, user, digestType, now, render, mail).db)
  {
    var o := GenerateAndSend(db, user, digestType, now, render, mail);
    if HasDigest(db, user, digestType, None, now) {
      AppendDistinct(db.digests, o.db.digests[|db.digests|], DigestId);
    }
  }

  // ---------------------------------------------------------------------
  // The batch run
  // ---------------------------------------------------------------------

  datatype Stats = Stats(totalUsers: nat, created: nat, sent: nat, errors: nat)

  /** The users a batch for `frequency` visits: that frequency and
      notifications on, in table order. */
  function Subscribers(users: seq<User>, frequency: string): (r: seq<User>)
    ensures |r| <= |users|
    ensures forall k :: 0 <= k < |r| ==> r[k] in users && r[k].digestFrequency == frequency && r[k].emailNotifications
    ensures forall k :: 0 <= k < |users| && users[k].digestFrequency == frequency && users[k].emailNotifications
                        ==> users[k] in r
  {
    Where(users, (u: User) => u.digestFrequency == frequency && u.emailNotifications)
  }

  /** How a subscriber's turn of the batch ends: processing fails before
      anything is stored (`broken`), there is nothing to send, the digest
      is stored and the send raises, or the digest is stored and returned. */
  datatype Fate = Failed | NothingToSend | RaisedAfterCommit | Produced

  function FateOf(db: Db, u: User, frequency: string, now: int, broken: User -> bool): Fate {
    if broken(u) then Failed
    else if !HasDigest(db, u, frequency, None, now) then NothingToSend
    else if RaisesOnSend(u) then RaisedAfterCommit
    else Produced
  }

  /** How many of `users` meet the fate `f`. */
  function CountFate(db: Db, users: seq<User>, frequency: string, now: int, broken: User -> bool, f: Fate): (n: nat)
    ensures n <= |users|
  {
    if users == [] then 0
    else CountFate(db, users[..|users| - 1], frequency, now, broken, f)
         + (if FateOf(db, users[|users| - 1], frequency, now, broken) == f then 1 else 0)
  }

  /** Every user meets exactly one fate, so the four counts add up to the
      number of users. */
  lemma {:induction false} FatesPartition(db: Db, users: seq<User>, frequency: string, now: int, broken: User -> bool)
    ensures CountFate(db, users, frequency, now, broken, Failed)
            + CountFate(db, users, frequency, now, broken, NothingToSend)
            + CountFate(db, users, frequency, now, broken, RaisedAfterCommit)
            + CountFate(db, users, frequency, now, broken, Produced) == |users|
  {
    if users != [] {
      FatesPartition(db, users[..|users| - 1], frequency, now, broken);
    }
  }

  /** `send_digests_for_frequency`: every subscriber is visited and the
      run goes on past failures.  A user whose processing fails before the
      commit, or whose send raises after it, counts as an error; only the
      digests returned count as created, yet every committed digest stays
      stored with a fresh id, so the table grows by the created digests
      plus the sends that raised. */
  method SendDigestsForFrequency(db: Db, frequency: string, now: int,
                                 render: (seq<Section>, nat) -> string,
                                 mail: (string, string, Digest) -> bool,
                                 broken: User -> bool) returns (stats: Stats, after: Db)
    ensures var subs := Subscribers(db.users, frequency);
            && stats.totalUsers == |subs|
            && stats.errors == CountFate(db, subs, frequency, now, broken, Failed)
                               + CountFate(db, subs, frequency, now, broken, RaisedAfterCommit)
            && stats.created == CountFate(db, subs, frequency, now, broken, Produced)
            && |after.digests| == |db.digests| + stats.created
                                  + CountFate(db, subs, frequency, now, broken, RaisedAfterCommit)
    ensures stats.sent <= stats.created
    ensures stats.created + stats.errors <= stats.totalUsers
    ensures after.digests[..|db.digests|] == db.digests
    ensures after.(digests := db.digests) == db
  {
    var subs := Subscribers(db.users, frequency);
    stats := Stats(|subs|, 0, 0, 0);
    after := db;
    for i := 0 to |subs|
      invariant Batched(db, subs, i, frequency, now, broken, stats, after)
    {
      var stats0, after0 := stats, after;
      stats, after := Visit(after, stats, subs[i], frequency, now, render, mail, broken);
      BatchStep(db, subs, i, frequency, now, broken, stats0, after0, stats, after);
    }
    assert subs[..|subs|] == subs;
    FatesPartition(db, subs, frequency, now, broken);
  }

  /** The batch's progress after visiting the first `i` subscribers. */
  predicate Batched(db: Db, subs: seq<User>, i: nat, frequency: string, now: int, broken: User -> bool,
                    stats: Stats, after: Db)
  {
    && i <= |subs|
    && stats.totalUsers == |subs|
    && stats.errors == CountFate(db, subs[..i], frequency, now, broken, Failed)
                       + CountFate(db, subs[..i], frequency, now, broken, RaisedAfterCommit)
    && stats.created == CountFate(db, subs[..i], frequency, now, broken, Produced)
    && stats.sent <= stats.created
    && |after.digests| == |db.digests| + stats.created + CountFate(db, subs[..i], frequency, now, broken, RaisedAfterCommit)
    && after.digests[..|db.digests|] == db.digests
    && after == db.(digests := after.digests)
  }

  /** One visit keeps the batch's progress in step with the counts. */
  lemma {:induction false} BatchStep(db: Db, subs: seq<User>, i: nat, frequency: string, now: int,
                                     broken: User -> bool, stats: Stats, after: Db, stats': Stats, after': Db)
    requires i < |subs| && Batched(db, subs, i, frequency, now, broken, stats, after)
    requires VisitedAs(FateOf(after, subs[i], frequency, now, broken), stats, after, stats', after')
    ensures Batched(db, subs, i + 1, frequency, now, broken, stats', after')
  {
    CountStep(db, subs, i, frequency, now, broken);
    GenerateIgnoresDigests(db, after.digests, subs[i], frequency, now);
    assert FateOf(after, subs[i], frequency, now, broken) == FateOf(db, subs[i], frequency, now, broken);
    assert after'.digests[..|db.digests|] == after'.digests[..|after.digests|][..|db.digests|];
  }

  /** How one turn with fate `f` moves the counts and the table: an error
      for a failure or a raise, a created digest (perhaps sent) for a
      produced one, and one more stored digest whenever the commit
      happened. */
  predicate VisitedAs(f: Fate, stats: Stats, after: Db, stats': Stats, after': Db) {
    && stats'.totalUsers == stats.totalUsers
    && stats'.errors == stats.errors + (if f == Failed || f == RaisedAfterCommit then 1 else 0)
    && stats'.created == stats.created + (if f == Produced then 1 else 0)
    && stats.sent <= stats'.sent <= stats.sent + (stats'.created - stats.created)
    && |after'.digests| == |after.digests| + (if f == Produced || f == RaisedAfterCommit then 1 else 0)
    && after'.digests[..|after.digests|] == after.digests
    && after' == after.(digests := after'.digests)
  }

  /** One turn of the batch loop: a broken user counts as an error and
      changes nothing; otherwise the digest generated is committed, and
      the turn counts an error when the send raises, or a created digest
      (and, if delivered, a sent one) when the digest comes back. */
  method Visit(after: Db, stats: Stats, u: User, frequency: string, now: int,
               render: (seq<Section>, nat) -> string, mail: (string, string, Digest) -> bool,
               broken: User -> bool) returns (stats': Stats, after': Db)
    ensures VisitedAs(FateOf(after, u, frequency, now, broken), stats, after, stats', after')
  {
    stats', after' := stats, after;
    if broken(u) {
      stats' := stats.(errors := stats.errors + 1);
    } else {
      var o := GenerateAndSend(after, u, frequency, now, render, mail);
      after' := o.db;
      match o.returned
      case Err(_) =>
        stats' := stats.(errors := stats.errors + 1);
      case Ok(None) =>
      case Ok(Some(d)) =>
        stats' := stats.(created := stats.created + 1,
                         sent := if d.sentAt.Some? then stats.sent + 1 else stats.sent);
    }
  }

  lemma {:induction false} CountStep(db: Db, users: seq<User>, i: nat, frequency: string, now: int, broken: User -> bool)
    requires i < |users|
    ensures forall f: Fate :: CountFate(db, users[..i + 1], frequency, now, broken, f)
                              == CountFate(db, users[..i], frequency, now, broken, f)
                                 + (if FateOf(db, users[i], frequency, now, broken) == f then 1 else 0)
  {
    assert users[..i + 1][..i] == users[..i];
  }

  /** Whether a digest is generated does not depend on the digests already
      stored. */
  lemma {:induction false} GenerateIgnoresDigests(db: Db, digests: seq<Digest>, user: User, digestType: string, now: int)
    ensures HasDigest(db.(digests := digests), user, digestType, None, now) == HasDigest(db, user, digestType, None, now)
  {
  }
}

=== FILE: embeddings.dfy ===
/** Embeddings and similarity links (backend/app/routers/embeddings.py, and
    the two maintenance scripts backend/generate_embeddings.py and
    backend/compute_connections.py that repeat its loops with counters).
    The embedding model is an oracle from text to a vector or an error; the
    cosine similarity is an oracle from two vectors to a real, or to
    nothing when numpy raises. */
module Embeddings {
  import opened Wrappers
  import opened Records
  import Sorting

  /** The text sent to the embedding model: the title, a blank line, then
      the content, or nothing when the content is null or empty. */
  function EmbedText(a: Article): string {
    a.title + "\n\n" + a.content.GetOr("")
  }

  predicate HasEmbedding(embs: seq<Embedding>, id: int) {
    exists k :: 0 <= k < |embs| && embs[k].articleId == id
  }

  datatype Generated = Generated(message: string, embeddings: seq<Embedding>)

  /** `POST /embeddings/generate/{id}`: 404 for an unknown article; an
      article that already has an embedding is left alone; otherwise the
      model's vector is stored, and a model error becomes a 500 carrying its
      text. */
  function GenerateEmbedding(articles: seq<Article>, embs: seq<Embedding>, id: int,
                             embed: string -> Result<seq<real>, string>, model: string)
    : (r: Result<Generated, HttpError>)
    ensures FindArticle(articles, id).None? ==> r == Err(HttpError(NotFound, "Article not found"))
    ensures FindArticle(articles, id).Some? && HasEmbedding(embs, id)
            ==> r == Ok(Generated("Embedding already exists", embs))
    ensures FindArticle(articles, id).Some? && !HasEmbedding(embs, id) ==>
              var reply := embed(FindArticle(articles, id).value.title + "\n\n"
                                 + FindArticle(articles, id).value.content.GetOr(""));
              && (reply.Err? ==> r == Err(HttpError(ServerError, reply.error)))
              && (reply.Ok? ==> r == Ok(Generated("Embedding generated",
                                                  embs + [Embedding(id, Parsed(reply.value), model)])))
    ensures r.Ok? ==> HasEmbedding(r.value.embeddings, id) && r.value.embeddings[..|embs|] == embs
    ensures r.Ok? && DistinctBy(embs, EmbeddingArticle) ==> DistinctBy(r.value.embeddings, EmbeddingArticle)
  {
    match FindArticle(articles, id)
    case None => Err(HttpError(NotFound, "Article not found"))
    case Some(a) =>
      if HasEmbedding(embs, id) then Ok(Generated("Embedding already exists", embs))
      else
        match embed(EmbedText(a))
        case Err(msg) => Err(HttpError(ServerError, msg))
        case Ok(v) =>
          var after := embs + [Embedding(id, Parsed(v), model)];
          assert after[|embs|].articleId == id;
          Ok(Generated("Embedding generated", after))
  }

  /** A second request for the same article changes nothing. */
  lemma {:induction false} GenerateEmbeddingIdempotent(articles: seq<Article>, embs: seq<Embedding>, id: int,
                                    embed: string -> Result<seq<real>, string>, model: string)
    requires GenerateEmbedding(articles, embs, id, embed, model).Ok?
    ensures var once := GenerateEmbedding(articles, embs, id, embed, model).value.embeddings;
            GenerateEmbedding(articles, once, id, embed, model) == Ok(Generated("Embedding already exists", once))
  {
  }

  /** Appending an embedding for an article without one keeps one
      embedding per article. */
  lemma {:induction false} AppendKeepsDistinct(embs: seq<Embedding>, e: Embedding)
    requires DistinctBy(embs, EmbeddingArticle) && !HasEmbedding(embs, e.articleId)
    ensures DistinctBy(embs + [e], EmbeddingArticle)
  {
    var after := embs + [e];
    forall i, j | 0 <= i < j < |after| ensures EmbeddingArticle(after[i]) != EmbeddingArticle(after[j]) {
      if j == |embs| {
        assert after[i] == embs[i];
      } else {
        assert after[i] == embs[i] && after[j] == embs[j];
      }
    }
  }

  /** `generate_embeddings_task`: the requested ids in order; an unknown
      article or one that already has an embedding is skipped, a model
      error is logged and the loop goes on.  Every requested article that
      exists ends with an embedding unless its own model call failed. */
  method GenerateEmbeddingsTask(ids: seq<int>, articles: seq<Article>, embs: seq<Embedding>,
                                embed: string -> Result<seq<real>, string>, model: string)
    returns (after: seq<Embedding>, generated: nat, skipped: nat, failed: nat)
    ensures generated + skipped + failed == |ids|
    ensures |after| == |embs| + generated && after[..|embs|] == embs
    ensures DistinctBy(embs, EmbeddingArticle) ==> DistinctBy(after, EmbeddingArticle)
    ensures forall k :: 0 <= k < |ids| && FindArticle(articles, ids[k]).Some? ==>
              HasEmbedding(after, ids[k]) || embed(EmbedText(FindArticle(articles, ids[k]).value)).Err?
    ensures forall k :: |embs| <= k < |after| ==>
              after[k].articleId in ids && FindArticle(articles, after[k].articleId).Some?
  {
    after := embs;
    generated, skipped, failed := 0, 0, 0;
    var i := 0;
    while i < |ids|
      invariant 0 <= i <= |ids|
      invariant generated + skipped + failed == i
      invariant |after| == |embs| + generated && after[..|embs|] == embs
      invariant DistinctBy(embs, EmbeddingArticle) ==> DistinctBy(after, EmbeddingArticle)
      invariant forall k :: 0 <= k < i && FindArticle(articles, ids[k]).Some? ==>
                  HasEmbedding(after, ids[k]) || embed(EmbedText(FindArticle(articles, ids[k]).value)).Err?
      invariant forall k :: |embs| <= k < |after| ==>
                  after[k].articleId in ids && FindArticle(articles, after[k].articleId).Some?
    {
      var id := ids[i];
      match FindArticle(articles, id) {
        case None =>
          skipped := skipped + 1;
        case Some(a) =>
          if HasEmbedding(after, id) {
            skipped := skipped + 1;
          } else {
            match embed(EmbedText(a)) {
              case Err(_) =>
                failed := failed + 1;
              case Ok(v) =>
                var e := Embedding(id, Parsed(v), model);
                if DistinctBy(embs, EmbeddingArticle) {
                  AppendKeepsDistinct(after, e);
                }
                forall k | 0 <= k < i + 1 && HasEmbedding(after, ids[k])
                  ensures HasEmbedding(after + [e], ids[k])
                {
                  var m :| 0 <= m < |after| && after[m].articleId == ids[k];
                  assert (after + [e])[m] == after[m];
                }
                assert (after + [e])[|after|].articleId == id;
                after := after + [e];
                generated := generated + 1;
            }
          }
      }
      i := i + 1;
    }
  }

  /** The articles without an embedding, in table order. */
  function Unembedded(articles: seq<Article>, embs: seq<Embedding>): (r: seq<Article>)
    ensures forall k :: 0 <= k < |r| ==> r[k] in articles && !HasEmbedding(embs, r[k].id)
    ensures forall k :: 0 <= k < |articles| && !HasEmbedding(embs, articles[k].id) ==> articles[k] in r
  {
    Where(articles, (a: Article) => !HasEmbedding(embs, a.id))
  }

  /** The reference result of embedding a list of articles: one stored
      vector per article whose model call succeeds, in order. */
  function Embedded(cands: seq<Article>, embed: string -> Result<seq<real>, string>, model: string)
    : (r: seq<Embedding>)
    ensures |r| <= |cands|
  {
    if cands == [] then [] else Embedded(cands[..|cands| - 1], embed, model) + EmbedOne(cands[|cands| - 1], embed, model)
  }

  /** What embedding one article stores: its vector when the model call
      succeeds, nothing when it fails. */
  function EmbedOne(a: Article, embed: string -> Result<seq<real>, string>, model: string): (r: seq<Embedding>)
    ensures |r| <= 1
  {
    match embed(EmbedText(a))
    case Err(_) => []
    case Ok(v) => [Embedding(a.id, Parsed(v), model)]
  }

  lemma {:induction false} EmbeddedStep(cands: seq<Article>, i: nat, embed: string -> Result<seq<real>, string>, model: string)
    requires i < |cands|
    ensures Embedded(cands[..i + 1], embed, model) == Embedded(cands[..i], embed, model) + EmbedOne(cands[i], embed, model)
  {
    assert cands[..i + 1][..i] == cands[..i];
  }

  /** `generate_embeddings` (the script): nothing to do when every article
      has an embedding; otherwise every article without one is tried, and
      each either succeeds, storing its vector, or fails, without stopping
      the others. */
  method GenerateEmbeddingsScript(articles: seq<Article>, embs: seq<Embedding>,
                                  embed: string -> Result<seq<real>, string>, model: string)
    returns (after: seq<Embedding>, success: nat, failed: nat)
    ensures Unembedded(articles, embs) == [] ==> after == embs && success == 0 && failed == 0
    ensures success + failed == |Unembedded(articles, embs)|
    ensures after == embs + Embedded(Unembedded(articles, embs), embed, model)
    ensures success == |Embedded(Unembedded(articles, embs), embed, model)|
  {
    var cands := Unembedded(articles, embs);
    if cands == [] {
      return embs, 0, 0;
    }
    after, success, failed := EmbedEach(cands, embs, embed, model);
  }

  /** The script's loop: each candidate in turn, counting successes and
      failures. */
  method EmbedEach(cands: seq<Article>, embs: seq<Embedding>,
                   embed: string -> Result<seq<real>, string>, model: string)
    returns (after: seq<Embedding>, success: nat, failed: nat)
    ensures success + failed == |cands|
    ensures after == embs + Embedded(cands, embed, model)
    ensures success == |Embedded(cands, embed, model)|
  {
    after := embs;
    success, failed := 0, 0;
    var i := 0;
    while i < |cands|
      invariant EmbeddedSoFar(cands, embs, i, embed, model, after, success, failed)
    {
      EmbeddedSoFarStep(cands, embs, i, embed, model, after, success, failed);
      var stored := EmbedOne(cands[i], embed, model);
      if stored == [] {
        assert after + stored == after;
        failed := failed + 1;
      } else {
        after := after + stored;
        success := success + 1;
      }
      i := i + 1;
    }
    assert cands[..i] == cands;
  }

  /** The script's progress after trying the first `i` candidates. */
  predicate EmbeddedSoFar(cands: seq<Article>, embs: seq<Embedding>, i: nat,
                          embed: string -> Result<seq<real>, string>, model: string,
                          after: seq<Embedding>, success: nat, failed: nat)
  {
    && i <= |cands|
    && success + failed == i
    && after == embs + Embedded(cands[..i], embed, model)
    && success == |Embedded(cands[..i], embed, model)|
  }

  /** Trying one more candidate stores what its model call gives and counts
      it as a success or a failure. */
  lemma {:induction false} EmbeddedSoFarStep(cands: seq<Article>, embs: seq<Embedding>, i: nat,
                                             embed: string -> Result<seq<real>, string>, model: string,
                                             after: seq<Embedding>, success: nat, failed: nat)
    requires i < |cands| && EmbeddedSoFar(cands, embs, i, embed, model, after, success, failed)
    ensures var stored := EmbedOne(cands[i], embed, model);
            EmbeddedSoFar(cands, embs, i + 1, embed, model, after + stored, success + |stored|, failed + 1 - |stored|)
  {
    EmbeddedStep(cands, i, embed, model);
    var stored := EmbedOne(cands[i], embed, model);
    assert after + stored == embs + (Embedded(cands[..i], embed, model) + stored);
  }

  // ---------------------------------------------------------------------
  // Similarity links
  // ---------------------------------------------------------------------

  /** A parsed embedding: the article it belongs to and its numbers. */
  datatype Point = Point(articleId: int, vector: seq<real>)

  /** The embeddings whose vector parses, in table order; the others are
      logged and left out. */
  function ParsedPoints(embs: seq<Embedding>): (p: seq<Point>)
    ensures |p| <= |embs|
    ensures forall k :: 0 <= k < |p| ==> exists m :: 0 <= m < |embs| && FromRow(p[k], embs[m])
    ensures forall m :: 0 <= m < |embs| && embs[m].vector.Parsed? ==>
              Point(embs[m].articleId, embs[m].vector.numbers) in p
  {
    if embs == [] then []
    else
      var init := ParsedPoints(embs[..|embs| - 1]);
      var last := embs[|embs| - 1];
      ParsedPrefix(embs, embs[..|embs| - 1], init);
      match last.vector
      case Unparseable => init
      case Parsed(v) => init + [Point(last.articleId, v)]
  }

  predicate FromRow(pt: Point, e: Embedding) {
    e.articleId == pt.articleId && e.vector == Parsed(pt.vector)
  }

  lemma {:induction false} ParsedPrefix(embs: seq<Embedding>, pre: seq<Embedding>, init: seq<Point>)
    requires embs != [] && pre == embs[..|embs| - 1]
    requires forall k :: 0 <= k < |init| ==> exists m :: 0 <= m < |pre| && FromRow(init[k], pre[m])
    requires forall m :: 0 <= m < |pre| && pre[m].vector.Parsed? ==>
               Point(pre[m].articleId, pre[m].vector.numbers) in init
    ensures forall k :: 0 <= k < |init| ==> exists m :: 0 <= m < |embs| && FromRow(init[k], embs[m])
    ensures forall m :: 0 <= m < |embs| - 1 && embs[m].vector.Parsed? ==>
              Point(embs[m].articleId, embs[m].vector.numbers) in init
  {
    forall k | 0 <= k < |init| ensures exists m :: 0 <= m < |embs| && FromRow(init[k], embs[m]) {
      var w :| 0 <= w < |pre| && FromRow(init[k], pre[w]);
      assert pre[w] == embs[w];
      assert FromRow(init[k], embs[w]);
    }
    assert forall k :: 0 <= k < |init| ==> exists m :: 0 <= m < |embs| && FromRow(init[k], embs[m]);
    forall m | 0 <= m < |embs| - 1 && embs[m].vector.Parsed?
      ensures Point(embs[m].articleId, embs[m].vector.numbers) in init
    {
      assert pre[m] == embs[m];
    }
  }

  /** Connection `c` joins `a` and `b`, in either direction. */
  predicate Joins(c: Connection, a: int, b: int) {
    (c.source == a && c.target == b) || (c.source == b && c.target == a)
  }

  predicate Linked(cs: seq<Connection>, a: int, b: int) {
    exists k :: 0 <= k < |cs| && Joins(cs[k], a, b)
  }

  /** A pair qualifies when its similarity reaches the threshold
      (inclusive). */
  predicate Qualifies(a: Point, b: Point, threshold: real, sim: (seq<real>, seq<real>) -> Option<real>) {
    sim(a.vector, b.vector).Some? && sim(a.vector, b.vector).value >= threshold
  }

  /** The qualifying partners of `p[i]` among `p[i+1..j]`. */
  function RowHits(p: seq<Point>, i: nat, j: nat, threshold: real, sim: (seq<real>, seq<real>) -> Option<real>): nat
    requires i < j <= |p|
    decreases j
  {
    if j == i + 1 then 0
    else RowHits(p, i, j - 1, threshold, sim) + (if Qualifies(p[i], p[j - 1], threshold, sim) then 1 else 0)
  }

  /** The qualifying pairs whose first member is among the first `i`. */
  function Hits(p: seq<Point>, i: nat, threshold: real, sim: (seq<real>, seq<real>) -> Option<real>): nat
    requires i <= |p|
  {
    if i == 0 then 0 else Hits(p, i - 1, threshold, sim) + RowHits(p, i - 1, |p|, threshold, sim)
  }

  /** The number of unordered pairs whose first member is among the first
      `i` of `n` points. */
  function PairsBefore(n: nat, i: nat): nat
    requires i <= n
  {
    if i == 0 then 0 else PairsBefore(n, i - 1) + (n - i)
  }

  lemma {:induction false} PairsBeforeClosed(n: nat, i: nat)
    requires i <= n
    ensures 2 * PairsBefore(n, i) == i * (2 * n - i - 1)
  {
    if i > 0 {
      PairsBeforeClosed(n, i - 1);
      assert (i - 1) * (2 * n - (i - 1) - 1) + 2 * (n - i) == i * (2 * n - i - 1);
    }
  }

  /** All pairs of `n` points, counted row by row, are the n(n-1)/2 the
      script announces. */
  lemma {:induction false} AllPairs(n: nat)
    ensures PairsBefore(n, n) == n * (n - 1) / 2
  {
    PairsBeforeClosed(n, n);
  }

  /** How a link computation ends: too few embeddings to start, an
      exception that rolls everything back, or a commit of the new links
      with the counters the script prints. */
  datatype LinkRun =
    | TooFew
    | RolledBack
    | Committed(links: seq<Connection>, created: nat, skipped: nat, comparisons: nat)

  /** The pair (a, b) comes before (i, j) in the loop order. */
  predicate Visited(a: int, b: int, i: int, j: int) {
    a < i || (a == i && b < j)
  }

  /** A new link comes from a pair of points, earlier one as source, and
      carries their similarity. */
  ghost predicate FromPair(p: seq<Point>, l: Connection, sim: (seq<real>, seq<real>) -> Option<real>) {
    exists a, b :: 0 <= a < b < |p| && l.source == p[a].articleId && l.target == p[b].articleId
                   && sim(p[a].vector, p[b].vector) == Some(l.score)
  }

  /** The new links are semantic, reach the threshold, come from a pair,
      and none joins two articles already joined before it. */
  ghost predicate FreshLinks(p: seq<Point>, conns: seq<Connection>, threshold: real,
                             sim: (seq<real>, seq<real>) -> Option<real>, links: seq<Connection>) {
    forall k :: 0 <= k < |links| ==>
      && links[k].kind == "semantic" && links[k].score >= threshold
      && !Linked(conns + links[..k], links[k].source, links[k].target)
      && FromPair(p, links[k], sim)
  }

  /** The pair loop's state once every pair before (i, j) is done: each had
      a similarity, each qualifying one is linked, and the new links are
      fresh. */
  ghost predicate LoopState(p: seq<Point>, conns: seq<Connection>, threshold: real,
                            sim: (seq<real>, seq<real>) -> Option<real>, i: int, j: int, links: seq<Connection>) {
    && (forall a, b :: 0 <= a < b < |p| && Visited(a, b, i, j) ==> sim(p[a].vector, p[b].vector).Some?)
    && (forall a, b :: 0 <= a < b < |p| && Visited(a, b, i, j) && Qualifies(p[a], p[b], threshold, sim) ==>
          Linked(conns + links, p[a].articleId, p[b].articleId))
    && FreshLinks(p, conns, threshold, sim, links)
  }

  /** Visiting a pair that gets no new link: below the threshold, or
      already joined. */
  lemma {:induction false} StepWithoutLink(p: seq<Point>, conns: seq<Connection>, threshold: real,
                        sim: (seq<real>, seq<real>) -> Option<real>, i: nat, j: nat, links: seq<Connection>)
    requires i < j < |p| && LoopState(p, conns, threshold, sim, i, j, links)
    requires sim(p[i].vector, p[j].vector).Some?
    requires Qualifies(p[i], p[j], threshold, sim) ==> Linked(conns + links, p[i].articleId, p[j].articleId)
    ensures LoopState(p, conns, threshold, sim, i, j + 1, links)
  {
  }

  /** Visiting a qualifying pair that is not yet joined appends its link. */
  lemma {:induction false} StepWithLink(p: seq<Point>, conns: seq<Connection>, threshold: real,
                     sim: (seq<real>, seq<real>) -> Option<real>, i: nat, j: nat, links: seq<Connection>, c: Connection)
    requires i < j < |p| && LoopState(p, conns, threshold, sim, i, j, links)
    requires sim(p[i].vector, p[j].vector) == Some(c.score) && c.score >= threshold
    requires c == Connection(p[i].articleId, p[j].articleId, c.score, "semantic")
    requires !Linked(conns + links, p[i].articleId, p[j].articleId)
    ensures LoopState(p, conns, threshold, sim, i, j + 1, links + [c])
  {
    var after := links + [c];
    LinkedGrows(conns + links, c);
    assert conns + after == (conns + links) + [c];
    assert Joins((conns + after)[|conns + links|], p[i].articleId, p[j].articleId);
    forall k | 0 <= k < |after|
      ensures && after[k].kind == "semantic" && after[k].score >= threshold
              && !Linked(conns + after[..k], after[k].source, after[k].target)
              && FromPair(p, after[k], sim)
    {
      if k < |links| {
        assert after[..k] == links[..k];
      } else {
        assert after[..k] == links;
      }
    }
  }

  /** Pairs whose first member is `i` are all visited once the inner loop
      reaches the end, and none of them is visited before it starts. */
  lemma {:induction false} RowBoundaries(p: seq<Point>, conns: seq<Connection>, threshold: real,
                      sim: (seq<real>, seq<real>) -> Option<real>, i: nat, links: seq<Connection>)
    requires i < |p|
    ensures LoopState(p, conns, threshold, sim, i, 0, links) ==> LoopState(p, conns, threshold, sim, i, i + 1, links)
    ensures LoopState(p, conns, threshold, sim, i, |p|, links) ==> LoopState(p, conns, threshold, sim, i + 1, 0, links)
  {
  }

  /** `compute_connections_task` and the `compute_connections` script:
      each unordered pair of parsed embeddings once, earlier one as source;
      a pair at or above the threshold gets a "semantic" link unless one
      already joins the two articles in either direction, in which case it
      is counted as skipped.  Every qualifying pair ends up linked, and no
      new link repeats an existing one. */
  method ComputeConnections(embs: seq<Embedding>, conns: seq<Connection>, threshold: real,
                            sim: (seq<real>, seq<real>) -> Option<real>)
    returns (run: LinkRun)
    ensures run.TooFew? <==> |embs| < 2
    ensures run.RolledBack? ==> var p := ParsedPoints(embs);
              exists a, b :: 0 <= a < b < |p| && sim(p[a].vector, p[b].vector).None?
    ensures run.Committed? ==> var p := ParsedPoints(embs);
              && run.created == |run.links|
              && run.comparisons == |p| * (|p| - 1) / 2
              && run.created + run.skipped == Hits(p, |p|, threshold, sim)
              && (forall a, b :: 0 <= a < b < |p| ==> sim(p[a].vector, p[b].vector).Some?)
              && (forall a, b :: 0 <= a < b < |p| && Qualifies(p[a], p[b], threshold, sim) ==>
                    Linked(conns + run.links, p[a].articleId, p[b].articleId))
              && FreshLinks(p, conns, threshold, sim, run.links)
  {
    if |embs| < 2 {
      return TooFew;
    }
    run := LinkPairs(ParsedPoints(embs), conns, threshold, sim);
  }

  /** The pair loop over the parsed points. */
  method LinkPairs(p: seq<Point>, conns: seq<Connection>, threshold: real,
                   sim: (seq<real>, seq<real>) -> Option<real>)
    returns (run: LinkRun)
    ensures !run.TooFew?
    ensures run.RolledBack? ==> exists a, b :: 0 <= a < b < |p| && sim(p[a].vector, p[b].vector).None?
    ensures run.Committed? ==>
              && run.created == |run.links|
              && run.comparisons == |p| * (|p| - 1) / 2
              && run.created + run.skipped == Hits(p, |p|, threshold, sim)
              && (forall a, b :: 0 <= a < b < |p| ==> sim(p[a].vector, p[b].vector).Some?)
              && (forall a, b :: 0 <= a < b < |p| && Qualifies(p[a], p[b], threshold, sim) ==>
                    Linked(conns + run.links, p[a].articleId, p[b].articleId))
              && FreshLinks(p, conns, threshold, sim, run.links)
  {
    run := ScanPairs(p, conns, threshold, sim);
    if run.Committed? {
      LinkDone(p, conns, threshold, sim, run.links, run.skipped, run.comparisons);
    }
  }

  /** Some pair of points has no similarity. */
  predicate MissingSimilarity(p: seq<Point>, sim: (seq<real>, seq<real>) -> Option<real>) {
    exists a, b :: 0 <= a < b < |p| && sim(p[a].vector, p[b].vector).None?
  }

  /** The loops of `LinkPairs`, ending in the outer loop's final state. */
  method ScanPairs(p: seq<Point>, conns: seq<Connection>, threshold: real,
                   sim: (seq<real>, seq<real>) -> Option<real>)
    returns (run: LinkRun)
    ensures !run.TooFew?
    ensures run.RolledBack? ==> MissingSimilarity(p, sim)
    ensures run.Committed? ==> run.created == |run.links|
    ensures run.Committed? ==> LinkProgress(p, conns, threshold, sim, |p|, run.links, run.skipped, run.comparisons)
  {
    var n := |p|;
    var links: seq<Connection> := [];
    var skipped: nat := 0;
    var comparisons: nat := 0;
    var i := 0;
    while i < n
      invariant 0 <= i <= n
      invariant LinkProgress(p, conns, threshold, sim, i, links, skipped, comparisons)
    {
      var ok;
      ok, links, skipped, comparisons := ScanPoint(p, conns, threshold, sim, i, links, skipped, comparisons);
      if !ok {
        return RolledBack;
      }
      i := i + 1;
    }
    return Committed(links, |links|, skipped, comparisons);
  }

  /** One turn of the outer loop: point `i` against every later point. */
  method ScanPoint(p: seq<Point>, conns: seq<Connection>, threshold: real,
                   sim: (seq<real>, seq<real>) -> Option<real>, i: nat,
                   links0: seq<Connection>, skipped0: nat, comparisons0: nat)
    returns (ok: bool, links: seq<Connection>, skipped: nat, comparisons: nat)
    requires i < |p| && LinkProgress(p, conns, threshold, sim, i, links0, skipped0, comparisons0)
    ensures ok ==> LinkProgress(p, conns, threshold, sim, i + 1, links, skipped, comparisons)
    ensures !ok ==> MissingSimilarity(p, sim)
  {
    RowBoundaries(p, conns, threshold, sim, i, links0);
    ok, links, skipped, comparisons := ScanRow(p, conns, threshold, sim, i, links0, skipped0, comparisons0);
    if !ok {
      var b :| i < b < |p| && sim(p[i].vector, p[b].vector).None?;
      assert 0 <= i < b < |p| && sim(p[i].vector, p[b].vector).None?;
      return;
    }
    RowDone(p, conns, threshold, sim, i, links0, skipped0, comparisons0, links, skipped, comparisons);
  }

  /** The outer loop's state after the first `i` points: the pairs they
      start are compared, counted and linked. */
  ghost predicate LinkProgress(p: seq<Point>, conns: seq<Connection>, threshold: real,
                               sim: (seq<real>, seq<real>) -> Option<real>, i: nat,
                               links: seq<Connection>, skipped: nat, comparisons: nat)
  {
    && i <= |p|
    && comparisons == PairsBefore(|p|, i)
    && |links| + skipped == Hits(p, i, threshold, sim)
    && LoopState(p, conns, threshold, sim, i, 0, links)
  }

  /** A completed row moves the outer loop on by one point. */
  lemma {:induction false} RowDone(p: seq<Point>, conns: seq<Connection>, threshold: real,
                                   sim: (seq<real>, seq<real>) -> Option<real>, i: nat,
                                   links0: seq<Connection>, skipped0: nat, comparisons0: nat,
                                   links: seq<Connection>, skipped: nat, comparisons: nat)
    requires i < |p| && LinkProgress(p, conns, threshold, sim, i, links0, skipped0, comparisons0)
    requires LoopState(p, conns, threshold, sim, i, |p|, links)
    requires |links| + skipped == |links0| + skipped0 + RowHits(p, i, |p|, threshold, sim)
    requires comparisons == comparisons0 + (|p| - i - 1)
    ensures LinkProgress(p, conns, threshold, sim, i + 1, links, skipped, comparisons)
  {
    RowBoundaries(p, conns, threshold, sim, i, links);
  }

  /** Once every point is done, every pair was compared, counted and, when
      it qualifies, linked. */
  lemma {:induction false} LinkDone(p: seq<Point>, conns: seq<Connection>, threshold: real,
                                    sim: (seq<real>, seq<real>) -> Option<real>,
                                    links: seq<Connection>, skipped: nat, comparisons: nat)
    requires LinkProgress(p, conns, threshold, sim, |p|, links, skipped, comparisons)
    ensures comparisons == |p| * (|p| - 1) / 2
    ensures |links| + skipped == Hits(p, |p|, threshold, sim)
    ensures forall a, b :: 0 <= a < b < |p| ==> sim(p[a].vector, p[b].vector).Some?
    ensures forall a, b :: 0 <= a < b < |p| && Qualifies(p[a], p[b], threshold, sim) ==>
              Linked(conns + links, p[a].articleId, p[b].articleId)
    ensures FreshLinks(p, conns, threshold, sim, links)
  {
    AllPairs(|p|);
  }

  /** The inner loop: point `i` against every later point.  It stops early,
      reporting failure, at the first pair without a similarity. */
  method ScanRow(p: seq<Point>, conns: seq<Connection>, threshold: real,
                 sim: (seq<real>, seq<real>) -> Option<real>, i: nat,
                 links0: seq<Connection>, skipped0: nat, comparisons0: nat)
    returns (ok: bool, links: seq<Connection>, skipped: nat, comparisons: nat)
    requires i < |p| && LoopState(p, conns, threshold, sim, i, i + 1, links0)
    ensures ok ==> && LoopState(p, conns, threshold, sim, i, |p|, links)
                   && |links| + skipped == |links0| + skipped0 + RowHits(p, i, |p|, threshold, sim)
                   && comparisons == comparisons0 + (|p| - i - 1)
    ensures !ok ==> exists b :: i < b < |p| && sim(p[i].vector, p[b].vector).None?
  {
    links, skipped, comparisons := links0, skipped0, comparisons0;
    var j := i + 1;
    while j < |p|
      invariant RowSoFar(p, conns, threshold, sim, i, j, links0, skipped0, comparisons0, links, skipped, comparisons)
    {
      match sim(p[i].vector, p[j].vector) {
        case None =>
          return false, links, skipped, comparisons + 1;
        case Some(s) =>
          var next := Compared(conns, links, skipped, p[i].articleId, p[j].articleId, s, threshold);
          RowStep(p, conns, threshold, sim, i, j, links0, skipped0, comparisons0, links, skipped, comparisons, s, next);
          links, skipped, comparisons := next.0, next.1, comparisons + 1;
      }
      j := j + 1;
    }
    return true, links, skipped, comparisons;
  }

  /** One comparison of the inner loop: a similarity at or above the
      threshold links a pair not yet joined and counts a joined one as
      skipped; a lower one changes nothing. */
  function Compared(conns: seq<Connection>, links: seq<Connection>, skipped: nat, a: int, b: int, s: real,
                    threshold: real): (r: (seq<Connection>, nat))
    ensures s >= threshold && !Linked(conns + links, a, b) ==> r == (links + [Connection(a, b, s, "semantic")], skipped)
    ensures s >= threshold && Linked(conns + links, a, b) ==> r == (links, skipped + 1)
    ensures s < threshold ==> r == (links, skipped)
  {
    if s < threshold then (links, skipped)
    else if Linked(conns + links, a, b) then (links, skipped + 1)
    else (links + [Connection(a, b, s, "semantic")], skipped)
  }

  /** The inner loop has compared point `i` with the points before `j`:
      one comparison each, every qualifying pair linked or skipped. */
  ghost predicate RowSoFar(p: seq<Point>, conns: seq<Connection>, threshold: real,
                           sim: (seq<real>, seq<real>) -> Option<real>, i: nat, j: nat,
                           links0: seq<Connection>, skipped0: nat, comparisons0: nat,
                           links: seq<Connection>, skipped: nat, comparisons: nat) {
    && i + 1 <= j <= |p|
    && comparisons == comparisons0 + (j - i - 1)
    && |links| + skipped == |links0| + skipped0 + RowHits(p, i, j, threshold, sim)
    && LoopState(p, conns, threshold, sim, i, j, links)
  }

  /** Comparing point `i` with point `j` links the pair when it qualifies
      and is not yet joined, counts it as skipped when it qualifies but is
      joined, and leaves it alone otherwise. */
  lemma {:induction false} RowStep(p: seq<Point>, conns: seq<Connection>, threshold: real,
                                   sim: (seq<real>, seq<real>) -> Option<real>, i: nat, j: nat,
                                   links0: seq<Connection>, skipped0: nat, comparisons0: nat,
                                   links: seq<Connection>, skipped: nat, comparisons: nat,
                                   s: real, next: (seq<Connection>, nat))
    requires j < |p| && RowSoFar(p, conns, threshold, sim, i, j, links0, skipped0, comparisons0, links, skipped, comparisons)
    requires sim(p[i].vector, p[j].vector) == Some(s)
    requires next == Compared(conns, links, skipped, p[i].articleId, p[j].articleId, s, threshold)
    ensures RowSoFar(p, conns, threshold, sim, i, j + 1, links0, skipped0, comparisons0, next.0, next.1, comparisons + 1)
  {
    assert Qualifies(p[i], p[j], threshold, sim) <==> s >= threshold;
    if s >= threshold && !Linked(conns + links, p[i].articleId, p[j].articleId) {
      StepWithLink(p, conns, threshold, sim, i, j, links, Connection(p[i].articleId, p[j].articleId, s, "semantic"));
    } else {
      StepWithoutLink(p, conns, threshold, sim, i, j, links);
    }
    assert RowHits(p, i, j + 1, threshold, sim)
           == RowHits(p, i, j, threshold, sim) + (if Qualifies(p[i], p[j], threshold, sim) then 1 else 0);
  }

  /** A link stays in place when another is appended. */
  lemma {:induction false} LinkedGrows(cs: seq<Connection>, c: Connection)
    ensures forall a, b :: Linked(cs, a, b) ==> Linked(cs + [c], a, b)
  {
    forall a, b | Linked(cs, a, b) ensures Linked(cs + [c], a, b) {
      var k :| 0 <= k < |cs| && Joins(cs[k], a, b);
      assert (cs + [c])[k] == cs[k];
    }
  }

  /** No two links of the table join the same two articles. */
  predicate OneLinkPerPair(cs: seq<Connection>) {
    forall k, m :: 0 <= m < k < |cs| ==> !Joins(cs[m], cs[k].source, cs[k].target)
  }

  /** Starting from a table with at most one link per pair of articles, a
      committed computation keeps it so. */
  lemma {:induction false} CommittedKeepsOneLinkPerPair(conns: seq<Connection>, links: seq<Connection>)
    requires OneLinkPerPair(conns)
    requires forall k :: 0 <= k < |links| ==> !Linked(conns + links[..k], links[k].source, links[k].target)
    ensures OneLinkPerPair(conns + links)
  {
    var all := conns + links;
    forall k, m | 0 <= m < k < |all| ensures !Joins(all[m], all[k].source, all[k].target) {
      if k >= |conns| {
        var q := k - |conns|;
        assert all[k] == links[q];
        assert (conns + links[..q])[m] == all[m];
      } else {
        assert all[k] == conns[k] && all[m] == conns[m];
      }
    }
  }

  datatype ConnectionsReply = NeedMore(count: nat) | Started(count: nat, threshold: real)

  /** `POST /embeddings/compute-connections`: fewer than two embeddings is
      reported and nothing is scheduled; otherwise the computation runs and
      its links are added when it commits. */
  method ComputeConnectionsEndpoint(embs: seq<Embedding>, conns: seq<Connection>, threshold: real,
                                    sim: (seq<real>, seq<real>) -> Option<real>)
    returns (reply: ConnectionsReply, after: seq<Connection>)
    ensures |embs| < 2 ==> reply == NeedMore(|embs|) && after == conns
    ensures |embs| >= 2 ==> reply == Started(|embs|, threshold)
    ensures conns <= after
  {
    if |embs| < 2 {
      return NeedMore(|embs|), conns;
    }
    var run := ComputeConnections(embs, conns, threshold, sim);
    after := if run.Committed? then conns + run.links else conns;
    reply := Started(|embs|, threshold);
  }

  // ---------------------------------------------------------------------
  // Related articles and statistics
  // ---------------------------------------------------------------------

  function Score(c: Connection): real { c.score }

  predicate Touches(c: Connection, id: int) {
    c.source == id || c.target == id
  }

  /** The end of a connection that is not `id`. */
  function OtherEnd(c: Connection, id: int): int {
    if c.source == id then c.target else c.source
  }

  /** Every element of `r` is the far end of some connection in `top`. */
  predicate EndsWithin(top: seq<Connection>, id: int, r: set<int>) {
    forall x :: x in r ==> exists k :: 0 <= k < |top| && OtherEnd(top[k], id) == x
  }

  function OtherEnds(top: seq<Connection>, id: int): (r: set<int>)
    ensures forall k :: 0 <= k < |top| ==> OtherEnd(top[k], id) in r
    ensures EndsWithin(top, id, r)
    ensures |r| <= |top|
  {
    if top == [] then {}
    else
      var init := top[..|top| - 1];
      var r := OtherEnds(init, id) + {OtherEnd(top[|top| - 1], id)};
      EndsSnoc(top, id, OtherEnds(init, id));
      r
  }

  /** Adding the far end of the last connection to the far ends of the
      others gives only far ends of the whole list. */
  lemma {:induction false} EndsSnoc(top: seq<Connection>, id: int, e: set<int>)
    requires top != []
    requires EndsWithin(top[..|top| - 1], id, e)
    ensures EndsWithin(top, id, e + {OtherEnd(top[|top| - 1], id)})
  {
    var init := top[..|top| - 1];
    forall x | x in e ensures exists k :: 0 <= k < |top| && OtherEnd(top[k], id) == x {
      var k :| 0 <= k < |init| && OtherEnd(init[k], id) == x;
      assert top[k] == init[k];
    }
  }

  /** The similarity the response reports for related article `rid`: the
      dictionary keeps the last connection seen for it. */
  function ScoreOf(top: seq<Connection>, id: int, rid: int): (s: real)
    requires rid in OtherEnds(top, id)
    ensures exists k :: LastTo(top, id, rid, k) && top[k].score == s
  {
    var last := top[|top| - 1];
    if OtherEnd(last, id) == rid then
      assert LastTo(top, id, rid, |top| - 1);
      last.score
    else
      var init := top[..|top| - 1];
      assert rid in OtherEnds(init, id);
      var s := ScoreOf(init, id, rid);
      var k :| LastTo(init, id, rid, k) && init[k].score == s;
      LastToSnoc(top, id, rid, k);
      s
  }

  /** A connection that is last to `rid` stays last when one to another
      article is appended. */
  lemma {:induction false} LastToSnoc(top: seq<Connection>, id: int, rid: int, k: int)
    requires top != [] && OtherEnd(top[|top| - 1], id) != rid
    requires LastTo(top[..|top| - 1], id, rid, k)
    ensures LastTo(top, id, rid, k) && top[k] == top[..|top| - 1][k]
  {
    forall m | k < m < |top| ensures OtherEnd(top[m], id) != rid {
      if m < |top| - 1 {
        assert top[m] == top[..|top| - 1][m];
      }
    }
  }

  /** `top[k]` is the last connection in `top` leading to `rid`. */
  predicate LastTo(top: seq<Connection>, id: int, rid: int, k: int) {
    && 0 <= k < |top| && OtherEnd(top[k], id) == rid
    && forall m :: k < m < |top| ==> OtherEnd(top[m], id) != rid
  }

  datatype RelatedArticle = RelatedArticle(
    id: int,
    title: string,
    url: string,
    sourceName: Option<string>,
    score: real,
    publishedAt: Option<int>)

  function RelatedScore(r: RelatedArticle): real { r.score }

  function Describe(rows: seq<Article>, top: seq<Connection>, id: int): (r: seq<RelatedArticle>)
    requires forall k :: 0 <= k < |rows| ==> rows[k].id in OtherEnds(top, id)
    ensures |r| == |rows|
    ensures forall k :: 0 <= k < |r| ==>
              r[k] == RelatedArticle(rows[k].id, rows[k].title, rows[k].url, rows[k].sourceName,
                                     ScoreOf(top, id, rows[k].id), rows[k].publishedAt)
  {
    if rows == [] then []
    else
      [RelatedArticle(rows[0].id, rows[0].title, rows[0].url, rows[0].sourceName,
                      ScoreOf(top, id, rows[0].id), rows[0].publishedAt)]
      + Describe(rows[1..], top, id)
  }

  /** The entry names the other end of a connection of `id` and carries
      its score. */
  predicate ViaConnection(conns: seq<Connection>, id: int, x: RelatedArticle) {
    exists c :: c in conns && Touches(c, id) && OtherEnd(c, id) == x.id && c.score == x.score
  }

  /** The entry describes a stored article. */
  predicate OfArticle(articles: seq<Article>, x: RelatedArticle) {
    exists a :: a in articles && a.id == x.id && a.title == x.title && a.url == x.url
                 && a.sourceName == x.sourceName && a.publishedAt == x.publishedAt
  }

  /** The articles whose id is in `ends`, in table order. */
  function RowsFor(articles: seq<Article>, ends: set<int>): (rows: seq<Article>)
    ensures forall k :: 0 <= k < |rows| ==> rows[k] in articles && rows[k].id in ends
    ensures forall a :: a in articles && a.id in ends ==> a in rows
  {
    Where(articles, (a: Article) => a.id in ends)
  }

  /** The connections `GET /embeddings/related/{id}` reads: those touching
      the article, highest score first, at most `limit`, none twice. */
  function TopConnections(conns: seq<Connection>, id: int, limit: nat): (top: seq<Connection>)
    ensures |top| <= limit
    ensures forall k :: 0 <= k < |top| ==> top[k] in conns && Touches(top[k], id)
    ensures multiset(top) <= multiset(conns)
    ensures Sorting.SortedDesc(top, Score)
  {
    WhereSubMultiset(conns, (c: Connection) => Touches(c, id));
    Sorting.TopN(Where(conns, (c: Connection) => Touches(c, id)), Score, limit)
  }

  /** `GET /embeddings/related/{id}`: the articles at the other end of the
      article's best `limit` connections, each with that connection's
      score, highest first. */
  function RelatedArticles(conns: seq<Connection>, articles: seq<Article>, id: int, limit: nat)
    : (r: seq<RelatedArticle>)
    ensures Sorting.SortedDesc(r, RelatedScore)
    ensures forall k :: 0 <= k < |r| ==> ViaConnection(conns, id, r[k]) && OfArticle(articles, r[k])
    ensures forall a :: a in articles && a.id in OtherEnds(TopConnections(conns, id, limit), id)
              ==> exists k :: 0 <= k < |r| && r[k].id == a.id
    ensures DistinctBy(articles, ArticleId) ==> |r| <= limit
  {
    var top := TopConnections(conns, id, limit);
    var ends := OtherEnds(top, id);
    var r := Sorting.SortDesc(Describe(RowsFor(articles, ends), top, id), RelatedScore);
    EntriesOfRelated(conns, articles, ends, top, id, r);
    AllRowsAppear(articles, ends, top, id, r);
    if DistinctBy(articles, ArticleId) then
      RowsBounded(articles, ends);
      Permuted(r, Describe(RowsFor(articles, ends), top, id));
      r
    else r
  }

  /** Each entry of the related-articles response is an article at the
      other end of a connection read, with that connection's score. */
  lemma {:induction false} EntriesOfRelated(conns: seq<Connection>, articles: seq<Article>, ends: set<int>,
                         top: seq<Connection>, id: int, r: seq<RelatedArticle>)
    requires forall k :: 0 <= k < |top| ==> top[k] in conns && Touches(top[k], id)
    requires ends == OtherEnds(top, id)
    requires multiset(r) == multiset(Describe(RowsFor(articles, ends), top, id))
    ensures forall k :: 0 <= k < |r| ==> ViaConnection(conns, id, r[k]) && OfArticle(articles, r[k])
  {
    var described := Describe(RowsFor(articles, ends), top, id);
    EntriesFromRows(conns, articles, top, id, RowsFor(articles, ends), described);
    Sorting.InSameMultiset(r, described);
  }

  /** Two orderings of the same entries hold the same entries. */
  lemma {:induction false} Permuted<T>(a: seq<T>, b: seq<T>)
    requires multiset(a) == multiset(b)
    ensures |a| == |b|
    ensures forall k :: 0 <= k < |a| ==> a[k] in b
    ensures forall k :: 0 <= k < |b| ==> b[k] in a
  {
    Sorting.InSameMultiset(a, b);
    Sorting.InSameMultiset(b, a);
    assert |multiset(a)| == |multiset(b)|;
  }

  lemma {:induction false} AllRowsAppear(articles: seq<Article>, ends: set<int>, top: seq<Connection>, id: int, r: seq<RelatedArticle>)
    requires ends == OtherEnds(top, id)
    requires multiset(r) == multiset(Describe(RowsFor(articles, ends), top, id))
    ensures forall a :: a in articles && a.id in ends ==> exists k :: 0 <= k < |r| && r[k].id == a.id
  {
    var rows := RowsFor(articles, ends);
    var described := Describe(rows, top, id);
    Permuted(r, described);
    forall a | a in articles && a.id in ends ensures exists k :: 0 <= k < |r| && r[k].id == a.id {
      var q :| 0 <= q < |rows| && rows[q] == a;
      assert described[q] in r;
    }
  }

  lemma {:induction false} EntriesFromRows(conns: seq<Connection>, articles: seq<Article>, top: seq<Connection>, id: int,
                        rows: seq<Article>, described: seq<RelatedArticle>)
    requires forall k :: 0 <= k < |top| ==> top[k] in conns && Touches(top[k], id)
    requires forall k :: 0 <= k < |rows| ==> rows[k] in articles && rows[k].id in OtherEnds(top, id)
    requires described == Describe(rows, top, id)
    ensures forall k :: 0 <= k < |described| ==> ViaConnection(conns, id, described[k]) && OfArticle(articles, described[k])
  {
    forall q | 0 <= q < |described| ensures ViaConnection(conns, id, described[q]) && OfArticle(articles, described[q]) {
      var row := rows[q];
      var m :| 0 <= m < |top| && OtherEnd(top[m], id) == row.id && top[m].score == ScoreOf(top, id, row.id);
      assert top[m] in conns;
      assert row in articles;
    }
  }

  /** With distinct article ids, the articles picked for a set of ids are
      no more than the ids. */
  lemma {:induction false} RowsBounded(articles: seq<Article>, ends: set<int>)
    requires DistinctBy(articles, ArticleId)
    ensures |RowsFor(articles, ends)| <= |ends|
  {
    var rows := RowsFor(articles, ends);
    WhereKeepsDistinct(articles, (a: Article) => a.id in ends, ArticleId);
    assert rows == Where(articles, (a: Article) => a.id in ends);
    DistinctKeysCount(rows, ArticleId);
    assert Keys(rows, ArticleId) <= ends;
    SubsetCard(Keys(rows, ArticleId), ends);
  }

  datatype Stats = Stats(
    totalArticles: nat,
    withEmbeddings: nat,
    withoutEmbeddings: int,
    totalConnections: nat,
    avgConnections: real)

  /** `GET /embeddings/stats` (without the final rounding). */
  function EmbeddingStats(db: Db): (s: Stats)
    ensures s.totalArticles == |db.articles| && s.withEmbeddings == |db.embeddings|
    ensures s.totalConnections == |db.connections|
    ensures s.withoutEmbeddings + s.withEmbeddings == s.totalArticles
    ensures s.withEmbeddings > 0 ==> s.avgConnections * s.withEmbeddings as real == 2.0 * s.totalConnections as real
    ensures s.withEmbeddings == 0 ==> s.avgConnections == 2.0 * s.totalConnections as real
  {
    var per := if |db.embeddings| > 1 then |db.embeddings| else 1;
    Stats(|db.articles|, |db.embeddings|, |db.articles| - |db.embeddings|, |db.connections|,
          (2 * |db.connections|) as real / per as real)
  }

  /** With one embedding per article and every embedding belonging to a
      stored article, the reported "without" count is exactly the number
      of articles the batch generation would pick up. */
  lemma {:induction false} WithoutCountsUnembedded(db: Db)
    requires DistinctBy(db.articles, ArticleId) && DistinctBy(db.embeddings, EmbeddingArticle)
    requires forall k :: 0 <= k < |db.embeddings| ==>
               (exists m :: 0 <= m < |db.articles| && db.articles[m].id == db.embeddings[k].articleId)
    ensures EmbeddingStats(db).withoutEmbeddings == |Unembedded(db.articles, db.embeddings)|
  {
    var ids := Keys(db.articles, ArticleId);
    var embedded := Keys(db.embeddings, EmbeddingArticle);
    var rest := Unembedded(db.articles, db.embeddings);
    DistinctKeysCount(db.articles, ArticleId);
    DistinctKeysCount(db.embeddings, EmbeddingArticle);
    UnembeddedDistinct(db.articles, db.embeddings);
    DistinctKeysCount(rest, ArticleId);
    UnembeddedKeys(db.articles, db.embeddings);
    EmbeddedAreArticles(db.articles, db.embeddings);
    DifferenceCard(ids, embedded);
  }

  lemma {:induction false} UnembeddedDistinct(articles: seq<Article>, embs: seq<Embedding>)
    requires DistinctBy(articles, ArticleId)
    ensures DistinctBy(Unembedded(articles, embs), ArticleId)
  {
    WhereKeepsDistinct(articles, (a: Article) => !HasEmbedding(embs, a.id), ArticleId);
  }

  lemma {:induction false} EmbeddedAreArticles(articles: seq<Article>, embs: seq<Embedding>)
    requires forall k :: 0 <= k < |embs| ==>
               (exists m :: 0 <= m < |articles| && articles[m].id == embs[k].articleId)
    ensures Keys(embs, EmbeddingArticle) <= Keys(articles, ArticleId)
  {
    forall x | x in Keys(embs, EmbeddingArticle) ensures x in Keys(articles, ArticleId) {
      var k :| 0 <= k < |embs| && EmbeddingArticle(embs[k]) == x;
      var m :| 0 <= m < |articles| && articles[m].id == embs[k].articleId;
      assert ArticleId(articles[m]) == x;
    }
  }

  /** The ids of the articles without an embedding are the article ids
      minus the embedded ones. */
  lemma {:induction false} UnembeddedKeys(articles: seq<Article>, embs: seq<Embedding>)
    ensures Keys(Unembedded(articles, embs), ArticleId) == Keys(articles, ArticleId) - Keys(embs, EmbeddingArticle)
  {
    UnembeddedKeysCover(articles, embs);
    UnembeddedKeysWithin(articles, embs);
  }

  lemma {:induction false} UnembeddedKeysCover(articles: seq<Article>, embs: seq<Embedding>)
    ensures Keys(articles, ArticleId) - Keys(embs, EmbeddingArticle) <= Keys(Unembedded(articles, embs), ArticleId)
  {
    var rest := Unembedded(articles, embs);
    forall x | x in Keys(articles, ArticleId) - Keys(embs, EmbeddingArticle) ensures x in Keys(rest, ArticleId) {
      var m :| 0 <= m < |articles| && articles[m].id == x;
      assert !HasEmbedding(embs, x);
      var q :| 0 <= q < |rest| && rest[q] == articles[m];
      assert ArticleId(rest[q]) == x;
    }
  }

  lemma {:induction false} UnembeddedKeysWithin(articles: seq<Article>, embs: seq<Embedding>)
    ensures Keys(Unembedded(articles, embs), ArticleId) <= Keys(articles, ArticleId) - Keys(embs, EmbeddingArticle)
  {
    var rest := Unembedded(articles, embs);
    forall x | x in Keys(rest, ArticleId) ensures x in Keys(articles, ArticleId) - Keys(embs, EmbeddingArticle) {
      var q :| 0 <= q < |rest| && rest[q].id == x;
      var m :| 0 <= m < |articles| && articles[m] == rest[q];
      assert ArticleId(articles[m]) == x;
      assert x !in Keys(embs, EmbeddingArticle);
    }
  }
}

=== FILE: ingestion.dfy ===
/** What every ingestion service reports (`IngestionResponse` in
    backend/app/schemas.py) and records: the response counters, the articles
    it created, and the set of stored article URLs it deduplicates against. */
module Ingestion {
  import opened Wrappers
  import opened Text

  datatype IngestionResponse = IngestionResponse(
    success: bool,
    message: string,
    processed: nat,
    created: nat,
    updated: nat,
    errors: seq<string>)

  /** An article row written by an ingestion.  The summary and category rows
      written with it come from the language model and are not recorded. */
  datatype NewArticle = NewArticle(
    title: string,
    url: string,
    sourceType: string,
    sourceName: Option<string>,
    content: string)

  /** An ingestion's result: its response, the articles it created in order,
      and the stored URLs afterwards. */
  datatype Ingested = Ingested(response: IngestionResponse, articles: seq<NewArticle>, stored: set<string>)

  function Urls(arts: seq<NewArticle>): (r: set<string>)
    ensures forall k :: 0 <= k < |arts| ==> arts[k].url in r
    ensures forall u :: u in r ==> exists k :: 0 <= k < |arts| && arts[k].url == u
  {
    set k | 0 <= k < |arts| :: arts[k].url
  }

  /** The articles have pairwise different URLs, none of them stored before:
      the deduplication by exact URL never creates a second row for a URL. */
  predicate FreshArticles(arts: seq<NewArticle>, before: set<string>) {
    && (forall k :: 0 <= k < |arts| ==> arts[k].url !in before)
    && (forall a, b :: 0 <= a < b < |arts| ==> arts[a].url != arts[b].url)
  }

  /** The counters a per-item loop keeps: every item is processed and ends
      as exactly one of created, already stored, or an error. */
  predicate Balanced(r: IngestionResponse) {
    r.processed == r.created + r.updated + |r.errors|
  }

  /** How one processed item of an ingestion loop ends: an error message,
      a URL already stored (counted as `updated`), or a new article. */
  datatype Fate = Failed(msg: string) | AlreadyStored | Created(article: NewArticle)

  /** The stored URLs once an item has ended with `f`: a rolled-back or
      skipped item leaves them as they were. */
  function After(store: set<string>, f: Fate): set<string> {
    if f.Created? then store + {f.article.url} else store
  }

  /** The fates of the items processed so far and the stored URLs they
      leave behind. */
  datatype Run = Run(fates: seq<Fate>, store: set<string>)

  /** The new articles of the created items, in order. */
  function CreatedOf(fs: seq<Fate>): (r: seq<NewArticle>)
    ensures |r| <= |fs|
    ensures forall k :: 0 <= k < |r| ==> Created(r[k]) in fs
  {
    if fs == [] then []
    else
      var last := fs[|fs| - 1];
      CreatedOf(fs[..|fs| - 1]) + (if last.Created? then [last.article] else [])
  }

  /** The error messages of the failed items, in order. */
  function ErrorsOf(fs: seq<Fate>): (r: seq<string>)
    ensures |r| <= |fs|
    ensures forall k :: 0 <= k < |r| ==> Failed(r[k]) in fs
  {
    if fs == [] then []
    else
      var last := fs[|fs| - 1];
      ErrorsOf(fs[..|fs| - 1]) + (if last.Failed? then [last.msg] else [])
  }

  /** How many items found their URL already stored. */
  function StoredCount(fs: seq<Fate>): (n: nat)
    ensures n <= |fs|
    ensures n > 0 ==> AlreadyStored in fs
  {
    if fs == [] then 0
    else StoredCount(fs[..|fs| - 1]) + (if fs[|fs| - 1].AlreadyStored? then 1 else 0)
  }

  /** Every item ends in exactly one way, so the three tallies add up to
      the number of items. */
  lemma {:induction false} FatesBalance(fs: seq<Fate>)
    ensures |CreatedOf(fs)| + StoredCount(fs) + |ErrorsOf(fs)| == |fs|
  {
    if fs != [] {
      FatesBalance(fs[..|fs| - 1]);
    }
  }

  /** One more item extends the tallies by its own fate. */
  lemma {:induction false} TalliesSnoc(fs: seq<Fate>, f: Fate)
    ensures CreatedOf(fs + [f]) == CreatedOf(fs) + (if f.Created? then [f.article] else [])
    ensures ErrorsOf(fs + [f]) == ErrorsOf(fs) + (if f.Failed? then [f.msg] else [])
    ensures StoredCount(fs + [f]) == StoredCount(fs) + (if f.AlreadyStored? then 1 else 0)
  {
    assert (fs + [f])[..|fs|] == fs;
  }

  /** Appending one new article keeps the URLs fresh and grows the store by
      its URL. */
  lemma {:induction false} AppendFresh(arts: seq<NewArticle>, before: set<string>, stored: set<string>, a: NewArticle)
    requires FreshArticles(arts, before) && stored == before + Urls(arts)
    requires a.url !in stored
    ensures FreshArticles(arts + [a], before)
    ensures stored + {a.url} == before + Urls(arts + [a])
  {
    assert Urls(arts + [a]) == Urls(arts) + {a.url} by {
      forall u | u in Urls(arts + [a]) ensures u in Urls(arts) + {a.url} {
        var k :| 0 <= k < |arts + [a]| && (arts + [a])[k].url == u;
        if k < |arts| {
          assert arts[k].url == u;
        }
      }
      forall u | u in Urls(arts) ensures u in Urls(arts + [a]) {
        var k :| 0 <= k < |arts| && arts[k].url == u;
        assert (arts + [a])[k].url == u;
      }
      assert (arts + [a])[|arts|].url == a.url;
    }
    forall k | 0 <= k < |arts| ensures arts[k].url != a.url {
      assert arts[k].url in Urls(arts);
    }
  }

  /** One more fate keeps a run's new articles fresh, provided a created
      item's URL was not stored yet: the store is then still the URLs stored
      before plus those of the new articles. */
  lemma {:induction false} StepFresh(fs: seq<Fate>, before: set<string>, store: set<string>, f: Fate)
    requires FreshArticles(CreatedOf(fs), before) && store == before + Urls(CreatedOf(fs))
    requires f.Created? ==> f.article.url !in store
    ensures FreshArticles(CreatedOf(fs + [f]), before) && After(store, f) == before + Urls(CreatedOf(fs + [f]))
  {
    TalliesSnoc(fs, f);
    if f.Created? {
      AppendFresh(CreatedOf(fs), before, store, f.article);
    } else {
      assert CreatedOf(fs + [f]) == CreatedOf(fs);
    }
  }

  /** The items of an ingestion loop processed in order: each one's fate
      against the URLs stored before the loop and by the items created
      ahead of it. */
  function RunOf<T>(items: seq<T>, stored: set<string>, fate: (T, set<string>) -> Fate): (r: Run)
    ensures |r.fates| == |items|
    ensures stored <= r.store
    decreases |items|
  {
    if items == [] then Run([], stored)
    else
      var prev := RunOf(items[..|items| - 1], stored, fate);
      var f := fate(items[|items| - 1], prev.store);
      Run(prev.fates + [f], After(prev.store, f))
  }

  /** The fate only creates an article under the item's own key, and never
      one whose URL is already stored. */
  ghost predicate KeyedFresh<T(!new)>(fate: (T, set<string>) -> Fate, key: T -> string) {
    forall x, s :: fate(x, s).Created? ==> fate(x, s).article.url == key(x) && key(x) !in s
  }

  /** One more item extends the run by its fate against the URLs stored so
      far. */
  lemma {:induction false} RunSnoc<T>(items: seq<T>, stored: set<string>, fate: (T, set<string>) -> Fate, i: nat)
    requires i < |items|
    ensures var prev := RunOf(items[..i], stored, fate);
            var f := fate(items[i], prev.store);
            RunOf(items[..i + 1], stored, fate) == Run(prev.fates + [f], After(prev.store, f))
  {
    assert items[..i + 1][..i] == items[..i];
  }

  /** The `k`-th item meets the URLs the first `k` items left. */
  lemma {:induction false} RunAt<T>(items: seq<T>, stored: set<string>, fate: (T, set<string>) -> Fate, k: nat)
    requires k < |items|
    ensures RunOf(items, stored, fate).fates[k] == fate(items[k], RunOf(items[..k], stored, fate).store)
    decreases |items|
  {
    var init := items[..|items| - 1];
    if k < |items| - 1 {
      RunAt(init, stored, fate, k);
      assert init[..k] == items[..k];
      assert init[k] == items[k];
    } else {
      assert init == items[..k];
    }
  }

  function Keys<T>(items: seq<T>, key: T -> string): set<string> {
    set j | 0 <= j < |items| :: key(items[j])
  }

  /** The run stores nothing but the URLs stored before and the items' keys. */
  lemma {:induction false} RunStore<T(!new)>(items: seq<T>, stored: set<string>, fate: (T, set<string>) -> Fate,
                                       key: T -> string)
    requires KeyedFresh(fate, key)
    ensures RunOf(items, stored, fate).store <= stored + Keys(items, key)
    decreases |items|
  {
    if items != [] {
      var init := items[..|items| - 1];
      RunStore(init, stored, fate, key);
      assert Keys(init, key) <= Keys(items, key) by {
        forall u | u in Keys(init, key) ensures u in Keys(items, key) {
          var j :| 0 <= j < |init| && key(init[j]) == u;
          assert key(items[j]) == u;
        }
      }
      assert key(items[|items| - 1]) in Keys(items, key);
    }
  }

  /** An item whose key is neither stored before the loop nor the key of an
      earlier item meets it unstored, whatever the other items did. */
  lemma {:induction false} RunFirstKey<T(!new)>(items: seq<T>, stored: set<string>, fate: (T, set<string>) -> Fate,
                                          key: T -> string, k: nat)
    requires KeyedFresh(fate, key) && k < |items|
    requires key(items[k]) !in stored && forall j :: 0 <= j < k ==> key(items[j]) != key(items[k])
    ensures RunOf(items, stored, fate).fates[k] == fate(items[k], RunOf(items[..k], stored, fate).store)
    ensures key(items[k]) !in RunOf(items[..k], stored, fate).store
  {
    RunAt(items, stored, fate, k);
    RunStore(items[..k], stored, fate, key);
    assert key(items[k]) !in Keys(items[..k], key);
  }

  /** The run creates fresh articles and stores exactly their URLs on top
      of those stored before. */
  lemma {:induction false} RunFresh<T(!new)>(items: seq<T>, stored: set<string>, fate: (T, set<string>) -> Fate,
                                       key: T -> string)
    requires KeyedFresh(fate, key)
    ensures FreshArticles(CreatedOf(RunOf(items, stored, fate).fates), stored)
    ensures RunOf(items, stored, fate).store == stored + Urls(CreatedOf(RunOf(items, stored, fate).fates))
    decreases |items|
  {
    if items != [] {
      var init := items[..|items| - 1];
      RunFresh(init, stored, fate, key);
      var prev := RunOf(init, stored, fate);
      var f := fate(items[|items| - 1], prev.store);
      StepFresh(prev.fates, stored, prev.store, f);
      assert RunOf(items, stored, fate) == Run(prev.fates + [f], After(prev.store, f));
    }
  }

  /** Every article the run creates is one its fate function creates. */
  lemma {:induction false} RunCreates<T(!new)>(items: seq<T>, stored: set<string>, fate: (T, set<string>) -> Fate,
                                         made: NewArticle -> bool)
    requires forall x, s :: fate(x, s).Created? ==> made(fate(x, s).article)
    ensures forall k :: 0 <= k < |CreatedOf(RunOf(items, stored, fate).fates)| ==>
              made(CreatedOf(RunOf(items, stored, fate).fates)[k])
    decreases |items|
  {
    if items != [] {
      var init := items[..|items| - 1];
      RunCreates(init, stored, fate, made);
      var prev := RunOf(init, stored, fate);
      var f := fate(items[|items| - 1], prev.store);
      assert RunOf(items, stored, fate).fates == prev.fates + [f];
      TalliesSnoc(prev.fates, f);
      var before := CreatedOf(prev.fates);
      var arts := CreatedOf(prev.fates + [f]);
      forall k | 0 <= k < |arts| ensures made(arts[k]) {
        if k < |before| {
          assert arts[k] == before[k];
        } else {
          assert f.Created? && arts[k] == f.article;
        }
      }
    }
  }

  /** The loop every ingestion keeps: the tallies of the fates so far and
      the URLs stored so far. */
  method RunLoop<T>(items: seq<T>, stored: set<string>, fate: (T, set<string>) -> Fate)
    returns (updated: nat, errors: seq<string>, arts: seq<NewArticle>, store: set<string>)
    ensures var run := RunOf(items, stored, fate);
            && arts == CreatedOf(run.fates) && errors == ErrorsOf(run.fates) && updated == StoredCount(run.fates)
            && store == run.store
  {
    updated, errors, arts, store := 0, [], [], stored;
    ghost var done: seq<Fate> := [];
    var i := 0;
    while i < |items|
      invariant 0 <= i <= |items|
      invariant RunOf(items[..i], stored, fate) == Run(done, store)
      invariant arts == CreatedOf(done) && errors == ErrorsOf(done) && updated == StoredCount(done)
    {
      var f := fate(items[i], store);
      assert RunOf(items[..i + 1], stored, fate) == Run(done + [f], After(store, f)) by {
        RunSnoc(items, stored, fate, i);
      }
      assert && CreatedOf(done + [f]) == arts + (if f.Created? then [f.article] else [])
             && ErrorsOf(done + [f]) == errors + (if f.Failed? then [f.msg] else [])
             && StoredCount(done + [f]) == updated + (if f.AlreadyStored? then 1 else 0) by {
        TalliesSnoc(done, f);
      }
      errors := errors + (if f.Failed? then [f.msg] else []);
      updated := updated + (if f.AlreadyStored? then 1 else 0);
      arts := arts + (if f.Created? then [f.article] else []);
      store := After(store, f);
      done := done + [f];
      i := i + 1;
    }
    assert items[..i] == items;
  }

  /** The loop of an ingestion with the fates of its items: every item ends
      in one way, the new articles are fresh, and the store grows by exactly
      their URLs. */
  method IngestItems<T(!new)>(items: seq<T>, stored: set<string>, fate: (T, set<string>) -> Fate, key: T -> string)
    returns (updated: nat, errors: seq<string>, arts: seq<NewArticle>, store: set<string>)
    requires KeyedFresh(fate, key)
    ensures var fates := RunOf(items, stored, fate).fates;
            arts == CreatedOf(fates) && errors == ErrorsOf(fates) && updated == StoredCount(fates)
    ensures |arts| + updated + |errors| == |items|
    ensures FreshArticles(arts, stored) && store == stored + Urls(arts)
  {
    updated, errors, arts, store := RunLoop(items, stored, fate);
    RunFresh(items, stored, fate, key);
    FatesBalance(RunOf(items, stored, fate).fates);
  }
}

=== FILE: job_tracker.dfy ===
/** The job tracker (backend/app/services/job_tracker.py): overwrite the
    given fields of a job, commit, and notify the job's subscribers. */
module Tracker {
  import opened Wrappers
  import opened Jobs
  import opened Registry
  import opened Text

  /** What one `update_job` call leaves behind: the stored job, whether a
      commit happened, the progress data handed to the subscribers (if any)
      and the delivery round it caused. */
  datatype TrackerOutcome = TrackerOutcome(
    job: Job,
    committed: bool,
    notified: Option<ProgressData>,
    delivery: Delivery)

  /** `JobTracker.update_job`.  Without a field to change there is neither a
      commit nor a notification.  Otherwise the update is committed and the
      job's subscribers get its status, its progress and counts with null read
      as 0, and the message, error text and result when truthy.  Sockets
      whose send fails are dropped by the registry; the committed job does
      not depend on them. */
  function UpdateJob(job: Job, u: JobUpdate, m: Manager, failing: set<ConnId>): (r: TrackerOutcome)
    ensures r.job == ApplyUpdate(job, u)
    ensures r.committed <==> HasChange(u)
    ensures r.notified.Some? <==> HasChange(u)
    ensures !HasChange(u) ==> r.job == job && r.delivery == Delivery(m, {})
    ensures HasChange(u) ==> r.delivery == SendJobUpdate(m, job.id, failing)
    ensures r.notified.Some? ==>
              var d := r.notified.value;
              && d.status == r.job.status
              && d.progress == r.job.progress.GetOr(0)
              && d.totalItems == job.totalItems.GetOr(0)
              && d.processedItems == r.job.processedItems.GetOr(0)
              && d.createdItems == r.job.createdItems.GetOr(0)
              && (d.message.Some? <==> Truthy(u.message))
              && (d.error.Some? <==> Truthy(r.job.errorMessage))
              && (d.result.Some? <==> ResultTruthy(r.job.result))
  {
    if !HasChange(u) then TrackerOutcome(job, false, None, Delivery(m, {}))
    else
      var j := ApplyUpdate(job, u);
      var d := ProgressPayload(j.status, j.progress.GetOr(0), j.totalItems.GetOr(0),
                               j.processedItems.GetOr(0), j.createdItems.GetOr(0),
                               u.message, j.errorMessage, j.result);
      TrackerOutcome(j, true, Some(d), SendJobUpdate(m, j.id, failing))
  }

  /** A message with no field to change is not sent at all. */
  lemma {:induction false} MessageAloneIsNotAnUpdate(job: Job, msg: string, m: Manager, failing: set<ConnId>)
    ensures var r := UpdateJob(job, JobUpdate(None, None, None, None, None, None, Some(msg)), m, failing);
            !r.committed && r.notified.None? && r.delivery.manager == m
  {
  }

  /** The stored job is the same whichever subscribers fail: a failing
      notification never undoes the committed update. */
  lemma {:induction false} NotificationFailureIsSwallowed(job: Job, u: JobUpdate, m: Manager, f1: set<ConnId>, f2: set<ConnId>)
    ensures UpdateJob(job, u, m, f1).job == UpdateJob(job, u, m, f2).job
    ensures UpdateJob(job, u, m, f1).committed == UpdateJob(job, u, m, f2).committed
  {
  }

  /** What `update_job_sync` leaves behind: the stored job and whether it
      committed. */
  datatype SyncOutcome = SyncOutcome(job: Job, committed: bool)

  /** `JobTracker.update_job_sync`: the same overwrite rule, always a commit
      and never a notification. */
  function UpdateJobSync(job: Job, u: JobUpdate): (r: SyncOutcome)
    ensures r.committed
    ensures r.job.status == u.status.GetOr(job.status)
    ensures r.job.progress == (if u.progress.Some? then u.progress else job.progress)
    ensures r.job.totalItems == job.totalItems && r.job.createdAt == job.createdAt
  {
    SyncOutcome(ApplyUpdate(job, u), true)
  }

  /** The synchronous and the notifying update store the same job. */
  lemma {:induction false} SyncStoresSameJob(job: Job, u: JobUpdate, m: Manager, failing: set<ConnId>)
    ensures UpdateJobSync(job, u).job == UpdateJob(job, u, m, failing).job
  {
  }
}

=== FILE: jobs.dfy ===
/** The job record of a background task and the job store endpoints:
    detail, status projection, filtered newest-first listing and deletion
    (backend/app/routers/jobs.py), plus the field-overwrite rule of the job
    tracker (backend/app/services/job_tracker.py). */
module Jobs {
  import opened Wrappers
  import opened Sorting
  import Records

  /** The request recorded with a job.  Research jobs store their query and
      result counts; other job types keep an opaque key/value payload. */
  datatype JobParameters =
    | ResearchParameters(query: string, maxWebResults: int, maxYoutubeResults: int)
    | OtherParameters(entries: seq<(string, string)>)

  /** The result payload written on completion. */
  datatype JobResult =
    | ResearchResult(
        success: bool,
        query: string,
        webArticlesCreated: nat,
        youtubeVideosCreated: nat,
        totalArticlesCreated: nat,
        embeddingsGenerated: nat,
        connectionsComputed: nat,
        errors: seq<string>)
    | OtherResult(entries: seq<(string, string)>)

  /** Python truthiness of a result dictionary: present and non-empty.  A
      research result always has its eight keys. */
  predicate ResultTruthy(r: Option<JobResult>) {
    r.Some? && (r.value.ResearchResult? || |r.value.entries| > 0)
  }

  /** A persisted job row.  Counters and timestamps are nullable columns;
      timestamps are opaque clock readings. */
  datatype Job = Job(
    id: int,
    jobType: string,
    status: string,
    progress: Option<int>,
    totalItems: Option<int>,
    processedItems: Option<int>,
    createdItems: Option<int>,
    parameters: Option<JobParameters>,
    result: Option<JobResult>,
    errorMessage: Option<string>,
    createdAt: int,
    startedAt: Option<int>,
    completedAt: Option<int>)

  /** The keyword arguments of `JobTracker.update_job`; `None` means
      "leave this field alone".  `message` is only forwarded to subscribers. */
  datatype JobUpdate = JobUpdate(
    status: Option<string>,
    progress: Option<int>,
    processedItems: Option<int>,
    createdItems: Option<int>,
    errorMessage: Option<string>,
    result: Option<JobResult>,
    message: Option<string>)

  /** True when at least one stored field is given; `message` alone is not a
      change. */
  predicate HasChange(u: JobUpdate) {
    || u.status.Some? || u.progress.Some? || u.processedItems.Some?
    || u.createdItems.Some? || u.errorMessage.Some? || u.result.Some?
  }

  /** Overwrites exactly the fields whose argument is present. */
  function ApplyUpdate(job: Job, u: JobUpdate): (r: Job)
    ensures r.status == u.status.GetOr(job.status)
    ensures r.progress == (if u.progress.Some? then u.progress else job.progress)
    ensures r.processedItems == (if u.processedItems.Some? then u.processedItems else job.processedItems)
    ensures r.createdItems == (if u.createdItems.Some? then u.createdItems else job.createdItems)
    ensures r.errorMessage == (if u.errorMessage.Some? then u.errorMessage else job.errorMessage)
    ensures r.result == (if u.result.Some? then u.result else job.result)
    ensures r.id == job.id && r.jobType == job.jobType && r.totalItems == job.totalItems
    ensures r.parameters == job.parameters && r.createdAt == job.createdAt
    ensures r.startedAt == job.startedAt && r.completedAt == job.completedAt
    ensures !HasChange(u) ==> r == job
  {
    Job(job.id, job.jobType, u.status.GetOr(job.status),
        if u.progress.Some? then u.progress else job.progress,
        job.totalItems,
        if u.processedItems.Some? then u.processedItems else job.processedItems,
        if u.createdItems.Some? then u.createdItems else job.createdItems,
        job.parameters,
        if u.result.Some? then u.result else job.result,
        if u.errorMessage.Some? then u.errorMessage else job.errorMessage,
        job.createdAt, job.startedAt, job.completedAt)
  }

  /** Applying the same update twice is the same as applying it once: fields
      are overwritten, never incremented. */
  lemma {:induction false} UpdateIdempotent(job: Job, u: JobUpdate)
    ensures ApplyUpdate(ApplyUpdate(job, u), u) == ApplyUpdate(job, u)
  {
  }

  /** The status is written verbatim: any status may follow any other. */
  lemma {:induction false} AnyStatusMayFollowAny(job: Job, s: string)
    ensures ApplyUpdate(job, JobUpdate(Some(s), None, None, None, None, None, None)).status == s
  {
  }

  /** The job store: the rows of the jobs table. */
  predicate UniqueIds(store: seq<Job>) {
    forall a, b :: 0 <= a < b < |store| ==> store[a].id != store[b].id
  }

  /** `db.query(Job).filter(Job.id == job_id).first()`. */
  function Find(store: seq<Job>, id: int): (r: Option<Job>)
    ensures r.Some? ==> r.value in store && r.value.id == id
    ensures r.None? <==> forall k :: 0 <= k < |store| ==> store[k].id != id
  {
    if store == [] then None
    else if store[0].id == id then Some(store[0])
    else Find(store[1..], id)
  }

  /** GET /jobs/{id}: the stored job, or 404. */
  function GetJob(store: seq<Job>, id: int): (r: Result<Job, HttpError>)
    ensures r.Ok? ==> r.value in store && r.value.id == id
    ensures r.Err? <==> forall k :: 0 <= k < |store| ==> store[k].id != id
    ensures r.Err? ==> r.error.status == NotFound
  {
    match Find(store, id)
    case None => Err(HttpError(NotFound, "Job not found"))
    case Some(j) => Ok(j)
  }

  /** The lightweight polling response. */
  datatype JobStatus = JobStatus(
    id: int,
    status: string,
    progress: Option<int>,
    totalItems: Option<int>,
    processedItems: Option<int>,
    createdItems: Option<int>,
    errorMessage: Option<string>,
    result: Option<JobResult>)

  /** GET /jobs/{id}/status: the projection of the stored job, or 404. */
  function GetJobStatus(store: seq<Job>, id: int): (r: Result<JobStatus, HttpError>)
    ensures r.Err? <==> GetJob(store, id).Err?
    ensures r.Err? ==> r.error.status == NotFound
    ensures r.Ok? ==> exists j :: (j in store && j.id == id
                                   && r.value == JobStatus(j.id, j.status, j.progress, j.totalItems,
                                                           j.processedItems, j.createdItems,
                                                           j.errorMessage, j.result))
  {
    match GetJob(store, id)
    case Err(e) => Err(e)
    case Ok(j) =>
      Ok(JobStatus(j.id, j.status, j.progress, j.totalItems, j.processedItems,
                   j.createdItems, j.errorMessage, j.result))
  }

  /** A filter takes part only when its text is truthy. */
  predicate MatchesFilters(j: Job, jobType: Option<string>, status: Option<string>) {
    && (jobType.Some? && jobType.value != "" ==> j.jobType == jobType.value)
    && (status.Some? && status.value != "" ==> j.status == status.value)
  }

  function CreatedKey(j: Job): real {
    j.createdAt as real
  }

  /** GET /jobs: the matching jobs, newest `created_at` first, at most
      `limit` of them, none listed twice, and no matching job left out is
      newer than one returned. */
  function ListJobs(store: seq<Job>, jobType: Option<string>, status: Option<string>, limit: nat)
    : (r: seq<Job>)
    ensures |r| <= limit
    ensures forall k :: 0 <= k < |r| ==> r[k] in store && MatchesFilters(r[k], jobType, status)
    ensures multiset(r) <= multiset(store)
    ensures forall a, b :: 0 <= a < b < |r| ==> r[a].createdAt >= r[b].createdAt
    ensures |r| == limit || forall k :: (0 <= k < |store| && MatchesFilters(store[k], jobType, status))
                                        ==> store[k] in r
    ensures forall k, m :: (0 <= k < |store| && MatchesFilters(store[k], jobType, status)
                            && store[k] !in r && 0 <= m < |r|) ==> store[k].createdAt <= r[m].createdAt
  {
    var matching := Records.Where(store, j => MatchesFilters(j, jobType, status));
    var r := TopN(matching, CreatedKey, limit);
    TopNMeaning(matching, CreatedKey, limit);
    Records.WhereSubMultiset(store, j => MatchesFilters(j, jobType, status));
    assert forall k :: 0 <= k < |store| && MatchesFilters(store[k], jobType, status) ==> store[k] in matching;
    r
  }

  /** DELETE /jobs/{id}: 404 for an unknown id, 400 for a running job,
      otherwise the job is removed. */
  function DeleteJob(store: seq<Job>, id: int): (r: Result<seq<Job>, HttpError>)
    ensures GetJob(store, id).Err? ==> r == Err(HttpError(NotFound, "Job not found"))
    ensures GetJob(store, id).Ok? && GetJob(store, id).value.status == "running"
            ==> r == Err(HttpError(BadRequest, "Cannot delete a running job"))
    ensures GetJob(store, id).Ok? && GetJob(store, id).value.status != "running" ==> r.Ok?
    ensures r.Ok? ==> forall k :: 0 <= k < |r.value| ==> r.value[k] in store && r.value[k].id != id
    ensures r.Ok? ==> forall k :: 0 <= k < |store| && store[k].id != id ==> store[k] in r.value
  {
    match Find(store, id)
    case None => Err(HttpError(NotFound, "Job not found"))
    case Some(j) =>
      if j.status == "running" then Err(HttpError(BadRequest, "Cannot delete a running job"))
      else Ok(Records.Where(store, (x: Job) => x.id != id))
  }

  /** A deleted job can no longer be fetched. */
  lemma {:induction false} DeletedJobIsGone(store: seq<Job>, id: int)
    requires DeleteJob(store, id).Ok?
    ensures GetJob(DeleteJob(store, id).value, id).Err?
  {
  }
}

=== FILE: live_updates.dfy ===
/** The websocket endpoints (backend/app/routers/websocket.py): the per-job
    subscription that starts with a snapshot and answers "ping" and
    "refresh", the all-jobs subscription, and the connection statistics.
    The 30 s receive timeout is an input event; the job row seen by a
    "refresh" is supplied per event position, `None` meaning the row can no
    longer be read (the refresh raises). */
module LiveUpdates {
  import opened Wrappers
  import opened Jobs
  import opened Registry

  /** The `data` of a "job_state" message. */
  datatype Snapshot = Snapshot(
    status: string,
    progress: Option<int>,
    totalItems: Option<int>,
    processedItems: Option<int>,
    createdItems: Option<int>,
    errorMessage: Option<string>,
    result: Option<JobResult>)

  function SnapshotOf(j: Job): (s: Snapshot)
    ensures s.status == j.status && s.progress == j.progress && s.totalItems == j.totalItems
    ensures s.processedItems == j.processedItems && s.createdItems == j.createdItems
    ensures s.errorMessage == j.errorMessage && s.result == j.result
  {
    Snapshot(j.status, j.progress, j.totalItems, j.processedItems, j.createdItems, j.errorMessage, j.result)
  }

  /** Messages the server sends on the socket. */
  datatype Outgoing = JobState(jobId: int, data: Snapshot) | Pong | Heartbeat

  /** What happens while the server waits for the next client message:
      a text arrives, the wait times out, the client goes away, or some
      other error is raised.  `sendOk` says whether the reply to this event
      (if any) could be sent. */
  datatype Event =
    | Recv(text: string, sendOk: bool)
    | Timeout(sendOk: bool)
    | ClientGone
    | Failure

  /** The effect of one event: messages sent, the registry afterwards, and
      whether the receive loop ends. */
  datatype Step = Step(out: seq<Outgoing>, manager: Manager, stop: bool)

  /** Whether an event ends the receive loop.  A failed "pong" or heartbeat
      send raises and ends it; a failed "job_state" send is swallowed by the
      registry. */
  predicate Stops(e: Event, perJob: bool, row: Option<Job>) {
    match e
    case Recv(text, ok) =>
      || (text == "ping" && !ok)
      || text == "close"
      || (perJob && text == "refresh" && row.None?)
    case Timeout(ok) => !ok
    case ClientGone => true
    case Failure => true
  }

  /** One turn of the receive loop of either endpoint.  `perJob` selects the
      per-job endpoint, the only one that understands "refresh". */
  function HandleEvent(e: Event, perJob: bool, jobId: int, ws: ConnId, m: Manager, row: Option<Job>)
    : (r: Step)
    ensures r.stop <==> Stops(e, perJob, row)
    ensures r.manager.active == m.active && r.manager.all <= m.all
    ensures e.Recv? && e.text == "ping" ==> r.out == [Pong]
    ensures e.Timeout? ==> r.out == [Heartbeat]
    ensures (e.Recv? && e.text == "refresh" && perJob && row.Some?) ==>
              r.out == [JobState(jobId, SnapshotOf(row.value))] && r.manager == SendPersonal(m, ws, e.sendOk)
    ensures e.Recv? && e.text !in {"ping", "refresh"} ==> r.out == [] && r.manager == m
    ensures e.Recv? && e.text == "refresh" && !perJob ==> r == Step([], m, false)
    ensures e.ClientGone? || e.Failure? ==> r == Step([], m, true)
  {
    match e
    case Recv(text, ok) =>
      if text == "ping" then Step([Pong], m, !ok)
      else if text == "close" then Step([], m, true)
      else if text == "refresh" && perJob then
        match row
        case None => Step([], m, true)
        case Some(j) => Step([JobState(jobId, SnapshotOf(j))], SendPersonal(m, ws, ok), false)
      else Step([], m, false)
    case Timeout(ok) => Step([Heartbeat], m, !ok)
    case ClientGone => Step([], m, true)
    case Failure => Step([], m, true)
  }

  /** The result of running the receive loop over the events that arrived:
      all messages sent, the registry, and whether the loop has ended (when
      it has not, the socket is still open after the last event). */
  datatype Served = Served(sent: seq<Outgoing>, manager: Manager, ended: bool)

  /** The receive loop from event `i` on.  `rows(i)` is the job row a
      "refresh" at position `i` reads. */
  function Serve(events: seq<Event>, i: nat, perJob: bool, jobId: int, ws: ConnId, m: Manager,
                 rows: nat -> Option<Job>): (r: Served)
    requires i <= |events|
    ensures r.manager.active == m.active && r.manager.all <= m.all
    ensures !r.ended <==> forall k :: i <= k < |events| ==> !Stops(events[k], perJob, rows(k))
    ensures forall k :: 0 <= k < |r.sent| ==> r.sent[k].JobState? ==> perJob && r.sent[k].jobId == jobId
    decreases |events| - i
  {
    if i == |events| then Served([], m, false)
    else
      var st := HandleEvent(events[i], perJob, jobId, ws, m, rows(i));
      if st.stop then Served(st.out, st.manager, true)
      else
        var rest := Serve(events, i + 1, perJob, jobId, ws, st.manager, rows);
        Served(st.out + rest.sent, rest.manager, rest.ended)
  }

  /** The outcome of one websocket connection: the close code when it is
      refused, everything sent, the registry afterwards and whether the
      handler has returned. */
  datatype Session = Session(closeCode: Option<int>, sent: seq<Outgoing>, manager: Manager, ended: bool)

  const PolicyViolation: int := 1008

  /** `/ws/jobs/{job_id}`.  An unknown job closes the socket with 1008
      without registering it.  Otherwise the socket subscribes to the job,
      is sent a snapshot of the job first, and runs the receive loop; once
      the loop ends the socket is unregistered from the job. */
  function JobSession(store: seq<Job>, jobId: int, ws: ConnId, m: Manager, snapshotOk: bool,
                      events: seq<Event>, rows: nat -> Option<Job>): (r: Session)
    ensures Find(store, jobId).None? ==> r == Session(Some(PolicyViolation), [], m, true)
    ensures Find(store, jobId).Some? ==>
              && r.closeCode.None?
              && |r.sent| >= 1
              && r.sent[0] == JobState(jobId, SnapshotOf(Find(store, jobId).value))
              && (forall k :: 0 <= k < |r.sent| ==> r.sent[k].JobState? ==> r.sent[k].jobId == jobId)
    ensures Find(store, jobId).Some? ==>
              (r.ended <==> exists k :: 0 <= k < |events| && Stops(events[k], true, rows(k)))
    ensures Find(store, jobId).Some? && r.ended ==>
              ws !in r.manager.all && (jobId in r.manager.active ==> ws !in r.manager.active[jobId])
    ensures Find(store, jobId).Some? && !r.ended ==> jobId in r.manager.active && ws in r.manager.active[jobId]
  {
    match Find(store, jobId)
    case None => Session(Some(PolicyViolation), [], m, true)
    case Some(job) =>
      var m1 := SendPersonal(Connect(m, ws, Some(jobId)), ws, snapshotOk);
      var served := Serve(events, 0, true, jobId, ws, m1, rows);
      var first := JobState(jobId, SnapshotOf(job));
      var sent := [first] + served.sent;
      assert sent[0] == first;
      if served.ended then Session(None, sent, Disconnect(served.manager, ws, Some(jobId)), true)
      else Session(None, sent, served.manager, false)
  }

  /** `/ws/jobs`: subscribes to every update, runs the receive loop (where
      "refresh" is ignored like any other text), and once the loop ends
      removes the socket from the global set and from every job set. */
  function AllJobsSession(ws: ConnId, m: Manager, events: seq<Event>): (r: Session)
    ensures r.closeCode.None?
    ensures forall k :: 0 <= k < |r.sent| ==> !r.sent[k].JobState?
    ensures r.ended <==> exists k :: 0 <= k < |events| && Stops(events[k], false, None)
    ensures r.ended ==> ws !in r.manager.all && forall j :: j in r.manager.active ==> ws !in r.manager.active[j]
    ensures !r.ended ==> r.manager.active == m.active
  {
    var served := Serve(events, 0, false, 0, ws, Connect(m, ws, None), _ => None);
    if served.ended then Session(None, served.sent, Disconnect(served.manager, ws, None), true)
    else Session(None, served.sent, served.manager, false)
  }

  /** Each "ping" that can be answered gets exactly one "pong", and the loop
      goes on. */
  lemma {:induction false} PingIsAnswered(events: seq<Event>, i: nat, perJob: bool, jobId: int, ws: ConnId,
                                         m: Manager, rows: nat -> Option<Job>)
    requires i < |events| && events[i] == Recv("ping", true)
    ensures var r := Serve(events, i, perJob, jobId, ws, m, rows);
            r.sent == [Pong] + Serve(events, i + 1, perJob, jobId, ws, m, rows).sent
  {
    var st := HandleEvent(events[i], perJob, jobId, ws, m, rows(i));
    assert st == Step([Pong], m, false);
  }

  /** The statistics endpoint: the global count and, for every job entry,
      its subscriber count (zero for an entry left empty). */
  datatype Stats = Stats(totalConnections: nat, jobSubscriptions: map<int, nat>)

  function ConnectionStats(m: Manager): (r: Stats)
    ensures r.totalConnections == ConnectionCount(m)
    ensures r.jobSubscriptions.Keys == m.active.Keys
    ensures forall j :: j in r.jobSubscriptions ==> r.jobSubscriptions[j] == JobConnectionCount(m, j)
  {
    Stats(ConnectionCount(m), map j | j in m.active :: JobConnectionCount(m, j))
  }
}

=== FILE: llm_text.dfy ===
/** The text handling around the language model
    (backend/app/services/ollama_service.py): the chat message list, the
    content excerpts placed in prompts, the parsing of key points and
    categories out of the model's reply, and the defaults that replace a
    failed sub-task.  The model's replies are inputs. */
module Llm {
  import opened Wrappers
  import opened Text

  datatype Message = Message(role: string, content: string)

  /** `generate_chat_completion`: the system message first, only when it is
      truthy, and the user prompt last. */
  function ChatMessages(prompt: string, system: Option<string>): (r: seq<Message>)
    ensures |r| == (if Truthy(system) then 2 else 1)
    ensures r[|r| - 1] == Message("user", prompt)
    ensures Truthy(system) ==> r[0] == Message("system", system.value)
  {
    (if Truthy(system) then [Message("system", system.value)] else []) + [Message("user", prompt)]
  }

  /** The four prompts, by how much content each embeds. */
  datatype PromptKind = ExecutiveSummary | FullSummary | KeyPoints | Categories

  function ExcerptLimit(k: PromptKind): nat {
    match k
    case ExecutiveSummary => 4000
    case FullSummary => 6000
    case KeyPoints => 6000
    case Categories => 3000
  }

  /** The part of the content a prompt embeds: its first characters, at most
      4000 for the executive summary, 6000 for the full summary and the key
      points, 3000 for categorisation. */
  function Excerpt(k: PromptKind, content: string): (r: string)
    ensures |r| <= 6000
    ensures |r| == if |content| <= ExcerptLimit(k) then |content| else ExcerptLimit(k)
    ensures StartsWith(content, r)
  {
    Take(content, ExcerptLimit(k))
  }

  // ---------------------------------------------------------------------
  // Key points
  // ---------------------------------------------------------------------

  /** The bullet markers as the file spells them: a dash, the three
      characters U+00E2 U+20AC U+00A2 (the UTF-8 bytes of a bullet read as
      Windows-1252), and an asterisk. */
  const WrittenMarkers: seq<string> := ["-", "\U{00E2}\U{20AC}\U{00A2}", "*"]

  /** The markers evidently meant: dash, bullet U+2022, asterisk. */
  const Markers: seq<string> := ["-", "\U{2022}", "*"]

  const MaxKeyPoints: nat := 7

  predicate StartsWithAny(line: string, markers: seq<string>) {
    exists m :: m in markers && StartsWith(line, m)
  }

  /** The point one line contributes: the stripped line must be non-empty
      and start with a marker; its first character is dropped and the rest
      stripped; an empty rest contributes nothing. */
  function PointOf(line: string, markers: seq<string>): (r: Option<string>)
    ensures r.Some? ==> Trimmed(r.value)
  {
    var l := Strip(line);
    if l != "" && StartsWithAny(l, markers) then
      var p := Strip(l[1..]);
      if p != "" then Some(p) else None
    else None
  }

  /** The points of all lines, in order. */
  function Points(lines: seq<string>, markers: seq<string>): (r: seq<string>)
    ensures |r| <= |lines|
    ensures forall k :: 0 <= k < |r| ==> Trimmed(r[k])
  {
    if lines == [] then []
    else
      var rest := Points(lines[1..], markers);
      var p := PointOf(lines[0], markers);
      if p.Some? then [p.value] + rest else rest
  }

  /** `extract_key_points` after the reply: the points of the lines of the
      stripped reply, at most seven.  Fewer than five, even none, is
      accepted. */
  function ParseKeyPointsWith(reply: string, markers: seq<string>): (r: seq<string>)
    ensures |r| <= MaxKeyPoints
    ensures forall k :: 0 <= k < |r| ==> Trimmed(r[k])
  {
    Take(Points(Split(Strip(reply), '\n'), markers), MaxKeyPoints)
  }

  /** Key-point parsing with the markers exactly as written. */
  function ParseKeyPointsAsWritten(reply: string): (r: seq<string>)
    ensures |r| <= MaxKeyPoints
    ensures forall k :: 0 <= k < |r| ==> Trimmed(r[k])
  {
    ParseKeyPointsWith(reply, WrittenMarkers)
  }

  /** Key-point parsing with the bullet marker meant. */
  function ParseKeyPoints(reply: string): (r: seq<string>)
    ensures |r| <= MaxKeyPoints
    ensures forall k :: 0 <= k < |r| ==> Trimmed(r[k])
  {
    ParseKeyPointsWith(reply, Markers)
  }

  /** The bullet U+2022. */
  const Bullet := "\U{2022}"

  /** One reply line: a marker, a space, the point. */
  function Bulleted(marker: string, point: string): string {
    marker + " " + point
  }

  /** As written, a reply whose line starts with the bullet U+2022 yields
      no key point at all, whatever the point says. */
  lemma {:induction false} WrittenMarkerMissesBullets(point: string)
    requires CleanPoint(point)
    ensures ParseKeyPointsAsWritten(Bulleted(Bullet, point)) == []
  {
    MarkedLine(Bullet, point);
    BulletIsNotWrittenMarker(point);
    LineWithoutMarker(Bulleted(Bullet, point), WrittenMarkers);
  }

  lemma {:induction false} BulletIsNotWrittenMarker(point: string)
    ensures !StartsWithAny(Bulleted(Bullet, point), WrittenMarkers)
  {
    var line := Bulleted(Bullet, point);
    forall m | m in WrittenMarkers ensures !StartsWith(line, m) {
      assert m[0] != line[0];
    }
  }

  /** With the bullet marker meant, the same reply yields its point. */
  lemma {:induction false} BulletMarkerReadsBullets(point: string)
    requires CleanPoint(point)
    ensures ParseKeyPoints(Bulleted(Bullet, point)) == [point]
  {
    MarkedLine(Bullet, point);
    MarkedPoint(Markers, 1, point);
    LineWithPoint(Bulleted(Bullet, point), Markers, point);
  }

  /** The three characters the file has for the bullet. */
  const Mojibake := "\U{00E2}\U{20AC}\U{00A2}"

  /** As written, a line that does start with the three-character marker
      keeps two of the marker's characters in its point. */
  lemma {:induction false} WrittenMarkerLeavesDebris(point: string)
    requires CleanPoint(point)
    ensures ParseKeyPointsAsWritten(Bulleted(Mojibake, point)) == [Bulleted(Mojibake[1..], point)]
  {
    MarkedLine(Mojibake, point);
    MojibakeMarked(point);
    LineWithPoint(Bulleted(Mojibake, point), WrittenMarkers, Bulleted(Mojibake[1..], point));
  }

  lemma {:induction false} MojibakeMarked(point: string)
    requires CleanPoint(point)
    ensures StartsWithAny(Bulleted(Mojibake, point), WrittenMarkers)
    ensures Strip(Bulleted(Mojibake, point)[1..]) == Bulleted(Mojibake[1..], point)
    ensures Bulleted(Mojibake[1..], point) != ""
  {
    var line := Bulleted(Mojibake, point);
    var rest := Bulleted(Mojibake[1..], point);
    assert WrittenMarkers[1] in WrittenMarkers && StartsWith(line, WrittenMarkers[1]);
    assert line[1..] == rest;
    MarkedLine(Mojibake[1..], point);
    StripUnchanged(rest);
  }

  /** A marker, a space and a clean point make a line with no whitespace
      around it and no line break. */
  lemma {:induction false} MarkedLine(marker: string, point: string)
    requires marker != "" && !IsSpace(marker[0]) && '\n' !in marker
    requires CleanPoint(point)
    ensures Trimmed(Bulleted(marker, point)) && '\n' !in Bulleted(marker, point)
  {
    var line := Bulleted(marker, point);
    assert line[|line| - 1] == point[|point| - 1];
    forall i | 0 <= i < |line| ensures line[i] != '\n' {
      if i < |marker| {
        assert line[i] == marker[i];
      } else if i > |marker| {
        assert line[i] == point[i - |marker| - 1];
      }
    }
  }

  /** A one-character marker followed by a space and a clean point yields
      that point. */
  lemma {:induction false} MarkedPoint(markers: seq<string>, k: nat, point: string)
    requires k < |markers| && |markers[k]| == 1 && !IsSpace(markers[k][0]) && markers[k][0] != '\n'
    requires CleanPoint(point)
    ensures StartsWithAny(Bulleted(markers[k], point), markers)
    ensures Strip(Bulleted(markers[k], point)[1..]) == point
  {
    var line := Bulleted(markers[k], point);
    assert StartsWith(line, markers[k]);
    assert line[1..] == " " + point;
    StripUnchanged(point);
    StripOneSpace(point);
  }

  /** A one-line reply with no whitespace around it and no marker yields
      nothing. */
  lemma {:induction false} LineWithoutMarker(line: string, markers: seq<string>)
    requires Trimmed(line) && '\n' !in line
    requires !StartsWithAny(line, markers)
    ensures ParseKeyPointsWith(line, markers) == []
  {
    OneLine(line, markers);
  }

  /** A one-line reply with no whitespace around it, starting with a
      marker, yields the stripped rest after the first character. */
  lemma {:induction false} LineWithPoint(line: string, markers: seq<string>, point: string)
    requires Trimmed(line) && '\n' !in line
    requires StartsWithAny(line, markers) && Strip(line[1..]) == point && point != ""
    ensures ParseKeyPointsWith(line, markers) == [point]
  {
    OneLine(line, markers);
  }

  lemma {:induction false} OneLine(line: string, markers: seq<string>)
    requires Trimmed(line) && '\n' !in line
    ensures ParseKeyPointsWith(line, markers) == Take(Points([line], markers), MaxKeyPoints)
    ensures Points([line], markers) == if PointOf(line, markers).Some? then [PointOf(line, markers).value] else []
  {
    ParseLines([line], markers);
    assert Join([line], '\n') == line;
  }

  /** A reply made of lines, with no whitespace around it, is parsed line by
      line. */
  lemma {:induction false} ParseLines(lines: seq<string>, markers: seq<string>)
    requires |lines| >= 1 && lines[0] != "" && lines[|lines| - 1] != ""
    requires !IsSpace(lines[0][0]) && !IsSpace(lines[|lines| - 1][|lines[|lines| - 1]| - 1])
    requires forall k :: 0 <= k < |lines| ==> '\n' !in lines[k]
    ensures ParseKeyPointsWith(Join(lines, '\n'), markers) == Take(Points(lines, markers), MaxKeyPoints)
  {
    JoinEnds(lines, '\n');
    StripUnchanged(Join(lines, '\n'));
    JoinSplit(lines, '\n');
  }

  /** A dash bullet for each point, one per line. */
  function BulletList(points: seq<string>): (r: seq<string>)
    ensures |r| == |points|
  {
    if points == [] then [] else [Bulleted("-", points[0])] + BulletList(points[1..])
  }

  lemma {:induction false} BulletListLines(points: seq<string>)
    ensures forall k :: 0 <= k < |points| ==> BulletList(points)[k] == Bulleted("-", points[k])
  {
    if points != [] {
      BulletListLines(points[1..]);
      assert forall k :: 1 <= k < |points| ==> BulletList(points)[k] == BulletList(points[1..])[k - 1];
    }
  }

  /** A point the parser can return unchanged: non-empty, without
      surrounding whitespace, on one line. */
  predicate CleanPoint(p: string) {
    p != "" && !IsSpace(p[0]) && !IsSpace(p[|p| - 1]) && '\n' !in p
  }

  /** Round trip: rendering clean points as a dash list, one per line, and
      parsing the reply gives back the first seven of them. */
  lemma {:induction false} KeyPointsRoundTrip(points: seq<string>)
    requires |points| >= 1
    requires forall k :: 0 <= k < |points| ==> CleanPoint(points[k])
    ensures ParseKeyPoints(Join(BulletList(points), '\n')) == Take(points, MaxKeyPoints)
  {
    var lines := BulletList(points);
    DashLinesClean(points);
    ParseLines(lines, Markers);
    BulletListLines(points);
    DashLinePoints(lines, points);
  }

  /** Dash lines of clean points are each trimmed and on one line. */
  lemma {:induction false} DashLinesClean(points: seq<string>)
    requires |points| >= 1
    requires forall k :: 0 <= k < |points| ==> CleanPoint(points[k])
    ensures var lines := BulletList(points);
            && |lines| >= 1 && lines[0] != "" && lines[|lines| - 1] != ""
            && !IsSpace(lines[0][0]) && !IsSpace(lines[|lines| - 1][|lines[|lines| - 1]| - 1])
            && forall k :: 0 <= k < |lines| ==> '\n' !in lines[k]
  {
    var lines := BulletList(points);
    BulletListLines(points);
    forall k | 0 <= k < |lines| ensures '\n' !in lines[k] && Trimmed(lines[k]) {
      MarkedLine("-", points[k]);
    }
  }

  /** Dash lines of clean points yield exactly those points. */
  lemma {:induction false} DashLinePoints(lines: seq<string>, points: seq<string>)
    requires |lines| == |points|
    requires forall k :: 0 <= k < |points| ==> CleanPoint(points[k]) && lines[k] == Bulleted("-", points[k])
    ensures Points(lines, Markers) == points
  {
    if lines != [] {
      DashLinesTail(lines, points);
      DashLinePoints(lines[1..], points[1..]);
      DashStep(lines, points[0]);
      HeadTail(points);
    }
  }

  lemma {:induction false} DashLinesTail(lines: seq<string>, points: seq<string>)
    requires |lines| == |points| && lines != []
    requires forall k :: 0 <= k < |points| ==> CleanPoint(points[k]) && lines[k] == Bulleted("-", points[k])
    ensures forall k :: 0 <= k < |points| - 1 ==> CleanPoint(points[1..][k]) && lines[1..][k] == Bulleted("-", points[1..][k])
    ensures CleanPoint(points[0]) && lines[0] == Bulleted("-", points[0])
  {
  }

  lemma {:induction false} HeadTail<T>(s: seq<T>)
    requires s != []
    ensures [s[0]] + s[1..] == s
  {
  }

  lemma {:induction false} DashStep(lines: seq<string>, point: string)
    requires lines != [] && CleanPoint(point) && lines[0] == Bulleted("-", point)
    ensures Points(lines, Markers) == [point] + Points(lines[1..], Markers)
  {
    DashPoint(point);
    PointsCons(lines, Markers);
  }

  /** A line that yields a point puts it in front of the rest's points. */
  lemma {:induction false} PointsCons(lines: seq<string>, markers: seq<string>)
    requires lines != [] && PointOf(lines[0], markers).Some?
    ensures Points(lines, markers) == [PointOf(lines[0], markers).value] + Points(lines[1..], markers)
  {
  }

  lemma {:induction false} DashPoint(point: string)
    requires CleanPoint(point)
    ensures PointOf(Bulleted("-", point), Markers) == Some(point)
  {
    MarkedLine("-", point);
    StripUnchanged(Bulleted("-", point));
    MarkedPoint(Markers, 0, point);
  }

  // ---------------------------------------------------------------------
  // Categories
  // ---------------------------------------------------------------------

  const MaxCategories: nat := 3
  const CategoryNameBound: nat := 50

  predicate CategoryName(c: string) {
    c != "" && |c| < CategoryNameBound
  }

  /** The stripped pieces that are non-empty and shorter than 50
      characters, in order. */
  function Names(pieces: seq<string>): (r: seq<string>)
    ensures |r| <= |pieces|
    ensures forall k :: 0 <= k < |r| ==> CategoryName(r[k])
  {
    if pieces == [] then []
    else
      var c := Strip(pieces[0]);
      if CategoryName(c) then [c] + Names(pieces[1..]) else Names(pieces[1..])
  }

  /** `categorize_content` after the reply: split the stripped reply on
      commas, strip each piece, keep the non-empty names shorter than 50,
      at most three. */
  function ParseCategories(reply: string): (r: seq<string>)
    ensures |r| <= MaxCategories
    ensures forall k :: 0 <= k < |r| ==> CategoryName(r[k]) && ',' !in r[k]
  {
    var pieces := Split(Strip(reply), ',');
    var names := Names(pieces);
    NamesHaveNoSeparator(pieces);
    Take(names, MaxCategories)
  }

  lemma {:induction false} NamesHaveNoSeparator(pieces: seq<string>)
    requires forall k :: 0 <= k < |pieces| ==> ',' !in pieces[k]
    ensures forall k :: 0 <= k < |Names(pieces)| ==> ',' !in Names(pieces)[k]
  {
    if pieces != [] {
      NamesHaveNoSeparator(pieces[1..]);
      StripIsSlice(pieces[0]);
    }
  }

  function StripAll(pieces: seq<string>): (r: seq<string>)
    ensures |r| == |pieces|
    ensures forall k :: 0 <= k < |r| ==> r[k] == Strip(pieces[k])
  {
    if pieces == [] then [] else [Strip(pieces[0])] + StripAll(pieces[1..])
  }

  /** Round trip: a comma-separated reply whose pieces strip to valid names
      (for instance "AI, Science") gives back the first three of them. */
  lemma {:induction false} CategoriesRoundTrip(pieces: seq<string>)
    requires |pieces| >= 1
    requires forall k :: 0 <= k < |pieces| ==> ',' !in pieces[k] && CategoryName(Strip(pieces[k]))
    requires pieces[0] != "" && pieces[|pieces| - 1] != ""
    requires !IsSpace(pieces[0][0]) && !IsSpace(pieces[|pieces| - 1][|pieces[|pieces| - 1]| - 1])
    ensures ParseCategories(Join(pieces, ',')) == Take(StripAll(pieces), MaxCategories)
  {
    var reply := Join(pieces, ',');
    JoinEnds(pieces, ',');
    StripUnchanged(reply);
    JoinSplit(pieces, ',');
    NamesKeepsValid(pieces);
  }

  lemma {:induction false} NamesKeepsValid(pieces: seq<string>)
    requires forall k :: 0 <= k < |pieces| ==> CategoryName(Strip(pieces[k]))
    ensures Names(pieces) == StripAll(pieces)
  {
    if pieces != [] {
      NamesKeepsValid(pieces[1..]);
    }
  }

  // ---------------------------------------------------------------------
  // `process_article_content`
  // ---------------------------------------------------------------------

  /** A sub-task either raises or returns its value. */
  datatype Outcome<T> = Raised(msg: string) | Returned(value: T)

  function OrDefault<T>(o: Outcome<T>, default: T): (r: T)
    ensures o.Returned? ==> r == o.value
    ensures o.Raised? ==> r == default
  {
    if o.Returned? then o.value else default
  }

  datatype ArticleFields = ArticleFields(
    executiveSummary: string,
    fullSummary: string,
    keyPoints: seq<string>,
    categories: seq<string>)

  const ExecutiveDefault := "Summary generation failed."
  const FullDefault := "Detailed summary generation failed."
  const KeyPointsDefault: seq<string> := ["Summary not available"]
  const CategoriesDefault: seq<string> := ["Uncategorized"]

  /** `process_article_content`: each of the four sub-tasks that raised is
      replaced by its fixed default; the others are kept as returned.  The
      whole never raises. */
  function ProcessArticleContent(executive: Outcome<string>, full: Outcome<string>,
                                 keyPoints: Outcome<seq<string>>, categories: Outcome<seq<string>>)
    : (r: ArticleFields)
    ensures executive.Returned? ==> r.executiveSummary == executive.value
    ensures executive.Raised? ==> r.executiveSummary == ExecutiveDefault
    ensures full.Returned? ==> r.fullSummary == full.value
    ensures full.Raised? ==> r.fullSummary == FullDefault
    ensures keyPoints.Returned? ==> r.keyPoints == keyPoints.value
    ensures keyPoints.Raised? ==> r.keyPoints == KeyPointsDefault
    ensures categories.Returned? ==> r.categories == categories.value
    ensures categories.Raised? ==> r.categories == CategoriesDefault
  {
    ArticleFields(OrDefault(executive, ExecutiveDefault), OrDefault(full, FullDefault),
                  OrDefault(keyPoints, KeyPointsDefault), OrDefault(categories, CategoriesDefault))
  }

  /** The sub-results come from the parsers: when the key-point and
      category calls return, the stored lists are parsed replies; when they
      raise, the lists are the one-element defaults.  Either way there are
      at most seven key points and at most three categories, each
      non-empty. */
  lemma {:induction false} ProcessedListsBounded(executive: Outcome<string>, full: Outcome<string>,
                              pointsReply: Outcome<string>, categoriesReply: Outcome<string>)
    ensures var r := ProcessArticleContent(
              executive, full,
              if pointsReply.Returned? then Returned(ParseKeyPoints(pointsReply.value)) else Raised(pointsReply.msg),
              if categoriesReply.Returned? then Returned(ParseCategories(categoriesReply.value))
              else Raised(categoriesReply.msg));
            && (pointsReply.Raised? ==> |r.keyPoints| == 1) && |r.keyPoints| <= MaxKeyPoints
            && |r.categories| <= MaxCategories
            && (forall k :: 0 <= k < |r.keyPoints| ==> r.keyPoints[k] != "")
            && (forall k :: 0 <= k < |r.categories| ==> r.categories[k] != "")
  {
  }

  // ---------------------------------------------------------------------
  // Facts about `strip` and `split` the parsers need
  // ---------------------------------------------------------------------

  /** One leading space is stripped away. */
  lemma {:induction false} StripOneSpace(s: string)
    requires Strip(s) == s
    ensures Strip(" " + s) == s
  {
    assert (" " + s)[1..] == s;
    assert LStrip(" " + s) == LStrip(s);
    assert RStrip(LStrip(s)) == Strip(s);
  }

  /** A join of non-empty pieces starts with the first piece's first
      character and ends with the last piece's last character. */
  lemma {:induction false} JoinEnds(parts: seq<string>, sep: char)
    requires |parts| >= 1 && parts[0] != [] && parts[|parts| - 1] != []
    ensures var j := Join(parts, sep);
            j != [] && j[0] == parts[0][0] && j[|j| - 1] == parts[|parts| - 1][|parts[|parts| - 1]| - 1]
  {
    JoinLast(parts, sep);
  }

  lemma {:induction false} JoinLast(parts: seq<string>, sep: char)
    requires |parts| >= 1 && parts[|parts| - 1] != []
    ensures var j := Join(parts, sep);
            j != [] && j[|j| - 1] == parts[|parts| - 1][|parts[|parts| - 1]| - 1]
  {
    if |parts| > 1 {
      JoinLast(parts[1..], sep);
    }
  }
}

=== FILE: pagination.dfy ===
/** Offset/limit pagination as the article and digest listings do it
    (backend/app/routers/articles.py, backend/app/routers/digests.py): page
    `p` of size `n` starts at row (p - 1) * n and holds at most n rows, and
    the page count is the ceiling of total / n. */
module Pagination {
  import Sorting

  function Offset(page: int, pageSize: int): int {
    (page - 1) * pageSize
  }

  lemma {:induction false} MulMono(a: int, b: int, c: int)
    requires a <= b && c >= 0
    ensures a * c <= b * c
  {
    assert b * c - a * c == (b - a) * c;
  }

  /** The number of pages: the least count of pages of `pageSize` rows that
      holds `total` rows.  The body is the digest listing's
      `(total + page_size - 1) // page_size`; the article listing's
      `math.ceil(total / page_size)` denotes the same number. */
  function TotalPages(total: nat, pageSize: int): (n: nat)
    requires pageSize >= 1
    ensures n * pageSize >= total
    ensures n == 0 || (n - 1) * pageSize < total
    ensures n == 0 <==> total == 0
  {
    var n := (total + pageSize - 1) / pageSize;
    assert n * pageSize <= total + pageSize - 1 < (n + 1) * pageSize;
    n
  }

  /** The rows of page `page` (`OFFSET` then `LIMIT`). */
  function Page<T>(items: seq<T>, page: int, pageSize: int): (r: seq<T>)
    requires page >= 1 && pageSize >= 1
    ensures |r| <= pageSize
    ensures Offset(page, pageSize) >= |items| ==> r == []
    ensures Offset(page, pageSize) < |items| ==>
              |r| == (if Offset(page, pageSize) + pageSize <= |items| then pageSize else |items| - Offset(page, pageSize))
    ensures forall k :: 0 <= k < |r| ==> Offset(page, pageSize) + k < |items| && r[k] == items[Offset(page, pageSize) + k]
  {
    MulMono(0, page - 1, pageSize);
    Window(items, Offset(page, pageSize), pageSize)
  }

  /** At most `n` rows starting at row `o`. */
  function Window<T>(items: seq<T>, o: nat, n: nat): (r: seq<T>)
    ensures |r| <= n
    ensures o >= |items| ==> r == []
    ensures o < |items| ==> |r| == (if o + n <= |items| then n else |items| - o)
    ensures forall k :: 0 <= k < |r| ==> o + k < |items| && r[k] == items[o + k]
  {
    if o >= |items| then []
    else items[o..if o + n <= |items| then o + n else |items|]
  }

  /** Every row lies on exactly the page its position says, and that page
      is within the page count; pages past the count are empty. */
  lemma {:induction false} RowOnItsPage<T>(items: seq<T>, pageSize: int, i: nat)
    requires pageSize >= 1 && i < |items|
    ensures var p := i / pageSize + 1;
            && 1 <= p <= TotalPages(|items|, pageSize)
            && i % pageSize < |Page(items, p, pageSize)|
            && Page(items, p, pageSize)[i % pageSize] == items[i]
  {
    var p := i / pageSize + 1;
    assert Offset(p, pageSize) == i - i % pageSize;
    var n := TotalPages(|items|, pageSize);
    if n < p {
      MulMono(n, p - 1, pageSize);
      assert false;
    }
  }

  lemma {:induction false} PastLastPageEmpty<T>(items: seq<T>, page: int, pageSize: int)
    requires pageSize >= 1 && page > TotalPages(|items|, pageSize)
    ensures Page(items, page, pageSize) == []
  {
    MulMono(TotalPages(|items|, pageSize), page - 1, pageSize);
  }

  /** A page of an ordered list is ordered, and holds only rows of the
      list. */
  lemma {:induction false} PageOfSorted<T>(items: seq<T>, page: int, pageSize: int, key: T -> real)
    requires page >= 1 && pageSize >= 1
    requires Sorting.SortedDesc(items, key)
    ensures Sorting.SortedDesc(Page(items, page, pageSize), key)
    ensures forall k :: 0 <= k < |Page(items, page, pageSize)| ==> Page(items, page, pageSize)[k] in items
  {
    var r := Page(items, page, pageSize);
    var o := Offset(page, pageSize);
    forall i, j | 0 <= i < j < |r| ensures key(r[i]) >= key(r[j]) {
      assert r[i] == items[o + i] && r[j] == items[o + j];
    }
  }
}

=== FILE: records.dfy ===
/** The tables of the ORM model (backend/app/models.py) as immutable rows,
    the uniqueness constraints they declare, the defaults of a new user and
    the cascade that deleting an article triggers.  The three association
    tables are sets of id pairs, so a pair can appear in each at most once
    (their composite primary keys); timestamps are plain integers. */
module Records {
  import opened Wrappers

  datatype Article = Article(
    id: int,
    title: string,
    url: string,
    sourceType: string,
    sourceName: Option<string>,
    content: Option<string>,
    author: Option<string>,
    publishedAt: Option<int>,
    createdAt: int)

  datatype Summary = Summary(
    articleId: int,
    executiveSummary: string,
    fullSummary: string,
    keyPoints: seq<string>)

  datatype Category = Category(
    id: int,
    name: string,
    description: Option<string>,
    color: Option<string>)

  /** The vector column is text; what matters is whether `json.loads`
      accepts it and, if so, the numbers it holds. */
  datatype StoredVector = Parsed(numbers: seq<real>) | Unparseable

  datatype Embedding = Embedding(articleId: int, vector: StoredVector, modelName: string)

  datatype Connection = Connection(source: int, target: int, score: real, kind: string)

  datatype User = User(
    id: int,
    email: string,
    hashedPassword: string,
    fullName: Option<string>,
    isActive: bool,
    isSuperuser: bool,
    digestFrequency: string,
    emailNotifications: bool)

  datatype Digest = Digest(
    id: int,
    userId: int,
    title: string,
    content: string,
    digestType: string,
    periodStart: int,
    periodEnd: int,
    articleCount: nat,
    topicsCovered: seq<string>,
    createdAt: int,
    sentAt: Option<int>)

  datatype Db = Db(
    articles: seq<Article>,
    summaries: seq<Summary>,
    categories: seq<Category>,
    embeddings: seq<Embedding>,
    connections: seq<Connection>,
    users: seq<User>,
    digests: seq<Digest>,
    articleCategories: set<(int, int)>,   // (article id, category id)
    savedArticles: set<(int, int)>,       // (user id, article id)
    followedTopics: set<(int, int)>)      // (user id, category id)

  /** No two rows of `s` share a key. */
  predicate DistinctBy<T, K(==)>(s: seq<T>, key: T -> K) {
    forall i, j :: 0 <= i < j < |s| ==> key(s[i]) != key(s[j])
  }

  /** The keys of the rows of `s`. */
  function Keys<T, K(==)>(s: seq<T>, key: T -> K): (r: set<K>)
    ensures forall k :: 0 <= k < |s| ==> key(s[k]) in r
    ensures forall x :: x in r ==> exists k :: 0 <= k < |s| && key(s[k]) == x
  {
    set k | 0 <= k < |s| :: key(s[k])
  }

  /** The keys of a table with one more row in front. */
  lemma {:induction false} KeysCons<T, K>(x: T, s: seq<T>, key: T -> K)
    ensures Keys([x] + s, key) == {key(x)} + Keys(s, key)
  {
    var t := [x] + s;
    forall v | v in Keys(t, key) ensures v in {key(x)} + Keys(s, key) {
      var k :| 0 <= k < |t| && key(t[k]) == v;
      if k > 0 { assert t[k] == s[k - 1]; }
    }
    forall v | v in Keys(s, key) ensures v in Keys(t, key) {
      var k :| 0 <= k < |s| && key(s[k]) == v;
      assert t[k + 1] == s[k];
    }
    assert key(t[0]) in Keys(t, key);
  }

  /** The keys of a table with one more row at the end. */
  lemma {:induction false} KeysSnoc<T, K>(s: seq<T>, x: T, key: T -> K)
    ensures Keys(s + [x], key) == Keys(s, key) + {key(x)}
  {
    var t := s + [x];
    forall v | v in Keys(t, key) ensures v in Keys(s, key) + {key(x)} {
      var k :| 0 <= k < |t| && key(t[k]) == v;
      if k < |s| { assert t[k] == s[k]; }
    }
    forall v | v in Keys(s, key) ensures v in Keys(t, key) {
      var k :| 0 <= k < |s| && key(s[k]) == v;
      assert t[k] == s[k];
    }
    assert key(t[|s|]) in Keys(t, key);
  }

  /** Rows with distinct keys have as many keys as rows. */
  lemma {:induction false} DistinctKeysCount<T, K>(s: seq<T>, key: T -> K)
    requires DistinctBy(s, key)
    ensures |Keys(s, key)| == |s|
  {
    if s != [] {
      var init := s[..|s| - 1];
      assert DistinctBy(init, key);
      DistinctKeysCount(init, key);
      assert s == init + [s[|s| - 1]];
      KeysSnoc(init, s[|s| - 1], key);
      assert key(s[|s| - 1]) !in Keys(init, key) by {
        forall k | 0 <= k < |init| ensures key(init[k]) != key(s[|s| - 1]) {
          assert init[k] == s[k];
        }
      }
    }
  }

  /** The rows of `s` that `keep` accepts, in table order. */
  function Where<T>(s: seq<T>, keep: T -> bool): (r: seq<T>)
    ensures |r| <= |s|
    ensures forall k :: 0 <= k < |r| ==> r[k] in s && keep(r[k])
    ensures forall k :: 0 <= k < |s| && keep(s[k]) ==> s[k] in r
  {
    if s == [] then []
    else if keep(s[0]) then [s[0]] + Where(s[1..], keep)
      else Where(s[1..], keep)
  }

  /** Filtering never adds a row: each row is kept at most as often as
      the table holds it. */
  lemma {:induction false} WhereSubMultiset<T>(s: seq<T>, keep: T -> bool)
    ensures multiset(Where(s, keep)) <= multiset(s)
  {
    if s != [] {
      var rest := Where(s[1..], keep);
      WhereSubMultiset(s[1..], keep);
      assert multiset(s) == multiset{s[0]} + multiset(s[1..]) by {
        assert s == [s[0]] + s[1..];
      }
      if keep(s[0]) {
        assert multiset(Where(s, keep)) == multiset{s[0]} + multiset(rest) by {
          assert Where(s, keep) == [s[0]] + rest;
        }
      } else {
        assert Where(s, keep) == rest;
      }
    }
  }

  /** Filtering a non-empty table: its first row, when accepted, then
      the filter of the rest. */
  lemma {:induction false} WhereCons<T>(s: seq<T>, keep: T -> bool)
    requires s != []
    ensures Where(s, keep) == (if keep(s[0]) then [s[0]] else []) + Where(s[1..], keep)
  {
    if !keep(s[0]) {
      assert [] + Where(s[1..], keep) == Where(s[1..], keep);
    }
  }

  /** Filtering a non-empty table: the filter of all rows but the last,
      then the last row when accepted. */
  lemma {:induction false} WhereSnoc<T>(s: seq<T>, keep: T -> bool)
    requires s != []
    ensures Where(s, keep) == Where(s[..|s| - 1], keep) + (if keep(s[|s| - 1]) then [s[|s| - 1]] else [])
  {
    var x := s[|s| - 1];
    assert s == s[..|s| - 1] + [x];
    WhereAppend(s[..|s| - 1], [x], keep);
    WhereCons([x], keep);
    assert [x][1..] == [];
  }

  /** Filtering keeps every accepted row exactly as often as the table
      holds it, and no other row. */
  lemma {:induction false} WhereCount<T>(s: seq<T>, keep: T -> bool)
    ensures forall x :: multiset(Where(s, keep))[x] == if keep(x) then multiset(s)[x] else 0
  {
    if s != [] {
      var rest := Where(s[1..], keep);
      WhereCount(s[1..], keep);
      assert multiset(s) == multiset{s[0]} + multiset(s[1..]) by {
        assert s == [s[0]] + s[1..];
      }
      if keep(s[0]) {
        assert multiset(Where(s, keep)) == multiset{s[0]} + multiset(rest) by {
          assert Where(s, keep) == [s[0]] + rest;
        }
      } else {
        assert Where(s, keep) == rest;
      }
    }
  }

  lemma SeqAssoc<T>(p: seq<T>, q: seq<T>, r: seq<T>)
    ensures p + (q + r) == (p + q) + r
  {
  }

  /** Filtering goes row by row in table order: the filter of two tables
      one after the other is the filter of the first followed by that of
      the second. */
  lemma {:induction false} WhereAppend<T>(a: seq<T>, b: seq<T>, keep: T -> bool)
    ensures Where(a + b, keep) == Where(a, keep) + Where(b, keep)
  {
    if a == [] {
      assert a + b == b;
    } else {
      var x, wa, wb := a[0], Where(a[1..], keep), Where(b, keep);
      assert Where(a[1..] + b, keep) == wa + wb by {
        WhereAppend(a[1..], b, keep);
      }
      assert Where(a + b, keep) == (if keep(x) then [x] else []) + Where(a[1..] + b, keep) by {
        assert (a + b)[0] == x && (a + b)[1..] == a[1..] + b;
      }
      assert Where(a, keep) == (if keep(x) then [x] else []) + wa;
      SeqAssoc(if keep(x) then [x] else [], wa, wb);
    }
  }

  /** Keeping some rows of a table keeps its keys distinct. */
  lemma {:induction false} WhereKeepsDistinct<T, K>(s: seq<T>, keep: T -> bool, key: T -> K)
    requires DistinctBy(s, key)
    ensures DistinctBy(Where(s, keep), key)
  {
    if s != [] {
      var tail := s[1..];
      assert DistinctBy(tail, key);
      WhereKeepsDistinct(tail, keep, key);
      if keep(s[0]) {
        var r := Where(s, keep);
        var rest := Where(tail, keep);
        assert r == [s[0]] + rest;
        forall k | 0 <= k < |rest| ensures key(s[0]) != key(rest[k]) {
          var m :| 0 <= m < |tail| && tail[m] == rest[k];
          assert s[m + 1] == rest[k];
        }
      }
    }
  }

  /** A subset is no larger than its superset, and one of the same size is
      the whole superset. */
  lemma {:induction false} SubsetCard<T>(a: set<T>, b: set<T>)
    requires a <= b
    ensures |a| <= |b|
    ensures |a| == |b| ==> a == b
  {
    assert b == a + (b - a);
  }

  lemma {:induction false} DifferenceCard<T>(a: set<T>, b: set<T>)
    requires b <= a
    ensures |a - b| == |a| - |b|
  {
    assert a == b + (a - b);
  }

  /** The distinct values of a sequence (Python's `set(ids)`). */
  function Elements(s: seq<int>): (r: set<int>)
    ensures forall x :: x in r <==> x in s
  {
    set x | x in s
  }

  predicate NoDuplicates<T(==)>(s: seq<T>) {
    forall i, j :: 0 <= i < j < |s| ==> s[i] != s[j]
  }

  /** A sequence has at least as many entries as distinct values, and
      exactly as many when no value repeats. */
  lemma {:induction false} ElementsCard(s: seq<int>)
    ensures |Elements(s)| <= |s|
    ensures |Elements(s)| == |s| <==> NoDuplicates(s)
  {
    if s != [] {
      var init := s[..|s| - 1];
      var last := s[|s| - 1];
      ElementsCard(init);
      assert Elements(s) == Elements(init) + {last};
      if last in init {
        var m :| 0 <= m < |init| && init[m] == last;
        assert s[m] == s[|s| - 1];
      } else {
        if NoDuplicates(init) {
          forall i, j | 0 <= i < j < |s| ensures s[i] != s[j] {
            if j < |s| - 1 {
              assert s[i] == init[i] && s[j] == init[j];
            } else {
              assert s[i] == init[i];
            }
          }
        } else {
          var i, j :| 0 <= i < j < |init| && init[i] == init[j];
          assert s[i] == s[j];
        }
      }
    }
  }

  /** Appending a row whose key is new keeps the keys distinct. */
  lemma {:induction false} AppendDistinct<T, K>(s: seq<T>, x: T, key: T -> K)
    requires DistinctBy(s, key)
    requires forall k :: 0 <= k < |s| ==> key(s[k]) != key(x)
    ensures DistinctBy(s + [x], key)
  {
    var r := s + [x];
    forall i, j | 0 <= i < j < |r| ensures key(r[i]) != key(r[j]) {
      assert r[i] == s[i];
      if j < |s| {
        assert r[j] == s[j];
      }
    }
  }

  /** Prepending a row whose key is new keeps the keys distinct. */
  lemma {:induction false} PrependDistinct<T, K>(x: T, s: seq<T>, key: T -> K)
    requires DistinctBy(s, key) && key(x) !in Keys(s, key)
    ensures DistinctBy([x] + s, key)
  {
    var t := [x] + s;
    forall i, j | 0 <= i < j < |t| ensures key(t[i]) != key(t[j]) {
      assert t[j] == s[j - 1];
      if i > 0 { assert t[i] == s[i - 1]; }
    }
  }

  /** Filtering with two tests that agree on every row gives the same rows. */
  lemma {:induction false} WhereAgrees<T>(s: seq<T>, p: T -> bool, q: T -> bool)
    requires forall k :: 0 <= k < |s| ==> p(s[k]) == q(s[k])
    ensures Where(s, p) == Where(s, q)
  {
    if s != [] {
      WhereAgrees(s[1..], p, q);
    }
  }

  /** Filtering with a test every row passes keeps the whole table. */
  lemma {:induction false} WhereAll<T>(s: seq<T>, p: T -> bool)
    requires forall k :: 0 <= k < |s| ==> p(s[k])
    ensures Where(s, p) == s
  {
    if s != [] {
      WhereAll(s[1..], p);
    }
  }

  function ArticleId(a: Article): int { a.id }
  function ArticleUrl(a: Article): string { a.url }
  function CategoryId(c: Category): int { c.id }
  function CategoryName(c: Category): string { c.name }
  function SummaryArticle(s: Summary): int { s.articleId }
  function EmbeddingArticle(e: Embedding): int { e.articleId }
  function UserId(u: User): int { u.id }
  function UserEmail(u: User): string { u.email }
  function DigestId(d: Digest): int { d.id }

  /** The declared keys and unique columns: article ids and URLs, category
      ids and names, one summary and one embedding per article, user ids
      and e-mails, digest ids. */
  predicate Unique(db: Db) {
    && DistinctBy(db.articles, ArticleId) && DistinctBy(db.articles, ArticleUrl)
    && DistinctBy(db.categories, CategoryId) && DistinctBy(db.categories, CategoryName)
    && DistinctBy(db.summaries, SummaryArticle)
    && DistinctBy(db.embeddings, EmbeddingArticle)
    && DistinctBy(db.users, UserId) && DistinctBy(db.users, UserEmail)
    && DistinctBy(db.digests, DigestId)
  }

  /** Some row of the database still mentions article `id`. */
  ghost predicate MentionsArticle(db: Db, id: int) {
    || (exists k :: 0 <= k < |db.articles| && db.articles[k].id == id)
    || (exists k :: 0 <= k < |db.summaries| && db.summaries[k].articleId == id)
    || (exists k :: 0 <= k < |db.embeddings| && db.embeddings[k].articleId == id)
    || (exists k :: 0 <= k < |db.connections| && (db.connections[k].source == id || db.connections[k].target == id))
    || (exists c :: (id, c) in db.articleCategories)
    || (exists u :: (u, id) in db.savedArticles)
  }

  /** The id the database hands out next for a table: larger than every
      id in use (autoincrement). */
  function NextKey<T>(s: seq<T>, key: T -> int): (r: int)
    ensures forall k :: 0 <= k < |s| ==> key(s[k]) < r
  {
    if s == [] then 1
    else
      var rest := NextKey(s[1..], key);
      assert forall k :: 1 <= k < |s| ==> s[k] == s[1..][k - 1];
      if key(s[0]) < rest then rest else key(s[0]) + 1
  }

  /** Deleting an article: its summary and embedding go with it (the
      delete-orphan cascades), so do the connections on either end (the
      `ondelete='CASCADE'` keys) and its category and saved-by rows. */
  function DeleteArticle(db: Db, id: int): (r: Db)
    ensures !MentionsArticle(r, id)
    ensures forall k :: 0 <= k < |db.articles| && db.articles[k].id != id ==> db.articles[k] in r.articles
    ensures forall k :: 0 <= k < |db.summaries| && db.summaries[k].articleId != id ==> db.summaries[k] in r.summaries
    ensures forall k :: 0 <= k < |db.embeddings| && db.embeddings[k].articleId != id ==> db.embeddings[k] in r.embeddings
    ensures forall k :: 0 <= k < |db.connections| && db.connections[k].source != id && db.connections[k].target != id
                        ==> db.connections[k] in r.connections
    ensures forall p :: p in db.articleCategories && p.0 != id ==> p in r.articleCategories
    ensures forall p :: p in db.savedArticles && p.1 != id ==> p in r.savedArticles
    ensures r.categories == db.categories && r.users == db.users && r.digests == db.digests
    ensures r.followedTopics == db.followedTopics
  {
    db.(articles := Where(db.articles, (a: Article) => a.id != id),
        summaries := Where(db.summaries, (s: Summary) => s.articleId != id),
        embeddings := Where(db.embeddings, (e: Embedding) => e.articleId != id),
        connections := Where(db.connections, (c: Connection) => c.source != id && c.target != id),
        articleCategories := (set p | p in db.articleCategories && p.0 != id),
        savedArticles := (set p | p in db.savedArticles && p.1 != id))
  }

  /** The cascade never breaks a uniqueness constraint. */
  lemma {:induction false} DeleteArticleKeepsUnique(db: Db, id: int)
    requires Unique(db)
    ensures Unique(DeleteArticle(db, id))
  {
    WhereKeepsDistinct(db.articles, (a: Article) => a.id != id, ArticleId);
    WhereKeepsDistinct(db.articles, (a: Article) => a.id != id, ArticleUrl);
    WhereKeepsDistinct(db.summaries, (s: Summary) => s.articleId != id, SummaryArticle);
    WhereKeepsDistinct(db.embeddings, (e: Embedding) => e.articleId != id, EmbeddingArticle);
  }

  /** A user row as the model's column defaults make it: active, not a
      superuser, weekly digests, notifications on. */
  function NewUser(id: int, email: string, hashedPassword: string, fullName: Option<string>): (u: User)
    ensures u.id == id && u.email == email && u.hashedPassword == hashedPassword && u.fullName == fullName
    ensures u.isActive && !u.isSuperuser
    ensures u.digestFrequency == "weekly" && u.emailNotifications
  {
    User(id, email, hashedPassword, fullName, true, false, "weekly", true)
  }

  /** The article with id `id`, if there is one. */
  function FindArticle(articles: seq<Article>, id: int): (r: Option<Article>)
    ensures r.Some? ==> r.value in articles && r.value.id == id
    ensures r.None? ==> forall k :: 0 <= k < |articles| ==> articles[k].id != id
  {
    if articles == [] then None
    else if articles[0].id == id then Some(articles[0])
    else FindArticle(articles[1..], id)
  }

  function FindCategory(categories: seq<Category>, id: int): (r: Option<Category>)
    ensures r.Some? ==> r.value in categories && r.value.id == id
    ensures r.None? ==> forall k :: 0 <= k < |categories| ==> categories[k].id != id
  {
    if categories == [] then None
    else if categories[0].id == id then Some(categories[0])
    else FindCategory(categories[1..], id)
  }

  function FindUser(users: seq<User>, id: int): (r: Option<User>)
    ensures r.Some? ==> r.value in users && r.value.id == id
    ensures r.None? ==> forall k :: 0 <= k < |users| ==> users[k].id != id
  {
    if users == [] then None
    else if users[0].id == id then Some(users[0])
    else FindUser(users[1..], id)
  }

  /** In a table with distinct ids, the row found for an id is the only
      row with that id. */
  lemma {:induction false} FindArticleUnique(articles: seq<Article>, id: int, k: nat)
    requires DistinctBy(articles, ArticleId)
    requires k < |articles| && articles[k].id == id
    ensures FindArticle(articles, id) == Some(articles[k])
  {
    var r := FindArticle(articles, id);
    var m :| 0 <= m < |articles| && articles[m] == r.value;
    assert ArticleId(articles[m]) == ArticleId(articles[k]);
  }
}

=== FILE: registry.dfy ===
/** The websocket connection registry (backend/app/services/websocket_manager.py):
    a map from job id to the set of sockets subscribed to that job, plus the
    set of every open socket.  Sockets are opaque identifiers; the outcome of
    each send is given as the set of sockets whose send raises. */
module Registry {
  import opened Wrappers
  import opened Jobs
  import opened Text

  type ConnId = int

  datatype Manager = Manager(active: map<int, set<ConnId>>, all: set<ConnId>)

  const Empty := Manager(map[], {})

  /** Every subscriber of a job is also in the global set.  Connect,
      disconnect, job updates and broadcasts keep this; a failed personal
      send does not. */
  predicate Consistent(m: Manager) {
    forall j :: j in m.active ==> m.active[j] <= m.all
  }

  /** `connect(ws, job_id)`: registers globally and, for a job id, in that
      job's set, creating it when absent. */
  function Connect(m: Manager, ws: ConnId, job: Option<int>): (r: Manager)
    ensures r.all == m.all + {ws}
    ensures job.None? ==> r.active == m.active
    ensures job.Some? ==> r.active.Keys == m.active.Keys + {job.value}
    ensures job.Some? ==> r.active[job.value]
                          == (if job.value in m.active then m.active[job.value] else {}) + {ws}
    ensures forall k :: k in m.active && job != Some(k) ==> k in r.active && r.active[k] == m.active[k]
  {
    match job
    case None => m.(all := m.all + {ws})
    case Some(j) =>
      var subs := if j in m.active then m.active[j] else {};
      Manager(m.active[j := subs + {ws}], m.all + {ws})
  }

  /** `disconnect(ws, job_id)`.  With a job id that has an entry, the socket
      leaves that job's set and the entry is deleted once empty; otherwise
      the socket leaves every job set and emptied entries stay in the map. */
  function Disconnect(m: Manager, ws: ConnId, job: Option<int>): (r: Manager)
    ensures r.all == m.all - {ws}
    ensures job.Some? && job.value in m.active ==>
              && (job.value in r.active <==> m.active[job.value] - {ws} != {})
              && (job.value in r.active ==> r.active[job.value] == m.active[job.value] - {ws})
              && (forall k :: k in m.active && k != job.value ==> k in r.active && r.active[k] == m.active[k])
              && r.active.Keys <= m.active.Keys
    ensures (job.None? || job.value !in m.active) ==>
              && r.active.Keys == m.active.Keys
              && (forall k :: k in r.active ==> r.active[k] == m.active[k] - {ws})
  {
    if job.Some? && job.value in m.active then
      var j := job.value;
      var rest := m.active[j] - {ws};
      if rest == {} then Manager(m.active - {j}, m.all - {ws})
      else Manager(m.active[j := rest], m.all - {ws})
    else
      Manager(map k | k in m.active :: m.active[k] - {ws}, m.all - {ws})
  }

  /** `send_personal_message`: a failed send drops the socket from the global
      set only, never from a job set. */
  function SendPersonal(m: Manager, ws: ConnId, ok: bool): (r: Manager)
    ensures r.active == m.active
    ensures ok ==> r.all == m.all
    ensures !ok ==> r.all == m.all - {ws}
  {
    if ok then m else m.(all := m.all - {ws})
  }

  /** The clean-up loops of `send_job_update` and `broadcast`: disconnect
      each failed socket in turn. */
  function DisconnectEach(m: Manager, conns: seq<ConnId>, job: Option<int>): Manager
    decreases |conns|
  {
    if conns == [] then m else DisconnectEach(Disconnect(m, conns[0], job), conns[1..], job)
  }

  predicate Distinct(s: seq<ConnId>) {
    forall a, b :: 0 <= a < b < |s| ==> s[a] != s[b]
  }

  function Elems(s: seq<ConnId>): set<ConnId> {
    set x | x in s
  }

  /** The result of one delivery round: the registry afterwards and the
      sockets that received the message. */
  datatype Delivery = Delivery(manager: Manager, delivered: set<ConnId>)

  /** `send_job_update(job_id, data)`: nothing for a job without an entry;
      otherwise every subscriber is attempted, the ones that receive it stay,
      and the failing ones leave the job's set (the entry going once empty)
      and the global set. */
  function SendJobUpdate(m: Manager, j: int, failing: set<ConnId>): (r: Delivery)
    ensures j !in m.active ==> r == Delivery(m, {})
    ensures j in m.active ==> r.delivered == m.active[j] - failing
    ensures j in m.active ==> r.manager.all == m.all - (m.active[j] * failing)
    ensures j in m.active ==> (j in r.manager.active <==> r.delivered != {} || m.active[j] == {})
    ensures j in r.manager.active ==> r.manager.active[j] == r.delivered
    ensures forall k :: k in m.active && k != j ==> k in r.manager.active && r.manager.active[k] == m.active[k]
    ensures r.manager.active.Keys <= m.active.Keys
  {
    if j !in m.active then Delivery(m, {})
    else
      var subs := m.active[j];
      var gone := subs * failing;
      var kept := subs - failing;
      var active := if gone != {} && kept == {} then m.active - {j} else m.active[j := kept];
      Delivery(Manager(active, m.all - gone), kept)
  }

  /** `broadcast(message)`: every open socket is attempted; the failing ones
      leave the global set and every job set, and job entries are kept even
      when emptied. */
  function Broadcast(m: Manager, failing: set<ConnId>): (r: Delivery)
    ensures r.delivered == m.all - failing
    ensures r.manager.all == r.delivered
    ensures r.manager.active.Keys == m.active.Keys
    ensures forall k :: k in r.manager.active ==> r.manager.active[k] == m.active[k] - (m.all * failing)
  {
    var gone := m.all * failing;
    Delivery(Manager(map k | k in m.active :: m.active[k] - gone, m.all - gone), m.all - failing)
  }

  /** The clean-up loop of `send_job_update`, run over the failing
      subscribers in any order, ends in the registry that `SendJobUpdate`
      describes. */
  lemma {:induction false} JobUpdateCleanupMatches(m: Manager, j: int, failing: set<ConnId>, order: seq<ConnId>)
    requires j in m.active
    requires Distinct(order) && Elems(order) == m.active[j] * failing
    ensures DisconnectEach(m, order, Some(j)) == SendJobUpdate(m, j, failing).manager
  {
    CleanupWithJob(m, j, order);
    assert m.active[j] - Elems(order) == m.active[j] - failing;
    assert order != [] <==> m.active[j] * failing != {} by {
      if order != [] {
        assert order[0] in Elems(order);
      }
    }
  }

  lemma {:induction false} CleanupWithJob(m: Manager, j: int, order: seq<ConnId>)
    requires j in m.active
    requires Distinct(order) && Elems(order) <= m.active[j]
    ensures var kept := m.active[j] - Elems(order);
            DisconnectEach(m, order, Some(j))
            == Manager(if order != [] && kept == {} then m.active - {j} else m.active[j := kept],
                       m.all - Elems(order))
    decreases |order|
  {
    var kept := m.active[j] - Elems(order);
    if order == [] {
      assert Elems(order) == {};
      assert kept == m.active[j];
      assert m.active[j := kept] == m.active;
    } else {
      var c := order[0];
      var rest := order[1..];
      assert Elems(order) == {c} + Elems(rest);
      var m1 := Disconnect(m, c, Some(j));
      var s1 := m.active[j] - {c};
      if rest == [] {
        assert Elems(order) == {c};
        assert DisconnectEach(m, order, Some(j)) == DisconnectEach(m1, rest, Some(j)) == m1;
      } else {
        assert rest[0] == order[1] && rest[0] != c;
        assert rest[0] in s1;
        assert m1 == Manager(m.active[j := s1], m.all - {c});
        assert Distinct(rest) by {
          forall a, b | 0 <= a < b < |rest| ensures rest[a] != rest[b] {
            assert rest[a] == order[a + 1] && rest[b] == order[b + 1];
          }
        }
        assert c !in Elems(rest) by {
          forall b | 0 <= b < |rest| ensures rest[b] != c {
            assert rest[b] == order[b + 1];
          }
        }
        CleanupWithJob(m1, j, rest);
        assert m1.active[j] - Elems(rest) == kept;
        assert m1.all - Elems(rest) == m.all - Elems(order);
        assert m1.active[j := kept] == m.active[j := kept];
        assert m1.active - {j} == m.active - {j};
      }
    }
  }

  /** The clean-up loop of `broadcast`, run over the failing sockets in any
      order, ends in the registry that `Broadcast` describes. */
  lemma {:induction false} BroadcastCleanupMatches(m: Manager, failing: set<ConnId>, order: seq<ConnId>)
    requires Elems(order) == m.all * failing
    ensures DisconnectEach(m, order, None) == Broadcast(m, failing).manager
  {
    CleanupWithoutJob(m, order);
  }

  lemma {:induction false} CleanupWithoutJob(m: Manager, order: seq<ConnId>)
    ensures DisconnectEach(m, order, None)
            == Manager(map k | k in m.active :: m.active[k] - Elems(order), m.all - Elems(order))
    decreases |order|
  {
    if order == [] {
      assert Elems(order) == {};
      forall k | k in m.active ensures m.active[k] - {} == m.active[k] {
      }
      assert (map k | k in m.active :: m.active[k] - {}) == m.active;
    } else {
      var c := order[0];
      var rest := order[1..];
      assert Elems(order) == {c} + Elems(rest);
      var m1 := Disconnect(m, c, None);
      CleanupWithoutJob(m1, rest);
      forall k | k in m.active ensures m1.active[k] - Elems(rest) == m.active[k] - Elems(order) {
        assert m1.active[k] == m.active[k] - {c};
      }
      assert (map k | k in m1.active :: m1.active[k] - Elems(rest))
             == (map k | k in m.active :: m.active[k] - Elems(order));
    }
  }

  /** No socket is subscribed to two jobs, as the endpoints arrange. */
  predicate SingleSubscription(m: Manager) {
    forall a, b, x :: a in m.active && b in m.active && x in m.active[a] && x in m.active[b] ==> a == b
  }

  /** Connecting, disconnecting without a job and broadcasting keep every
      subscriber in the global set. */
  lemma {:induction false} ConsistencyPreserved(m: Manager, ws: ConnId, job: Option<int>, failing: set<ConnId>)
    requires Consistent(m)
    ensures Consistent(Connect(m, ws, job))
    ensures Consistent(Disconnect(m, ws, None))
    ensures Consistent(Broadcast(m, failing).manager)
  {
  }

  /** Disconnecting from one job removes the socket from that job's set
      only; it keeps every subscriber in the global set when the socket has
      no other subscription. */
  lemma {:induction false} ConsistencyPreservedOnJobDisconnect(m: Manager, ws: ConnId, j: int)
    requires Consistent(m)
    requires forall k :: k in m.active && k != j ==> ws !in m.active[k]
    ensures Consistent(Disconnect(m, ws, Some(j)))
  {
  }

  /** The clean-up of a job update removes failing sockets from that job's
      set only; it keeps every subscriber in the global set as long as no
      socket is subscribed to two jobs. */
  lemma {:induction false} ConsistencyPreservedOnJobUpdate(m: Manager, j: int, failing: set<ConnId>)
    requires Consistent(m) && SingleSubscription(m)
    ensures Consistent(SendJobUpdate(m, j, failing).manager)
  {
    var d := SendJobUpdate(m, j, failing).manager;
    forall k | k in d.active ensures d.active[k] <= d.all {
      if j in m.active {
        var gone := m.active[j] * failing;
        assert d.all == m.all - gone;
        if k != j {
          assert d.active[k] == m.active[k];
          forall x | x in d.active[k] ensures x in d.all {
            assert x !in m.active[j];
          }
        } else {
          assert d.active[k] == m.active[j] - failing;
        }
      }
    }
  }

  /** With a socket subscribed to two jobs, disconnecting it from one leaves
      it in the other job's set but not in the global set. */
  lemma {:induction false} DoubleSubscriptionBreaksConsistency(ws: ConnId)
    ensures var m := Connect(Connect(Empty, ws, Some(1)), ws, Some(2));
            Consistent(m) && !Consistent(Disconnect(m, ws, Some(1)))
  {
    var m := Connect(Connect(Empty, ws, Some(1)), ws, Some(2));
    var r := Disconnect(m, ws, Some(1));
    assert 2 in r.active && ws in r.active[2] && ws !in r.all;
  }

  /** A failed personal send leaves a stale subscription: the socket stays
      in the job's set although it is no longer in the global set. */
  lemma {:induction false} PersonalFailureLeavesStaleSubscription(m: Manager, ws: ConnId, j: int)
    requires j in m.active && ws in m.active[j]
    ensures var r := SendPersonal(m, ws, false);
            j in r.active && ws in r.active[j] && ws !in r.all && !Consistent(r)
  {
  }

  /** Disconnecting without a job id keeps an emptied job entry, which the
      statistics then report with zero subscribers. */
  lemma {:induction false} DisconnectWithoutJobKeepsEmptyEntry(ws: ConnId, j: int)
    ensures var r := Disconnect(Connect(Connect(Empty, ws, Some(j)), ws, None), ws, None);
            j in r.active && r.active[j] == {} && JobConnectionCount(r, j) == 0
  {
    var r := Disconnect(Connect(Connect(Empty, ws, Some(j)), ws, None), ws, None);
    assert r.active[j] == {ws} - {ws};
  }

  /** `get_connection_count`. */
  function ConnectionCount(m: Manager): (n: nat)
    ensures n == 0 <==> m.all == {}
  {
    |m.all|
  }

  /** `get_job_connection_count`: zero for a job without an entry. */
  function JobConnectionCount(m: Manager, j: int): (n: nat)
    ensures j !in m.active ==> n == 0
    ensures j in m.active ==> n == |m.active[j]|
  {
    |if j in m.active then m.active[j] else {}|
  }

  /** The data of a `send_job_progress` message, which is then delivered by
      `SendJobUpdate`.  `message`, `error` and
      `result` are present only when truthy. */
  datatype ProgressData = ProgressData(
    status: string,
    progress: int,
    totalItems: int,
    processedItems: int,
    createdItems: int,
    message: Option<string>,
    error: Option<string>,
    result: Option<JobResult>)

  function ProgressPayload(status: string, progress: int, totalItems: int, processedItems: int,
                           createdItems: int, message: Option<string>, error: Option<string>,
                           result: Option<JobResult>): (d: ProgressData)
    ensures d.status == status && d.progress == progress
    ensures d.totalItems == totalItems && d.processedItems == processedItems && d.createdItems == createdItems
    ensures d.message.Some? <==> Truthy(message)
    ensures d.error.Some? <==> Truthy(error)
    ensures d.result.Some? <==> ResultTruthy(result)
    ensures d.message.Some? ==> d.message == message
    ensures d.error.Some? ==> d.error == error
    ensures d.result.Some? ==> d.result == result
  {
    ProgressData(status, progress, totalItems, processedItems, createdItems,
                 if Truthy(message) then message else None,
                 if Truthy(error) then error else None,
                 if ResultTruthy(result) then result else None)
  }
}

=== FILE: research_job.dfy ===
/** The research job endpoint and its background run
    (backend/app/routers/research.py): job creation, then a run that commits
    a sequence of job snapshots.  The research itself, the embedding and
    connection tasks, and the clock are inputs. */
module ResearchJob {
  import opened Wrappers
  import opened Jobs
  import Research

  /** `POST /research/topic`: a pending "topic_research" job whose total is
      the number of requested web results plus YouTube results, with the
      request recorded as its parameters. */
  function CreateResearchJob(id: int, createdAt: int, query: string, maxWeb: int, maxYoutube: int): (j: Job)
    ensures j.id == id && j.jobType == "topic_research" && j.status == "pending"
    ensures j.totalItems == Some(maxWeb + maxYoutube)
    ensures j.parameters == Some(ResearchParameters(query, maxWeb, maxYoutube))
    ensures j.progress.None? && j.result.None? && j.errorMessage.None?
    ensures j.startedAt.None? && j.completedAt.None?
  {
    Job(id, "topic_research", "pending", None, Some(maxWeb + maxYoutube), None, None,
        Some(ResearchParameters(query, maxWeb, maxYoutube)), None, None, createdAt, None, None)
  }

  /** What the research call does: it raises, or returns its summary. */
  datatype ResearchRun = RunRaised(msg: string) | RunReturned(summary: Research.ResearchSummary)

  /** How post-processing goes: both tasks finish, or the embedding step
      (the query or the task) raises, or the connection task raises. */
  datatype PostProcess = PostOk | EmbeddingRaised(msg: string) | ConnectionsRaised(msg: string)

  /** The inputs of one background run: the research outcome, the
      post-processing outcome, how many articles lack an embedding when
      post-processing looks, and the two clock readings. */
  datatype RunInputs = RunInputs(
    research: ResearchRun,
    post: PostProcess,
    missingEmbeddings: nat,
    startedAt: int,
    completedAt: int)

  /** The embeddings reported: every article that lacks one at that moment,
      unless the embedding step raised. */
  function EmbeddingsGenerated(post: PostProcess, missing: nat): nat {
    if post.EmbeddingRaised? then 0 else missing
  }

  function PostErrors(post: PostProcess): seq<string> {
    match post
    case PostOk => []
    case EmbeddingRaised(msg) => ["Post-processing error: " + msg]
    case ConnectionsRaised(msg) => ["Post-processing error: " + msg]
  }

  /** The commits of the post-processing block, starting from the job at
      progress 70: 85 once the embedding step is over and 95 once the
      connection task is over; each raise stops the block where it is. */
  function PostWrites(job: Job, post: PostProcess): (w: seq<Job>)
    ensures |w| <= 2
    ensures post.PostOk? ==> |w| == 2 && w[0] == job.(progress := Some(85)) && w[1] == job.(progress := Some(95))
    ensures post.ConnectionsRaised? ==> w == [job.(progress := Some(85))]
    ensures post.EmbeddingRaised? ==> w == []
  {
    match post
    case EmbeddingRaised(_) => []
    case ConnectionsRaised(_) => [job.(progress := Some(85))]
    case PostOk => [job.(progress := Some(85)), job.(progress := Some(95))]
  }

  /** The result dictionary written on completion.  Post-processing only
      runs when something was created; `post` and `missing` are what it did
      (`PostOk` with nothing missing when it did not run). */
  function FinalResult(s: Research.ResearchSummary, post: PostProcess, missing: nat): (r: JobResult)
    ensures r.ResearchResult?
    ensures r.success == s.success && r.query == s.query
    ensures r.webArticlesCreated == s.webCreated && r.youtubeVideosCreated == s.youtubeCreated
    ensures r.totalArticlesCreated == s.totalCreated
    ensures r.embeddingsGenerated == (if post.EmbeddingRaised? then 0 else missing)
    ensures r.connectionsComputed == (if post.PostOk? then 2 * r.embeddingsGenerated else 0)
    ensures r.errors == s.errors + PostErrors(post)
  {
    var embedded := EmbeddingsGenerated(post, missing);
    ResearchResult(s.success, s.query, s.webCreated, s.youtubeCreated, s.totalCreated,
                   embedded, if post.PostOk? then 2 * embedded else 0, s.errors + PostErrors(post))
  }

  /** The progress values along a sequence of commits (-1 for a null
      progress). */
  function Progresses(w: seq<Job>): (r: seq<int>)
    ensures |r| == |w|
    ensures forall k :: 0 <= k < |w| ==> r[k] == w[k].progress.GetOr(-1)
  {
    if w == [] then [] else [w[0].progress.GetOr(-1)] + Progresses(w[1..])
  }

  function Statuses(w: seq<Job>): (r: seq<string>)
    ensures |r| == |w|
    ensures forall k :: 0 <= k < |w| ==> r[k] == w[k].status
  {
    if w == [] then [] else [w[0].status] + Statuses(w[1..])
  }

  /** `run_research_job`: the sequence of committed snapshots of the job.
      An unknown id commits nothing.  Otherwise the first commit marks the
      job running at progress 0 and every commit but the last leaves it
      running; the last records the completion time. */
  function RunResearchJob(store: seq<Job>, jobId: int, inp: RunInputs): (w: seq<Job>)
    ensures Find(store, jobId).None? ==> w == []
    ensures Find(store, jobId).Some? ==>
              && |w| >= 2
              && w[0] == Started(Find(store, jobId).value, inp.startedAt)
              && (forall k :: 0 <= k < |w| - 1 ==> w[k].status == "running")
              && w[|w| - 1].completedAt == Some(inp.completedAt)
  {
    match Find(store, jobId)
    case None => []
    case Some(job) =>
      var running := Started(job, inp.startedAt);
      match inp.research
      case RunRaised(msg) =>
        [running, running.(status := "failed", completedAt := Some(inp.completedAt), errorMessage := Some(msg))]
      case RunReturned(s) =>
        [running] + Returned(running, s, inp)
  }

  /** The first commit: running, started now, at progress 0. */
  function Started(job: Job, startedAt: int): Job
  {
    job.(status := "running", startedAt := Some(startedAt), progress := Some(0))
  }

  /** The commits after the first when the research returns: 70, the
      post-processing commits when something was created, then the
      completed job at 100 with the counts and the result. */
  function Returned(running: Job, s: Research.ResearchSummary, inp: RunInputs): (w: seq<Job>)
    requires running.status == "running"
    ensures |w| >= 2
    ensures forall k :: 0 <= k < |w| - 1 ==> w[k].status == "running"
    ensures w[|w| - 1].status == "completed" && w[|w| - 1].completedAt == Some(inp.completedAt)
    ensures w[|w| - 1].processedItems == Some(s.totalCreated) && w[|w| - 1].createdItems == Some(s.totalCreated)
    ensures w[|w| - 1].result == Some(if s.totalCreated > 0 then FinalResult(s, inp.post, inp.missingEmbeddings)
                                      else FinalResult(s, PostOk, 0))
    ensures Progresses(w) == [70] + PostProgresses(s, inp.post) + [100]
  {
    var at70 := running.(progress := Some(70));
    var post := if s.totalCreated > 0 then PostWrites(at70, inp.post) else [];
    var last := if post == [] then at70 else post[|post| - 1];
    var final := if s.totalCreated > 0 then FinalResult(s, inp.post, inp.missingEmbeddings)
                 else FinalResult(s, PostOk, 0);
    var done := last.(status := "completed", completedAt := Some(inp.completedAt), progress := Some(100),
                      processedItems := Some(s.totalCreated), createdItems := Some(s.totalCreated),
                      result := Some(final));
    PostProgressesMatch(at70, s, inp.post, post);
    ProgressesConcat([at70] + post, [done]);
    ProgressesConcat([at70], post);
    [at70] + post + [done]
  }

  /** The progress values post-processing commits. */
  function PostProgresses(s: Research.ResearchSummary, post: PostProcess): seq<int> {
    if s.totalCreated == 0 || post.EmbeddingRaised? then []
    else if post.ConnectionsRaised? then [85] else [85, 95]
  }

  lemma {:induction false} PostProgressesMatch(at70: Job, s: Research.ResearchSummary, post: PostProcess, w: seq<Job>)
    requires w == if s.totalCreated > 0 then PostWrites(at70, post) else []
    ensures Progresses(w) == PostProgresses(s, post)
  {
  }

  lemma {:induction false} ProgressesConcat(a: seq<Job>, b: seq<Job>)
    ensures Progresses(a + b) == Progresses(a) + Progresses(b)
  {
    assert |Progresses(a + b)| == |Progresses(a) + Progresses(b)|;
    forall k | 0 <= k < |a + b| ensures Progresses(a + b)[k] == (Progresses(a) + Progresses(b))[k] {
      if k < |a| {
        assert (a + b)[k] == a[k];
      } else {
        assert (a + b)[k] == b[k - |a|];
      }
    }
  }

  /** A run whose research raises commits "running" then "failed", both
      at progress 0, with the message and the result left as it was. */
  lemma {:induction false} RunRaisedWrites(store: seq<Job>, jobId: int, inp: RunInputs)
    requires Find(store, jobId).Some? && inp.research.RunRaised?
    ensures var w := RunResearchJob(store, jobId, inp);
            && Statuses(w) == ["running", "failed"]
            && Progresses(w) == [0, 0]
            && w[1].errorMessage == Some(inp.research.msg)
            && w[1].result == Find(store, jobId).value.result
  {
    var w := RunResearchJob(store, jobId, inp);
    assert |w| == 2;
    assert Statuses(w)[0] == "running" && Statuses(w)[1] == "failed";
    assert Progresses(w)[0] == 0 && Progresses(w)[1] == 0;
  }

  /** A run whose research returns ends completed with the counts and the
      result, and commits progress 0, 70, then 85 and 95 as far as
      post-processing got when something was created, then 100. */
  lemma {:induction false} RunReturnedWrites(store: seq<Job>, jobId: int, inp: RunInputs)
    requires Find(store, jobId).Some? && inp.research.RunReturned?
    ensures var w := RunResearchJob(store, jobId, inp);
            var s := inp.research.summary;
            && w[|w| - 1].status == "completed"
            && w[|w| - 1].processedItems == Some(s.totalCreated)
            && w[|w| - 1].createdItems == Some(s.totalCreated)
            && w[|w| - 1].result == Some(if s.totalCreated > 0 then FinalResult(s, inp.post, inp.missingEmbeddings)
                                         else FinalResult(s, PostOk, 0))
            && Progresses(w) == [0, 70] + PostProgresses(s, inp.post) + [100]
  {
    var job := Find(store, jobId).value;
    var running := Started(job, inp.startedAt);
    var rest := Returned(running, inp.research.summary, inp);
    var w := RunResearchJob(store, jobId, inp);
    assert w == [running] + rest;
    assert w[|w| - 1] == rest[|rest| - 1];
    ProgressesConcat([running], rest);
  }

  /** The position of a status in the intended order pending, running,
      then a terminal status. */
  function StatusRank(status: string): nat {
    if status == "pending" then 0
    else if status == "running" then 1
    else if status == "completed" || status == "failed" then 2
    else 3
  }

  /** Nothing in the code checks the order of statuses, but every run
      writes them in the intended order and ends in a terminal status. */
  lemma {:induction false} RunFollowsStatusOrder(store: seq<Job>, jobId: int, inp: RunInputs)
    requires Find(store, jobId).Some?
    ensures var w := RunResearchJob(store, jobId, inp);
            && (forall a, b :: 0 <= a <= b < |w| ==> StatusRank(w[a].status) <= StatusRank(w[b].status))
            && StatusRank(w[|w| - 1].status) == 2
  {
    RunEndsTerminal(store, jobId, inp);
    RunningThenTerminal(RunResearchJob(store, jobId, inp));
  }

  lemma {:induction false} RunEndsTerminal(store: seq<Job>, jobId: int, inp: RunInputs)
    requires Find(store, jobId).Some?
    ensures var w := RunResearchJob(store, jobId, inp);
            |w| >= 1 && StatusRank(w[|w| - 1].status) == 2
  {
    var w := RunResearchJob(store, jobId, inp);
    if inp.research.RunRaised? {
      assert w[|w| - 1].status == "failed";
    } else {
      RunReturnedWrites(store, jobId, inp);
      assert w[|w| - 1].status == "completed";
    }
  }

  lemma {:induction false} RunningThenTerminal(w: seq<Job>)
    requires |w| >= 1 && StatusRank(w[|w| - 1].status) == 2
    requires forall k :: 0 <= k < |w| - 1 ==> w[k].status == "running"
    ensures forall a, b :: 0 <= a <= b < |w| ==> StatusRank(w[a].status) <= StatusRank(w[b].status)
  {
    forall a, b | 0 <= a <= b < |w| ensures StatusRank(w[a].status) <= StatusRank(w[b].status) {
      if b < |w| - 1 {
        assert w[a].status == "running" && w[b].status == "running";
      }
    }
  }

  /** Progress never goes backwards along a run. */
  lemma {:induction false} RunProgressNeverDecreases(store: seq<Job>, jobId: int, inp: RunInputs)
    ensures var p := Progresses(RunResearchJob(store, jobId, inp));
            forall a, b :: 0 <= a <= b < |p| ==> p[a] <= p[b]
  {
    if Find(store, jobId).Some? {
      if inp.research.RunReturned? {
        RunReturnedWrites(store, jobId, inp);
        ReturnedProgressAscends(PostProgresses(inp.research.summary, inp.post));
      } else {
        RunRaisedWrites(store, jobId, inp);
      }
    }
  }

  lemma {:induction false} ReturnedProgressAscends(mid: seq<int>)
    requires mid == [] || mid == [85] || mid == [85, 95]
    ensures var p := [0, 70] + mid + [100];
            forall a, b :: 0 <= a <= b < |p| ==> p[a] <= p[b]
  {
    if mid == [] {
      assert [0, 70] + mid + [100] == [0, 70, 100];
    } else if mid == [85] {
      assert [0, 70] + mid + [100] == [0, 70, 85, 100];
    } else {
      assert [0, 70] + mid + [100] == [0, 70, 85, 95, 100];
    }
  }
}

=== FILE: research_service.dfy ===
/** The two-branch topic research (backend/app/services/research_service.py):
    a web branch through topic ingestion and a YouTube branch through search
    plus per-video ingestion, aggregated into one summary.  The branches run
    one after the other here (web first); their outcomes are the only thing
    the aggregation reads. */
module Research {
  import opened Wrappers
  import opened Text
  import opened Ingestion
  import TopicIngestion
  import opened YouTube
  import Schemas

  /** A branch either raises or reports what it created and its errors. */
  datatype BranchOutcome = BranchRaised(msg: string) | BranchDone(created: nat, errors: seq<string>)

  /** The dictionary `research_topic` returns. */
  datatype ResearchSummary = ResearchSummary(
    success: bool,
    query: string,
    webCreated: nat,
    youtubeCreated: nat,
    totalCreated: nat,
    errors: seq<string>)

  function WebErrors(b: BranchOutcome): seq<string> {
    match b
    case BranchRaised(msg) => ["Web search failed: " + msg]
    case BranchDone(_, errors) => errors
  }

  function YouTubeErrors(b: BranchOutcome): seq<string> {
    match b
    case BranchRaised(msg) => ["YouTube search failed: " + msg]
    case BranchDone(_, errors) => errors
  }

  function CreatedBy(b: BranchOutcome): nat {
    if b.BranchDone? then b.created else 0
  }

  /** `research_topic` after both branches: a raised branch contributes one
      error and nothing created, the other branch still counts; success means
      something was created. */
  function Aggregate(query: string, web: BranchOutcome, yt: BranchOutcome): (r: ResearchSummary)
    ensures r.query == query
    ensures r.totalCreated == r.webCreated + r.youtubeCreated
    ensures r.success <==> r.totalCreated > 0
    ensures r.webCreated == CreatedBy(web) && r.youtubeCreated == CreatedBy(yt)
    ensures r.errors == WebErrors(web) + YouTubeErrors(yt)
    ensures |r.errors| >= (if web.BranchRaised? then 1 else 0) + (if yt.BranchRaised? then 1 else 0)
  {
    var w := CreatedBy(web);
    var y := CreatedBy(yt);
    ResearchSummary(w + y > 0, query, w, y, w + y, WebErrors(web) + YouTubeErrors(yt))
  }

  /** Read branch by branch: the research succeeds exactly when a branch
      that finished created something; a branch that raised created
      nothing and leaves one error naming it, the web branch's first and
      the YouTube branch's last; two clean branches leave no errors. */
  lemma {:induction false} AggregateMeaning(query: string, web: BranchOutcome, yt: BranchOutcome)
    ensures var r := Aggregate(query, web, yt);
            && (r.success <==> (web.BranchDone? && web.created > 0) || (yt.BranchDone? && yt.created > 0))
            && (web.BranchRaised? ==> r.webCreated == 0 && r.errors[0] == "Web search failed: " + web.msg)
            && (yt.BranchRaised? ==> r.youtubeCreated == 0 && r.errors[|r.errors| - 1] == "YouTube search failed: " + yt.msg)
            && (web.BranchDone? && web.errors == [] && yt.BranchDone? && yt.errors == [] ==> r.errors == [])
  {
  }

  /** `_search_web`: topic ingestion under the source name "Web Research".
      A request topic ingestion would reject, or a missing API key, raises
      out of the branch. */
  method SearchWeb(query: string, maxResults: int, apiKey: Option<string>, invalidMsg: string,
                   search: TopicIngestion.SearchOutcome, stored: set<string>,
                   attempt: string -> TopicIngestion.ItemAttempt)
    returns (b: BranchOutcome, arts: seq<NewArticle>, after: set<string>)
    ensures !Schemas.ValidTopicIngest(query, maxResults) ==> b == BranchRaised(invalidMsg) && after == stored
    ensures Schemas.ValidTopicIngest(query, maxResults) && !Truthy(apiKey) ==>
              b == BranchRaised("TAVILY_API_KEY is not configured") && after == stored
    ensures b.BranchDone? ==> b.created == |arts| && FreshArticles(arts, stored) && after == stored + Urls(arts)
    ensures b.BranchRaised? ==> arts == [] && after == stored
  {
    if !Schemas.ValidTopicIngest(query, maxResults) {
      return BranchRaised(invalidMsg), [], stored;
    }
    var r := TopicIngestion.IngestTopic(apiKey, query, Some("Web Research"), search, stored, attempt);
    match r
    case Err(msg) =>
      return BranchRaised(msg), [], stored;
    case Ok(ing) =>
      if ing.articles == [] {
        assert Urls(ing.articles) == {};
      }
      return BranchDone(ing.response.created, ing.response.errors), ing.articles, ing.stored;
  }

  /** How ingesting one found video goes: constructing the request raises,
      or the ingestion runs with the given transcript, summary and store
      outcome. */
  datatype VideoAttempt =
    | VideoRaised(msg: string)
    | VideoRun(transcript: string -> Transcript, summary: string, persistError: Option<string>)

  /** How one found video ends: skipped because its URL is stored, counted
      as created (a successful ingestion), or an error. */
  datatype VideoFate = Skipped | Counted | VideoFailed(msg: string)

  /** The fate of one found video against the URLs stored so far, and the
      URLs stored after it.  A stored URL is skipped; a raised request is an
      error naming the URL; otherwise the video's ingestion decides: a
      success counts (and keeps what it stored), a failure contributes its
      one error. */
  function VideoStep(url: string, store: set<string>, attempt: string -> VideoAttempt)
    : (r: (VideoFate, set<string>))
    ensures r.0 == Skipped <==> url in store
    ensures url !in store && attempt(url).VideoRaised? ==>
              r == (VideoFailed("Failed to ingest video " + url + ": " + attempt(url).msg), store)
    ensures url !in store && attempt(url).VideoRun? ==>
              var a := attempt(url);
              var ing := IngestVideo(url, Some("YouTube Research"), store, a.transcript, a.summary, a.persistError);
              && (r.0 == Counted <==> ing.response.success)
              && (r.0 == Counted ==> r.1 == ing.stored)
              && (!ing.response.success ==> r == (VideoFailed(ing.response.errors[0]), store))
    ensures store <= r.1
  {
    if url in store then (Skipped, store)
    else match attempt(url)
      case VideoRaised(msg) => (VideoFailed("Failed to ingest video " + url + ": " + msg), store)
      case VideoRun(transcript, summary, persistError) =>
        var ing := IngestVideo(url, Some("YouTube Research"), store, transcript, summary, persistError);
        if ing.response.success then (Counted, ing.stored) else (VideoFailed(ing.response.errors[0]), store)
  }

  /** The fates of the found videos so far and the URLs stored after them. */
  datatype VideoRunState = VideoRunState(fates: seq<VideoFate>, store: set<string>)

  /** The step of each found video: its `VideoStep` under the given
      ingestion outcomes. */
  function VideoSteps(attempt: string -> VideoAttempt): (step: (VideoHit, set<string>) -> (VideoFate, set<string>))
    ensures forall h, store :: step(h, store) == VideoStep(h.url, store, attempt)
  {
    (h: VideoHit, store: set<string>) => VideoStep(h.url, store, attempt)
  }

  /** The found videos processed in order, each against the URLs stored
      before the branch and by the videos ingested ahead of it. */
  function VideoRunOf(hits: seq<VideoHit>, stored: set<string>, step: (VideoHit, set<string>) -> (VideoFate, set<string>))
    : (r: VideoRunState)
    ensures |r.fates| == |hits|
  {
    if hits == [] then VideoRunState([], stored)
    else
      var prev := VideoRunOf(hits[..|hits| - 1], stored, step);
      var next := step(hits[|hits| - 1], prev.store);
      VideoRunState(prev.fates + [next.0], next.1)
  }

  /** How many videos counted as created. */
  function CountedOf(fs: seq<VideoFate>): (n: nat)
    ensures n <= |fs|
  {
    if fs == [] then 0 else CountedOf(fs[..|fs| - 1]) + (if fs[|fs| - 1] == Counted then 1 else 0)
  }

  /** How many videos were skipped as stored. */
  function SkippedOf(fs: seq<VideoFate>): (n: nat)
    ensures n <= |fs|
  {
    if fs == [] then 0 else SkippedOf(fs[..|fs| - 1]) + (if fs[|fs| - 1] == Skipped then 1 else 0)
  }

  /** The errors of the failed videos, in order. */
  function VideoErrorsOf(fs: seq<VideoFate>): (r: seq<string>)
    ensures |r| <= |fs|
    ensures forall k :: 0 <= k < |r| ==> VideoFailed(r[k]) in fs
  {
    if fs == [] then []
    else
      var last := fs[|fs| - 1];
      VideoErrorsOf(fs[..|fs| - 1]) + (if last.VideoFailed? then [last.msg] else [])
  }

  /** Every video ends in exactly one way. */
  lemma {:induction false} VideoFatesBalance(fs: seq<VideoFate>)
    ensures CountedOf(fs) + SkippedOf(fs) + |VideoErrorsOf(fs)| == |fs|
  {
    if fs != [] {
      VideoFatesBalance(fs[..|fs| - 1]);
    }
  }

  /** One more video extends the tallies by its own fate. */
  lemma {:induction false} VideoTalliesSnoc(fs: seq<VideoFate>, f: VideoFate)
    ensures CountedOf(fs + [f]) == CountedOf(fs) + (if f == Counted then 1 else 0)
    ensures SkippedOf(fs + [f]) == SkippedOf(fs) + (if f == Skipped then 1 else 0)
    ensures VideoErrorsOf(fs + [f]) == VideoErrorsOf(fs) + (if f.VideoFailed? then [f.msg] else [])
  {
    assert (fs + [f])[..|fs|] == fs;
  }

  /** The branch never forgets a stored URL. */
  lemma {:induction false} VideoRunGrows(hits: seq<VideoHit>, stored: set<string>, attempt: string -> VideoAttempt)
    ensures stored <= VideoRunOf(hits, stored, VideoSteps(attempt)).store
    decreases |hits|
  {
    if hits != [] {
      VideoRunGrows(hits[..|hits| - 1], stored, attempt);
    }
  }

  /** The `k`-th video meets the URLs the first `k` left, so one whose URL
      was stored before the branch is skipped whatever the others did. */
  lemma {:induction false} VideoRunAt(hits: seq<VideoHit>, stored: set<string>, attempt: string -> VideoAttempt, k: nat)
    requires k < |hits|
    ensures VideoRunOf(hits, stored, VideoSteps(attempt)).fates[k]
            == VideoStep(hits[k].url, VideoRunOf(hits[..k], stored, VideoSteps(attempt)).store, attempt).0
    ensures hits[k].url in stored ==> VideoRunOf(hits, stored, VideoSteps(attempt)).fates[k] == Skipped
    decreases |hits|
  {
    var init := hits[..|hits| - 1];
    if k < |hits| - 1 {
      VideoRunAt(init, stored, attempt, k);
      assert init[..k] == hits[..k];
      assert init[k] == hits[k];
    } else {
      assert init == hits[..k];
    }
    VideoRunGrows(hits[..k], stored, attempt);
  }

  /** The loop of `_search_youtube` over the found videos: the created
      count, the skipped count, the errors and the URLs stored afterwards
      are those of the videos' fates. */
  method ProcessVideos(hits: seq<VideoHit>, stored: set<string>, step: (VideoHit, set<string>) -> (VideoFate, set<string>))
    returns (created: nat, skipped: nat, errors: seq<string>, store: set<string>)
    ensures var run := VideoRunOf(hits, stored, step);
            && created == CountedOf(run.fates) && skipped == SkippedOf(run.fates)
            && errors == VideoErrorsOf(run.fates) && store == run.store
  {
    created, skipped, errors, store := 0, 0, [], stored;
    ghost var done: seq<VideoFate> := [];
    var i := 0;
    while i < |hits|
      invariant 0 <= i <= |hits|
      invariant VideoRunOf(hits[..i], stored, step) == VideoRunState(done, store)
      invariant created == CountedOf(done) && skipped == SkippedOf(done) && errors == VideoErrorsOf(done)
    {
      var next := step(hits[i], store);
      var f := next.0;
      assert VideoRunOf(hits[..i + 1], stored, step) == VideoRunState(done + [f], next.1) by {
        assert hits[..i + 1][..i] == hits[..i];
      }
      assert && CountedOf(done + [f]) == created + (if f == Counted then 1 else 0)
             && SkippedOf(done + [f]) == skipped + (if f == Skipped then 1 else 0)
             && VideoErrorsOf(done + [f]) == errors + (if f.VideoFailed? then [f.msg] else []) by {
        VideoTalliesSnoc(done, f);
      }
      created := created + (if f == Counted then 1 else 0);
      skipped := skipped + (if f == Skipped then 1 else 0);
      errors := errors + (if f.VideoFailed? then [f.msg] else []);
      store := next.1;
      done := done + [f];
      i := i + 1;
    }
    assert hits[..i] == hits;
  }

  /** `_search_youtube`: no hits means nothing created and no errors.
      Otherwise the found videos are processed in order and each ends as its
      `VideoStep`: the created count, the errors and the skipped count are
      those of the videos' fates. */
  method SearchYouTube(query: string, maxResults: int, apiKey: Option<string>, respond: int -> ApiResponse,
                       stored: set<string>, attempt: string -> VideoAttempt)
    returns (b: BranchOutcome, skipped: nat, after: set<string>)
    ensures b.BranchDone?
    ensures SearchVideos(apiKey, maxResults, respond).hits == [] ==> b == BranchDone(0, []) && after == stored
    ensures var run := VideoRunOf(SearchVideos(apiKey, maxResults, respond).hits, stored, VideoSteps(attempt));
            && b == BranchDone(CountedOf(run.fates), VideoErrorsOf(run.fates))
            && skipped == SkippedOf(run.fates)
            && after == run.store
    ensures b.created + skipped + |b.errors| == |SearchVideos(apiKey, maxResults, respond).hits|
    ensures stored <= after
  {
    var hits := SearchVideos(apiKey, maxResults, respond).hits;
    if hits == [] {
      return BranchDone(0, []), 0, stored;
    }
    var created, errors;
    created, skipped, errors, after := ProcessVideos(hits, stored, VideoSteps(attempt));
    VideoFatesBalance(VideoRunOf(hits, stored, VideoSteps(attempt)).fates);
    VideoRunGrows(hits, stored, attempt);
    return BranchDone(created, errors), skipped, after;
  }

  /** `research_topic`: the web branch, then the YouTube branch against the
      store the web branch left, then the aggregation.  The YouTube branch
      never raises: the search swallows its own errors and each video has
      its own handler. */
  method ResearchTopic(query: string, maxWeb: int, maxYoutube: int,
                       tavilyKey: Option<string>, invalidMsg: string,
                       search: TopicIngestion.SearchOutcome, webAttempt: string -> TopicIngestion.ItemAttempt,
                       youtubeKey: Option<string>, respond: int -> ApiResponse, videoAttempt: string -> VideoAttempt,
                       stored: set<string>)
    returns (r: ResearchSummary, web: BranchOutcome, yt: BranchOutcome, after: set<string>)
    ensures r == Aggregate(query, web, yt)
    ensures yt.BranchDone?
    ensures web.BranchDone? ==> r.webCreated == web.created
    ensures r.success <==> r.webCreated + r.youtubeCreated > 0
    ensures stored <= after
    ensures !Schemas.ValidTopicIngest(query, maxWeb) ==> |r.errors| > 0 && r.errors[0] == "Web search failed: " + invalidMsg
    ensures SearchVideos(youtubeKey, maxYoutube, respond).hits == [] ==> r.youtubeCreated == 0
  {
    var arts: seq<NewArticle>;
    var mid: set<string>;
    web, arts, mid := SearchWeb(query, maxWeb, tavilyKey, invalidMsg, search, stored, webAttempt);
    var skipped: nat;
    yt, skipped, after := SearchYouTube(query, maxYoutube, youtubeKey, respond, mid, videoAttempt);
    r := Aggregate(query, web, yt);
  }
}

=== FILE: rss_ingestion.dfy ===
/** RSS ingestion (backend/app/services/rss_service.py): parse a feed, take
    its first entries, and store each one with enough content.  The parsed
    feed and the summarising/storing step are outcome parameters. */
module RssIngestion {
  import opened Wrappers
  import opened Text
  import opened Ingestion

  /** A feed entry as feedparser exposes it; `contents` are the values of
      its `content` list (empty when absent). */
  datatype Entry = Entry(
    title: Option<string>,
    link: Option<string>,
    contents: seq<string>,
    summary: Option<string>,
    description: Option<string>)

  /** Parsing either raises or yields the feed title (if any) and entries. */
  datatype Feed = FeedRaised(msg: string) | Parsed(title: Option<string>, entries: seq<Entry>)

  const MinContent: nat := 100

  /** `_extract_content`: the first `content` value, else `summary`, else
      `description`, else "". */
  function ExtractContent(e: Entry): (r: string)
    ensures |e.contents| > 0 ==> r == e.contents[0]
    ensures |e.contents| == 0 && e.summary.Some? ==> r == e.summary.value
    ensures |e.contents| == 0 && e.summary.None? && e.description.Some? ==> r == e.description.value
    ensures |e.contents| == 0 && e.summary.None? && e.description.None? ==> r == ""
  {
    if |e.contents| > 0 then e.contents[0]
    else if e.summary.Some? then e.summary.value
    else if e.description.Some? then e.description.value
    else ""
  }

  /** The source name: the given one when truthy, else the feed title when
      the feed has one, else the given (falsy) value. */
  function SourceName(given: Option<string>, feedTitle: Option<string>): (r: Option<string>)
    ensures Truthy(given) ==> r == given
    ensures !Truthy(given) && feedTitle.Some? ==> r == feedTitle
    ensures !Truthy(given) && feedTitle.None? ==> r == given
  {
    if !Truthy(given) && feedTitle.Some? then feedTitle else given
  }

  /** A stored RSS article: source type "rss", at least 100 characters of
      content, and the feed's source name. */
  predicate RssArticle(a: NewArticle, name: Option<string>) {
    a.sourceType == "rss" && |a.content| >= MinContent && a.sourceName == name
  }

  /** `entry.get('title', 'No Title')` and `entry.get('link', '')`. */
  function TitleOf(e: Entry): string {
    e.title.GetOr("No Title")
  }

  function LinkOf(e: Entry): string {
    e.link.GetOr("")
  }

  /** How one entry ends against the URLs stored so far.  An entry without
      a link or with fewer than 100 characters of content is skipped with an
      error; one whose link is stored counts as updated; for the others the
      summarising and storing either raise, which rolls the entry back and
      records the error, or create the article. */
  function EntryFate(e: Entry, name: Option<string>, store: set<string>, persist: string -> Option<string>)
    : (f: Fate)
    ensures LinkOf(e) == "" ==> f == Failed("Entry '" + TitleOf(e) + "' has no URL, skipping")
    ensures LinkOf(e) != "" && |ExtractContent(e)| < MinContent ==>
              f == Failed("Article '" + TitleOf(e) + "' has insufficient content, skipping")
    ensures f == AlreadyStored <==> LinkOf(e) != "" && |ExtractContent(e)| >= MinContent && LinkOf(e) in store
    ensures f.Created? <==>
              LinkOf(e) != "" && |ExtractContent(e)| >= MinContent && LinkOf(e) !in store && persist(LinkOf(e)).None?
    ensures f.Created? ==> f.article == NewArticle(TitleOf(e), LinkOf(e), "rss", name, ExtractContent(e))
    ensures f.Created? ==> RssArticle(f.article, name) && f.article.url !in store
    ensures LinkOf(e) != "" && |ExtractContent(e)| >= MinContent && LinkOf(e) !in store && persist(LinkOf(e)).Some? ==>
              f == Failed("Error processing entry '" + e.title.GetOr("unknown") + "': " + persist(LinkOf(e)).value)
  {
    var url := LinkOf(e);
    var content := ExtractContent(e);
    if url == "" then Failed("Entry '" + TitleOf(e) + "' has no URL, skipping")
    else if |content| < MinContent then Failed("Article '" + TitleOf(e) + "' has insufficient content, skipping")
    else if url in store then AlreadyStored
    else if persist(url).Some? then Failed("Error processing entry '" + e.title.GetOr("unknown") + "': " + persist(url).value)
    else Created(NewArticle(TitleOf(e), url, "rss", name, content))
  }

  /** The fate of an entry of this feed against the URLs stored so far.
      An entry only ever creates the article of its own link, when that link
      is not stored yet, and the article is an RSS article of the feed's
      source name. */
  function RssStep(name: Option<string>, persist: string -> Option<string>): (step: (Entry, set<string>) -> Fate)
    ensures KeyedFresh(step, LinkOf)
    ensures forall e, store :: step(e, store).Created? ==> RssArticle(step(e, store).article, name)
  {
    (e: Entry, store: set<string>) => EntryFate(e, name, store, persist)
  }

  /** The fates of the processed entries, in feed order. */
  function RssFates(entries: seq<Entry>, name: Option<string>, stored: set<string>, persist: string -> Option<string>)
    : (fs: seq<Fate>)
    ensures |fs| == |entries|
  {
    RunOf(entries, stored, RssStep(name, persist)).fates
  }

  /** Entry by entry: no link or short content is an error whatever is
      stored; a link stored before the run counts as updated; a link that is
      neither stored nor carried by an earlier entry is created, or recorded
      as an error when storing it raises. */
  lemma {:induction false} RssEntryOutcome(entries: seq<Entry>, name: Option<string>, stored: set<string>,
                                           persist: string -> Option<string>, k: nat)
    requires k < |entries|
    ensures var e := entries[k];
            var f := RssFates(entries, name, stored, persist)[k];
            && (LinkOf(e) == "" ==> f == Failed("Entry '" + TitleOf(e) + "' has no URL, skipping"))
            && (LinkOf(e) != "" && |ExtractContent(e)| < MinContent ==>
                  f == Failed("Article '" + TitleOf(e) + "' has insufficient content, skipping"))
            && (LinkOf(e) != "" && |ExtractContent(e)| >= MinContent && LinkOf(e) in stored ==> f == AlreadyStored)
            && (LinkOf(e) != "" && |ExtractContent(e)| >= MinContent && LinkOf(e) !in stored
                && (forall j :: 0 <= j < k ==> LinkOf(entries[j]) != LinkOf(e)) ==>
                  f == if persist(LinkOf(e)).None?
                       then Created(NewArticle(TitleOf(e), LinkOf(e), "rss", name, ExtractContent(e)))
                       else Failed("Error processing entry '" + e.title.GetOr("unknown") + "': "
                                   + persist(LinkOf(e)).value))
  {
    var step := RssStep(name, persist);
    RunAt(entries, stored, step, k);
    var e := entries[k];
    if LinkOf(e) !in stored && (forall j :: 0 <= j < k ==> LinkOf(entries[j]) != LinkOf(e)) {
      RunFirstKey(entries, stored, step, LinkOf, k);
    }
  }

  /** `ingest_rss_feed`.  An empty feed is a failure with one error.
      Otherwise the first `maxArticles` entries are processed in feed order
      and each ends as its `EntryFate`: the errors, the new articles and the
      `updated` count are exactly those of the entries' fates. */
  method IngestRss(feed: Feed, sourceName: Option<string>, maxArticles: nat, stored: set<string>,
                   persist: string -> Option<string>)
    returns (r: Ingested)
    ensures feed.FeedRaised? ==>
              r == Ingested(IngestionResponse(false, "Failed to ingest RSS feed: " + feed.msg, 0, 0, 0, [feed.msg]),
                            [], stored)
    ensures feed.Parsed? && feed.entries == [] ==>
              r == Ingested(IngestionResponse(false, "No entries found in feed", 0, 0, 0,
                                              ["Feed contains no entries"]), [], stored)
    ensures feed.Parsed? && feed.entries != [] ==>
              && r.response.processed == (if |feed.entries| <= maxArticles then |feed.entries| else maxArticles)
              && Balanced(r.response)
              && r.response.created == |r.articles|
              && (r.response.success <==> r.response.created > 0 || r.response.updated > 0)
              && FreshArticles(r.articles, stored)
              && r.stored == stored + Urls(r.articles)
              && (forall k :: 0 <= k < |r.articles| ==>
                    RssArticle(r.articles[k], SourceName(sourceName, feed.title)))
    ensures feed.Parsed? && feed.entries != [] ==>
              var fates := RssFates(Take(feed.entries, maxArticles), SourceName(sourceName, feed.title), stored, persist);
              && r.articles == CreatedOf(fates)
              && r.response.errors == ErrorsOf(fates)
              && r.response.updated == StoredCount(fates)
  {
    match feed
    case FeedRaised(msg) =>
      return Ingested(IngestionResponse(false, "Failed to ingest RSS feed: " + msg, 0, 0, 0, [msg]), [], stored);
    case Parsed(feedTitle, allEntries) =>
      if allEntries == [] {
        return Ingested(IngestionResponse(false, "No entries found in feed", 0, 0, 0,
                                          ["Feed contains no entries"]), [], stored);
      }
      var name := SourceName(sourceName, feedTitle);
      var entries := Take(allEntries, maxArticles);
      var step := RssStep(name, persist);
      var updated, errors, arts, store := IngestItems(entries, stored, step, LinkOf);
      RunCreates(entries, stored, step, (a: NewArticle) => RssArticle(a, name));
      var processed, created := |entries|, |arts|;
      var message := "Processed " + NatToString(processed) + " articles: " + NatToString(created)
                     + " created, " + NatToString(updated) + " updated";
      return Ingested(IngestionResponse(created > 0 || updated > 0, message, processed, created, updated, errors),
                      arts, store);
  }
}

=== FILE: saved_articles.dfy ===
/** A user's saved articles (backend/app/routers/saved_articles.py).  The
    current user is the authenticated one and is given by id; the saved
    list is the user's part of the saved-articles link table. */
module SavedArticles {
  import opened Wrappers
  import opened Records

  function ArticleNotFound(): HttpError {
    HttpError(NotFound, "Article not found")
  }

  predicate IsSaved(db: Db, user: int, article: int) {
    (user, article) in db.savedArticles
  }

  /** `POST /saved-articles/{id}`: an unknown article fails with 404, an
      article already saved fails with 400 and changes nothing; otherwise
      exactly that article joins the user's list and nothing else changes. */
  function SaveArticle(db: Db, user: int, article: int): (r: Result<Db, HttpError>)
    ensures FindArticle(db.articles, article).None? ==> r == Err(ArticleNotFound())
    ensures FindArticle(db.articles, article).Some? && IsSaved(db, user, article) ==>
              r == Err(HttpError(BadRequest, "Article already saved"))
    ensures r.Ok? <==> FindArticle(db.articles, article).Some? && !IsSaved(db, user, article)
    ensures r.Ok? ==> && IsSaved(r.value, user, article)
                      && |r.value.savedArticles| == |db.savedArticles| + 1
                      && (forall p :: p != (user, article) ==> (p in r.value.savedArticles <==> p in db.savedArticles))
                      && r.value.(savedArticles := db.savedArticles) == db
  {
    if FindArticle(db.articles, article).None? then Err(ArticleNotFound())
    else if IsSaved(db, user, article) then Err(HttpError(BadRequest, "Article already saved"))
    else Ok(db.(savedArticles := db.savedArticles + {(user, article)}))
  }

  /** `DELETE /saved-articles/{id}`: an unknown article fails with 404, an
      article not in the list fails with 400; otherwise exactly that
      article leaves the user's list. */
  function UnsaveArticle(db: Db, user: int, article: int): (r: Result<Db, HttpError>)
    ensures FindArticle(db.articles, article).None? ==> r == Err(ArticleNotFound())
    ensures FindArticle(db.articles, article).Some? && !IsSaved(db, user, article) ==>
              r == Err(HttpError(BadRequest, "Article not in saved list"))
    ensures r.Ok? <==> FindArticle(db.articles, article).Some? && IsSaved(db, user, article)
    ensures r.Ok? ==> && !IsSaved(r.value, user, article)
                      && |r.value.savedArticles| == |db.savedArticles| - 1
                      && (forall p :: p != (user, article) ==> (p in r.value.savedArticles <==> p in db.savedArticles))
                      && r.value.(savedArticles := db.savedArticles) == db
  {
    if FindArticle(db.articles, article).None? then Err(ArticleNotFound())
    else if !IsSaved(db, user, article) then Err(HttpError(BadRequest, "Article not in saved list"))
    else Ok(db.(savedArticles := db.savedArticles - {(user, article)}))
  }

  /** `GET /saved-articles/check/{id}`: 404 for an unknown article,
      otherwise whether the user saved it. */
  function CheckSaved(db: Db, user: int, article: int): (r: Result<bool, HttpError>)
    ensures r.Err? <==> FindArticle(db.articles, article).None?
    ensures r.Err? ==> r.error == ArticleNotFound()
    ensures r.Ok? ==> (r.value <==> (user, article) in db.savedArticles)
  {
    if FindArticle(db.articles, article).None? then Err(ArticleNotFound()) else Ok(IsSaved(db, user, article))
  }

  /** Saving then unsaving restores the database, and so does unsaving
      then saving; the check sees each step. */
  lemma {:induction false} SaveUnsaveRoundTrip(db: Db, user: int, article: int)
    ensures var s := SaveArticle(db, user, article);
            s.Ok? ==> && CheckSaved(s.value, user, article) == Ok(true)
                      && UnsaveArticle(s.value, user, article) == Ok(db)
                      && SaveArticle(s.value, user, article).Err?
    ensures var u := UnsaveArticle(db, user, article);
            u.Ok? ==> && CheckSaved(u.value, user, article) == Ok(false)
                      && SaveArticle(u.value, user, article) == Ok(db)
  {
    var s := SaveArticle(db, user, article);
    if s.Ok? {
      assert db.savedArticles + {(user, article)} - {(user, article)} == db.savedArticles;
    }
    var u := UnsaveArticle(db, user, article);
    if u.Ok? {
      assert db.savedArticles - {(user, article)} + {(user, article)} == db.savedArticles;
    }
  }
}

=== FILE: schemas.dfy ===
/** The field constraints the request schemas declare
    (backend/app/schemas.py).  Lengths count characters; a pattern is
    anchored at both ends. */
module Schemas {
  import opened Wrappers

  // ---------------------------------------------------------------------
  // Colours: `^#[0-9A-Fa-f]{6}$`
  // ---------------------------------------------------------------------

  predicate IsHexDigit(c: char) {
    ('0' <= c <= '9') || ('a' <= c <= 'f') || ('A' <= c <= 'F')
  }

  function HexValue(c: char): (v: nat)
    requires IsHexDigit(c)
    ensures v < 16
  {
    if '0' <= c <= '9' then c as nat - '0' as nat
    else if 'a' <= c <= 'f' then c as nat - 'a' as nat + 10
    else c as nat - 'A' as nat + 10
  }

  /** The lower-case digit for a value below 16. */
  function HexDigit(v: nat): (c: char)
    requires v < 16
    ensures IsHexDigit(c) && HexValue(c) == v
  {
    if v < 10 then ('0' as nat + v) as char else ('a' as nat + v - 10) as char
  }

  predicate HexColour(s: string) {
    |s| == 7 && s[0] == '#' && forall k :: 1 <= k < 7 ==> IsHexDigit(s[k])
  }

  /** The value of a run of hex digits, most significant first. */
  function HexNumber(s: string): (v: nat)
    requires forall k :: 0 <= k < |s| ==> IsHexDigit(s[k])
  {
    if s == [] then 0 else HexNumber(s[..|s| - 1]) * 16 + HexValue(s[|s| - 1])
  }

  /** A 24-bit RGB value as `#rrggbb`, six lower-case digits. */
  function RenderColour(rgb: nat): (s: string)
    requires rgb < 0x100_0000
  {
    "#" + HexDigits(rgb, 6)
  }

  function HexDigits(v: nat, n: nat): (s: string)
    ensures |s| == n
    ensures forall k :: 0 <= k < |s| ==> IsHexDigit(s[k])
  {
    if n == 0 then [] else HexDigits(v / 16, n - 1) + [HexDigit(v % 16)]
  }

  function Pow16(n: nat): (p: nat)
    ensures p > 0
  {
    if n == 0 then 1 else 16 * Pow16(n - 1)
  }

  lemma {:induction false} HexDigitsValue(v: nat, n: nat)
    requires v < Pow16(n)
    ensures HexNumber(HexDigits(v, n)) == v
  {
    if n > 0 {
      var s := HexDigits(v, n);
      HexDigitsValue(v / 16, n - 1);
      assert s[..|s| - 1] == HexDigits(v / 16, n - 1);
      assert s[|s| - 1] == HexDigit(v % 16);
    }
  }

  /** Every 24-bit colour renders to a string the colour pattern accepts,
      and the six digits read back as the same value. */
  lemma {:induction false} ColourRoundTrip(rgb: nat)
    requires rgb < 0x100_0000
    ensures HexColour(RenderColour(rgb))
    ensures HexNumber(RenderColour(rgb)[1..]) == rgb
  {
    var s := RenderColour(rgb);
    assert s[1..] == HexDigits(rgb, 6);
    assert Pow16(6) == 0x100_0000;
    HexDigitsValue(rgb, 6);
  }

  /** `CategoryBase`: name of at most 100 characters; a colour, when
      present, of the form `#rrggbb`. */
  predicate ValidCategory(name: string, color: Option<string>) {
    |name| <= 100 && (color.Some? ==> HexColour(color.value))
  }

  // ---------------------------------------------------------------------
  // Enumerations: `^(daily|weekly|none)$` and `^(daily|weekly|custom)$`
  // ---------------------------------------------------------------------

  datatype Frequency = Daily | Weekly | NoDigest

  function FrequencyName(f: Frequency): string {
    match f
    case Daily => "daily"
    case Weekly => "weekly"
    case NoDigest => "none"
  }

  /** `UserPreferences.digest_frequency`: exactly one of the three words. */
  function ParseFrequency(s: string): (r: Option<Frequency>)
    ensures r.Some? ==> FrequencyName(r.value) == s
    ensures r.None? ==> s != "daily" && s != "weekly" && s != "none"
  {
    if s == "daily" then Some(Daily)
    else if s == "weekly" then Some(Weekly)
    else if s == "none" then Some(NoDigest)
    else None
  }

  lemma {:induction false} FrequencyRoundTrip(f: Frequency)
    ensures ParseFrequency(FrequencyName(f)) == Some(f)
  {
  }

  datatype DigestKind = DailyDigest | WeeklyDigest | CustomDigest

  function DigestKindName(k: DigestKind): string {
    match k
    case DailyDigest => "daily"
    case WeeklyDigest => "weekly"
    case CustomDigest => "custom"
  }

  /** `DigestGenerate.digest_type`: exactly one of the three words. */
  function ParseDigestKind(s: string): (r: Option<DigestKind>)
    ensures r.Some? ==> DigestKindName(r.value) == s
    ensures r.None? ==> s != "daily" && s != "weekly" && s != "custom"
  {
    if s == "daily" then Some(DailyDigest)
    else if s == "weekly" then Some(WeeklyDigest)
    else if s == "custom" then Some(CustomDigest)
    else None
  }

  lemma {:induction false} DigestKindRoundTrip(k: DigestKind)
    ensures ParseDigestKind(DigestKindName(k)) == Some(k)
  {
  }

  // ---------------------------------------------------------------------
  // Length and range bounds
  // ---------------------------------------------------------------------

  /** `SummaryBase.key_points`: between 3 and 10 items. */
  predicate ValidKeyPoints(points: seq<string>) {
    3 <= |points| <= 10
  }

  /** `ArticleBase`: title at most 500, url at most 2000, source type at
      most 50, source name and author at most 200 characters. */
  predicate ValidArticle(title: string, url: string, sourceType: string,
                         sourceName: Option<string>, author: Option<string>) {
    && |title| <= 500
    && |url| <= 2000
    && |sourceType| <= 50
    && (sourceName.Some? ==> |sourceName.value| <= 200)
    && (author.Some? ==> |author.value| <= 200)
  }

  const DefaultRssMaxArticles: int := 10
  const DefaultTopicMaxResults: int := 5
  const DefaultPage: int := 1
  const DefaultPageSize: int := 10

  /** `RSSFeedIngest.max_articles` in [1, 100]. */
  predicate ValidRssIngest(maxArticles: int) {
    1 <= maxArticles <= 100
  }

  /** `TopicIngest`: query of 2 to 200 characters, `max_results` in [1, 15]. */
  predicate ValidTopicIngest(query: string, maxResults: int) {
    2 <= |query| <= 200 && 1 <= maxResults <= 15
  }

  /** `UserCreate.password`: at least 8 characters. */
  predicate ValidPassword(password: string) {
    |password| >= 8
  }

  /** `ArticleSearchParams`: `page` at least 1, `page_size` in [1, 100]. */
  predicate ValidSearchParams(page: int, pageSize: int) {
    page >= 1 && 1 <= pageSize <= 100
  }

  /** The declared defaults satisfy their own bounds, and the bounds are
      tight: one past either end is rejected. */
  lemma {:induction false} DefaultsValid()
    ensures ValidRssIngest(DefaultRssMaxArticles)
    ensures ValidTopicIngest("ai", DefaultTopicMaxResults)
    ensures ValidSearchParams(DefaultPage, DefaultPageSize)
    ensures !ValidRssIngest(0) && !ValidRssIngest(101)
    ensures !ValidTopicIngest("a", DefaultTopicMaxResults) && !ValidTopicIngest("ai", 0) && !ValidTopicIngest("ai", 16)
    ensures !ValidSearchParams(0, DefaultPageSize) && !ValidSearchParams(1, 101)
  {
  }
}

=== FILE: sorting.dfy ===
/** Ordering helpers shared by the endpoints that return "newest first" or
    "highest score first" lists: a stable descending insertion sort keyed by
    a real number, and what taking a prefix of a sorted list keeps. */
module Sorting {

  predicate SortedDesc<T>(s: seq<T>, key: T -> real) {
    forall i, j :: 0 <= i < j < |s| ==> key(s[i]) >= key(s[j])
  }

  /** Inserts `x` before the first element whose key is strictly smaller,
      so that among equal keys earlier input stays first. */
  function Insert<T>(x: T, s: seq<T>, key: T -> real): (r: seq<T>)
    requires SortedDesc(s, key)
    ensures SortedDesc(r, key)
    ensures multiset(r) == multiset(s) + multiset{x}
    ensures |r| == |s| + 1
  {
    if s == [] || key(x) >= key(s[0]) then [x] + s
    else
      var rest := Insert(x, s[1..], key);
      InsertBelowHead(s, x, rest, key);
      [s[0]] + rest
  }

  /** Putting the head back in front of the tail with `x` inserted keeps
      the order and gives the list with `x` added. */
  lemma {:induction false} InsertBelowHead<T>(s: seq<T>, x: T, rest: seq<T>, key: T -> real)
    requires s != [] && SortedDesc(s, key) && key(x) < key(s[0])
    requires SortedDesc(rest, key) && multiset(rest) == multiset(s[1..]) + multiset{x}
    ensures SortedDesc([s[0]] + rest, key)
    ensures multiset([s[0]] + rest) == multiset(s) + multiset{x}
  {
    assert s == [s[0]] + s[1..];
    HeadAboveAll(s, x, rest, key);
  }

  /** The head of a descending list ranks at least as high as every element
      of a permutation of its tail with a lower-ranked element added. */
  lemma {:induction false} HeadAboveAll<T>(s: seq<T>, x: T, rest: seq<T>, key: T -> real)
    requires s != [] && SortedDesc(s, key) && key(x) < key(s[0])
    requires multiset(rest) == multiset(s[1..]) + multiset{x}
    ensures forall k :: 0 <= k < |rest| ==> key(s[0]) >= key(rest[k])
  {
    forall k | 0 <= k < |rest| ensures key(s[0]) >= key(rest[k]) {
      assert rest[k] in multiset(rest);
      if rest[k] != x {
        assert rest[k] in multiset(s[1..]);
        var m :| 1 <= m < |s| && s[m] == rest[k];
      }
    }
  }

  /** Stable sort by descending key: the result is ordered and is a
      permutation of the input. */
  function SortDesc<T>(s: seq<T>, key: T -> real): (r: seq<T>)
    ensures SortedDesc(r, key)
    ensures multiset(r) == multiset(s)
    ensures |r| == |s|
  {
    if s == [] then []
    else
      assert s == [s[0]] + s[1..];
      Insert(s[0], SortDesc(s[1..], key), key)
  }

  /** Every element of a descending list that is left out of a prefix ranks no
      higher than any element kept in that prefix. */
  lemma {:induction false} PrefixIsTop<T>(s: seq<T>, key: T -> real, n: nat)
    requires SortedDesc(s, key) && n <= |s|
    ensures forall y, k :: y in s && y !in s[..n] && 0 <= k < n ==> key(y) <= key(s[k])
  {
    forall y, k | y in s && y !in s[..n] && 0 <= k < n
      ensures key(y) <= key(s[k])
    {
      var m :| 0 <= m < |s| && s[m] == y;
    }
  }

  /** The first `n` elements of the descending order of `s` (SQL's
      `ORDER BY key DESC LIMIT n`): ordered, a sub-multiset of `s` (no row
      twice unless it occurs twice) and as many as possible. */
  function TopN<T>(s: seq<T>, key: T -> real, n: nat): (r: seq<T>)
    ensures |r| == if |s| <= n then |s| else n
    ensures SortedDesc(r, key)
    ensures multiset(r) <= multiset(s)
    ensures forall k :: 0 <= k < |r| ==> r[k] in s
  {
    var sorted := SortDesc(s, key);
    var len := if |sorted| <= n then |sorted| else n;
    SortedPrefix(sorted, s, key, len);
    sorted[..len]
  }

  /** A prefix of a descending permutation of `s` is descending, takes no
      row more often than `s` holds it, and takes only rows of `s`. */
  lemma {:induction false} SortedPrefix<T>(sorted: seq<T>, s: seq<T>, key: T -> real, len: nat)
    requires SortedDesc(sorted, key) && multiset(sorted) == multiset(s) && len <= |sorted|
    ensures SortedDesc(sorted[..len], key)
    ensures multiset(sorted[..len]) <= multiset(s)
    ensures forall k :: 0 <= k < len ==> sorted[..len][k] in s
  {
    InSameMultiset(sorted, s);
    assert sorted == sorted[..len] + sorted[len..];
    assert multiset(sorted) == multiset(sorted[..len]) + multiset(sorted[len..]);
  }

  /** The rows `TopN` keeps are the top of the input: nothing is left out
      when there are at most `n` rows, and every row left out ranks no
      higher than any row kept. */
  lemma {:induction false} TopNMeaning<T>(s: seq<T>, key: T -> real, n: nat)
    ensures |s| <= n ==> forall k :: 0 <= k < |s| ==> s[k] in TopN(s, key, n)
    ensures forall k, m :: (0 <= k < |s| && s[k] !in TopN(s, key, n) && 0 <= m < |TopN(s, key, n)|)
                           ==> key(s[k]) <= key(TopN(s, key, n)[m])
  {
    var sorted := SortDesc(s, key);
    var len := if |sorted| <= n then |sorted| else n;
    assert TopN(s, key, n) == sorted[..len];
    PrefixIsTop(sorted, key, len);
    InSameMultiset(s, sorted);
    assert len == |sorted| ==> sorted[..len] == sorted;
  }

  lemma {:induction false} InSameMultiset<T>(a: seq<T>, b: seq<T>)
    requires multiset(a) == multiset(b)
    ensures forall k :: 0 <= k < |a| ==> a[k] in b
  {
    forall k | 0 <= k < |a| ensures a[k] in b {
      assert a[k] in multiset(a);
    }
  }
}

=== FILE: text.dfy ===
/** The few pieces of Python's `str` behaviour the services rely on:
    whitespace classification, `strip`, `split`, `join`, `startswith`,
    slicing with `[:n]`, `replace`, truthiness and decimal formatting. */
module Text {
  import opened Wrappers

  /** Python's `str.isspace()` for one character; the regex class `\s`
      on `str` patterns accepts exactly the same characters. */
  predicate IsSpace(c: char) {
    || c == ' '
    || ('\t' <= c <= '\r')
    || ('\U{001C}' <= c <= '\U{001F}')
    || c == '\U{0085}' || c == '\U{00A0}' || c == '\U{1680}'
    || ('\U{2000}' <= c <= '\U{200A}')
    || c == '\U{2028}' || c == '\U{2029}' || c == '\U{202F}'
    || c == '\U{205F}' || c == '\U{3000}'
  }

  /** Python truthiness of an optional string: present and non-empty. */
  predicate Truthy(s: Option<string>) {
    s.Some? && s.value != ""
  }

  /** Python's `a or b` on optional strings. */
  function Or(a: Option<string>, b: Option<string>): (r: Option<string>)
    ensures Truthy(a) ==> r == a
    ensures !Truthy(a) ==> r == b
  {
    if Truthy(a) then a else b
  }

  predicate StartsWith(s: string, prefix: string) {
    |prefix| <= |s| && s[..|prefix|] == prefix
  }

  /** Python's `s[:n]` for a non-negative `n`. */
  function Take<T>(s: seq<T>, n: nat): (r: seq<T>)
    ensures |r| == if |s| <= n then |s| else n
    ensures r == s[..|r|]
  {
    if |s| <= n then s else s[..n]
  }

  /** Python's `s.lstrip()`: drops leading whitespace. */
  function LStrip(s: string): (r: string)
    ensures |r| <= |s| && r == s[|s| - |r|..]
    ensures |r| > 0 ==> !IsSpace(r[0])
    ensures forall i :: 0 <= i < |s| - |r| ==> IsSpace(s[i])
  {
    if |s| > 0 && IsSpace(s[0]) then LStrip(s[1..]) else s
  }

  /** Python's `s.rstrip()`: drops trailing whitespace. */
  function RStrip(s: string): (r: string)
    ensures |r| <= |s| && r == s[..|r|]
    ensures |r| > 0 ==> !IsSpace(r[|r| - 1])
    ensures forall i :: |r| <= i < |s| ==> IsSpace(s[i])
  {
    if |s| > 0 && IsSpace(s[|s| - 1]) then RStrip(s[..|s| - 1]) else s
  }

  /** Python's `s.strip()`: the text between the leading and the trailing
      whitespace. */
  function Strip(s: string): (r: string)
    ensures |r| > 0 ==> !IsSpace(r[0]) && !IsSpace(r[|r| - 1])
    ensures |r| <= |s|
  {
    RStrip(LStrip(s))
  }

  /** The strip is the slice of the text between its leading and its
      trailing whitespace, and it is empty exactly when the text is all
      whitespace. */
  lemma {:induction false} StripMeaning(s: string)
    ensures exists p :: StrippedAt(s, Strip(s), p)
    ensures (forall i :: 0 <= i < |s| ==> IsSpace(s[i])) <==> Strip(s) == ""
  {
    var p := StripPosition(s);
    if Strip(s) != "" {
      assert Strip(s)[0] == s[p];
    }
  }

  /** Where the strip starts in the text. */
  lemma {:induction false} StripPosition(s: string) returns (p: nat)
    ensures StrippedAt(s, Strip(s), p)
  {
    var l := LStrip(s);
    var r := RStrip(l);
    p := |s| - |l|;
    StripAt(s, l, r);
    assert r == Strip(s);
  }

  /** The right strip of the left strip sits at the end of the leading
      whitespace, with only whitespace after it. */
  lemma {:induction false} StripAt(s: string, l: string, r: string)
    requires l == LStrip(s) && r == RStrip(l)
    ensures StrippedAt(s, r, |s| - |l|)
  {
    SliceOfSuffix(s, l, r);
    TailOfSuffix(s, l, |r|);
  }

  lemma {:induction false} SliceOfSuffix(s: string, l: string, r: string)
    requires |l| <= |s| && l == s[|s| - |l|..]
    requires |r| <= |l| && r == l[..|r|]
    ensures r == s[|s| - |l|..|s| - |l| + |r|]
  {
  }

  lemma {:induction false} TailOfSuffix(s: string, l: string, n: nat)
    requires |l| <= |s| && l == s[|s| - |l|..] && n <= |l|
    requires forall i :: n <= i < |l| ==> IsSpace(l[i])
    ensures forall i :: |s| - |l| + n <= i < |s| ==> IsSpace(s[i])
  {
    forall i | |s| - |l| + n <= i < |s| ensures IsSpace(s[i]) {
      assert s[i] == l[i - (|s| - |l|)];
    }
  }

  /** `r` is the slice of `s` starting at `p`, and everything of `s` around
      it is whitespace. */
  predicate StrippedAt(s: string, r: string, p: nat) {
    && p + |r| <= |s|
    && r == s[p..p + |r|]
    && (forall i :: 0 <= i < p ==> IsSpace(s[i]))
    && (forall i :: p + |r| <= i < |s| ==> IsSpace(s[i]))
  }

  /** Python's `s.split(sep)` for a one-character separator: the pieces
      between consecutive separators, always at least one. */
  function Split(s: string, sep: char): (parts: seq<string>)
    ensures |parts| >= 1
    ensures forall k :: 0 <= k < |parts| ==> sep !in parts[k]
  {
    if s == [] then [""]
    else
      var rest := Split(s[1..], sep);
      if s[0] == sep then [""] + rest
      else [[s[0]] + rest[0]] + rest[1..]
  }

  /** Python's `sep.join(parts)`. */
  function Join(parts: seq<string>, sep: char): string
    requires |parts| >= 1
  {
    if |parts| == 1 then parts[0] else parts[0] + [sep] + Join(parts[1..], sep)
  }

  /** Python's `sep.join(parts)` for a separator of any length and any
      number of parts; with one part or more and a one-character separator
      it is `Join`. */
  function JoinWith(parts: seq<string>, sep: string): (r: string)
    ensures parts == [] ==> r == ""
    ensures parts != [] ==> StartsWith(r, parts[0])
    ensures |parts| >= 1 && |sep| == 1 ==> r == Join(parts, sep[0])
  {
    if parts == [] then ""
    else if |parts| == 1 then parts[0]
    else
      assert |sep| != 1 || sep == [sep[0]];
      parts[0] + sep + JoinWith(parts[1..], sep)
  }

  /** Joining the pieces of a split with the same separator gives back the
      original text: `sep.join(s.split(sep)) == s`. */
  lemma {:induction false} SplitJoin(s: string, sep: char)
    ensures Join(Split(s, sep), sep) == s
  {
    if s != [] {
      var rest := Split(s[1..], sep);
      SplitJoin(s[1..], sep);
      if s[0] == sep {
        assert Split(s, sep) == [""] + rest;
        assert ([""] + rest)[1..] == rest;
      } else {
        var parts := Split(s, sep);
        assert parts == [[s[0]] + rest[0]] + rest[1..];
        if |rest| == 1 {
          assert parts == [[s[0]] + rest[0]];
        } else {
          assert parts[1..] == rest[1..];
          assert Join(rest, sep) == rest[0] + [sep] + Join(rest[1..], sep);
        }
      }
    }
  }

  /** Python's `s.replace(pat, "")`: removes the non-overlapping occurrences
      of `pat` found scanning left to right. */
  function RemoveAll(s: string, pat: string): (r: string)
    requires |pat| > 0
    ensures |r| <= |s|
    decreases |s|
  {
    if |s| == 0 then ""
    else if StartsWith(s, pat) then RemoveAll(s[|pat|..], pat)
    else [s[0]] + RemoveAll(s[1..], pat)
  }

  /** Text that never contains the first character of the pattern is left
      unchanged by the removal. */
  lemma {:induction false} RemoveAllAbsent(s: string, pat: string)
    requires |pat| > 0 && pat[0] !in s
    ensures RemoveAll(s, pat) == s
  {
    if |s| > 0 {
      assert s[0] != pat[0];
      RemoveAllAbsent(s[1..], pat);
    }
  }

  predicate IsDigit(c: char) {
    '0' <= c <= '9'
  }

  function DigitChar(d: nat): (c: char)
    requires d < 10
    ensures IsDigit(c) && DigitValue(c) == d
  {
    ('0' as nat + d) as char
  }

  function DigitValue(c: char): nat
    requires IsDigit(c)
  {
    c as nat - '0' as nat
  }

  /** The number a run of decimal digits denotes, most significant first. */
  function DecimalValue(s: string): nat
    requires forall i :: 0 <= i < |s| ==> IsDigit(s[i])
  {
    if s == [] then 0 else DecimalValue(s[..|s| - 1]) * 10 + DigitValue(s[|s| - 1])
  }

  /** Python's `str(n)` for a natural number: decimal digits, with no
      leading zero except in "0" itself. */
  function NatToString(n: nat): (r: string)
    ensures |r| >= 1
    ensures forall i :: 0 <= i < |r| ==> IsDigit(r[i])
    ensures r[0] == '0' <==> n == 0
  {
    if n < 10 then [DigitChar(n)] else NatToString(n / 10) + [DigitChar(n % 10)]
  }

  /** The digits `NatToString` writes denote the number written. */
  lemma {:induction false} NatToStringValue(n: nat)
    ensures DecimalValue(NatToString(n)) == n
  {
    if n >= 10 {
      NatToStringValue(n / 10);
      var r := NatToString(n);
      assert r[..|r| - 1] == NatToString(n / 10);
    }
  }

  /** Python's `str(i)` for an integer: a minus sign before the digits of
      the magnitude exactly when the number is negative. */
  function IntToString(i: int): (r: string)
    ensures |r| >= 1
    ensures r[0] == '-' <==> i < 0
    ensures i < 0 ==> r == "-" + NatToString(-i)
    ensures i >= 0 ==> r == NatToString(i)
  {
    if i < 0 then "-" + NatToString(-i) else NatToString(i)
  }

  /** Reading `IntToString` back gives the number: the digits after the
      sign denote the magnitude. */
  lemma {:induction false} IntToStringValue(i: int)
    ensures var r := IntToString(i);
            && (i >= 0 ==> DecimalValue(r) == i)
            && (i < 0 ==> |r| >= 2 && DecimalValue(r[1..]) == -i)
  {
    if i >= 0 {
      NatToStringValue(i);
    } else {
      NatToStringValue(-i);
      assert IntToString(i)[1..] == NatToString(-i);
    }
  }

  /** Non-empty, with no whitespace at either end: what `strip` leaves of
      a text that is not all whitespace. */
  predicate Trimmed(p: string) {
    p != "" && !IsSpace(p[0]) && !IsSpace(p[|p| - 1])
  }

  /** Text with no whitespace at either end is its own strip. */
  lemma {:induction false} StripUnchanged(s: string)
    requires s != [] && !IsSpace(s[0]) && !IsSpace(s[|s| - 1])
    ensures Strip(s) == s
  {
    assert LStrip(s) == s;
    assert RStrip(s) == s;
  }

  /** The strip of a text is a slice of it, so it has no character the text
      lacks. */
  lemma {:induction false} StripIsSlice(s: string)
    ensures forall c :: c in Strip(s) ==> c in s
  {
    var p := StripPosition(s);
    SliceChars(s, Strip(s), p);
  }

  lemma {:induction false} SliceChars(s: string, r: string, p: nat)
    requires p + |r| <= |s| && r == s[p..p + |r|]
    ensures forall c :: c in r ==> c in s
  {
    forall c | c in r ensures c in s {
      var i :| 0 <= i < |r| && r[i] == c;
      assert s[p + i] == c;
    }
  }

  /** A text without the separator splits into itself. */
  lemma {:induction false} SplitNoSeparator(s: string, sep: char)
    requires sep !in s
    ensures Split(s, sep) == [s]
  {
    if s != [] {
      SplitNoSeparator(s[1..], sep);
      assert [s[0]] + s[1..] == s;
    }
  }

  /** Splitting `a + [sep] + b` where `a` has no separator puts `a` first. */
  lemma {:induction false} SplitAfterPiece(a: string, b: string, sep: char)
    requires sep !in a
    ensures Split(a + [sep] + b, sep) == [a] + Split(b, sep)
  {
    if a == [] {
      assert a + [sep] + b == [sep] + b;
      assert ([sep] + b)[1..] == b;
    } else {
      SplitAfterPiece(a[1..], b, sep);
      var s := a + [sep] + b;
      assert s[0] == a[0];
      assert s[1..] == a[1..] + [sep] + b;
      assert [a[0]] + a[1..] == a;
    }
  }

  /** Splitting a join of separator-free pieces gives the pieces back. */
  lemma {:induction false} JoinSplit(parts: seq<string>, sep: char)
    requires |parts| >= 1
    requires forall k :: 0 <= k < |parts| ==> sep !in parts[k]
    ensures Split(Join(parts, sep), sep) == parts
  {
    if |parts| == 1 {
      SplitNoSeparator(parts[0], sep);
    } else {
      JoinSplit(parts[1..], sep);
      SplitAfterPiece(parts[0], Join(parts[1..], sep), sep);
      assert [parts[0]] + parts[1..] == parts;
    }
  }
}

=== FILE: topic_ingestion.dfy ===
/** Web topic ingestion (backend/app/services/topic_ingestion_service.py):
    search, fetch each hit, summarise, store.  The search engine, the page
    fetch and the summarising/storing step are outcome parameters. */
module TopicIngestion {
  import opened Wrappers
  import opened Text
  import opened Ingestion

  /** One search hit: `url`, `link` and `title` keys, each possibly absent. */
  datatype SearchHit = SearchHit(url: Option<string>, link: Option<string>, title: Option<string>)

  /** The search call either raises or returns the hits. */
  datatype SearchOutcome = SearchRaised(msg: string) | Hits(hits: seq<SearchHit>)

  /** Fetching one page either raises or yields its text after tag
      stripping; when it succeeds, summarising and storing the article may
      still raise (`persistError`). */
  datatype ItemAttempt =
    | FetchRaised(msg: string)
    | Fetched(content: string, persistError: Option<string>)

  const MinContent: nat := 200
  const MaxContent: nat := 15000

  /** The URL of a hit: `url`, else `link` (Python `or`). */
  function HitUrl(h: SearchHit): (r: Option<string>)
    ensures Truthy(h.url) ==> r == h.url
    ensures !Truthy(h.url) ==> r == h.link
  {
    Or(h.url, h.link)
  }

  /** The title of a hit: its `title`, else the query. */
  function HitTitle(h: SearchHit, query: string): (r: string)
    ensures Truthy(h.title) ==> r == h.title.value
    ensures !Truthy(h.title) ==> r == query
  {
    if Truthy(h.title) then h.title.value else query
  }

  /** The source name a new web article gets: the given one when truthy,
      else the domain of its URL. */
  function WebSourceName(sourceName: Option<string>, url: string): Option<string> {
    if Truthy(sourceName) then sourceName else Some(ExtractDomain(url))
  }

  /** How a hit with a new URL ends: a raised fetch, content under 200
      characters or a raised store is an error (rolled back); otherwise the
      article is created under the hit's title and source name. */
  function FetchFate(u: string, title: string, sourceName: Option<string>, attempt: string -> ItemAttempt)
    : (f: Fate)
    ensures attempt(u).FetchRaised? ==> f == Failed(u + ": " + attempt(u).msg)
    ensures attempt(u).Fetched? && |attempt(u).content| < MinContent ==>
              f == Failed("Content too short for " + u + "; skipped")
    ensures attempt(u).Fetched? && |attempt(u).content| >= MinContent && attempt(u).persistError.Some? ==>
              f == Failed(u + ": " + attempt(u).persistError.value)
    ensures f.Created? <==> attempt(u).Fetched? && |attempt(u).content| >= MinContent && attempt(u).persistError.None?
    ensures f.Created? ==> f.article == NewArticle(title, u, "web_search", WebSourceName(sourceName, u), attempt(u).content)
  {
    match attempt(u)
    case FetchRaised(msg) => Failed(u + ": " + msg)
    case Fetched(content, persistError) =>
      if |content| < MinContent then Failed("Content too short for " + u + "; skipped")
      else if persistError.Some? then Failed(u + ": " + persistError.value)
      else Created(NewArticle(title, u, "web_search", WebSourceName(sourceName, u), content))
  }

  /** How one hit ends against the URLs stored so far: a hit without a URL
      is skipped with an error, one whose URL is stored counts as updated,
      and any other ends as its fetch and store say. */
  function HitFate(h: SearchHit, query: string, sourceName: Option<string>, store: set<string>,
                   attempt: string -> ItemAttempt): (f: Fate)
    ensures !Truthy(HitUrl(h)) ==> f == Failed("Result missing URL; skipped")
    ensures f == AlreadyStored <==> Truthy(HitUrl(h)) && HitUrl(h).value in store
    ensures Truthy(HitUrl(h)) && HitUrl(h).value !in store ==>
              f == FetchFate(HitUrl(h).value, HitTitle(h, query), sourceName, attempt)
    ensures f.Created? ==> f.article.url == HitUrl(h).value && f.article.url !in store
                           && WebArticle(f.article, sourceName)
  {
    var url := HitUrl(h);
    if !Truthy(url) then Failed("Result missing URL; skipped")
    else if url.value in store then AlreadyStored
    else FetchFate(url.value, HitTitle(h, query), sourceName, attempt)
  }

  /** The URL a hit is stored under, "" when it has none. */
  function HitKey(h: SearchHit): string {
    HitUrl(h).GetOr("")
  }

  /** The fate of a hit of this search against the URLs stored so far.  A
      hit only ever creates the article of its own URL, when that URL is not
      stored yet, and the article is a web article. */
  function TopicStep(query: string, sourceName: Option<string>, attempt: string -> ItemAttempt)
    : (step: (SearchHit, set<string>) -> Fate)
    ensures KeyedFresh(step, HitKey)
    ensures forall h, store :: step(h, store).Created? ==> WebArticle(step(h, store).article, sourceName)
  {
    (h: SearchHit, store: set<string>) => HitFate(h, query, sourceName, store, attempt)
  }

  /** The fates of the hits in search order, each against the URLs stored
      before it and by the hits created ahead of it. */
  function TopicFates(hits: seq<SearchHit>, query: string, sourceName: Option<string>, stored: set<string>,
                      attempt: string -> ItemAttempt): (fs: seq<Fate>)
    ensures |fs| == |hits|
  {
    RunOf(hits, stored, TopicStep(query, sourceName, attempt)).fates
  }

  /** Hit by hit: no URL is an error whatever is stored; a URL stored
      before the run counts as updated; a URL that is neither stored nor the
      URL of an earlier hit ends as its own fetch and store say, whatever
      the other hits did. */
  lemma {:induction false} TopicHitOutcome(hits: seq<SearchHit>, query: string, sourceName: Option<string>,
                                           stored: set<string>, attempt: string -> ItemAttempt, k: nat)
    requires k < |hits|
    ensures var h := hits[k];
            var f := TopicFates(hits, query, sourceName, stored, attempt)[k];
            && (!Truthy(HitUrl(h)) ==> f == Failed("Result missing URL; skipped"))
            && (Truthy(HitUrl(h)) && HitUrl(h).value in stored ==> f == AlreadyStored)
            && (Truthy(HitUrl(h)) && HitUrl(h).value !in stored
                && (forall j :: 0 <= j < k ==> HitUrl(hits[j]) != HitUrl(h)) ==>
                  f == FetchFate(HitUrl(h).value, HitTitle(h, query), sourceName, attempt))
  {
    var step := TopicStep(query, sourceName, attempt);
    RunAt(hits, stored, step, k);
    var h := hits[k];
    if Truthy(HitUrl(h)) && HitUrl(h).value !in stored && (forall j :: 0 <= j < k ==> HitUrl(hits[j]) != HitUrl(h)) {
      forall j | 0 <= j < k ensures HitKey(hits[j]) != HitKey(h) {
        assert HitUrl(hits[j]) != HitUrl(h);
      }
      RunFirstKey(hits, stored, step, HitKey, k);
    }
  }

  /** The loop of `ingest_topic` over the hits and the response it builds:
      every hit counts as processed and ends as its `HitFate`, the new
      articles are fresh web articles, and the store grows by their URLs. */
  method ProcessHits(hits: seq<SearchHit>, query: string, sourceName: Option<string>, stored: set<string>,
                     attempt: string -> ItemAttempt)
    returns (r: Ingested)
    ensures var res := r.response;
            && res.processed == |hits|
            && Balanced(res)
            && res.created == |r.articles|
            && (res.success <==> res.created > 0 || res.updated > 0)
            && FreshArticles(r.articles, stored)
            && r.stored == stored + Urls(r.articles)
            && (forall k :: 0 <= k < |r.articles| ==> WebArticle(r.articles[k], sourceName))
    ensures var fates := TopicFates(hits, query, sourceName, stored, attempt);
            && r.articles == CreatedOf(fates)
            && r.response.errors == ErrorsOf(fates)
            && r.response.updated == StoredCount(fates)
  {
    var step := TopicStep(query, sourceName, attempt);
    var updated, errors, arts, store := IngestItems(hits, stored, step, HitKey);
    RunCreates(hits, stored, step, (a: NewArticle) => WebArticle(a, sourceName));
    var processed, created := |hits|, |arts|;
    var message := "Processed " + NatToString(processed) + " results: " + NatToString(created)
                   + " created, " + NatToString(updated) + " skipped as existing";
    return Ingested(IngestionResponse(created > 0 || updated > 0, message, processed, created, updated, errors),
                    arts, store);
  }

  /** `ingest_topic`.  Without an API key it raises before doing anything.
      Otherwise every hit counts as processed and ends as its `HitFate`:
      the errors, the new articles and the `updated` count are exactly those
      of the hits' fates. */
  method IngestTopic(apiKey: Option<string>, query: string, sourceName: Option<string>,
                     search: SearchOutcome, stored: set<string>, attempt: string -> ItemAttempt)
    returns (r: Result<Ingested, string>)
    ensures !Truthy(apiKey) <==> r.Err?
    ensures r.Err? ==> r.error == "TAVILY_API_KEY is not configured"
    ensures r.Ok? && search.SearchRaised? ==>
              r.value == Ingested(IngestionResponse(false, "Topic ingestion failed", 0, 0, 0, [search.msg]), [], stored)
    ensures r.Ok? && search == Hits([]) ==>
              r.value == Ingested(IngestionResponse(false, "No search results found", 0, 0, 0,
                                                    ["Search returned no results"]), [], stored)
    ensures r.Ok? && search.Hits? && search.hits != [] ==>
              var res := r.value.response;
              && res.processed == |search.hits|
              && Balanced(res)
              && res.created == |r.value.articles|
              && (res.success <==> res.created > 0 || res.updated > 0)
              && FreshArticles(r.value.articles, stored)
              && r.value.stored == stored + Urls(r.value.articles)
              && (forall k :: 0 <= k < |r.value.articles| ==> WebArticle(r.value.articles[k], sourceName))
    ensures r.Ok? && search.Hits? && search.hits != [] ==>
              var fates := TopicFates(search.hits, query, sourceName, stored, attempt);
              && r.value.articles == CreatedOf(fates)
              && r.value.response.errors == ErrorsOf(fates)
              && r.value.response.updated == StoredCount(fates)
  {
    if !Truthy(apiKey) {
      return Err("TAVILY_API_KEY is not configured");
    }
    match search
    case SearchRaised(msg) =>
      return Ok(Ingested(IngestionResponse(false, "Topic ingestion failed", 0, 0, 0, [msg]), [], stored));
    case Hits(hits) =>
      if hits == [] {
        return Ok(Ingested(IngestionResponse(false, "No search results found", 0, 0, 0,
                                             ["Search returned no results"]), [], stored));
      }
      var done := ProcessHits(hits, query, sourceName, stored, attempt);
      return Ok(done);
  }

  /** A stored web article: source type "web_search", content long enough,
      and the given source name or else the URL's domain. */
  predicate WebArticle(a: NewArticle, sourceName: Option<string>) {
    && a.sourceType == "web_search"
    && |a.content| >= MinContent
    && a.sourceName == WebSourceName(sourceName, a.url)
  }

  // ---------------------------------------------------------------------
  // `_extract_domain`: the network location of `urllib.parse.urlparse`
  // ---------------------------------------------------------------------

  predicate IsAsciiLetter(c: char) {
    ('a' <= c <= 'z') || ('A' <= c <= 'Z')
  }

  /** The characters `urlparse` accepts in a scheme. */
  predicate SchemeChar(c: char) {
    IsAsciiLetter(c) || ('0' <= c <= '9') || c == '+' || c == '-' || c == '.'
  }

  /** Index of the first occurrence of `c` in `s`, or `|s|`. */
  function IndexOf(s: string, c: char): (i: nat)
    ensures i <= |s|
    ensures i < |s| ==> s[i] == c
    ensures forall k :: 0 <= k < i ==> s[k] != c
  {
    if s == [] then 0 else if s[0] == c then 0 else 1 + IndexOf(s[1..], c)
  }

  /** The text after the scheme: when the first ':' is preceded by a
      non-empty run of scheme characters starting with a letter, the
      scheme and ':' are removed; otherwise the URL is unchanged. */
  function AfterScheme(url: string): (rest: string)
    ensures |rest| <= |url|
    ensures rest == url || (|rest| < |url| && rest == url[|url| - |rest|..])
  {
    var i := IndexOf(url, ':');
    if 0 < i < |url| && IsAsciiLetter(url[0]) && (forall k :: 0 <= k < i ==> SchemeChar(url[k]))
    then url[i + 1..]
    else url
  }

  /** The characters `urlsplit` strips from the front of a URL: the C0
      controls and the space. */
  predicate C0OrSpace(c: char) {
    c <= ' '
  }

  /** The characters `urlsplit` deletes wherever they occur. */
  predicate Unsafe(c: char) {
    c == '\t' || c == '\r' || c == '\n'
  }

  function LStripC0(s: string): (r: string)
    ensures |r| <= |s| && r == s[|s| - |r|..]
    ensures |r| > 0 ==> !C0OrSpace(r[0])
    ensures forall i :: 0 <= i < |s| - |r| ==> C0OrSpace(s[i])
  {
    if |s| > 0 && C0OrSpace(s[0]) then LStripC0(s[1..]) else s
  }

  function DeleteUnsafe(s: string): (r: string)
    ensures forall k :: 0 <= k < |r| ==> !Unsafe(r[k])
  {
    if s == [] then []
    else if Unsafe(s[0]) then DeleteUnsafe(s[1..])
    else [s[0]] + DeleteUnsafe(s[1..])
  }

  /** `urlsplit`'s clean-up of its input: leading C0 controls and spaces
      go, then every tab, carriage return and line feed. */
  function Cleaned(url: string): (r: string)
    ensures forall k :: 0 <= k < |r| ==> !Unsafe(r[k])
    ensures |r| > 0 ==> !C0OrSpace(r[0])
  {
    DeleteUnsafe(LStripC0(url))
  }

  /** A URL that needs no clean-up is left as it is, and cleaning twice is
      cleaning once. */
  lemma {:induction false} CleanedUnchanged(url: string)
    requires |url| > 0 ==> !C0OrSpace(url[0])
    requires forall k :: 0 <= k < |url| ==> !Unsafe(url[k])
    ensures Cleaned(url) == url
    ensures Cleaned(Cleaned(url)) == Cleaned(url)
  {
    DeleteUnsafeAbsent(url);
  }

  lemma {:induction false} DeleteUnsafeAbsent(s: string)
    requires forall k :: 0 <= k < |s| ==> !Unsafe(s[k])
    ensures DeleteUnsafe(s) == s
  {
    if s != [] {
      DeleteUnsafeAbsent(s[1..]);
      assert s == [s[0]] + s[1..];
    }
  }

  /** Leading control characters and spaces do not change the domain. */
  lemma {:induction false} LeadingControlIgnored(c: char, url: string)
    requires C0OrSpace(c)
    ensures ExtractDomain([c] + url) == ExtractDomain(url)
  {
    assert ([c] + url)[1..] == url;
  }

  /** The network location `urlsplit` finds: the cleaned URL, after the
      scheme and "//", up to the first '/', '?' or '#'.  `None` stands for
      the `ValueError` it raises on unbalanced square brackets or on a
      bracketed host that is neither an IPv6 nor an IPvFuture address. */
  function Netloc(url: string): (r: Option<string>)
    ensures r.Some? ==> '/' !in r.value && '?' !in r.value && '#' !in r.value
    ensures r.Some? ==> forall k :: 0 <= k < |r.value| ==> !Unsafe(r.value[k])
    ensures r.Some? ==> ('[' in r.value <==> ']' in r.value)
    ensures r.Some? && '[' in r.value ==> BracketedNetlocOk(r.value)
  {
    NetlocOfClean(Cleaned(url))
  }

  /** The network location of a URL `urlsplit` has already cleaned. */
  function NetlocOfClean(url: string): (r: Option<string>)
    ensures r.Some? ==> '/' !in r.value && '?' !in r.value && '#' !in r.value
    ensures r.Some? ==> ('[' in r.value <==> ']' in r.value)
    ensures r.Some? && '[' in r.value ==> BracketedNetlocOk(r.value)
    ensures r.Some? ==> |r.value| <= |url|
  {
    var rest := AfterScheme(url);
    if |rest| >= 2 && rest[..2] == "//" then
      var tail := rest[2..];
      var end := Min3(IndexOf(tail, '/'), IndexOf(tail, '?'), IndexOf(tail, '#'));
      var host := tail[..end];
      if ('[' in host) != (']' in host) then None
      else if '[' in host && !BracketedNetlocOk(host) then None
      else Some(host)
    else Some("")
  }

  function Min3(a: nat, b: nat, c: nat): (m: nat)
    ensures m <= a && m <= b && m <= c
    ensures m == a || m == b || m == c
  {
    if a <= b && a <= c then a else if b <= c then b else c
  }

  /** The text after the last `c`, or all of `s` (`s.rpartition(c)[2]`). */
  function AfterLast(s: string, c: char): (r: string)
    ensures c !in r
    ensures |r| <= |s| && r == s[|s| - |r|..]
    ensures c !in s ==> r == s
    decreases |s|
  {
    if c !in s then s else AfterLast(s[IndexOf(s, c) + 1..], c)
  }

  /** `_check_bracketed_netloc`: after any user information, nothing may
      come before the '[' and only a port may follow the ']'; the text in
      the brackets must be a valid host. */
  predicate BracketedNetlocOk(netloc: string) {
    var hostAndPort := AfterLast(netloc, '@');
    var i := IndexOf(hostAndPort, '[');
    if i < |hostAndPort| then
      var bracketed := hostAndPort[i + 1..];
      var j := IndexOf(bracketed, ']');
      && i == 0
      && (j + 1 >= |bracketed| || bracketed[j + 1] == ':')
      && BracketedHostOk(bracketed[..j])
    else
      BracketedHostOk(hostAndPort[..IndexOf(hostAndPort, ':')])
  }

  /** `_check_bracketed_host`: a host starting with 'v' must be an
      IPvFuture address; any other must be an IPv6 address and not an IPv4
      one. */
  predicate BracketedHostOk(h: string) {
    if |h| > 0 && h[0] == 'v' then IPvFuture(h)
    else !ValidIPv4(h) && ValidIPv6(h)
  }

  predicate IsHex(c: char) {
    IsDigit(c) || ('a' <= c <= 'f') || ('A' <= c <= 'F')
  }

  /** The length of the run of hexadecimal digits `s` starts with. */
  function HexRun(s: string): (n: nat)
    ensures n <= |s|
    ensures forall k :: 0 <= k < n ==> IsHex(s[k])
    ensures n < |s| ==> !IsHex(s[n])
  {
    if s == [] || !IsHex(s[0]) then 0 else 1 + HexRun(s[1..])
  }

  /** The pattern `v[a-fA-F0-9]+\..+` over the whole host. */
  predicate IPvFuture(h: string) {
    && |h| > 0 && h[0] == 'v'
    && var n := HexRun(h[1..]);
       n >= 1 && n + 2 < |h| && h[n + 1] == '.'
  }

  /** An octet of `ipaddress.IPv4Address`: one to three ASCII digits, no
      leading zero, at most 255. */
  predicate ValidOctet(o: string) {
    && 1 <= |o| <= 3
    && (forall k :: 0 <= k < |o| ==> IsDigit(o[k]))
    && (|o| > 1 ==> o[0] != '0')
    && DecimalValue(o) <= 255
  }

  /** `ipaddress.IPv4Address` accepts the text: four octets between dots. */
  predicate ValidIPv4(s: string) {
    var parts := Split(s, '.');
    |parts| == 4 && forall k :: 0 <= k < 4 ==> ValidOctet(parts[k])
  }

  /** A group of an IPv6 address: one to four hexadecimal digits. */
  predicate Hextet(p: string) {
    1 <= |p| <= 4 && forall k :: 0 <= k < |p| ==> IsHex(p[k])
  }

  /** `ipaddress.IPv6Address` accepts the text: an address, then
      optionally '%' and a non-empty scope without another '%'. */
  predicate ValidIPv6(s: string) {
    var i := IndexOf(s, '%');
    && (i == |s| || (i + 1 < |s| && '%' !in s[i + 1..]))
    && ValidIPv6Text(s[..i])
  }

  /** The address part: at most 45 characters; at least three colon-separated parts; a last part
      with a dot must be an IPv4 address and stands for two groups; at
      most nine parts then; and the groups must fit the "::" rules. */
  predicate ValidIPv6Text(a: string) {
    var parts0 := Split(a, ':');
    var last := parts0[|parts0| - 1];
    && a != ""
    && |a| <= 45
    && |parts0| >= 3
    && ('.' in last ==> ValidIPv4(last))
    && var parts := if '.' in last then parts0[..|parts0| - 1] + ["0", "0"] else parts0;
       |parts| <= 9 && GroupsOk(parts)
  }

  /** The first empty part at or after `i`, not counting the last part;
      the index of the last part when there is none. */
  function EmptyFrom(parts: seq<string>, i: nat): (j: nat)
    requires 1 <= i <= |parts| - 1
    ensures i <= j <= |parts| - 1
    ensures j < |parts| - 1 ==> parts[j] == ""
    ensures forall k :: i <= k < j ==> parts[k] != ""
    decreases |parts| - i
  {
    if i == |parts| - 1 || parts[i] == "" then i else EmptyFrom(parts, i + 1)
  }

  /** Without "::" there are exactly eight groups.  With one "::" (an empty
      inner part, and no second one) it stands for at least one group, a
      leading or trailing empty part is allowed only as part of it, and
      the groups before and after it must be groups. */
  predicate GroupsOk(parts: seq<string>)
    requires |parts| >= 3
  {
    var s := EmptyFrom(parts, 1);
    if s == |parts| - 1 then
      |parts| == 8 && forall k :: 0 <= k < 8 ==> Hextet(parts[k])
    else
      var hi := if parts[0] == "" then 0 else s;
      var lo := if parts[|parts| - 1] == "" then 0 else |parts| - s - 1;
      && EmptyFrom(parts, s + 1) == |parts| - 1
      && (parts[0] == "" ==> s == 1)
      && (parts[|parts| - 1] == "" ==> |parts| - s - 1 == 1)
      && hi + lo < 8
      && (forall k :: 0 <= k < hi ==> Hextet(parts[k]))
      && (forall k :: |parts| - lo <= k < |parts| ==> Hextet(parts[k]))
  }

  /** `_extract_domain`: the network location with every "www." removed,
      or "web" when that is empty or parsing raises. */
  function ExtractDomain(url: string): (r: string)
    ensures r != ""
    ensures Netloc(url).None? ==> r == "web"
    ensures Netloc(url).Some? && RemoveAll(Netloc(url).value, "www.") != "" ==> r == RemoveAll(Netloc(url).value, "www.")
  {
    match Netloc(url)
    case None => "web"
    case Some(host) =>
      var d := RemoveAll(host, "www.");
      if d == "" then "web" else d
  }

  /** A host name free of 'w', '/', '?', '#', brackets, tabs and line
      breaks. */
  predicate PlainHost(host: string) {
    forall k :: 0 <= k < |host| ==> host[k] !in "w/?#[]" && !Unsafe(host[k])
  }

  /** Such a host is recovered from "https://www." followed by it. */
  lemma {:induction false} DomainOfWwwUrl(host: string)
    requires host != []
    requires PlainHost(host)
    ensures ExtractDomain("https://www." + host) == host
  {
    WwwUrlNetloc(host);
    WwwRemoved(host);
  }

  lemma {:induction false} WwwRemoved(host: string)
    requires PlainHost(host)
    ensures RemoveAll("www." + host, "www.") == host
  {
    var tail := "www." + host;
    assert StartsWith(tail, "www.");
    assert tail[4..] == host;
    RemoveAllAbsent(host, "www.");
  }

  /** The network location of "https://www." followed by such a host is
      "www." followed by it. */
  lemma {:induction false} WwwUrlNetloc(host: string)
    requires PlainHost(host)
    ensures Netloc("https://www." + host) == Some("www." + host)
  {
    WwwUrlParts(host);
    CleanPlainNetloc("https://www." + host, "www." + host);
  }

  /** "https://www." followed by such a host is clean, has "//" and the
      host after its scheme, and the host holds no delimiter or bracket. */
  lemma {:induction false} WwwUrlParts(host: string)
    requires PlainHost(host)
    ensures var url := "https://www." + host;
            var tail := "www." + host;
            && Cleaned(url) == url
            && AfterScheme(url) == "//" + tail
            && '/' !in tail && '?' !in tail && '#' !in tail && '[' !in tail && ']' !in tail
  {
    WwwUrlClean(host);
    WwwScheme(host);
    HostChars(host);
  }

  lemma {:induction false} WwwScheme(host: string)
    ensures AfterScheme("https://www." + host) == "//" + ("www." + host)
  {
    var rest := "//" + ("www." + host);
    assert "https:" + rest == "https://www." + host;
    HttpsScheme(rest);
  }

  /** A URL that cleaning leaves alone, with "//" and a host without
      delimiters or brackets after its scheme, has that host as its
      network location. */
  lemma {:induction false} CleanPlainNetloc(url: string, tail: string)
    requires Cleaned(url) == url && AfterScheme(url) == "//" + tail
    requires '/' !in tail && '?' !in tail && '#' !in tail && '[' !in tail && ']' !in tail
    ensures Netloc(url) == Some(tail)
  {
    PlainNetloc(url, tail);
  }

  /** A clean URL whose text after the scheme is "//" and a host without
      delimiters or brackets has that host as its network location. */
  lemma {:induction false} PlainNetloc(url: string, tail: string)
    requires AfterScheme(url) == "//" + tail
    requires '/' !in tail && '?' !in tail && '#' !in tail && '[' !in tail && ']' !in tail
    ensures NetlocOfClean(url) == Some(tail)
  {
    assert ("//" + tail)[2..] == tail;
    IndexOfAbsent(tail, '/');
    IndexOfAbsent(tail, '?');
    IndexOfAbsent(tail, '#');
    assert tail[..|tail|] == tail;
  }

  lemma {:induction false} WwwUrlClean(host: string)
    requires PlainHost(host)
    ensures Cleaned("https://www." + host) == "https://www." + host
  {
    var url := "https://www." + host;
    forall k | 0 <= k < |url| ensures !Unsafe(url[k]) {
      if k >= 12 { assert url[k] == host[k - 12]; }
    }
    CleanedUnchanged(url);
  }

  lemma {:induction false} HostChars(host: string)
    requires PlainHost(host)
    ensures var tail := "www." + host;
            '/' !in tail && '?' !in tail && '#' !in tail && '[' !in tail && ']' !in tail
  {
    var tail := "www." + host;
    forall k | 0 <= k < |tail| ensures tail[k] !in "/?#[]" {
      if k >= 4 {
        assert tail[k] == host[k - 4];
      }
    }
  }

  /** Text that may sit between square brackets in these examples: none
      of '/', '?', '#', '@', brackets, tabs or line breaks. */
  predicate InBrackets(h: string) {
    forall k :: 0 <= k < |h| ==> h[k] !in "/?#@[]" && !Unsafe(h[k])
  }

  /** A bracketed host is kept exactly when `_check_bracketed_host`
      accepts it; otherwise the parse raises and the domain is "web".  So
      "https://[::1]" gives "[::1]", and a bracketed name that is not an
      address, such as "[abc]", gives "web". */
  lemma {:induction false} BracketedDomain(h: string)
    requires InBrackets(h) && 'w' !in h
    ensures BracketedHostOk(h) ==> ExtractDomain("https://[" + h + "]") == "[" + h + "]"
    ensures !BracketedHostOk(h) ==> ExtractDomain("https://[" + h + "]") == "web"
  {
    BracketedUrlNetloc(h);
    if BracketedHostOk(h) {
      BracketsKeepNoWww(h);
    }
  }

  lemma {:induction false} BracketsKeepNoWww(h: string)
    requires 'w' !in h
    ensures RemoveAll("[" + h + "]", "www.") == "[" + h + "]"
  {
    var host := "[" + h + "]";
    forall k | 0 <= k < |host| ensures host[k] != 'w' {
      if 1 <= k < |host| - 1 { assert host[k] == h[k - 1]; }
    }
    RemoveAllAbsent(host, "www.");
  }

  lemma {:induction false} BracketedUrlNetloc(h: string)
    requires InBrackets(h)
    ensures Netloc("https://[" + h + "]") == if BracketedHostOk(h) then Some("[" + h + "]") else None
  {
    var host := "[" + h + "]";
    var url := "https://[" + h + "]";
    assert url == "https:" + ("//" + host);
    BracketedUrlClean(h);
    HttpsScheme("//" + host);
    BracketedHostChars(h);
    BracketedNetloc(url, h);
  }

  lemma {:induction false} BracketedUrlClean(h: string)
    requires InBrackets(h)
    ensures Cleaned("https://[" + h + "]") == "https://[" + h + "]"
  {
    var url := "https://[" + h + "]";
    forall k | 0 <= k < |url| ensures !Unsafe(url[k]) {
      if 9 <= k < |url| - 1 { assert url[k] == h[k - 9]; }
    }
    CleanedUnchanged(url);
  }

  lemma {:induction false} BracketedHostChars(h: string)
    requires InBrackets(h)
    ensures var host := "[" + h + "]";
            '/' !in host && '?' !in host && '#' !in host && '@' !in host
            && IndexOf(host, '[') == 0 && IndexOf(host[1..], ']') == |h|
  {
    var host := "[" + h + "]";
    forall k | 1 <= k < |host| - 1 ensures host[k] !in "/?#@[]" {
      assert host[k] == h[k - 1];
    }
    assert host[1..] == h + "]";
    IndexOfAbsent(h, ']');
    assert IndexOf(h + "]", ']') == |h| by {
      IndexOfAfter(h, "]", ']');
    }
  }

  /** Searching past a prefix without `c` lands in the rest. */
  lemma {:induction false} IndexOfAfter(a: string, b: string, c: char)
    requires c !in a
    ensures IndexOf(a + b, c) == |a| + IndexOf(b, c)
  {
    if a != [] {
      assert (a + b)[1..] == a[1..] + b;
      IndexOfAfter(a[1..], b, c);
    } else {
      assert a + b == b;
    }
  }

  lemma {:induction false} BracketedNetloc(url: string, h: string)
    requires AfterScheme(url) == "//" + ("[" + h + "]")
    requires var host := "[" + h + "]";
             '/' !in host && '?' !in host && '#' !in host && '@' !in host
             && IndexOf(host, '[') == 0 && IndexOf(host[1..], ']') == |h|
    ensures NetlocOfClean(url) == if BracketedHostOk(h) then Some("[" + h + "]") else None
  {
    var host := "[" + h + "]";
    assert ("//" + host)[2..] == host;
    IndexOfAbsent(host, '/');
    IndexOfAbsent(host, '?');
    IndexOfAbsent(host, '#');
    assert host[..|host|] == host;
    assert host[0] == '[' && host[|host| - 1] == ']';
    BracketedHostOnly(h);
  }

  /** A bare bracketed host passes `_check_bracketed_netloc` exactly when
      the text inside the brackets is a valid host. */
  lemma {:induction false} BracketedHostOnly(h: string)
    requires var host := "[" + h + "]";
             '@' !in host && IndexOf(host, '[') == 0 && IndexOf(host[1..], ']') == |h|
    ensures BracketedNetlocOk("[" + h + "]") <==> BracketedHostOk(h)
  {
    var host := "[" + h + "]";
    assert AfterLast(host, '@') == host;
    assert host[1..][..|h|] == h;
  }

  /** The "https" scheme and its ':' are removed. */
  lemma {:induction false} HttpsScheme(rest: string)
    ensures AfterScheme("https:" + rest) == rest
  {
    var url := "https:" + rest;
    assert url[5] == ':';
    assert url[..5] == "https";
    assert IndexOf(url, ':') == 5;
    assert url[6..] == rest;
  }

  lemma {:induction false} IndexOfAbsent(s: string, c: char)
    requires c !in s
    ensures IndexOf(s, c) == |s|
  {
  }

  // ---------------------------------------------------------------------
  // The tail of `_strip_html`: collapse whitespace, strip, truncate
  // ---------------------------------------------------------------------

  /** The non-whitespace characters of `s`, in order. */
  function NonSpace(s: string): string {
    if s == [] then [] else (if IsSpace(s[0]) then [] else [s[0]]) + NonSpace(s[1..])
  }

  /** Only plain spaces, and never two in a row. */
  predicate Collapsed(s: string) {
    && (forall i :: 0 <= i < |s| && IsSpace(s[i]) ==> s[i] == ' ')
    && (forall i :: 0 <= i < |s| - 1 ==> !(s[i] == ' ' && s[i + 1] == ' '))
  }

  /** `re.sub(r"\s+", " ", s)`: every maximal whitespace run becomes one
      space; nothing else changes. */
  function CollapseSpace(s: string): (r: string)
    ensures |r| <= |s|
    ensures Collapsed(r)
    ensures NonSpace(r) == NonSpace(s)
    ensures |s| > 0 && !IsSpace(s[0]) ==> |r| > 0 && r[0] == s[0]
    ensures |s| > 0 && IsSpace(s[0]) ==> |r| > 0 && r[0] == ' '
    decreases |s|
  {
    if s == [] then []
    else if IsSpace(s[0]) then
      var rest := LStrip(s);
      LeadingRunDropped(s);
      [' '] + CollapseSpace(rest)
    else
      var tl := CollapseSpace(s[1..]);
      assert NonSpace(s) == [s[0]] + NonSpace(s[1..]);
      [s[0]] + tl
  }

  /** Dropping a leading whitespace run shortens the text and keeps its
      non-whitespace characters. */
  lemma {:induction false} LeadingRunDropped(s: string)
    requires |s| > 0 && IsSpace(s[0])
    ensures |LStrip(s)| < |s|
    ensures NonSpace(LStrip(s)) == NonSpace(s)
  {
    var rest := LStrip(s);
    AllSpaceNoText(s[..|s| - |rest|]);
    assert s == s[..|s| - |rest|] + rest;
    NonSpaceAppend(s[..|s| - |rest|], rest);
  }

  lemma {:induction false} NonSpaceAppend(a: string, b: string)
    ensures NonSpace(a + b) == NonSpace(a) + NonSpace(b)
  {
    if a != [] {
      assert (a + b)[1..] == a[1..] + b;
      NonSpaceAppend(a[1..], b);
    } else {
      assert a + b == b;
    }
  }

  lemma {:induction false} AllSpaceNoText(s: string)
    requires forall i :: 0 <= i < |s| ==> IsSpace(s[i])
    ensures NonSpace(s) == []
  {
    if s != [] {
      AllSpaceNoText(s[1..]);
    }
  }

  /** Stripping removes whitespace only, and keeps a collapsed text
      collapsed. */
  lemma {:induction false} StripKeepsText(c: string)
    ensures NonSpace(Strip(c)) == NonSpace(c)
    ensures Collapsed(c) ==> Collapsed(Strip(c))
  {
    var p := StripPosition(c);
    StrippedKeepsText(c, Strip(c), p);
  }

  lemma {:induction false} StrippedKeepsText(c: string, t: string, p: nat)
    requires StrippedAt(c, t, p)
    ensures NonSpace(t) == NonSpace(c)
    ensures Collapsed(c) ==> Collapsed(t)
  {
    SpaceAroundKeepsText(c, p, p + |t|);
    if Collapsed(c) {
      SliceCollapsed(c, p, p + |t|);
    }
  }

  /** Cutting whitespace off both ends keeps the text characters. */
  lemma {:induction false} SpaceAroundKeepsText(c: string, p: nat, q: nat)
    requires p <= q <= |c|
    requires forall i :: 0 <= i < p ==> IsSpace(c[i])
    requires forall i :: q <= i < |c| ==> IsSpace(c[i])
    ensures NonSpace(c[p..q]) == NonSpace(c)
  {
    var pre, t, post := c[..p], c[p..q], c[q..];
    assert c == pre + t + post;
    AllSpaceNoText(pre);
    AllSpaceNoText(post);
    NonSpaceAppend(pre + t, post);
    NonSpaceAppend(pre, t);
  }

  /** A slice of a collapsed text is collapsed. */
  lemma {:induction false} SliceCollapsed(c: string, p: nat, q: nat)
    requires p <= q <= |c| && Collapsed(c)
    ensures Collapsed(c[p..q])
  {
    var t := c[p..q];
    forall i | 0 <= i < |t| ensures t[i] == c[p + i] {
    }
  }

  /** A prefix keeps a prefix of the text characters, and keeps a collapsed
      text collapsed. */
  lemma {:induction false} TakeKeepsPrefix(t: string, n: nat)
    ensures |NonSpace(Take(t, n))| <= |NonSpace(t)|
    ensures NonSpace(Take(t, n)) == NonSpace(t)[..|NonSpace(Take(t, n))|]
    ensures Collapsed(t) ==> Collapsed(Take(t, n))
  {
    var r := Take(t, n);
    assert t == r + t[|r|..];
    NonSpaceAppend(r, t[|r|..]);
    forall i | 0 <= i < |r| ensures r[i] == t[i] {
    }
  }

  /** The tail of `_strip_html`: collapse whitespace runs, strip, keep the
      first 15000 characters.  The text characters kept are a prefix of
      those of the input. */
  function StripHtmlTail(s: string): (r: string)
    ensures |r| <= MaxContent && |r| <= |s|
    ensures Collapsed(r)
    ensures |r| > 0 ==> !IsSpace(r[0])
    ensures |NonSpace(r)| <= |NonSpace(s)| && NonSpace(r) == NonSpace(s)[..|NonSpace(r)|]
  {
    var c := CollapseSpace(s);
    var t := Strip(c);
    StripKeepsText(c);
    PrefixOfCleaned(s, t, MaxContent);
    Take(t, MaxContent)
  }

  /** A prefix of a cleaned text `t` of `s` is cleaned too, and keeps a
      prefix of the text characters of `s`. */
  lemma {:induction false} PrefixOfCleaned(s: string, t: string, n: nat)
    requires |t| <= |s| && Collapsed(t) && (|t| > 0 ==> !IsSpace(t[0]))
    requires NonSpace(t) == NonSpace(s)
    ensures |Take(t, n)| <= n && |Take(t, n)| <= |s|
    ensures Collapsed(Take(t, n))
    ensures |Take(t, n)| > 0 ==> !IsSpace(Take(t, n)[0])
    ensures |NonSpace(Take(t, n))| <= |NonSpace(s)|
    ensures NonSpace(Take(t, n)) == NonSpace(s)[..|NonSpace(Take(t, n))|]
  {
    TakeKeepsPrefix(t, n);
  }
}

=== FILE: trends.dfy ===
/** Trend analysis (backend/app/services/trend_analysis_service.py): which
    categories are trending and in which direction, which are emerging, a
    linear forecast of a category's daily volume, a momentum score and the
    dashboard summary.  Arithmetic is exact (`real`); the service's
    `round(...)` of reported figures is not modelled.  The clock is the
    parameter `now`, in seconds. */
module Trends {
  import opened Wrappers
  import opened Records
  import Sorting
  import Text

  const SecondsPerDay: int := 86400

  // ---------------------------------------------------------------------
  // Counting
  // ---------------------------------------------------------------------

  /** The number of rows of the join of articles with a category whose
      creation time is at least `lo` and, when `hi` is given, before it. */
  function Count(articles: seq<Article>, links: set<(int, int)>, category: int, lo: int, hi: Option<int>): (n: nat)
    ensures n <= |articles|
  {
    if articles == [] then 0
    else
      var a := articles[|articles| - 1];
      var here := if (a.id, category) in links && lo <= a.createdAt && (hi.None? || a.createdAt < hi.value) then 1 else 0;
      Count(articles[..|articles| - 1], links, category, lo, hi) + here
  }

  /** Splitting a window at a point in between splits its count. */
  lemma {:induction false} CountSplits(articles: seq<Article>, links: set<(int, int)>, category: int, lo: int, mid: int, hi: Option<int>)
    requires lo <= mid && (hi.Some? ==> mid <= hi.value)
    ensures Count(articles, links, category, lo, Some(mid)) + Count(articles, links, category, mid, hi)
            == Count(articles, links, category, lo, hi)
  {
    if articles != [] {
      CountSplits(articles[..|articles| - 1], links, category, lo, mid, hi);
    }
  }

  // ---------------------------------------------------------------------
  // Velocity, direction and confidence
  // ---------------------------------------------------------------------

  /** The percentage change from the older count to the recent one; from
      nothing, any article is a 100% rise. */
  function Velocity(recent: nat, older: nat): (v: real)
    ensures v > 0.0 <==> recent > older
    ensures v == 0.0 <==> recent == older
    ensures v >= -100.0
    ensures older > 0 ==> v * older as real == (recent as real - older as real) * 100.0
    ensures older == 0 && recent > 0 ==> v == 100.0
  {
    if older > 0 then (recent as real - older as real) / older as real * 100.0
    else if recent > 0 then 100.0 else 0.0
  }

  datatype Direction = Rising | Falling | Stable

  function DirectionOf(v: real): (d: Direction)
    ensures d == Rising <==> v > 20.0
    ensures d == Falling <==> v < -20.0
    ensures d == Stable <==> -20.0 <= v <= 20.0
  {
    if v > 20.0 then Rising else if v < -20.0 then Falling else Stable
  }

  /** In counts: rising means the recent count exceeds the older one by
      more than a fifth, falling that it is short of it by more than a
      fifth. */
  lemma {:induction false} DirectionByCounts(recent: nat, older: nat)
    ensures DirectionOf(Velocity(recent, older)) == Rising <==> 5 * recent > 6 * older
    ensures DirectionOf(Velocity(recent, older)) == Falling <==> 5 * recent < 4 * older
  {
    var v := Velocity(recent, older);
    if older > 0 {
      var o := older as real;
      var d := recent as real - o;
      ScaledCompare(v, o, d * 100.0, 20.0);
      ScaledCompare(v, o, d * 100.0, -20.0);
    }
  }

  /** Comparing `x / o` with a constant, for a positive `o`, compares `x`
      with the constant times `o`. */
  lemma {:induction false} ScaledCompare(v: real, o: real, x: real, c: real)
    requires o > 0.0 && v * o == x
    ensures v > c <==> x > c * o
    ensures v < c <==> x < c * o
  {
    if v > c { assert c * o < v * o; }
    if v < c { assert v * o < c * o; }
    if v == c { assert x == c * o; }
  }

  /** How much the volume backs the trend: total over 20, at most 1. */
  function Confidence(total: nat): (c: real)
    ensures 0.0 <= c <= 1.0
    ensures c == 1.0 <==> total >= 20
    ensures total < 20 ==> c * 20.0 == total as real
  {
    if total as real / 20.0 < 1.0 then total as real / 20.0 else 1.0
  }

  // ---------------------------------------------------------------------
  // Trending topics
  // ---------------------------------------------------------------------

  datatype Trend = Trend(
    categoryId: int,
    categoryName: string,
    recent: nat,
    previous: nat,
    velocity: real,
    confidence: real,
    direction: Direction,
    total: nat)

  /** The window start and its midpoint: `days` and `days // 2` days ago. */
  function Since(now: int, days: int): int { now - days * SecondsPerDay }
  function Midpoint(now: int, days: int): int { now - (days / 2) * SecondsPerDay }

  function Recent(articles: seq<Article>, links: set<(int, int)>, c: Category, now: int, days: int): nat {
    Count(articles, links, c.id, Midpoint(now, days), None)
  }

  function Older(articles: seq<Article>, links: set<(int, int)>, c: Category, now: int, days: int): nat {
    Count(articles, links, c.id, Since(now, days), Some(Midpoint(now, days)))
  }

  /** A category is reported when it has a recent article and enough
      articles over the whole window. */
  predicate Qualifies(articles: seq<Article>, links: set<(int, int)>, c: Category, now: int, days: int, minArticles: int) {
    Recent(articles, links, c, now, days) > 0
    && Recent(articles, links, c, now, days) + Older(articles, links, c, now, days) >= minArticles
  }

  /** The figures reported for a category. */
  function TrendOf(articles: seq<Article>, links: set<(int, int)>, c: Category, now: int, days: int): (t: Trend)
    ensures t.categoryId == c.id && t.categoryName == c.name
    ensures t.recent == Recent(articles, links, c, now, days) && t.previous == Older(articles, links, c, now, days)
    ensures t.total == t.recent + t.previous
    ensures t.velocity == Velocity(t.recent, t.previous) && t.direction == DirectionOf(t.velocity)
    ensures t.confidence == Confidence(t.total)
  {
    var recent := Recent(articles, links, c, now, days);
    var older := Older(articles, links, c, now, days);
    var v := Velocity(recent, older);
    Trend(c.id, c.name, recent, older, v, Confidence(recent + older), DirectionOf(v), recent + older)
  }

  /** `t` is the trend of a qualifying category. */
  predicate FromQualifying(t: Trend, articles: seq<Article>, categories: seq<Category>, links: set<(int, int)>,
                           now: int, days: int, minArticles: int) {
    exists c :: c in categories && Qualifies(articles, links, c, now, days, minArticles)
                && t == TrendOf(articles, links, c, now, days)
  }

  /** Every trend in `r` is that of a qualifying category. */
  predicate OnlyQualifying(r: seq<Trend>, articles: seq<Article>, categories: seq<Category>, links: set<(int, int)>,
                           now: int, days: int, minArticles: int) {
    forall k :: 0 <= k < |r| ==> FromQualifying(r[k], articles, categories, links, now, days, minArticles)
  }

  /** The trend of every qualifying category is in `r`. */
  predicate AllQualifying(r: seq<Trend>, articles: seq<Article>, categories: seq<Category>, links: set<(int, int)>,
                          now: int, days: int, minArticles: int) {
    forall k :: 0 <= k < |categories| && Qualifies(articles, links, categories[k], now, days, minArticles) ==>
      TrendOf(articles, links, categories[k], now, days) in r
  }

  /** The test a category passes to be reported, as a value. */
  function QualifyTest(articles: seq<Article>, links: set<(int, int)>, now: int, days: int, minArticles: int): Category -> bool {
    (c: Category) => Qualifies(articles, links, c, now, days, minArticles)
  }

  /** The categories that are reported, in table order. */
  function Qualifying(articles: seq<Article>, categories: seq<Category>, links: set<(int, int)>,
                      now: int, days: int, minArticles: int): seq<Category> {
    Where(categories, QualifyTest(articles, links, now, days, minArticles))
  }

  /** The reported categories, in table order: one trend for each
      qualifying category, and nothing else. */
  function Candidates(articles: seq<Article>, categories: seq<Category>, links: set<(int, int)>,
                      now: int, days: int, minArticles: int): (r: seq<Trend>)
    ensures OnlyQualifying(r, articles, categories, links, now, days, minArticles)
    ensures AllQualifying(r, articles, categories, links, now, days, minArticles)
    ensures var q := Qualifying(articles, categories, links, now, days, minArticles);
            && |r| == |q|
            && forall k :: 0 <= k < |r| ==> r[k] == TrendOf(articles, links, q[k], now, days)
  {
    if categories == [] then []
    else
      var c := categories[0];
      var rest := Candidates(articles, categories[1..], links, now, days, minArticles);
      var here := if Qualifies(articles, links, c, now, days, minArticles) then [TrendOf(articles, links, c, now, days)] else [];
      CandidatesStep(articles, categories, links, now, days, minArticles, here, rest);
      CandidatesInOrder(articles, categories, links, now, days, minArticles, here, rest);
      here + rest
  }

  lemma {:induction false} CandidatesInOrder(articles: seq<Article>, categories: seq<Category>, links: set<(int, int)>,
                       now: int, days: int, minArticles: int, here: seq<Trend>, rest: seq<Trend>)
    requires categories != []
    requires here == if Qualifies(articles, links, categories[0], now, days, minArticles)
                     then [TrendOf(articles, links, categories[0], now, days)] else []
    requires var q := Qualifying(articles, categories[1..], links, now, days, minArticles);
             && |rest| == |q|
             && forall k :: 0 <= k < |rest| ==> rest[k] == TrendOf(articles, links, q[k], now, days)
    ensures var q := Qualifying(articles, categories, links, now, days, minArticles);
            && |here + rest| == |q|
            && forall k :: 0 <= k < |here + rest| ==> (here + rest)[k] == TrendOf(articles, links, q[k], now, days)
  {
    var c := categories[0];
    var b := Qualifies(articles, links, c, now, days, minArticles);
    var tail := Qualifying(articles, categories[1..], links, now, days, minArticles);
    var head := if b then [c] else [];
    var q := Qualifying(articles, categories, links, now, days, minArticles);
    assert q == head + tail by {
      WhereCons(categories, QualifyTest(articles, links, now, days, minArticles));
      assert QualifyTest(articles, links, now, days, minArticles)(c) == b;
    }
    MapConcat(here, rest, head, tail, (x: Category) => TrendOf(articles, links, x, now, days));
  }

  /** Mapping a function over two lists one after the other. */
  lemma {:induction false} MapConcat<A, B>(here: seq<B>, rest: seq<B>, head: seq<A>, tail: seq<A>, f: A -> B)
    requires |here| == |head| && forall k :: 0 <= k < |here| ==> here[k] == f(head[k])
    requires |rest| == |tail| && forall k :: 0 <= k < |rest| ==> rest[k] == f(tail[k])
    ensures |here + rest| == |head + tail|
    ensures forall k :: 0 <= k < |here + rest| ==> (here + rest)[k] == f((head + tail)[k])
  {
    forall k | 0 <= k < |here + rest| ensures (here + rest)[k] == f((head + tail)[k]) {
      if k >= |here| {
        assert (here + rest)[k] == rest[k - |here|] && (head + tail)[k] == tail[k - |head|];
      }
    }
  }

  lemma {:induction false} CandidatesStep(articles: seq<Article>, categories: seq<Category>, links: set<(int, int)>,
                       now: int, days: int, minArticles: int, here: seq<Trend>, rest: seq<Trend>)
    requires categories != []
    requires here == if Qualifies(articles, links, categories[0], now, days, minArticles)
                     then [TrendOf(articles, links, categories[0], now, days)] else []
    requires OnlyQualifying(rest, articles, categories[1..], links, now, days, minArticles)
    requires AllQualifying(rest, articles, categories[1..], links, now, days, minArticles)
    ensures OnlyQualifying(here + rest, articles, categories, links, now, days, minArticles)
    ensures AllQualifying(here + rest, articles, categories, links, now, days, minArticles)
  {
    var q := Qualifies(articles, links, categories[0], now, days, minArticles);
    var t := TrendOf(articles, links, categories[0], now, days);
    OnlyQualifyingStep(articles, categories, links, now, days, minArticles, q, t, here, rest);
    AllQualifyingStep(articles, categories, links, now, days, minArticles, q, t, here, rest);
  }

  lemma {:induction false} OnlyQualifyingStep(articles: seq<Article>, categories: seq<Category>, links: set<(int, int)>,
                           now: int, days: int, minArticles: int, q: bool, t: Trend, here: seq<Trend>, rest: seq<Trend>)
    requires categories != []
    requires q == Qualifies(articles, links, categories[0], now, days, minArticles)
    requires t == TrendOf(articles, links, categories[0], now, days)
    requires here == if q then [t] else []
    requires OnlyQualifying(rest, articles, categories[1..], links, now, days, minArticles)
    ensures OnlyQualifying(here + rest, articles, categories, links, now, days, minArticles)
  {
    var r := here + rest;
    forall k | 0 <= k < |r|
      ensures FromQualifying(r[k], articles, categories, links, now, days, minArticles)
    {
      if k < |here| {
        assert r[k] == t && categories[0] in categories;
      } else {
        assert r[k] == rest[k - |here|];
        FromQualifyingWider(r[k], articles, categories, links, now, days, minArticles);
      }
    }
  }

  lemma {:induction false} FromQualifyingWider(t: Trend, articles: seq<Article>, categories: seq<Category>, links: set<(int, int)>,
                            now: int, days: int, minArticles: int)
    requires categories != []
    requires FromQualifying(t, articles, categories[1..], links, now, days, minArticles)
    ensures FromQualifying(t, articles, categories, links, now, days, minArticles)
  {
    var c :| c in categories[1..] && Qualifies(articles, links, c, now, days, minArticles)
             && t == TrendOf(articles, links, c, now, days);
    assert c in categories;
  }

  lemma {:induction false} AllQualifyingStep(articles: seq<Article>, categories: seq<Category>, links: set<(int, int)>,
                          now: int, days: int, minArticles: int, q: bool, t: Trend, here: seq<Trend>, rest: seq<Trend>)
    requires categories != []
    requires q == Qualifies(articles, links, categories[0], now, days, minArticles)
    requires t == TrendOf(articles, links, categories[0], now, days)
    requires here == if q then [t] else []
    requires AllQualifying(rest, articles, categories[1..], links, now, days, minArticles)
    ensures AllQualifying(here + rest, articles, categories, links, now, days, minArticles)
  {
    var r := here + rest;
    forall k | 0 <= k < |categories| && Qualifies(articles, links, categories[k], now, days, minArticles)
      ensures TrendOf(articles, links, categories[k], now, days) in r
    {
      if k > 0 {
        assert categories[k] == categories[1..][k - 1];
        assert TrendOf(articles, links, categories[k], now, days) in rest;
      } else {
        assert r[0] == t;
      }
    }
  }

  function AbsVelocity(t: Trend): real {
    if t.velocity < 0.0 then -t.velocity else t.velocity
  }

  /** `analyze_topic_trends`: the reported categories, largest change
      first. */
  function AnalyzeTopicTrends(articles: seq<Article>, categories: seq<Category>, links: set<(int, int)>,
                              now: int, days: int, minArticles: int): (r: seq<Trend>)
    ensures Sorting.SortedDesc(r, AbsVelocity)
    ensures multiset(r) == multiset(Candidates(articles, categories, links, now, days, minArticles))
    ensures |r| == |Qualifying(articles, categories, links, now, days, minArticles)|
    ensures OnlyQualifying(r, articles, categories, links, now, days, minArticles)
    ensures AllQualifying(r, articles, categories, links, now, days, minArticles)
  {
    var cands := Candidates(articles, categories, links, now, days, minArticles);
    var r := Sorting.SortDesc(cands, AbsVelocity);
    Sorting.InSameMultiset(r, cands);
    Sorting.InSameMultiset(cands, r);
    r
  }

  /** Every reported trend has a recent article, at least the minimum
      number of articles, and a direction that agrees with its counts. */
  lemma {:induction false} TrendFacts(articles: seq<Article>, categories: seq<Category>, links: set<(int, int)>,
                   now: int, days: int, minArticles: int, k: nat)
    requires days >= 0 && k < |AnalyzeTopicTrends(articles, categories, links, now, days, minArticles)|
    ensures var t := AnalyzeTopicTrends(articles, categories, links, now, days, minArticles)[k];
            && t.recent > 0 && t.total >= minArticles && 0.0 <= t.confidence <= 1.0
            && (t.direction == Rising <==> 5 * t.recent > 6 * t.previous)
            && (t.direction == Falling <==> 5 * t.recent < 4 * t.previous)
            && exists c :: c in categories && t.categoryId == c.id
                           && t.total == Count(articles, links, c.id, Since(now, days), None)
  {
    var t := AnalyzeTopicTrends(articles, categories, links, now, days, minArticles)[k];
    var c :| c in categories && Qualifies(articles, links, c, now, days, minArticles)
             && t == TrendOf(articles, links, c, now, days);
    DirectionByCounts(t.recent, t.previous);
    CountSplits(articles, links, c.id, Since(now, days), Midpoint(now, days), None);
  }

  // ---------------------------------------------------------------------
  // Emerging topics
  // ---------------------------------------------------------------------

  const EmergingMinArticles: int := 2
  const LatestPerTopic: nat := 5

  datatype Emerging = Emerging(trend: Trend, recentArticleCount: nat, latest: seq<Article>)

  predicate IsEmerging(t: Trend, minVelocity: real) {
    t.velocity >= minVelocity && t.direction == Rising
  }

  /** The emerging test, as a value. */
  function EmergingTest(minVelocity: real): Trend -> bool {
    (t: Trend) => IsEmerging(t, minVelocity)
  }

  /** The list comprehension over the trends that keeps the emerging ones:
      every emerging trend exactly as often as it is listed, and nothing
      else. */
  function RisingFast(trends: seq<Trend>, minVelocity: real): (r: seq<Trend>)
    ensures forall k :: 0 <= k < |r| ==> r[k] in trends && IsEmerging(r[k], minVelocity)
    ensures forall k :: 0 <= k < |trends| && IsEmerging(trends[k], minVelocity) ==> trends[k] in r
    ensures forall t :: multiset(r)[t] == if IsEmerging(t, minVelocity) then multiset(trends)[t] else 0
  {
    WhereCount(trends, EmergingTest(minVelocity));
    Where(trends, EmergingTest(minVelocity))
  }

  /** The comprehension keeps the listed order: a single trend stays when
      it is emerging, and two lists one after the other are filtered one
      after the other. */
  lemma {:induction false} RisingFastInOrder(a: seq<Trend>, b: seq<Trend>, minVelocity: real)
    ensures RisingFast(a + b, minVelocity) == RisingFast(a, minVelocity) + RisingFast(b, minVelocity)
    ensures forall t :: RisingFast([t], minVelocity) == if IsEmerging(t, minVelocity) then [t] else []
  {
    WhereAppend(a, b, EmergingTest(minVelocity));
    forall t ensures RisingFast([t], minVelocity) == if IsEmerging(t, minVelocity) then [t] else [] {
      WhereCons([t], EmergingTest(minVelocity));
      assert [t][1..] == [];
    }
  }

  /** The articles filed under a category, in table order: the rows of
      the join of articles with that category. */
  function FiledUnder(articles: seq<Article>, links: set<(int, int)>, category: int): (r: seq<Article>)
    ensures forall k :: 0 <= k < |r| ==> r[k] in articles && (r[k].id, category) in links
    ensures forall k :: 0 <= k < |articles| && (articles[k].id, category) in links ==> articles[k] in r
  {
    Where(articles, (a: Article) => (a.id, category) in links)
  }

  function CreatedTime(a: Article): real {
    a.createdAt as real
  }

  /** The newest articles of a category: five of them, or all when fewer
      are filed, newest first, none twice, and none left out is newer than
      one kept. */
  function Latest(articles: seq<Article>, links: set<(int, int)>, category: int): (r: seq<Article>)
    ensures var filed := FiledUnder(articles, links, category);
            && |r| == (if |filed| <= LatestPerTopic then |filed| else LatestPerTopic)
            && Sorting.SortedDesc(r, CreatedTime)
            && multiset(r) <= multiset(filed)
            && (forall k :: 0 <= k < |r| ==> r[k] in articles && (r[k].id, category) in links)
            && (forall k, m :: 0 <= k < |filed| && filed[k] !in r && 0 <= m < |r| ==>
                                 filed[k].createdAt <= r[m].createdAt)
  {
    var filed := FiledUnder(articles, links, category);
    Sorting.TopNMeaning(filed, CreatedTime, LatestPerTopic);
    Sorting.TopN(filed, CreatedTime, LatestPerTopic)
  }

  /** Each trend with its category's newest articles and their number. */
  function WithLatest(articles: seq<Article>, links: set<(int, int)>, trends: seq<Trend>): (r: seq<Emerging>)
    ensures |r| == |trends|
    ensures TrendsOf(r) == trends
    ensures forall k :: 0 <= k < |r| ==>
              && r[k].trend == trends[k]
              && r[k].latest == Latest(articles, links, trends[k].categoryId)
              && r[k].recentArticleCount == |r[k].latest| <= LatestPerTopic
  {
    seq(|trends|, k requires 0 <= k < |trends| =>
      var latest := Latest(articles, links, trends[k].categoryId);
      Emerging(trends[k], |latest|, latest))
  }

  /** `detect_emerging_topics`: the trends over the window, with a
      minimum of two articles, that rise at least as fast as asked, each
      with its five newest articles. */
  function DetectEmergingTopics(articles: seq<Article>, categories: seq<Category>, links: set<(int, int)>,
                                now: int, days: int, minVelocity: real): (r: seq<Emerging>)
    ensures forall k :: 0 <= k < |r| ==>
              && r[k].trend in AnalyzeTopicTrends(articles, categories, links, now, days, EmergingMinArticles)
              && IsEmerging(r[k].trend, minVelocity)
              && r[k].recentArticleCount == |r[k].latest| <= LatestPerTopic
    ensures forall t :: t in AnalyzeTopicTrends(articles, categories, links, now, days, EmergingMinArticles)
                        && IsEmerging(t, minVelocity) ==>
              exists k :: 0 <= k < |r| && r[k].trend == t
    ensures var all := AnalyzeTopicTrends(articles, categories, links, now, days, EmergingMinArticles);
            && TrendsOf(r) == RisingFast(all, minVelocity)
            && forall t :: multiset(TrendsOf(r))[t] == if IsEmerging(t, minVelocity) then multiset(all)[t] else 0
  {
    EmergingFrom(articles, links, AnalyzeTopicTrends(articles, categories, links, now, days, EmergingMinArticles), minVelocity)
  }

  /** The trends of a list of emerging topics, in order. */
  function TrendsOf(r: seq<Emerging>): (ts: seq<Trend>)
    ensures |ts| == |r| && forall k :: 0 <= k < |r| ==> ts[k] == r[k].trend
  {
    seq(|r|, k requires 0 <= k < |r| => r[k].trend)
  }

  /** The emerging topics among the given trends, in order: the trends
      are those the comprehension keeps, each emerging trend as often as
      it is listed. */
  function EmergingFrom(articles: seq<Article>, links: set<(int, int)>, trends: seq<Trend>, minVelocity: real): (r: seq<Emerging>)
    ensures forall k :: 0 <= k < |r| ==>
              && r[k].trend in trends && IsEmerging(r[k].trend, minVelocity)
              && r[k].recentArticleCount == |r[k].latest| <= LatestPerTopic
    ensures forall t :: t in trends && IsEmerging(t, minVelocity) ==> exists k :: 0 <= k < |r| && r[k].trend == t
    ensures TrendsOf(r) == RisingFast(trends, minVelocity)
    ensures forall t :: multiset(TrendsOf(r))[t] == if IsEmerging(t, minVelocity) then multiset(trends)[t] else 0
  {
    var fast := RisingFast(trends, minVelocity);
    var r := WithLatest(articles, links, fast);
    EmergingFacts(trends, minVelocity, r);
    r
  }

  lemma {:induction false} EmergingFacts(trends: seq<Trend>, minVelocity: real, r: seq<Emerging>)
    requires TrendsOf(r) == RisingFast(trends, minVelocity)
    ensures forall k :: 0 <= k < |r| ==> r[k].trend in trends && IsEmerging(r[k].trend, minVelocity)
    ensures forall t :: t in trends && IsEmerging(t, minVelocity) ==> exists k :: 0 <= k < |r| && r[k].trend == t
  {
    var fast := RisingFast(trends, minVelocity);
    forall k | 0 <= k < |r|
      ensures r[k].trend in trends && IsEmerging(r[k].trend, minVelocity)
    {
      assert r[k].trend == fast[k];
    }
    forall t | t in trends && IsEmerging(t, minVelocity) ensures exists k :: 0 <= k < |r| && r[k].trend == t {
      var j :| 0 <= j < |trends| && trends[j] == t;
      assert t in fast;
      var k :| 0 <= k < |fast| && fast[k] == t;
      assert r[k].trend == t;
    }
  }

  /** Emerging topics rise by more than a fifth, whatever the requested
      minimum velocity. */
  lemma {:induction false} EmergingRisesByAFifth(articles: seq<Article>, categories: seq<Category>, links: set<(int, int)>,
                              now: int, days: int, minVelocity: real, k: nat)
    requires k < |DetectEmergingTopics(articles, categories, links, now, days, minVelocity)|
    ensures var t := DetectEmergingTopics(articles, categories, links, now, days, minVelocity)[k].trend;
            && t.velocity >= minVelocity && t.velocity > 20.0
            && 5 * t.recent > 6 * t.previous && t.total >= EmergingMinArticles
  {
    var all := AnalyzeTopicTrends(articles, categories, links, now, days, EmergingMinArticles);
    var t := DetectEmergingTopics(articles, categories, links, now, days, minVelocity)[k].trend;
    var c :| c in categories && Qualifies(articles, links, c, now, days, EmergingMinArticles)
             && t == TrendOf(articles, links, c, now, days);
    DirectionByCounts(t.recent, t.previous);
  }

  // ---------------------------------------------------------------------
  // Forecast
  // ---------------------------------------------------------------------

  const MinHistoryDays: nat := 7

  function Sum(s: seq<real>): real {
    if s == [] then 0.0 else Sum(s[..|s| - 1]) + s[|s| - 1]
  }

  function Mean(s: seq<real>): real
    requires |s| > 0
  {
    Sum(s) / |s| as real
  }

  /** The day numbers 0, 1, ..., n - 1. */
  function Days(n: nat): (r: seq<real>)
    ensures |r| == n && forall i :: 0 <= i < n ==> r[i] == i as real
  {
    seq(n, i => i as real)
  }

  function Volumes(counts: seq<nat>): (r: seq<real>)
    ensures |r| == |counts| && forall i :: 0 <= i < |r| ==> r[i] == counts[i] as real
  {
    seq(|counts|, i requires 0 <= i < |counts| => counts[i] as real)
  }

  /** `f(0) + f(1) + ... + f(n - 1)`: Python's `sum` over a generator. */
  function SumOf(f: nat -> real, n: nat): real {
    if n == 0 then 0.0 else SumOf(f, n - 1) + f(n - 1)
  }

  /** The product of the deviations of the `i`-th point from the two means. */
  function CrossTerm(xs: seq<real>, ys: seq<real>, xm: real, ym: real): nat -> real
    requires |xs| == |ys|
  {
    (i: nat) => if i < |xs| then (xs[i] - xm) * (ys[i] - ym) else 0.0
  }

  /** The sum of the products of the deviations from the two means. */
  function CrossDeviation(xs: seq<real>, ys: seq<real>, xm: real, ym: real): real
    requires |xs| == |ys|
  {
    SumOf(CrossTerm(xs, ys, xm, ym), |xs|)
  }

  function Square(d: real): (r: real)
    ensures r >= 0.0
  {
    if d < 0.0 then (-d) * (-d) else d * d
  }

  /** The squared deviation of the `i`-th point from the mean. */
  function SquareTerm(xs: seq<real>, xm: real): nat -> real {
    (i: nat) => if i < |xs| then Square(xs[i] - xm) else 0.0
  }

  /** The sum of the squared deviations from the mean. */
  function SquaredDeviation(xs: seq<real>, xm: real): (r: real)
    ensures r >= 0.0
  {
    SumNonNegative(SquareTerm(xs, xm), |xs|);
    SumOf(SquareTerm(xs, xm), |xs|)
  }

  /** A sum of non-negative terms is at least its first term. */
  lemma {:induction false} SumNonNegative(f: nat -> real, n: nat)
    requires forall i :: 0 <= i < n ==> f(i) >= 0.0
    ensures SumOf(f, n) >= 0.0
    ensures n >= 1 ==> SumOf(f, n) >= f(0)
  {
    if n > 0 {
      SumNonNegative(f, n - 1);
    }
  }

  /** Multiplying every term by `b` multiplies the sum by `b`. */
  lemma {:induction false} SumScale(f: nat -> real, g: nat -> real, b: real, n: nat)
    requires forall i :: 0 <= i < n ==> f(i) == b * g(i)
    ensures SumOf(f, n) == b * SumOf(g, n)
  {
    if n > 0 {
      SumScale(f, g, b, n - 1);
      Distribute(b, SumOf(g, n - 1), g(n - 1), SumOf(g, n));
    }
  }

  lemma {:induction false} Distribute(b: real, u: real, v: real, w: real)
    requires w == u + v
    ensures b * w == b * u + b * v
  {
  }

  /** The least-squares slope of the counts against their day numbers; a
      zero denominator gives a flat line. */
  function Slope(counts: seq<nat>): real
    requires |counts| > 0
  {
    var xs := Days(|counts|);
    var ys := Volumes(counts);
    var den := SquaredDeviation(xs, Mean(xs));
    if den == 0.0 then 0.0 else CrossDeviation(xs, ys, Mean(xs), Mean(ys)) / den
  }

  function Intercept(counts: seq<nat>): real
    requires |counts| > 0
  {
    Mean(Volumes(counts)) - Slope(counts) * Mean(Days(|counts|))
  }

  datatype SlopeDirection = Increasing | Decreasing | Flat

  function SlopeDirectionOf(slope: real): (d: SlopeDirection)
    ensures d == Increasing <==> slope > 0.5
    ensures d == Decreasing <==> slope < -0.5
  {
    if slope > 0.5 then Increasing else if slope < -0.5 then Decreasing else Flat
  }

  datatype Prediction = Prediction(volume: real, confidence: real)

  datatype ForecastResult =
    | Insufficient(categoryId: int, error: string)
    | Forecast(categoryId: int, historicalDays: nat, direction: SlopeDirection, slope: real, average: real,
               forecastDays: int, predictions: seq<Prediction>, history: seq<nat>)

  function PredictionAt(counts: seq<nat>, forecastDays: int, i: nat): (p: Prediction)
    requires |counts| > 0 && i < forecastDays
    ensures p.volume >= 0.0
    ensures 0.3 <= p.confidence <= 1.0 && p.confidence > 0.5
  {
    var line := Slope(counts) * (|counts| + i) as real + Intercept(counts);
    var fraction := i as real / forecastDays as real;
    assert 0.0 <= fraction < 1.0;
    var c := 1.0 - fraction * 0.5;
    Prediction(if line > 0.0 then line else 0.0, if c > 0.3 then c else 0.3)
  }

  /** `forecast_category_volume` on the category's per-day article counts
      over the last thirty days (days without articles have no entry):
      fewer than seven such days is an error; otherwise the regression
      line continued for `forecastDays` days, never below zero, with a
      confidence that falls from 1 as the forecast reaches further. */
  function ForecastCategoryVolume(categoryId: int, counts: seq<nat>, forecastDays: int): (r: ForecastResult)
    ensures r.categoryId == categoryId
    ensures r.Insufficient? <==> |counts| < MinHistoryDays
    ensures r.Insufficient? ==> r.error == "Insufficient historical data (need at least 7 days)"
    ensures r.Forecast? ==>
              && r.historicalDays == |counts|
              && r.slope == Slope(counts) && r.direction == SlopeDirectionOf(r.slope)
              && r.average == Mean(Volumes(counts))
              && |r.predictions| == (if forecastDays > 0 then forecastDays else 0)
              && (forall i :: 0 <= i < |r.predictions| ==>
                    && r.predictions[i].volume >= 0.0
                    && 0.3 <= r.predictions[i].confidence <= 1.0)
              && (forall i, j :: 0 <= i <= j < |r.predictions| ==> r.predictions[i].confidence >= r.predictions[j].confidence)
              && (forall i :: 0 <= i < |r.predictions| ==> r.predictions[i] == PredictionAt(counts, forecastDays, i))
              && r.history == counts[|counts| - MinHistoryDays..]
  {
    if |counts| < MinHistoryDays then Insufficient(categoryId, "Insufficient historical data (need at least 7 days)")
    else
      var horizon := if forecastDays > 0 then forecastDays else 0;
      var predictions := seq(horizon, i requires 0 <= i < horizon => PredictionAt(counts, forecastDays, i));
      assert forall i, j :: 0 <= i <= j < horizon ==> predictions[i].confidence >= predictions[j].confidence by {
        forall i, j | 0 <= i <= j < horizon ensures predictions[i].confidence >= predictions[j].confidence {
          DivMono(i as real, j as real, forecastDays as real);
        }
      }
      Forecast(categoryId, |counts|, SlopeDirectionOf(Slope(counts)), Slope(counts), Mean(Volumes(counts)),
               forecastDays, predictions, counts[|counts| - MinHistoryDays..])
  }

  lemma {:induction false} DivMono(x: real, y: real, d: real)
    requires x <= y && d > 0.0
    ensures x / d <= y / d
  {
    assert y / d - x / d == (y - x) / d;
  }

  lemma {:induction false} ScaleMono(x: real, y: real, k: real)
    requires x <= y && k >= 0.0
    ensures x * k <= y * k
  {
  }

  /** The zero-denominator guard never fires on a forecast: with two days
      or more, the day numbers are not all equal. */
  lemma {:induction false} SlopeDenominatorPositive(n: nat)
    requires n >= 2
    ensures SquaredDeviation(Days(n), Mean(Days(n))) > 0.0
  {
    DaysSum(n);
    var xm := Mean(Days(n));
    assert xm == (n - 1) as real / 2.0;
    SquaredAtLeastFirst(Days(n), xm);
  }

  lemma {:induction false} DaysSum(n: nat)
    ensures Sum(Days(n)) * 2.0 == (n * (n - 1)) as real
  {
    if n > 0 {
      assert Sum(Days(n)) == Sum(Days(n - 1)) + (n - 1) as real by {
        assert Days(n)[..n - 1] == Days(n - 1);
      }
      DaysSum(n - 1);
      assert (n - 1) * (n - 2) + 2 * (n - 1) == n * (n - 1);
    }
  }

  lemma {:induction false} SquaredAtLeastFirst(xs: seq<real>, xm: real)
    requires |xs| >= 1
    ensures SquaredDeviation(xs, xm) >= Square(xs[0] - xm)
  {
    SumNonNegative(SquareTerm(xs, xm), |xs|);
  }

  /** Counts that lie on a line `a + b * day` are fitted exactly: the slope
      is `b`, the intercept `a`, and the forecast continues the line
      (floored at zero). */
  lemma {:induction false} LinearSeriesForecast(counts: seq<nat>, a: real, b: real, forecastDays: int)
    requires |counts| >= MinHistoryDays
    requires forall i :: 0 <= i < |counts| ==> counts[i] as real == a + b * i as real
    ensures Slope(counts) == b && Intercept(counts) == a
    ensures var r := ForecastCategoryVolume(0, counts, forecastDays);
            forall i :: 0 <= i < |r.predictions| ==>
              r.predictions[i].volume == MaxR(a + b * (|counts| + i) as real, 0.0)
  {
    LinearSlope(counts, a, b);
    ForecastOnLine(counts, forecastDays, a, b);
  }

  lemma {:induction false} ForecastOnLine(counts: seq<nat>, forecastDays: int, a: real, b: real)
    requires |counts| >= MinHistoryDays
    requires Slope(counts) == b && Intercept(counts) == a
    ensures var r := ForecastCategoryVolume(0, counts, forecastDays);
            forall i :: 0 <= i < |r.predictions| ==>
              r.predictions[i].volume == MaxR(a + b * (|counts| + i) as real, 0.0)
  {
    var r := ForecastCategoryVolume(0, counts, forecastDays);
    forall i | 0 <= i < |r.predictions|
      ensures r.predictions[i].volume == MaxR(a + b * (|counts| + i) as real, 0.0)
    {
      PredictionOnLine(counts, forecastDays, i, a, b);
    }
  }

  lemma {:induction false} PredictionOnLine(counts: seq<nat>, forecastDays: int, i: nat, a: real, b: real)
    requires |counts| > 0 && i < forecastDays
    requires Slope(counts) == b && Intercept(counts) == a
    ensures PredictionAt(counts, forecastDays, i).volume == MaxR(a + b * (|counts| + i) as real, 0.0)
  {
  }

  lemma {:induction false} LinearSlope(counts: seq<nat>, a: real, b: real)
    requires |counts| >= MinHistoryDays
    requires forall i :: 0 <= i < |counts| ==> counts[i] as real == a + b * i as real
    ensures Slope(counts) == b && Intercept(counts) == a
  {
    var n := |counts|;
    var xs := Days(n);
    var ys := Volumes(counts);
    var xm := Mean(xs);
    LinearFit(counts, a, b);
    SlopeDenominatorPositive(n);
    var den := SquaredDeviation(xs, xm);
    DivideOut(b, den);
    assert Slope(counts) == b;
  }

  /** The least-squares sums of the points agree with the line `a + b*x`:
      the mean of `ys` is on the line at the mean of `xs`, and the cross
      deviation is `b` times the squared deviation. */
  predicate Fits(xs: seq<real>, ys: seq<real>, a: real, b: real)
    requires |xs| == |ys| && |xs| >= 1
  {
    && Mean(ys) == a + b * Mean(xs)
    && CrossDeviation(xs, ys, Mean(xs), Mean(ys)) == b * SquaredDeviation(xs, Mean(xs))
  }

  /** On a line, the cross deviation is the slope times the squared
      deviation, and the mean count is on the line. */
  lemma {:induction false} LinearFit(counts: seq<nat>, a: real, b: real)
    requires |counts| >= 1
    requires forall i :: 0 <= i < |counts| ==> counts[i] as real == a + b * i as real
    ensures Fits(Days(|counts|), Volumes(counts), a, b)
  {
    CountsOnLine(counts, a, b);
    FitOnLine(Days(|counts|), Volumes(counts), a, b);
  }

  /** Points on a line have their mean on the line, and their cross
      deviation is the slope times their squared deviation. */
  lemma {:induction false} FitOnLine(xs: seq<real>, ys: seq<real>, a: real, b: real)
    requires OnLine(xs, ys, a, b) && |xs| >= 1
    ensures Fits(xs, ys, a, b)
  {
    MeanLinear(xs, ys, a, b);
    var xm, ym := Mean(xs), Mean(ys);
    CrossLinear(xs, ys, xm, a, b);
    CrossAtSameMean(xs, ys, xm, ym, a + b * xm);
  }

  lemma {:induction false} CrossAtSameMean(xs: seq<real>, ys: seq<real>, xm: real, ym: real, ym': real)
    requires |xs| == |ys| && ym == ym'
    ensures CrossDeviation(xs, ys, xm, ym) == CrossDeviation(xs, ys, xm, ym')
  {
  }

  /** Each point `(x, y)` lies on the line `y = a + b * x`. */
  predicate OnLine(xs: seq<real>, ys: seq<real>, a: real, b: real) {
    && |xs| == |ys|
    && (ys != [] ==> OnLine(xs[..|xs| - 1], ys[..|ys| - 1], a, b) && ys[|ys| - 1] == a + b * xs[|xs| - 1])
  }

  lemma {:induction false} CountsOnLine(counts: seq<nat>, a: real, b: real)
    requires forall i :: 0 <= i < |counts| ==> counts[i] as real == a + b * i as real
    ensures OnLine(Days(|counts|), Volumes(counts), a, b)
  {
    if counts != [] {
      var n := |counts|;
      CountsOnLine(counts[..n - 1], a, b);
      assert Days(n)[..n - 1] == Days(n - 1);
      assert Volumes(counts)[..n - 1] == Volumes(counts[..n - 1]);
    }
  }

  lemma {:induction false} DivideOut(b: real, d: real)
    requires d != 0.0
    ensures b * d / d == b
  {
  }

  lemma {:induction false} MeanLinear(xs: seq<real>, ys: seq<real>, a: real, b: real)
    requires OnLine(xs, ys, a, b) && |ys| > 0
    ensures Mean(ys) == a + b * Mean(xs)
  {
    SumLinear(xs, ys, a, b);
    var n := |ys| as real;
    assert Sum(ys) == a * n + b * Sum(xs);
    assert (a * n + b * Sum(xs)) / n == a + b * (Sum(xs) / n);
  }

  lemma {:induction false} SumLinear(xs: seq<real>, ys: seq<real>, a: real, b: real)
    requires OnLine(xs, ys, a, b)
    ensures Sum(ys) == a * |ys| as real + b * Sum(xs)
  {
    if ys != [] {
      SumLinear(xs[..|xs| - 1], ys[..|ys| - 1], a, b);
    }
  }

  lemma {:induction false} CrossLinear(xs: seq<real>, ys: seq<real>, xm: real, a: real, b: real)
    requires OnLine(xs, ys, a, b)
    ensures CrossDeviation(xs, ys, xm, a + b * xm) == b * SquaredDeviation(xs, xm)
  {
    var f, g := CrossTerm(xs, ys, xm, a + b * xm), SquareTerm(xs, xm);
    forall i | 0 <= i < |xs| ensures f(i) == b * g(i) {
      PointOnLine(xs, ys, a, b, i);
      TermOnLine(xs[i], ys[i], xm, a, b);
    }
    SumScale(f, g, b, |xs|);
    ScaleEqual(b, SumOf(g, |xs|), SquaredDeviation(xs, xm));
  }

  lemma {:induction false} ScaleEqual(b: real, u: real, v: real)
    requires u == v
    ensures b * u == b * v
  {
  }

  /** Each point of a line satisfies its equation. */
  lemma {:induction false} PointOnLine(xs: seq<real>, ys: seq<real>, a: real, b: real, i: nat)
    requires OnLine(xs, ys, a, b) && i < |xs|
    ensures ys[i] == a + b * xs[i]
  {
    if i < |xs| - 1 {
      PointOnLine(xs[..|xs| - 1], ys[..|ys| - 1], a, b, i);
    }
  }

  lemma {:induction false} TermOnLine(x: real, y: real, xm: real, a: real, b: real)
    requires y == a + b * x
    ensures (x - xm) * (y - (a + b * xm)) == b * Square(x - xm)
  {
    assert y - (a + b * xm) == b * (x - xm);
  }

  // ---------------------------------------------------------------------
  // Momentum
  // ---------------------------------------------------------------------

  function MinR(a: real, b: real): real { if a < b then a else b }
  function MaxR(a: real, b: real): real { if a > b then a else b }

  /** The percentage change between two consecutive periods, dividing by
      at least one. */
  function PeriodVelocity(before: nat, after: nat): real {
    (after as real - before as real) / (if before > 1 then before else 1) as real * 100.0
  }

  datatype Momentum = Momentum(score: real, volume: nat, velocity: real, acceleration: real,
                               oldest: nat, middle: nat, recent: nat, windowDays: int)

  /** The score of three consecutive period counts: up to 40 points for the
      recent volume (full at ten articles), up to 40 for the recent velocity
      (full at +100%) and up to 20 for the acceleration (full at +50
      points). */
  function MomentumScore(c1: nat, c2: nat, c3: nat): (s: real)
    ensures 0.0 <= s <= 100.0
    ensures s == 100.0 <==> c3 >= 10 && PeriodVelocity(c2, c3) >= 100.0
                            && PeriodVelocity(c2, c3) - PeriodVelocity(c1, c2) >= 50.0
  {
    var v2 := PeriodVelocity(c2, c3);
    var acceleration := v2 - PeriodVelocity(c1, c2);
    var volumeScore := MinR(c3 as real / 10.0, 1.0) * 40.0;
    var velocityScore := MinR(MaxR(v2, 0.0) / 100.0, 1.0) * 40.0;
    var accelerationScore := MinR(MaxR(acceleration, 0.0) / 50.0, 1.0) * 20.0;
    volumeScore + velocityScore + accelerationScore
  }

  /** More recent articles never lower the momentum score. */
  lemma {:induction false} MomentumMonotone(c1: nat, c2: nat, c3: nat, c3': nat)
    requires c3 <= c3'
    ensures MomentumScore(c1, c2, c3) <= MomentumScore(c1, c2, c3')
  {
    var d := (if c2 > 1 then c2 else 1) as real;
    DivMono(c3 as real - c2 as real, c3' as real - c2 as real, d);
    ScaleMono((c3 as real - c2 as real) / d, (c3' as real - c2 as real) / d, 100.0);
  }

  /** `calculate_topic_momentum`: the three consecutive windows of
      `windowDays` days ending now, each counted from its start up to
      (not including) its end. */
  function CalculateTopicMomentum(articles: seq<Article>, links: set<(int, int)>, category: int, now: int, windowDays: int): (m: Momentum)
    ensures 0.0 <= m.score <= 100.0
    ensures m.volume == m.recent && m.windowDays == windowDays
    ensures m.score == MomentumScore(m.oldest, m.middle, m.recent)
    ensures m.velocity == PeriodVelocity(m.middle, m.recent)
    ensures m.acceleration == m.velocity - PeriodVelocity(m.oldest, m.middle)
    ensures var w := windowDays * SecondsPerDay;
            && m.oldest == Count(articles, links, category, now - 3 * w, Some(now - 2 * w))
            && m.middle == Count(articles, links, category, now - 2 * w, Some(now - w))
            && m.recent == Count(articles, links, category, now - w, Some(now))
  {
    var w := windowDays * SecondsPerDay;
    var c1 := Count(articles, links, category, now - 3 * w, Some(now - 2 * w));
    var c2 := Count(articles, links, category, now - 2 * w, Some(now - w));
    var c3 := Count(articles, links, category, now - w, Some(now));
    var v2 := PeriodVelocity(c2, c3);
    Momentum(MomentumScore(c1, c2, c3), c3, v2, v2 - PeriodVelocity(c1, c2), c1, c2, c3, windowDays)
  }

  /** The three windows cover the last `3 * windowDays` days without gap
      or overlap: their counts add up to the count over that span. */
  lemma {:induction false} MomentumWindowsPartition(articles: seq<Article>, links: set<(int, int)>, category: int, now: int, windowDays: int)
    requires windowDays >= 0
    ensures var m := CalculateTopicMomentum(articles, links, category, now, windowDays);
            m.oldest + m.middle + m.recent
            == Count(articles, links, category, now - 3 * windowDays * SecondsPerDay, Some(now))
  {
    var w := windowDays * SecondsPerDay;
    assert 3 * windowDays * SecondsPerDay == 3 * w;
    CountSplits(articles, links, category, now - 2 * w, now - w, Some(now));
    CountSplits(articles, links, category, now - 3 * w, now - 2 * w, Some(now));
  }

  // ---------------------------------------------------------------------
  // Dashboard summary
  // ---------------------------------------------------------------------

  const TopTrends: nat := 10
  const TopEmerging: nat := 5
  const TopHot: nat := 5
  const HotMomentum: real := 30.0
  const SummaryMinVelocity: real := 50.0
  const MomentumWindowDays: int := 7

  datatype Hot = Hot(trend: Trend, score: real)

  function HotScore(h: Hot): real { h.score }

  /** The momentum score a trend's category has over weekly windows. */
  function MomentumOf(articles: seq<Article>, links: set<(int, int)>, now: int, t: Trend): real {
    CalculateTopicMomentum(articles, links, t.categoryId, now, MomentumWindowDays).score
  }

  /** The momentum of each trend, as a value. */
  function MomentumFn(articles: seq<Article>, links: set<(int, int)>, now: int): Trend -> real {
    (t: Trend) => MomentumOf(articles, links, now, t)
  }

  /** The test "score above 30", as a value. */
  function AboveTest(score: Trend -> real): Trend -> bool {
    (t: Trend) => score(t) > HotMomentum
  }

  /** The hot test, as a value: momentum over weekly windows above 30. */
  function HotTest(articles: seq<Article>, links: set<(int, int)>, now: int): Trend -> bool {
    AboveTest(MomentumFn(articles, links, now))
  }

  /** The trends of a list of hot topics, in order. */
  function HotTrends(r: seq<Hot>): (ts: seq<Trend>)
    ensures |ts| == |r| && forall k :: 0 <= k < |r| ==> ts[k] == r[k].trend
  {
    seq(|r|, k requires 0 <= k < |r| => r[k].trend)
  }

  /** The hot loop for a given score: it appends, in the listed order,
      exactly the trends scoring above 30, each with its score. */
  function HotBy(trends: seq<Trend>, score: Trend -> real): (r: seq<Hot>)
    ensures HotTrends(r) == Where(trends, AboveTest(score))
    ensures forall k :: 0 <= k < |r| ==> r[k].score == score(r[k].trend)
  {
    if trends == [] then []
    else
      var t := trends[|trends| - 1];
      var rest := HotBy(trends[..|trends| - 1], score);
      var r := if score(t) > HotMomentum then rest + [Hot(t, score(t))] else rest;
      HotByInOrder(trends, score, rest, r);
      assert forall k :: 0 <= k < |r| ==> r[k].score == score(r[k].trend) by {
        if score(t) > HotMomentum {
          assert forall m :: 0 <= m < |rest| ==> r[m] == rest[m];
        }
      }
      r
  }

  lemma {:induction false} HotByInOrder(trends: seq<Trend>, score: Trend -> real, rest: seq<Hot>, r: seq<Hot>)
    requires trends != []
    requires HotTrends(rest) == Where(trends[..|trends| - 1], AboveTest(score))
    requires var t := trends[|trends| - 1];
             r == if score(t) > HotMomentum then rest + [Hot(t, score(t))] else rest
    ensures HotTrends(r) == Where(trends, AboveTest(score))
  {
    var t := trends[|trends| - 1];
    WhereSnoc(trends, AboveTest(score));
    if score(t) > HotMomentum {
      assert HotTrends(r) == HotTrends(rest) + [t];
    }
  }

  /** What a hot list means, read off its trends and scores: only listed
      trends above 30, every listed trend above 30, each as often as it is
      listed. */
  lemma {:induction false} HotMembers(trends: seq<Trend>, score: Trend -> real, r: seq<Hot>)
    requires HotTrends(r) == Where(trends, AboveTest(score))
    requires forall k :: 0 <= k < |r| ==> r[k].score == score(r[k].trend)
    ensures |r| <= |trends|
    ensures forall k :: 0 <= k < |r| ==> r[k].trend in trends && r[k].score > HotMomentum
    ensures forall k :: 0 <= k < |trends| && score(trends[k]) > HotMomentum ==>
              exists m :: 0 <= m < |r| && r[m].trend == trends[k]
    ensures forall t :: multiset(HotTrends(r))[t] == if score(t) > HotMomentum then multiset(trends)[t] else 0
  {
    var test := AboveTest(score);
    var w := Where(trends, test);
    forall k | 0 <= k < |r| ensures r[k].trend in trends && r[k].score > HotMomentum {
      assert r[k].trend == w[k] && test(w[k]);
    }
    forall k | 0 <= k < |trends| && score(trends[k]) > HotMomentum
      ensures exists m :: 0 <= m < |r| && r[m].trend == trends[k]
    {
      assert test(trends[k]);
      var m :| 0 <= m < |w| && w[m] == trends[k];
      assert r[m].trend == w[m];
    }
    WhereCount(trends, test);
  }

  /** Among the given trends, those whose momentum over weekly windows is
      above 30, in order: the loop appends exactly the trends the hot
      test accepts, in the listed order, each with its momentum, and each
      as often as it is listed. */
  function HotAmong(articles: seq<Article>, links: set<(int, int)>, now: int, trends: seq<Trend>): (r: seq<Hot>)
    ensures |r| <= |trends|
    ensures forall k :: 0 <= k < |r| ==> && r[k].trend in trends && r[k].score > HotMomentum
                                         && r[k].score == MomentumOf(articles, links, now, r[k].trend)
    ensures forall k :: 0 <= k < |trends| && MomentumOf(articles, links, now, trends[k]) > HotMomentum ==>
              exists m :: 0 <= m < |r| && r[m].trend == trends[k]
    ensures HotTrends(r) == Where(trends, HotTest(articles, links, now))
    ensures forall t :: multiset(HotTrends(r))[t] ==
              if MomentumOf(articles, links, now, t) > HotMomentum then multiset(trends)[t] else 0
  {
    var score := MomentumFn(articles, links, now);
    var r := HotBy(trends, score);
    HotMembers(trends, score, r);
    r
  }

  datatype Dashboard = Dashboard(
    periodDays: int,
    totalTrending: nat,
    emergingCount: nat,
    hotCount: nat,
    topTrends: seq<Trend>,
    emerging: seq<Emerging>,
    hot: seq<Hot>)

  /** `get_trending_summary`: the number of trending topics and the first
      ten of them, the number of emerging topics and the first five, and
      the number of hot topics (those of the ten top trends whose momentum
      is above 30) with the five of highest momentum, highest first. */
  function TrendingSummary(articles: seq<Article>, categories: seq<Category>, links: set<(int, int)>,
                           now: int, days: int): (s: Dashboard)
    ensures s.periodDays == days
    ensures var all := AnalyzeTopicTrends(articles, categories, links, now, days, 3);
            && s.totalTrending == |all|
            && s.topTrends == Text.Take(all, TopTrends)
    ensures var emerging := DetectEmergingTopics(articles, categories, links, now, days, SummaryMinVelocity);
            && s.emergingCount == |emerging|
            && s.emerging == Text.Take(emerging, TopEmerging)
    ensures s.totalTrending == |Qualifying(articles, categories, links, now, days, 3)|
    ensures s.hotCount == |HotAmong(articles, links, now, s.topTrends)|
    ensures s.hotCount == |Where(s.topTrends, HotTest(articles, links, now))|
    ensures s.hot == Ranked(HotAmong(articles, links, now, s.topTrends))
  {
    var all := AnalyzeTopicTrends(articles, categories, links, now, days, 3);
    var emerging := DetectEmergingTopics(articles, categories, links, now, days, SummaryMinVelocity);
    var top := Text.Take(all, TopTrends);
    var hot := HotAmong(articles, links, now, top);
    Dashboard(days, |all|, |emerging|, |hot|, top, Text.Take(emerging, TopEmerging), Ranked(hot))
  }

  /** The hot topics shown are the top of the hot list: five of them, or
      all when fewer; each is a top trend carrying its momentum, which is
      above 30; and a top trend above 30 that is not shown has momentum no
      higher than any shown one. */
  lemma {:induction false} SummaryHotIsTop(articles: seq<Article>, categories: seq<Category>, links: set<(int, int)>,
                                           now: int, days: int)
    ensures var s := TrendingSummary(articles, categories, links, now, days);
            && |s.hot| == (if s.hotCount <= TopHot then s.hotCount else TopHot)
            && HotShown(articles, links, now, s.topTrends, s.hot)
  {
    var s := TrendingSummary(articles, categories, links, now, days);
    HotIsTop(articles, links, now, s.topTrends);
  }

  /** `shown` holds top trends with their momentum, all above 30, and a
      trend of `top` above 30 that is not shown has momentum no higher
      than any shown one. */
  predicate HotShown(articles: seq<Article>, links: set<(int, int)>, now: int, top: seq<Trend>, shown: seq<Hot>) {
    && (forall k :: 0 <= k < |shown| ==>
          && shown[k].trend in top
          && shown[k].score == MomentumOf(articles, links, now, shown[k].trend) > HotMomentum)
    && (forall k, m :: 0 <= k < |top| && MomentumOf(articles, links, now, top[k]) > HotMomentum
                       && (forall j :: 0 <= j < |shown| ==> shown[j].trend != top[k])
                       && 0 <= m < |shown|
                       ==> MomentumOf(articles, links, now, top[k]) <= shown[m].score)
  }

  lemma {:induction false} HotIsTop(articles: seq<Article>, links: set<(int, int)>, now: int, top: seq<Trend>)
    ensures HotShown(articles, links, now, top, Ranked(HotAmong(articles, links, now, top)))
  {
    var hot := HotAmong(articles, links, now, top);
    var shown := Ranked(hot);
    forall k, m | 0 <= k < |top| && MomentumOf(articles, links, now, top[k]) > HotMomentum
                  && (forall j :: 0 <= j < |shown| ==> shown[j].trend != top[k])
                  && 0 <= m < |shown|
      ensures MomentumOf(articles, links, now, top[k]) <= shown[m].score
    {
      var i :| 0 <= i < |hot| && hot[i].trend == top[k];
      RankedBelow(hot, i, m);
    }
  }

  lemma {:induction false} RankedBelow(hot: seq<Hot>, i: nat, m: nat)
    requires i < |hot| && m < |Ranked(hot)|
    requires forall j :: 0 <= j < |Ranked(hot)| ==> Ranked(hot)[j].trend != hot[i].trend
    ensures hot[i].score <= Ranked(hot)[m].score
  {
    assert hot[i] !in Ranked(hot);
  }

  /** The five highest scores, highest first: five of them, or all when
      fewer, none twice, and none left out scores above one kept. */
  function Ranked(hot: seq<Hot>): (r: seq<Hot>)
    ensures |r| == if |hot| <= TopHot then |hot| else TopHot
    ensures Sorting.SortedDesc(r, HotScore)
    ensures multiset(r) <= multiset(hot)
    ensures forall k :: 0 <= k < |r| ==> r[k] in hot
    ensures forall k, m :: 0 <= k < |hot| && hot[k] !in r && 0 <= m < |r| ==> hot[k].score <= r[m].score
  {
    Sorting.TopNMeaning(hot, HotScore, TopHot);
    Sorting.TopN(hot, HotScore, TopHot)
  }
}

=== FILE: wrappers.dfy ===
/** Failure-carrying datatypes shared by every module of the model.
    Python's `None`, raised exceptions and FastAPI's HTTPException are all
    represented by values of these types instead of control flow. */
module Wrappers {

  /** A value that may be absent (Python `None`). */
  datatype Option<+T> = None | Some(value: T) {
    function GetOr(default: T): T {
      match this
      case Some(v) => v
      case None => default
    }
  }

  /** The outcome of a call that either returns a value or raises. */
  datatype Result<+T, +E> = Ok(value: T) | Err(error: E) {
    predicate IsFailure() {
      Err?
    }
  }

  /** FastAPI's HTTPException: a status code with a detail text. */
  datatype HttpError = HttpError(status: nat, detail: string)

  const NotFound: nat := 404
  const BadRequest: nat := 400
  const Unauthorized: nat := 401
  const ServerError: nat := 500
  const Unprocessable: nat := 422

  /** The request-validation answer FastAPI gives, before the handler runs,
      for a body field or query parameter outside its declared bounds.  Its
      generated detail list is not modelled. */
  function Rejected(): HttpError {
    HttpError(Unprocessable, "Unprocessable Entity")
  }
}

=== FILE: youtube.dfy ===
/** YouTube ingestion (backend/app/services/youtube_service.py) and search
    (backend/app/services/youtube_search_service.py).  The transcript
    service, the language model and the Data API are outcome parameters. */
module YouTube {
  import opened Wrappers
  import opened Text
  import opened Ingestion

  const WatchPrefix := "https://www.youtube.com/watch?v="

  /** A character the capture group `[^&\n?]` accepts. */
  predicate IdChar(c: char) {
    c != '&' && c != '\n' && c != '?'
  }

  predicate IsVideoId(id: string) {
    |id| > 0 && forall k :: 0 <= k < |id| ==> IdChar(id[k])
  }

  /** The greedy capture `[^&\n?]+` at the start of `s` (possibly empty). */
  function IdRun(s: string): (r: string)
    ensures |r| <= |s| && r == s[..|r|]
    ensures forall k :: 0 <= k < |r| ==> IdChar(r[k])
    ensures |r| < |s| ==> !IdChar(s[|r|])
  {
    if s == [] || !IdChar(s[0]) then [] else [s[0]] + IdRun(s[1..])
  }

  /** The capture of the leftmost match, at or after position `i`, of one of
      the literal `prefixes` followed by `[^&\n?]+` (Python `re.search`). */
  function SearchFrom(s: string, prefixes: seq<string>, i: nat): (r: Option<string>)
    requires i <= |s|
    ensures r.Some? ==> IsVideoId(r.value)
    decreases |s| - i
  {
    if i == |s| then None
    else match MatchAt(s, prefixes, i)
      case Some(id) => Some(id)
      case None => SearchFrom(s, prefixes, i + 1)
  }

  /** The capture when one of `prefixes` (tried in order) matches at `i` and
      is followed by at least one id character. */
  function MatchAt(s: string, prefixes: seq<string>, i: nat): (r: Option<string>)
    requires i <= |s|
    ensures r.Some? ==> IsVideoId(r.value)
  {
    if prefixes == [] then None
    else
      var p := prefixes[0];
      var rest := s[i..];
      if StartsWith(rest, p) && |IdRun(rest[|p|..])| > 0 then Some(IdRun(rest[|p|..]))
      else MatchAt(s, prefixes[1..], i)
  }

  /** The three patterns of `_extract_video_id`, as literal prefixes of the
      capture group. */
  const WatchOrShort: seq<string> := ["youtube.com/watch?v=", "youtu.be/"]
  const Embed: seq<string> := ["youtube.com/embed/"]
  const Legacy: seq<string> := ["youtube.com/v/"]

  /** `_extract_video_id`: the capture of the first pattern that matches
      anywhere in the URL, or `None`. */
  function ExtractVideoId(url: string): (r: Option<string>)
    ensures r.Some? ==> IsVideoId(r.value)
    ensures SearchFrom(url, WatchOrShort, 0).Some? ==> r == SearchFrom(url, WatchOrShort, 0)
    ensures r.None? ==> SearchFrom(url, WatchOrShort, 0).None? && SearchFrom(url, Embed, 0).None?
                        && SearchFrom(url, Legacy, 0).None?
  {
    var first := SearchFrom(url, WatchOrShort, 0);
    if first.Some? then first
    else
      var second := SearchFrom(url, Embed, 0);
      if second.Some? then second else SearchFrom(url, Legacy, 0)
  }

  /** The canonical watch URL gives back its video id. */
  lemma {:induction false} WatchUrlRoundTrip(id: string)
    requires IsVideoId(id)
    ensures ExtractVideoId(WatchPrefix + id) == Some(id)
  {
    var url := WatchPrefix + id;
    forall i | 0 <= i < 12 ensures MatchAt(url, WatchOrShort, i).None? {
      assert url[i] != 'y';
      assert url[i..][0] == url[i];
      assert !StartsWith(url[i..], "youtube.com/watch?v=");
      assert !StartsWith(url[i..], "youtu.be/");
      assert MatchAt(url, WatchOrShort[1..], i) == MatchAt(url, ["youtu.be/"], i);
      assert MatchAt(url, ["youtu.be/"][1..], i) == None;
    }
    assert url[12..] == "youtube.com/watch?v=" + id;
    assert url[12..][20..] == id;
    IdRunWhole(id);
    assert MatchAt(url, WatchOrShort, 12) == Some(id);
    SkipToMatch(url, WatchOrShort, 0, 12);
  }

  /** Scanning from `i` finds the match at `j` when none starts before it. */
  lemma {:induction false} SkipToMatch(s: string, prefixes: seq<string>, i: nat, j: nat)
    requires i <= j < |s|
    requires forall k :: i <= k < j ==> MatchAt(s, prefixes, k).None?
    requires MatchAt(s, prefixes, j).Some?
    ensures SearchFrom(s, prefixes, i) == MatchAt(s, prefixes, j)
    decreases j - i
  {
    if i < j {
      SkipToMatch(s, prefixes, i + 1, j);
    }
  }

  lemma {:induction false} IdRunWhole(id: string)
    requires forall k :: 0 <= k < |id| ==> IdChar(id[k])
    ensures IdRun(id) == id
  {
    if id != [] {
      IdRunWhole(id[1..]);
    }
  }

  /** Fetching the transcript either raises or yields the joined text. */
  datatype Transcript = TranscriptRaised(msg: string) | TranscriptText(text: string)

  const MinTranscript: nat := 100
  const MaxTitle: nat := 500

  function Failure(message: string, error: string): IngestionResponse {
    IngestionResponse(false, message, 1, 0, 0, [error])
  }

  /** `ingest_youtube_video` once the video id is known.  An already stored
      canonical URL is a success with `updated` 1; a raised transcript
      fetch, a transcript under 100 characters and a raised store are each a
      failure with their own message and error; otherwise the article is
      stored under the canonical URL with the executive summary (first 500
      characters) as title.  `summary` is the language model's executive
      summary and `persistError` a raised store. */
  function IngestVideoId(id: string, sourceName: Option<string>, stored: set<string>,
                         transcript: string -> Transcript, summary: string, persistError: Option<string>)
    : (r: Ingested)
    ensures r.response.processed == 1 && r.response.created + r.response.updated <= 1
    ensures r.response.success <==> r.response.created + r.response.updated == 1
    ensures !r.response.success ==> |r.response.errors| == 1 && r.articles == [] && r.stored == stored
    ensures r.response.created == 1 <==> |r.articles| == 1
    ensures r.response.created == 1 ==>
              && r.articles[0].url == WatchPrefix + id
              && r.articles[0].url !in stored
              && r.articles[0].title == Take(summary, MaxTitle)
              && |r.articles[0].content| >= MinTranscript
              && r.stored == stored + {r.articles[0].url}
    ensures r.response.created == 0 ==> r.articles == [] && r.stored == stored
    ensures WatchPrefix + id in stored ==>
              r == Ingested(IngestionResponse(true, "Video already exists in database", 1, 0, 1, []), [], stored)
    ensures WatchPrefix + id !in stored && transcript(id).TranscriptRaised? ==>
              r == Ingested(Failure("Transcript not available", "Could not retrieve transcript: " + transcript(id).msg),
                            [], stored)
    ensures WatchPrefix + id !in stored && transcript(id).TranscriptText? && |transcript(id).text| < MinTranscript ==>
              r == Ingested(Failure("Transcript too short or empty", "Transcript has insufficient content"), [], stored)
    ensures WatchPrefix + id !in stored && transcript(id).TranscriptText? && |transcript(id).text| >= MinTranscript
            && persistError.Some? ==>
              r == Ingested(Failure("Failed to ingest YouTube video", "Error ingesting YouTube video: " + persistError.value),
                            [], stored)
    ensures WatchPrefix + id !in stored && transcript(id).TranscriptText? && |transcript(id).text| >= MinTranscript
            && persistError.None? ==>
              r == Ingested(IngestionResponse(true, "Successfully ingested YouTube video " + id, 1, 1, 0, []),
                            [NewArticle(Take(summary, MaxTitle), WatchPrefix + id, "youtube", sourceName,
                                        transcript(id).text)],
                            stored + {WatchPrefix + id})
  {
    var canonical := WatchPrefix + id;
    if canonical in stored then
      Ingested(IngestionResponse(true, "Video already exists in database", 1, 0, 1, []), [], stored)
    else match transcript(id)
      case TranscriptRaised(msg) =>
        Ingested(Failure("Transcript not available", "Could not retrieve transcript: " + msg), [], stored)
      case TranscriptText(text) =>
        if |text| < MinTranscript then
          Ingested(Failure("Transcript too short or empty", "Transcript has insufficient content"), [], stored)
        else if persistError.Some? then
          Ingested(Failure("Failed to ingest YouTube video", "Error ingesting YouTube video: " + persistError.value),
                   [], stored)
        else
          var a := NewArticle(Take(summary, MaxTitle), canonical, "youtube", sourceName, text);
          Ingested(IngestionResponse(true, "Successfully ingested YouTube video " + id, 1, 1, 0, []),
                   [a], stored + {canonical})
  }

  /** `ingest_youtube_video`.  Every response counts one processed video
      and at most one created or updated, and succeeds exactly when one
      was; a new article is a fresh one under the canonical URL with enough
      transcript, and the store grows by exactly its URL. */
  function IngestVideo(url: string, sourceName: Option<string>, stored: set<string>,
                       transcript: string -> Transcript, summary: string, persistError: Option<string>)
    : (r: Ingested)
    ensures r.response.processed == 1 && r.response.created + r.response.updated <= 1
    ensures r.response.success <==> r.response.created + r.response.updated == 1
    ensures !r.response.success ==> |r.response.errors| == 1 && r.articles == [] && r.stored == stored
    ensures ExtractVideoId(url).None? ==>
              r == Ingested(Failure("Invalid YouTube URL", "Could not extract video ID from URL"), [], stored)
    ensures ExtractVideoId(url).Some? ==>
              r == IngestVideoId(ExtractVideoId(url).value, sourceName, stored, transcript, summary, persistError)
    ensures ExtractVideoId(url).Some? && WatchPrefix + ExtractVideoId(url).value in stored ==>
              r.response.updated == 1 && r.stored == stored && r.articles == []
    ensures r.response.created == 1 <==> |r.articles| == 1
    ensures r.response.created == 1 ==>
              && ExtractVideoId(url).Some?
              && r.articles[0].url == WatchPrefix + ExtractVideoId(url).value
              && r.articles[0].url !in stored
              && r.articles[0].title == Take(summary, MaxTitle)
              && |r.articles[0].content| >= MinTranscript
              && r.stored == stored + {r.articles[0].url}
    ensures r.response.created == 0 ==> r.articles == [] && r.stored == stored
  {
    match ExtractVideoId(url)
    case None => Ingested(Failure("Invalid YouTube URL", "Could not extract video ID from URL"), [], stored)
    case Some(id) => IngestVideoId(id, sourceName, stored, transcript, summary, persistError)
  }

  /** Ingesting the same video again, against the URLs the first ingestion
      left, reports it as already stored and changes nothing. */
  lemma IngestVideoTwice(url: string, sourceName: Option<string>, stored: set<string>,
                         transcript: string -> Transcript, summary: string, persistError: Option<string>,
                         transcript2: string -> Transcript, summary2: string, persistError2: Option<string>)
    requires IngestVideo(url, sourceName, stored, transcript, summary, persistError).response.success
    ensures var first := IngestVideo(url, sourceName, stored, transcript, summary, persistError);
            IngestVideo(url, sourceName, first.stored, transcript2, summary2, persistError2)
            == Ingested(IngestionResponse(true, "Video already exists in database", 1, 0, 1, []), [], first.stored)
  {
    var first := IngestVideo(url, sourceName, stored, transcript, summary, persistError);
    var id := ExtractVideoId(url).value;
    assert WatchPrefix + id in first.stored;
  }

  // ---------------------------------------------------------------------
  // `YouTubeSearchService.search_videos`
  // ---------------------------------------------------------------------

  /** One item of the Data API response; absent keys are `None`. */
  datatype ApiItem = ApiItem(
    videoId: Option<string>,
    title: Option<string>,
    channelTitle: Option<string>,
    description: Option<string>)

  /** The HTTP call either fails (any error) or returns the items. */
  datatype ApiResponse = ApiFailed | ApiItems(items: seq<ApiItem>)

  datatype VideoHit = VideoHit(videoId: string, title: string, channelTitle: string, description: string, url: string)

  /** The request that was made (its `maxResults`), if any, and the hits. */
  datatype SearchCall = SearchCall(requested: Option<int>, hits: seq<VideoHit>)

  const ApiPageLimit: int := 50

  function ToHit(item: ApiItem): (h: VideoHit)
    requires Truthy(item.videoId)
  {
    var id := item.videoId.value;
    VideoHit(id, item.title.GetOr(""), item.channelTitle.GetOr(""), item.description.GetOr(""), WatchPrefix + id)
  }

  /** The items with a truthy video id, mapped in order. */
  function VideoHits(items: seq<ApiItem>): (r: seq<VideoHit>)
    ensures |r| <= |items|
    ensures forall k :: 0 <= k < |r| ==> r[k].url == WatchPrefix + r[k].videoId && r[k].videoId != ""
    ensures (forall k :: 0 <= k < |items| ==> Truthy(items[k].videoId)) ==> |r| == |items|
  {
    if items == [] then []
    else if Truthy(items[0].videoId) then [ToHit(items[0])] + VideoHits(items[1..])
    else VideoHits(items[1..])
  }

  /** `search_videos`: no key means no request and no hits; otherwise one
      request for `min(max_results, 50)` videos, and a failed request gives
      no hits. */
  function SearchVideos(apiKey: Option<string>, maxResults: int, respond: int -> ApiResponse): (r: SearchCall)
    ensures !Truthy(apiKey) ==> r == SearchCall(None, [])
    ensures Truthy(apiKey) ==> r.requested == Some(if maxResults <= ApiPageLimit then maxResults else ApiPageLimit)
    ensures Truthy(apiKey) && respond(r.requested.value).ApiFailed? ==> r.hits == []
    ensures Truthy(apiKey) && respond(r.requested.value).ApiItems? ==>
              r.hits == VideoHits(respond(r.requested.value).items)
  {
    if !Truthy(apiKey) then SearchCall(None, [])
    else
      var n := if maxResults <= ApiPageLimit then maxResults else ApiPageLimit;
      match respond(n)
      case ApiFailed => SearchCall(Some(n), [])
      case ApiItems(items) => SearchCall(Some(n), VideoHits(items))
  }

  /** Items without a truthy video id are dropped and the others keep their
      order: a hit list built from items that all have ids has one hit per
      item, each carrying that item's id. */
  lemma {:induction false} HitsKeepIds(items: seq<ApiItem>)
    requires forall k :: 0 <= k < |items| ==> Truthy(items[k].videoId)
    ensures |VideoHits(items)| == |items|
    ensures forall k :: 0 <= k < |items| ==> VideoHits(items)[k].videoId == items[k].videoId.value
  {
    if items != [] {
      HitsKeepIds(items[1..]);
      assert VideoHits(items) == [ToHit(items[0])] + VideoHits(items[1..]);
    }
  }
}
